=== FILE: README.md ===
# Offshore-foundation fatigue, modelled in Dafny

This project models the deterministic core of a fatigue-assessment toolchain for the monopile foundations of an offshore wind farm (Dogger Bank). Given simulated load time series, member geometries, S-N curves and site statistics, the toolchain does the following:

- resolves the tower-bottom moments onto 24 compass sectors;
- turns them into nominal and hot-spot stresses;
- counts stress cycles and sums Miner damage or damage-equivalent moments (DEM) over load cases and design load cases (DLCs);
- interpolates DEMs from the analysed members to the elevations of a structural design report;
- compares the resulting utilisations with the report's own;
- builds fatigue lookup tables and lifetimes from them.

The model keeps the skeleton around the numerics: the selection rules, index arithmetic, table reshaping and linear aggregation. Everything is over Dafny `real`. Transcendental and real-exponent maths, rainflow counting and the S-N Miner sum are passed in as function-valued parameters (the `Maths` record of `numerics.dfy`, a `miner` argument elsewhere), so nothing is claimed about floating-point rounding. Every failure the Python code raises is an explicit `Err` of `Outcomes.Result`: IndexError, KeyError, TypeError, ValueError, NameError, ImportError, AttributeError, a failed assertion and a failed `struct.unpack`. Where numpy would carry on with a non-finite value inside a larger computation, the model stops with `NonFinite`. Numpy's `inf`/`nan` results of a division are the `ExtReal` values of `outcomes.dfy`.

Modules, in pipeline order:

- `Outcomes`, `Text`, `Seqs`: results and errors, string helpers (split, join, replace, Python `float()`/`int()` parsing on ASCII text, including the underscore digit grouping of PEP 515, so '1_0' reads as 10), and sequence sums, first argmax/argmin and row-major argmax.
- `SimulationFile`: `read_bladed_file`, the descriptor's declared shape and the Fortran-order reshape of the decoded buffer. The root copy of the decoder is identical and is covered by the same members.
- `Transformations`, `Numerics`: the global↔compass angle map, including the `isinstance(x, np.array)` TypeError, and the 24 sector angles.
- `ScfSectors`: `get_scf_sector_list`, the nearest-angle snapping of the SCF sectors against the progressively updated list. The prototype copy is the same algorithm.
- `SnCurves`: the DNVGL-RP-C203 (April 2016) Table 2-1 parameters of S-N curves in air and the curve fields of `SN_Curve_fatpack`, `SN_Curve_qats` and `DNV_SN_Curve`.
- `Sections`: tubular area, second moment, section modulus with the inside/outside rule, effective thickness, the thickness factor α ≥ 1, and the per-geometry record of `create_geo_matrix`.
- `SectorLoads`, `CaseResults`, `Cycles`: per-case moment resolution under both sign conventions, stress composition, damage and DEM per geometry and sector, and cycle-list algebra (scaling, concatenation, DEM sums).
- `Aggregation`: the mode switch of `main.py`, probability weighting with the factor 6, cross-DLC totals, DEM maxima and worst-row selection.
- `MarkovMatrices`, `MarkovParser`: weighting and concatenating the stored cycle lists, including the chunked combiner of `parse_markov_files` as written.
- `Utilization`: `handle_DFFs`, the above/below/closest member search, DEM interpolation, closest sector, scaling factor, hot-spot cycles, stress cycles and the worst-elevation comparison.
- `LookupTables`, `Lifetimes`, `SubseabedScaling`: per-sector case damage, the fatigue-table layouts, lifetime from a table, path de-duplication, file-type dispatch, cross-DLC lifetimes and the sub-seabed rescaling decision.
- `StructuralReport`, `TurbineNames`, `Inspection`: the text handling of the design report (line window, merging of space-split cells, neighbour thickness, cluster map, row normalisation), the turbine and cluster names in paths, and the ranking labels and worst-row summaries of the inspection script.

File reading (PDF, Excel, JSON, `.mat`, `.npy`) is replaced by inputs: a page is a sequence of lines, a table a sequence of columns, and a stored cycle file a value handed in through a reader function. Where the code raises or exits before reaching later stages, the model says so with a lemma. `Outcomes.Executed` models `sys.exit()` in a script's main block: `calculate_total_DEM.py` exits at line 129, before its worst-row and equivalent-stress stages, and `scale_subseabed_tables.py` exits at line 96, before any table is scaled. Examples are the arity mismatches of `create_geo_matrix` and `calculate_DEM_case_i`, the imports of functions that do not exist, `isinstance` with `np.array`, and the column names one script writes and another cannot read. The later stages are still modelled on their own, so their behaviour can be stated.

## Model

| member | source | states |
|---|---|---|
| Outcomes.Executed | baseline_methods/calculate_total_DEM.py:129 | the statements a script runs are exactly those before its first `sys.exit()` |
| Outcomes.AfterExitNeverRuns | baseline_methods/scale_subseabed_tables.py:96 | a stage placed after a `sys.exit()` runs only if the same stage also appears before it |
| Text.ReadInt | baseline_methods/utils/read_simulation_file.py:17-18 | `int(s)`: failures are ValueError; text without underscores reads as the plain integer literal, and an underscore that is not between two digits is rejected |
| Text.ReadFloat | baseline_methods/read_structural_report.py:156 | `float(s)`: failures are ValueError; text without underscores reads as the plain float literal, and an underscore that is not between two digits is rejected |
| Text.GroupingInvisible | baseline_methods/utils/read_simulation_file.py:17-18 | two digit runs joined by one underscore read, under both `int()` and `float()`, as the number their digits spell together |
| Text.MisplacedUnderscore | baseline_methods/read_structural_report.py:48 | a leading, trailing or doubled underscore makes both `int()` and `float()` raise ValueError |
| Text.ReadIntOfIntToString | baseline_methods/utils/read_simulation_file.py:17-18 | `int(str(i)) == i` for every integer |
| SimulationFile.DeclaredShape | baseline_methods/utils/read_simulation_file.py:15-18 | the dimensions are the 2nd and 3rd whitespace tokens of the descriptor line at index 8, parsed by `int()` (underscores between digits allowed); a descriptor with fewer than nine lines raises IndexError |
| SimulationFile.DeclaredShapeOfDescriptor | baseline_methods/utils/read_simulation_file.py:15-18 | a descriptor whose ninth line reads tag, rows, cols, ... gives back exactly (rows, cols), whatever the other lines hold |
| SimulationFile.Unpack | baseline_methods/utils/read_simulation_file.py:20 | `struct.unpack` of len//4 floats succeeds iff the byte count is a multiple of 4 (StructError otherwise); value i is decoded from bytes 4i..4i+3 |
| SimulationFile.ResolveShape | baseline_methods/utils/read_simulation_file.py:21 | `np.reshape` accepts a shape only when rows·cols equals the value count (with numpy's single -1 inferred), ValueError otherwise |
| SimulationFile.FortranFill | baseline_methods/utils/read_simulation_file.py:21 | `order='F'`: the result has `rows` rows of `cols` entries and entry (r, c) is flat[r + c·rows] |
| SimulationFile.FortranRow | baseline_methods/utils/read_simulation_file.py:21 | row r of the column-major reading holds flat[r], flat[r + rows], ... |
| SimulationFile.FlattenOfFill | baseline_methods/utils/read_simulation_file.py:21 | reading the reshaped matrix back column by column gives the unpacked buffer (round trip) |
| SimulationFile.FillOfFlatten | baseline_methods/utils/read_simulation_file.py:21 | the other round trip: a rows × cols matrix flattened column-major and reshaped with `order='F'` is itself |
| SimulationFile.ReadBladedFile | baseline_methods/utils/read_simulation_file.py:4-22 | descriptor errors first, then StructError on a ragged byte count, then the reshape, which succeeds exactly when the declared shape holds the buffer's values (rows × cols × 4 bytes for non-negative sizes) and raises ValueError otherwise; a result is rectangular with the declared shape and in Fortran layout over the unpacked values (read_simulation_file/read_simulation_file.py:4-15 is the same code) |
| Transformations.Mod360 | baseline_methods/utils/transformations.py:13 | numpy's floored `np.mod(x, 360)`: the result lies in [0, 360) and differs from x by whole turns |
| Transformations.Flip | baseline_methods/utils/transformations.py:13 | one angle maps to (180 − a) mod 360, in [0, 360) |
| Transformations.GlobalToCompass | baseline_methods/utils/transformations.py:12-20 | a list maps elementwise, same length and order, into [0, 360); every other input reaches `isinstance(angles, np.array)` and raises TypeError, so the float branch and the ValueError are unreachable |
| Transformations.CompassToGlobal | baseline_methods/utils/transformations.py:23-35 | the same map as `global_2_compass`, with the same TypeError on non-lists |
| Transformations.FlipTwice | baseline_methods/utils/transformations.py:26 | applying the map twice reduces the angle modulo 360 |
| Transformations.FlipCardinalPoints | baseline_methods/utils/transformations.py:7-10 | global 0° (South) is compass 180°, global 90° (East) stays 90°, 180° becomes 0° |
| Transformations.CompassRoundTrip | baseline_methods/utils/transformations.py:23-35 | for angles already in [0, 360), global → compass → global returns the input list |
| Numerics.SectorAngles | baseline_methods/main.py:53 | the 24 sector angles 0, 15, ..., 345, all in [0, 360) |
| ScfSectors.ReadAngle | baseline_methods/utils/get_scf_sector_list.py:24 | `float(token.strip())` read with Python's syntax, including 'inf', 'infinity', 'nan' and underscores between digits: a finite value is returned, a text `float()` rejects gives ValueError, and an infinite or nan reading stops with NonFinite |
| ScfSectors.SpecificAngles | baseline_methods/utils/get_scf_sector_list.py:24 | the ','-separated tokens are all read, in order, one angle per token; any token that is not a finite float fails the whole list |
| ScfSectors.Nearest | baseline_methods/utils/get_scf_sector_list.py:28 | `argmin` of the absolute distances: an index of least distance, and strictly closer than every earlier index (first index wins ties) |
| ScfSectors.Snap | baseline_methods/utils/get_scf_sector_list.py:27-30 | one specific angle replaces the nearest entry and sets its factor to the geometry's scf; every other entry is unchanged |
| ScfSectors.SnapAllFrame | baseline_methods/utils/get_scf_sector_list.py:27-30 | an index no specific angle snapped to keeps its original angle and factor |
| ScfSectors.SnapAllHit | baseline_methods/utils/get_scf_sector_list.py:27-30 | an index some specific angle snapped to carries the geometry's scf and one of the specific angles |
| ScfSectors.SnapAllLast | baseline_methods/utils/get_scf_sector_list.py:27-29 | the last specific angle is present at the index it was snapped to |
| ScfSectors.SnapAllProgressive | baseline_methods/utils/get_scf_sector_list.py:27-29 | the k-th angle snaps to the nearest entry of the list as updated by the first k angles, not of the original list |
| ScfSectors.ScfSectorList | baseline_methods/utils/get_scf_sector_list.py:20-32 | both lists have the length of `point_angles`; exactly 'omni' keeps the angles with a uniform scf; otherwise the result exists iff there are angles and every token reads as a finite float |
| ScfSectors.ScfSectorListSnaps | baseline_methods/utils/get_scf_sector_list.py:23-30 | the non-omni result is the progressive snapping of the specific angles into the given angles with factor 1 everywhere else |
| ScfSectors.ScfSectorSnapped | baseline_methods/utils/get_scf_sector_list.py:25-30 | a snapped index carries the geometry's scf and one of the specific angles |
| ScfSectors.ScfSectorUntouched | baseline_methods/utils/get_scf_sector_list.py:25-30 | an index never snapped keeps its angle and carries factor 1 |
| ScfSectors.ScfSectorLastPresent | baseline_methods/utils/get_scf_sector_list.py:27-30 | the last specific angle is always among the returned angles (fatpack_test/utils/get_scf_sector_list.py:18-21 is the same loop) |
| ScfSectors.ScfSectorOmniCapitalised | baseline_methods/utils/get_scf_sector_list.py:23-24 | 'Omni' is not the omni marker: `float('Omni')` raises ValueError |
| SnCurves.FindRow | baseline_methods/utils/SN_Curve.py:140 | `self.input[name]`: the first table row with that name, KeyError when there is none |
| SnCurves.RowFacts | baseline_methods/utils/SN_Curve.py:122-135 | every row has m2 = 5, Nd = 1e7 and k in [0, 0.25]; m1 is 4 exactly for B1 and B2 and 3 for every other curve |
| SnCurves.Lookup | baseline_methods/utils/SN_Curve.py:120-142 | a known name gives its row with the shared m2, Nd, k and m1 facts; an unknown name raises KeyError; 'reference' selects the reference string and fails at `data['k']` with TypeError |
| SnCurves.CurveName | baseline_methods/utils/SN_Curve.py:138 | the stored name is the curve name with '_qats' or '_fatpack' appended (SN_Curve.py:40), or the bare name for `DNV_SN_Curve` (fatpack_test/utils/DNV_SN_Curve.py:32) |
| SnCurves.MakeCurve | baseline_methods/utils/SN_Curve.py:138-142 | a curve exists iff the lookup succeeds, with the lookup's error otherwise; it holds the row, k copied from the row, t_ref = 25 and the title 'reference, name' (fatpack_test/utils/DNV_SN_Curve.py:32-36 builds the same fields) |
| SnCurves.TableNames | baseline_methods/utils/SN_Curve.py:122-135 | the table holds exactly B1, B2, C, C1, C2, D, E, F, F1, F3, G, W1, W2, W3, in that order (fatpack_test/utils/DNV_SN_Curve.py:16-29 is the same table) |
| SnCurves.TableStepsDown | baseline_methods/utils/SN_Curve.py:122-135 | from each row to the next, loga1, loga2 and fl strictly decrease and k does not decrease |
| SnCurves.TableMonotone | baseline_methods/utils/SN_Curve.py:122-135 | the same ordering between any two rows, not only neighbours |
| SnCurves.LookupInjective | baseline_methods/utils/SN_Curve.py:122-135 | distinct curve names select distinct rows |
| Sections.Area | baseline_methods/utils/create_geo_matrix.py:28 | π((D/2)² − ((D−2t)/2)²) equals π·t·(D−t), positive for 0 < t < D |
| Sections.Inertia | baseline_methods/utils/create_geo_matrix.py:29 | π/64·(D⁴ − (D−2t)⁴) is positive for 0 < t < D/2 and zero for t = 0 |
| Sections.SectionModulus | baseline_methods/utils/create_geo_matrix.py:30 | Z·(D/2) = I when `inout` is exactly 'o', Z·(D/2 − t) = I for any other flag; a zero divisor is the only failure |
| Sections.InnerModulusAtLeastOuter | baseline_methods/utils/create_geo_matrix.py:30 | for a proper tube the inner-surface modulus is at least the outer one |
| Sections.SectionOf | baseline_methods/utils/create_geo_matrix.py:26-30 | D is `od`, t·1000 is `wt` (mm to m), and A, I, Z follow the formulas above |
| Sections.EffectiveThickness | baseline_methods/utils/create_geo_matrix.py:46 | min(14 + 0.66·L_t, T): never above either bound and equal to one of them |
| Sections.Alpha | baseline_methods/utils/create_geo_matrix.py:47 | max(1, (t_eff/t_ref)^k) is at least 1 and equals the power whenever that exceeds 1 |
| Sections.GeoRecordOf | baseline_methods/utils/create_geo_matrix.py:24-50 | one record copies the channel columns, scf, scf_sector, elevation and member_JLO, holds t in metres, an effective thickness at most T, α ≥ 1 and the angle and scf lists of `get_scf_sector_list` |
| Sections.CreateGeoMatrix | baseline_methods/utils/create_geo_matrix.py:20-52 | one record per geometry row, keyed 0..n−1 in row order; it exists iff every row's record does |
| Sections.CreateGeoMatrixCall | baseline_methods/total_DEM_calculation.py:114 | a call without the curve argument raises TypeError; with it, it is `create_geo_matrix` |
| SectorLoads.Resolve | fatpack_test/utils/get_forces_and_moments_time_series.py:63 | one sector's moment series, step by step the projection sin θ·Mx ± cos θ·My of that step's channels, same length as the channels |
| SectorLoads.ConventionsMirror | baseline_methods/utils/calculate_damage_case_i.py:40 | the baseline projection sin θ·Mx − cos θ·My equals the prototype's sin θ·Mx + cos θ·My applied to −My |
| SectorLoads.ConventionsAgreeWithoutMy | baseline_methods/utils/calculate_DEM_case_i.py:38 | with My identically zero the two sign conventions give the same moments |
| SectorLoads.ResolveAdditive | fatpack_test/utils/get_forces_and_moments_time_series.py:63 | resolving is linear: the moments of summed channels are the summed moments |
| SectorLoads.LoadsOfContent | fatpack_test/utils/get_forces_and_moments_time_series.py:53-66 | the three channel rows must exist (IndexError otherwise); the axial row is repeated once per angle and the moment for angle a is the projected Mx/My series |
| SectorLoads.Place | fatpack_test/utils/get_forces_and_moments_time_series.py:48-49 | assigning a case block into the zero tensor succeeds iff its step count matches (a single step broadcasts and is outside the model), ValueError otherwise |
| SectorLoads.ReadCase | fatpack_test/utils/get_forces_and_moments_time_series.py:55 | a case's matrix is `read_bladed_file` of its results and description files, with the file errors passed on |
| SectorLoads.Positions | fatpack_test/utils/get_forces_and_moments_time_series.py:28 | the channel positions are the 1-based column numbers minus 1 |
| SectorLoads.PrototypeCase | fatpack_test/utils/get_forces_and_moments_time_series.py:53-66 | one case yields forces and moments of shape (angles, steps) equal to the "+cos" resolution of its file's channels |
| SectorLoads.ForcesAndMoments | fatpack_test/utils/get_forces_and_moments_time_series.py:25-51 | one (angles, steps) slice per case, slice i from case i, in case order; it succeeds iff every case does (the Pool branch at lines 34-42 places the same per-case results) |
| SectorLoads.CaseFilesOf | get_moment_time_series.py:10-12 | a case's results file ends in '.$105' and its description file in '.%105', both on the same base |
| SectorLoads.CaseFilesDifferInSuffixOnly | get_moment_time_series.py:11-12 | the two file names have equal length and differ only in the '$' / '%' character |
| SectorLoads.CaseBaseWithoutPlaceholder | get_moment_time_series.py:10-11 | a simulation name without 'XXX' is joined to the folder unchanged |
| SectorLoads.SheetCase | get_moment_time_series.py:19-25 | channels 0 and 1 are Mx and My whatever the geometry; the block is 24 sectors by the step count, sector a resolved at 15·a degrees with the "+cos" sign |
| SectorLoads.SectorBlock | get_moment_time_series.py:15-24 | the 24 rows are the resolutions at 0, 15, ..., 345 degrees |
| SectorLoads.MomentTimeSeries | get_moment_time_series.py:14-27 | one (24, steps) block per sheet row in row order, and `probs` in sheet row order; it succeeds iff every case does |
| CaseResults.PointStressLinear | baseline_methods/utils/calculate_damage_case_i.py:44-48 | the stress at a point is linear in the loads: scaling force and moment scales the stress |
| CaseResults.PointStressSuperposition | baseline_methods/utils/calculate_damage_case_i.py:44 | the stress is the axial part F/A plus the bending part M/Z, each scaled by scf and α·1e-6 |
| CaseResults.GeometryStress | baseline_methods/utils/calculate_damage_case_i.py:31-48 | channels are column numbers minus 1; for every actual angle and step the stress is (F/A + M/Z)·scf·α·1e-6 with the "−cos" moment; the row-wise scf needs one factor per angle (or a single one) |
| CaseResults.StressRow | baseline_methods/utils/calculate_damage_case_i.py:44-48 | one angle's stress series, step by step |
| CaseResults.FillRow | baseline_methods/utils/calculate_damage_case_i.py:28 | a row of the zero-initialised output: the computed values, then zeros; more values than sectors raises IndexError |
| CaseResults.GeometryDamage | baseline_methods/utils/calculate_damage_case_i.py:51-55 | damage[a] = miner_sum(rainflow(stress[a])) for each actual angle, zero for untouched sectors |
| CaseResults.DamageCase | baseline_methods/utils/calculate_damage_case_i.py:27-57 | a (geometries, point angles) table whose row g is geometry g's damage; it exists iff the file reads and every geometry's damage does |
| CaseResults.GeometryMoments | baseline_methods/utils/calculate_DEM_case_i.py:29-38 | the Mx and My rows must exist (IndexError otherwise); one "−cos" moment series per actual angle; Fz and the curve are not used |
| CaseResults.GeometryDem | baseline_methods/utils/calculate_DEM_case_i.py:40-49 | entry a is Σ count·(1.01·range)^5 over the rainflow cycles of sector a's moments |
| CaseResults.DemCase | baseline_methods/utils/calculate_DEM_case_i.py:25-51 | a (geometries, point angles) table whose row g is geometry g's DEM sums |
| CaseResults.DemCaseNonNegative | baseline_methods/utils/calculate_DEM_case_i.py:49 | with non-negative rainflow ranges and counts every DEM sum is non-negative |
| CaseResults.Combine | fatpack_test/utils/calculate_stress_timeseries.py:26 | stress = forces/A + moments/Z entry by entry over (case, angle, step) |
| CaseResults.ScaleSlice | fatpack_test/utils/calculate_stress_timeseries.py:30 | `stress[:, i, :] *= k` scales angle slice i of every case and nothing else |
| CaseResults.ScaleAll | fatpack_test/utils/calculate_stress_timeseries.py:32 | every entry multiplied by the same factor, shape kept |
| CaseResults.StressTimeseries | fatpack_test/utils/calculate_stress_timeseries.py:16-32 | the same A, Z, t_eff and α as `create_geo_matrix`; each entry is (F/A + M/Z) times the scf of its angle (1 past the actual angles) times α·1e-6; the shape is kept |
| CaseResults.ApplyScfs | fatpack_test/utils/calculate_stress_timeseries.py:29-30 | the first len(actual_angles) slices are scaled by their scf, the rest by 1; more actual angles than slices or factors raises IndexError |
| Cycles.ScaleCounts | baseline_methods/parse_markov_matrices.py:27-29 | counts multiplied by the weight, ranges and length unchanged |
| Cycles.ScaleRanges | baseline_methods/calculate_utilization.py:175 | ranges multiplied by the factor, counts and length unchanged |
| Cycles.DemSumNonNegative | baseline_methods/utils/calculate_DEM_case_i.py:49 | with non-negative ranges and counts, Σ count·(1.01·range)^5 is non-negative (and 0 for no cycles) |
| Cycles.DemSumScaleCounts | baseline_methods/utils/calculate_DEM_case_i.py:49 | the DEM sum is linear in the counts |
| Cycles.DemSumScaleRanges | baseline_methods/utils/calculate_DEM_case_i.py:49 | scaling every range by s multiplies the DEM sum by s^5 |
| Cycles.DemSumConcat | baseline_methods/utils/calculate_DEM_case_i.py:49 | the DEM sum of concatenated cycle lists is the sum of their sums |
| Cycles.TotalCountConcat | baseline_methods/parse_markov_matrices.py:69 | concatenating cycle lists adds their total counts |
| Cycles.TotalCountScale | baseline_methods/parse_markov_matrices.py:28 | scaling the counts by w scales the total count by w |
| Aggregation.DemMode | baseline_methods/main.py:45-48 | DEM mode iff the lower-cased `--DEM` flag is exactly 'dem'; no flag means DEM mode |
| Aggregation.SelectCaseFunction | baseline_methods/main.py:69 | the DEM function in DEM mode, the damage function otherwise |
| Aggregation.CallCase | baseline_methods/main.py:99-104 | calling a case function with the wrong number of arguments raises TypeError; with the right number it computes that function's table |
| Aggregation.StoragePath | baseline_methods/main.py:91 | the storage path starts with the prefix and ends with '_case{i}.json' |
| Aggregation.StoragePathsDistinct | baseline_methods/main.py:91 | different cases get different storage paths |
| Aggregation.SummaryTable | baseline_methods/main.py:80-104 | slice c is case c's (geometries, angles) table, called with the 8-element argument tuple; it exists iff every call succeeds |
| Aggregation.DemModeRaisesTypeError | baseline_methods/main.py:84-92 | in DEM mode the 8-element tuples meet the 6-parameter `calculate_DEM_case_i`, so any DLC with a case raises TypeError |
| Aggregation.DamageModeCallsDamage | baseline_methods/main.py:69-104 | in damage mode each slice is exactly that case's damage table |
| Aggregation.Weighted | baseline_methods/main.py:112-115 | weighted[g][a] = 6·Σ_c probs[c]·table[c][g][a] with the same factor 6 in both modes; a probability list of the wrong length fails (fatpack_test/calculate_and_save_damage.py:80-82 computes the same) |
| Aggregation.WeightedSplits | baseline_methods/main.py:112-115 | weighting is additive over a split of the cases |
| Aggregation.ByCase | fatpack_test/calculate_and_save_damage.py:49-77 | the zero table filled geometry by geometry: entry [c][g][a] is geometry g's value for case c |
| Aggregation.ByCaseSlice | fatpack_test/calculate_and_save_damage.py:77 | column g of the assembled table gives back geometry g's table |
| Aggregation.Total | baseline_methods/total_DEM_calculation.py:121-135 | the elementwise sum of the DLC tables, zero-initialised from the first table's shape; tables of other shapes are outside the model |
| Aggregation.TotalOrderFree | baseline_methods/total_DEM_calculation.py:121-135 | the total does not depend on the order in which DLCs are visited |
| Aggregation.RowMax | baseline_methods/calculate_total_DEM.py:113 | `row.max()`: at least every entry and equal to one of them |
| Aggregation.DemMax | baseline_methods/calculate_total_DEM.py:113 | DEM_max = (25/1e7 · row maximum)^(1/5); an empty row raises ValueError |
| Aggregation.DemMaxMonotone | baseline_methods/calculate_total_DEM.py:113 | a row dominated entrywise by another has no larger DEM_max |
| Aggregation.DemMaxMNm | baseline_methods/calculate_total_DEM.py:115 | the reported value is DEM_max in MNm, i.e. divided by 1e6 |
| Aggregation.WorstRow | baseline_methods/calculate_total_DEM.py:134 | divmod(flat argmax, n_cols)[0]: the row of the first overall maximum in row-major order (unreachable from the script: `sys.exit()` at line 129, see Aggregation.WorstRowUnreachable) |
| Aggregation.EquivalentStress | baseline_methods/calculate_total_DEM.py:149-157 | DEM·D/(2I)/1e6, i.e. the DEM over the outer section modulus in MPa; I = 0 is outside the model (unreachable from the script: `sys.exit()` at line 129) |
| Aggregation.WorstRowUnreachable | baseline_methods/calculate_total_DEM.py:129-160 | the script stops at `sys.exit()` after the comparison table, so the worst-row and equivalent-stress stages never run |
| MarkovMatrices.FilesMatching | baseline_methods/parse_markov_matrices.py:13 | keeps exactly the listed names containing the identifier, each prefixed with dir + '\\'; nothing else is produced (baseline_methods/markov_parser.py:12 is the same filter in listing order) |
| MarkovMatrices.FilesMatchingConcat | baseline_methods/markov_parser.py:12 | the filter keeps listing order: filtering a split listing filters each part in turn |
| MarkovMatrices.ScaleCase | baseline_methods/parse_markov_matrices.py:26-29 | counts multiplied by weight·6, ranges and the (sector, cycle) shape unchanged |
| MarkovMatrices.ScaleCaseTotal | baseline_methods/parse_markov_matrices.py:28 | each sector's total count is scaled by 6·weight |
| MarkovMatrices.JoinedConcat | baseline_methods/parse_markov_matrices.py:69 | concatenation along the cycle axis respects a split of the blocks |
| MarkovMatrices.JoinedTotal | baseline_methods/parse_markov_matrices.py:69 | a sector's total count after concatenation is the sum of the blocks' totals |
| MarkovMatrices.ConcatCycles | baseline_methods/parse_markov_matrices.py:69 | `np.concatenate(..., axis=1)`: per sector, the blocks' cycles in block order; no blocks or differing sector counts raise ValueError |
| MarkovMatrices.DlcCycles | baseline_methods/parse_markov_matrices.py:59-69 | case i is weighted with probabilities[i] by position; more files than probabilities raise IndexError |
| MarkovMatrices.ScaledJoinedTotal | baseline_methods/parse_markov_matrices.py:28-69 | the total count of the weighted, joined cases is Σ_i 6·p_i·(count sum of case i) |
| MarkovMatrices.DlcCyclesTotal | baseline_methods/parse_markov_matrices.py:56-69 | each sector of a DLC carries Σ_i 6·p_i·(count sum of case i) over its matched files |
| MarkovMatrices.MemberCycles | baseline_methods/parse_markov_matrices.py:31-73 | no DLCs raise ValueError; a result means every DLC's block was built from its natsorted matching files |
| MarkovMatrices.MemberCyclesInDlcOrder | baseline_methods/parse_markov_matrices.py:70-73 | the member's cycles per sector are the DLC blocks joined in `DLC_IDs` order |
| MarkovParser.ScaleCell | baseline_methods/markov_parser.py:23 | each [range, count, ...] row becomes (range, count·weight·6); an empty cell raises IndexError and ragged rows ValueError |
| MarkovParser.ScaleCellIsScaleCounts | baseline_methods/markov_parser.py:23 | the cell rule is count scaling by weight·6 with ranges unchanged |
| MarkovParser.ScaleFrame | baseline_methods/markov_parser.py:14-23 | `applymap` of the cell rule: the frame keeps its layout and fails with the error of a failing cell |
| MarkovParser.AddFrames | baseline_methods/markov_parser.py:32 | pandas `+` on frames of one layout concatenates every cell's lists; other layouts are outside the model |
| MarkovParser.AddContents | baseline_methods/markov_parser.py:25-34 | no frames give the empty frame, one frame gives itself |
| MarkovParser.AddContentsIsConcat | baseline_methods/markov_parser.py:25-34 | for frames of one shape, every cell of the result is the concatenation of that cell over the list, in list order |
| MarkovParser.AddEachConcat | baseline_methods/markov_parser.py:82-84 | adding frames one by one onto an accumulator appends each cell's lists in order |
| MarkovParser.ChunkSize | baseline_methods/markov_parser.py:68 | max(10, int(n/10)): at least 10 and at least n/10, and equal to one of them |
| MarkovParser.Chunks | baseline_methods/markov_parser.py:71 | the chunks partition the list in order: non-empty, at most `size` long, all but the last exactly `size`, the first is the list's prefix, and there is one chunk iff the list fits in one |
| MarkovParser.DlcFrame | baseline_methods/markov_parser.py:82-84 | with no cases the as-written loop raises IndexError at `new_list_of_dfs[0]`, the intended combination gives the empty frame |
| MarkovParser.IntendedIsConcat | baseline_methods/markov_parser.py:81 | combining the chunk sums with `add_contents_of_list_of_dataframes`, as the comment proposes, gives every cell's concatenation over all cases |
| MarkovParser.AsWrittenIsFirstChunkPlusCases | baseline_methods/markov_parser.py:82-84 | as written, the DLC frame is the first chunk's sum followed by the single cases 1 .. len(chunks)−1, not the later chunk sums |
| MarkovParser.OneChunkAgrees | baseline_methods/markov_parser.py:68-84 | with ten cases or fewer (one chunk) the as-written and intended frames agree |
| MarkovParser.ElevenCasesDiffer | baseline_methods/markov_parser.py:82-84 | eleven one-cycle cases give different as-written and intended frames |
| MarkovParser.ParseDlc | baseline_methods/markov_parser.py:43-84 | surplus files raise IndexError; otherwise the `logger` at line 58, bound only under `__main__` (line 104), raises NameError when the module is imported |
| MarkovParser.CaseFrames | baseline_methods/markov_parser.py:54-63 | the i-th matched file is paired with the i-th probability and scaled; the list exists iff every file's frame scales, and then holds one scaled frame per file, in file order |
| MarkovParser.ScaleGoodFrame | baseline_methods/markov_parser.py:14-23 | a frame whose cells are non-empty rectangular [range, count, ...] lists scales without error, keeps its shape, and each cell keeps its ranges with counts multiplied by weight·6 |
| MarkovParser.CellConcatIsScaled | baseline_methods/markov_parser.py:23-34 | concatenating one cell over the scaled frames gives that cell of each raw frame in turn, counts scaled by 6 × its probability |
| MarkovParser.CaseFramesConcat | baseline_methods/markov_parser.py:54-84 | the intended recombination of the scaled frames of well-formed files of one shape succeeds, keeps the shape, and every cell is that cell of each file in turn with counts scaled by 6 × its probability |
| MarkovParser.ParseDlcIsConcat | baseline_methods/markov_parser.py:43-84 | with the combination the comment at line 81 proposes, a DLC whose matched files hold well-formed frames of one shape succeeds, and every cell of its frame is that cell of each matched file, in listing order, counts scaled by 6 × the file's probability; no matched file gives the empty frame |
| MarkovParser.ParseMarkovFiles | baseline_methods/markov_parser.py:36-96 | no DLCs give the empty frame |
| MarkovParser.ParseIsAddContents | baseline_methods/markov_parser.py:86-92 | the DLC frames are combined exactly as `add_contents_of_list_of_dataframes` combines a list: cell-wise concatenation in DLC order |
| Utilization.Falsy | baseline_methods/calculate_utilization.py:66 | `not DFFs` fails exactly for an array whose length is not one: ValueError for more than one element, and the empty array is outside the model; every other DFF value has a truth value |
| Utilization.HandleDffs | baseline_methods/calculate_utilization.py:62-79 | a falsy input gives [3.0]·n; a list or array of the wrong length gives [DFFs[0]]·n; a list of the right length and a truthy scalar come back unchanged; a multi-element array raises ValueError |
| Utilization.RuleDff | baseline_methods/calculate_utilization.py:193 | `DFFs[row.name]`: a list or array is indexed by the row label (IndexError past its end); a scalar is not subscriptable (TypeError) |
| Utilization.DefaultDffLabels | baseline_methods/calculate_utilization.py:131-133 | with no DFFs every label below n reads 3.0, and a label at or past n (left by the elevation filter) raises |
| Utilization.Lowest | baseline_methods/calculate_utilization.py:131 | `member_elevations.min()`: at most every elevation and equal to one; no members raise ValueError |
| Utilization.KeepFrom | baseline_methods/calculate_utilization.py:131 | keeps exactly the labels of rows at or above the lowest member elevation, in order |
| Utilization.KeepAboveLowest | baseline_methods/calculate_utilization.py:125-131 | rows at or above some member elevation are kept and no other rows are; no members raise ValueError |
| Utilization.KeepAll | baseline_methods/calculate_utilization.py:131 | when every row is at or above the lowest member, the filter keeps all rows |
| Utilization.Distances | baseline_methods/calculate_utilization.py:21 | dist[i] = member[i] − elevation |
| Utilization.AboveIndex | baseline_methods/calculate_utilization.py:22 | the masked argmin over non-negative distances: the first index of the lowest member at or above the elevation (a member exactly at it counts as above); index 0 when all are masked |
| Utilization.BelowIndex | baseline_methods/calculate_utilization.py:23 | the masked argmax over strictly negative distances: the first index of the highest member below the elevation; index 0 when all are masked |
| Utilization.ClosestIndex | baseline_methods/calculate_utilization.py:24 | the first argmin of the absolute distances |
| Utilization.FindNeighbours | baseline_methods/calculate_utilization.py:20-25 | the above, below and closest member indices of one elevation; no members raise ValueError |
| Utilization.OnMemberElevation | baseline_methods/calculate_utilization.py:22-24 | on an exact member elevation, both the above and the closest member sit at that elevation |
| Utilization.DemAtMember | baseline_methods/calculate_utilization.py:144-145 | one DEM per sector, each the member DEM of that sector's sum; Nref = 0 divides by zero (NonFinite) |
| Utilization.Interpolate | baseline_methods/calculate_utilization.py:147 | the interpolated DEM lies on the line through the two neighbours: (v − below)·(z_above − z_below) = (above − below)·(z − z_below); equal neighbour elevations divide by zero |
| Utilization.InterpolateAtNeighbours | baseline_methods/calculate_utilization.py:147 | at either neighbour's own elevation the interpolation returns that neighbour's DEM |
| Utilization.InterpolateBetween | baseline_methods/calculate_utilization.py:147 | between its neighbours the interpolated DEM lies between theirs |
| Utilization.DemClosest | baseline_methods/calculate_utilization.py:146 | the closest DEM is the above DEM only when the closest member is strictly above, the below DEM otherwise |
| Utilization.ExactMatchUsesBelow | baseline_methods/calculate_utilization.py:146 | on an exact member elevation the closest DEM is the below DEM, although the closest member is the one at that elevation |
| Utilization.ClosestSector | baseline_methods/calculate_utilization.py:150 | without an orientation, the first argmax of the interpolated DEM (ValueError when empty); with one, the first sector of least angular distance among the 24 |
| Utilization.ClosestSectorOfSectorAngle | baseline_methods/calculate_utilization.py:150 | an orientation that is itself a sector angle selects that sector |
| Utilization.RefOrientationRaises | baseline_methods/calculate_utilization.py:151 | `global_2_compass` of a single float raises TypeError, so the row pipeline stops here |
| Utilization.ScalingFactor | baseline_methods/calculate_utilization.py:155 | factor·closest[s] = interpolated[s]; a sector past either array raises IndexError and a zero closest DEM divides by zero |
| Utilization.HotspotCycles | baseline_methods/calculate_utilization.py:175 | the hot-spot cycles scale the reference ranges by the factor and keep the counts |
| Utilization.HotspotDem | baseline_methods/calculate_utilization.py:175 | so the hot-spot DEM sum is factor^5 times the reference one, and the total count is unchanged |
| Utilization.StressCycles | baseline_methods/calculate_utilization.py:179-189 | stress ranges are range·factor/Z·scf·gritblast·α/1e6 with counts × lifetime; for ValType 'equivalent' in any letter case the single cycle [DEM_hs/1e6/Z·scf·gritblast·α, Nref]; Z = 0 divides by zero |
| Utilization.StressCyclesCount | baseline_methods/calculate_utilization.py:188 | the lifetime cycle count is the reference count times the lifetime |
| Utilization.RuleUtilization | baseline_methods/calculate_utilization.py:51 | miner·DFF·100 is non-negative for non-negative inputs |
| Utilization.RuleUtilizations | baseline_methods/calculate_utilization.py:51 | one rule utilisation per row, taken from that row's own miner sum and DFF |
| Utilization.FindLabel | baseline_methods/calculate_utilization.py:52 | label lookup: the first row with that label, or none |
| Utilization.ReturnWorstElevation | baseline_methods/calculate_utilization.py:40-58 | the report worst is the first row of greatest in-place utilisation and the rule worst the first row of greatest rule utilisation; the rule value at the report's worst is read by label, so a positional index that is not a label raises KeyError, and an empty table raises ValueError |
| Utilization.WorstWithContiguousLabels | baseline_methods/calculate_utilization.py:51-52 | with labels 0..n−1 the label lookup reads the rule utilisation of the report's worst row |
| Utilization.DroppedRowMisreads | baseline_methods/calculate_utilization.py:52 | after rows were dropped (labels 1, 2), the positional argmax 0 is not a label and raises KeyError |
| Utilization.UtilizationSingleTurbine | baseline_methods/calculate_utilization.py:110-122 | an empty sheet raises IndexError at the turbine-name lookup of its first row (line 111); every other call raises TypeError, because `create_geo_matrix` is called without its curve argument before any utilisation is computed |
| LookupTables.CrossSectionOfRecord | baseline_methods/utils/create_geo_matrix.py:35-51 | the cross-section record the geometry matrix builds has no 'gritblast' entry; height, SCFs and α are carried over |
| LookupTables.SectorStress | baseline_methods/fatigue_lookup_table.py:39-48 | one stress cycle per moment cycle: range × factor / Z × scf × gritblast × α × 1e-6, with the count kept |
| LookupTables.CaseDamage | baseline_methods/fatigue_lookup_table.py:28-55 | one damage per sector, the miner sum of that sector's stress cycles times the DFF; a record without 'gritblast' raises KeyError, Z = 0 divides by zero, and an SCF list whose length is not the number of sectors is outside the model |
| LookupTables.SectorStressKeepsCounts | baseline_methods/fatigue_lookup_table.py:48 | the stress cycles keep the total cycle count of the moment cycles |
| LookupTables.FactorActsOnRanges | baseline_methods/fatigue_lookup_table.py:39 | applying the DEM scaling factor inside the damage equals scaling the moment ranges first and using factor 1 |
| LookupTables.RecordRaisesKeyError | baseline_methods/fatigue_lookup_table.py:44 | the damage of a cross-section taken from the geometry matrix always raises KeyError on 'gritblast' |
| LookupTables.ArgumentDff | baseline_methods/calculate_damage_and_fatigue_table.py:79 | the older script's call leaves out the DFF, so the default 3.0 of its damage function applies; a given DFF is used as it is |
| LookupTables.WorstElevation | baseline_methods/fatigue_lookup_table.py:66-67 | the first row of greatest rule utilisation (miner · DFF · 100), or in the older script the first of greatest in-place utilisation; no rows raise ValueError |
| LookupTables.SelectWorst | baseline_methods/fatigue_lookup_table.py:69-85 | the worst row's closest member, scaling factor and (by rule) its DFF; a worst index past the cross-sections raises |
| LookupTables.CriteriaAgree | baseline_methods/calculate_damage_and_fatigue_table.py:62-63 | when the in-place and rule utilisations order the rows alike, both criteria pick the same worst row |
| LookupTables.AssignRow | baseline_methods/fatigue_lookup_table.py:96 | assigning a damage vector into a row of the given width: the same width is copied, a single value is broadcast, any other length raises ValueError |
| LookupTables.DlcDamages | baseline_methods/fatigue_lookup_table.py:86-96 | row i of the damage matrix is the damage of case i from its own file; fewer files than cases raise IndexError |
| LookupTables.TableColumns | baseline_methods/utils/create_fatigue_lookup_table.py:5-11 | the columns are 'DLC', 'case_no', 'probs' and then 'dmg_sector_j' for every sector j, in this order |
| LookupTables.FatigueTable | baseline_methods/utils/create_fatigue_lookup_table.py:5-12 | the outer join of the columns: as many rows as the longer of cases and probabilities, with missing cells empty, case numbers 0..n−1 and the damage and probability of each row in place |
| LookupTables.FatigueTableComplete | baseline_methods/utils/create_fatigue_lookup_table.py:5-12 | with one probability per case and at least one sector, every cell of the table is filled from the inputs |
| LookupTables.OverallTable | baseline_methods/fatigue_lookup_table.py:104 | the DLC tables are stacked in DLC order |
| LookupTables.OverallTableConcat | baseline_methods/fatigue_lookup_table.py:104 | stacking two lists of tables equals stacking their concatenation |
| LookupTables.ImportName | baseline_methods/fatigue_lookup_table.py:12 | `from module import name` succeeds exactly when the module defines the name, and raises ImportError otherwise |
| LookupTables.ScriptsFailToImport | baseline_methods/fatigue_lookup_table.py:12 | both scripts import a function their module does not define (line 11 of the older script), so each raises ImportError |
| LookupTables.DamageFromDemScaleRaises | baseline_methods/fatigue_lookup_table.py:63 | `create_geo_matrix` called with two arguments raises TypeError |
| Lifetimes.Select | baseline_methods/lifetime_calculation_from_lookup.py:14 | `df[name]` gives the column of that name, and raises KeyError when there is none (the readers give every column a distinct name, so the first match is the only one) |
| Lifetimes.FilterColumns | baseline_methods/lifetime_calculation_from_lookup.py:15 | `df.filter(regex=…)` keeps exactly the columns whose names contain the pattern, in order |
| Lifetimes.WeightedColumn | baseline_methods/lifetime_calculation_from_lookup.py:15-16 | each case's damage is weighted as probability × (damage × 6) |
| Lifetimes.LifetimesOf | baseline_methods/lifetime_calculation_from_lookup.py:16-18 | one lifetime per damage column, the reciprocal of its yearly weighted damage (numpy division) |
| Lifetimes.LifetimeFromFrame | baseline_methods/lifetime_calculation_from_lookup.py:12-18 | the lifetimes of the probability column and the matching damage columns; a missing probability column raises KeyError |
| Lifetimes.LifetimeFromLookup | baseline_methods/lifetime_calculation_from_lookup.py:12-18 | reads the probability column and the columns containing 'damage' |
| Lifetimes.LifetimeFromTable | baseline_methods/lifetime_calculation.py:10-17 | reads 'probs' and the columns containing 'dmg' |
| Lifetimes.TableReaderMatchesLayout | baseline_methods/lifetime_calculation.py:13-14 | on the table `create_fatigue_table_DLC_i` writes, 'probs' is the third column and the 'dmg' filter keeps exactly the sector columns |
| Lifetimes.LookupReaderMissesLayout | baseline_methods/lifetime_calculation_from_lookup.py:14-15 | on that same table the lookup reader finds no probability column (KeyError) and no 'damage' column |
| Lifetimes.OverallTableColumns | baseline_methods/calculate_lifetime_from_damage.py:11-25 | the overall table's columns are the twelve environment columns, 'DLC', and 'fatigue_damage_sector_j' for j from 1 |
| Lifetimes.EnvNamesLackDamage | baseline_methods/calculate_lifetime_from_damage.py:13 | no environment column name contains 'damage' |
| Lifetimes.LookupReaderMatchesOverallLayout | baseline_methods/lifetime_calculation_from_lookup.py:14-15 | on the overall table layout the lookup reader uses the probability column and exactly the sector damage columns |
| Lifetimes.WeightedScale | baseline_methods/lifetime_calculation_from_lookup.py:16-17 | scaling every damage by r scales the yearly damage by r |
| Lifetimes.LifetimeScaling | baseline_methods/lifetime_calculation_from_lookup.py:18 | scaling every damage by r > 0 divides a finite lifetime by r and keeps an infinite one infinite |
| Lifetimes.MinLifetime | baseline_methods/lifetime_calculation_from_lookup.py:82 | `lifetimes.min()`: NaN when any lifetime is NaN, otherwise one of the lifetimes and at most each of them; no lifetimes raise ValueError |
| Lifetimes.FindName | baseline_methods/lifetime_calculation_from_lookup.py:44 | the position of a turbine name in the registry, the first one, or the length when absent |
| Lifetimes.RegistryFacts | baseline_methods/lifetime_calculation_from_lookup.py:41-50 | the registry holds one entry per turbine seen, and each entry is the path the loop keeps for that turbine |
| Lifetimes.FilterPathsCorrect | baseline_methods/lifetime_calculation_from_lookup.py:37-52 | every turbine keeps exactly one path, turbines are not repeated, and the kept path is the last 'subseabed' path of that turbine, or its first path when it has none |
| Lifetimes.SubseabedSupersedes | baseline_methods/lifetime_calculation_from_lookup.py:44-47 | of a plain and a sub-seabed table of one turbine, in either order, only the sub-seabed one is kept |
| Lifetimes.FileType | baseline_methods/lifetime_calculation_from_lookup.py:20-35 | the reader is chosen by suffix in the order of the checks; an unknown suffix raises ValueError |
| Lifetimes.DotlessSuffixes | baseline_methods/lifetime_calculation_from_lookup.py:21-27 | 'tsv' and 'xlsx' are matched without a dot, so names ending in them are read although they carry no such extension, and '.txt' raises |
| Lifetimes.DamagePath | baseline_methods/calculate_lifetime_from_damage.py:30-35 | only the 'python' and 'matlab' methods have a path (KeyError otherwise), and each path ends in the DLC id and '.mat' |
| Lifetimes.LifetimeOf | baseline_methods/calculate_lifetime_from_damage.py:51 | `1 / (damage × DFF)` is the reciprocal, and +inf for zero damage |
| Lifetimes.CalculateLifetimes | baseline_methods/calculate_lifetime_from_damage.py:32-51 | each lifetime is the reciprocal of the damage summed over the DLCs times the DFF; DLC tables of unequal shape are outside the model |
| Lifetimes.LifetimesOrderFree | baseline_methods/calculate_lifetime_from_damage.py:33-49 | the DLC order does not change any lifetime |
| Lifetimes.WorstLifetimeRow | baseline_methods/calculate_lifetime_from_damage.py:58 | `divmod(argmin, width)[0]`: the row of the first smallest lifetime (nan counted smallest, as `argmin` does), ValueError on an empty grid; with a positive DFF and non-negative totals (zero totals giving +inf lifetimes) it is the row of the first largest total damage |
| Lifetimes.LeastLifetimeIsMostDamage | baseline_methods/calculate_lifetime_from_damage.py:58 | for non-negative totals, zero ones included, and a positive DFF, the first smallest lifetime sits exactly where the first largest total damage does |
| Lifetimes.WorstRowDamage | baseline_methods/calculate_lifetime_from_damage.py:67 | `damage[:, worst, :]` takes each case's damage at the row of the first smallest lifetime, which is the row of the largest total for non-negative totals; ValueError on an empty grid |
| SubseabedScaling.SeabedElevation | baseline_methods/scale_subseabed_tables.py:52 | the lowest member elevation, which is one of them; none when there are no members |
| SubseabedScaling.Candidates | baseline_methods/scale_subseabed_tables.py:53-56 | exactly the rows strictly below the seabed whose Dd_tot is not '-'; none without members |
| SubseabedScaling.CellValue | baseline_methods/scale_subseabed_tables.py:57 | `pd.to_numeric`: a number stays, a text is parsed (ValueError when it is not a number) |
| SubseabedScaling.WorstBelowSeabed | baseline_methods/scale_subseabed_tables.py:50-63 | the elevation and utilisation of a row below the seabed with the largest Dd_tot; no such row raises IndexError |
| SubseabedScaling.SelectionStaysBelowSeabed | baseline_methods/scale_subseabed_tables.py:52-53 | a selected point lies strictly below every member elevation |
| SubseabedScaling.NoMembersRaises | baseline_methods/scale_subseabed_tables.py:52-61 | without member elevations every row is dropped and the selection raises IndexError |
| SubseabedScaling.Decide | baseline_methods/scale_subseabed_tables.py:71-80 | the table is kept unless the sub-seabed utilisation exceeds the rule utilisation (a zero rule utilisation gives +inf); then it is scaled by the ratio when rescaling (an infinite ratio is outside the model), and otherwise the undefined name raises NameError |
| SubseabedScaling.ReportLifetime | baseline_methods/scale_subseabed_tables.py:34 | the lifetime is 27.08 / (util / 100), and +inf for zero utilisation |
| SubseabedScaling.ScaleColumn | baseline_methods/scale_subseabed_tables.py:37 | a column whose name contains 'sector' is multiplied by the ratio; other columns are unchanged |
| SubseabedScaling.ScaleSectorColumns | baseline_methods/scale_subseabed_tables.py:37 | every column is scaled in this way, in place |
| SubseabedScaling.FilterAfterScaling | baseline_methods/scale_subseabed_tables.py:37-38 | filtering the columns commutes with scaling them |
| SubseabedScaling.SelectAfterScaling | baseline_methods/scale_subseabed_tables.py:37-38 | a column without 'sector' in its name reads the same after scaling |
| SubseabedScaling.RescaleDividesLifetimes | baseline_methods/scale_subseabed_tables.py:33-38 | when every damage column is a sector column, scaling by r > 0 divides every lifetime of the table by r |
| SubseabedScaling.LoadAndRescale | baseline_methods/scale_subseabed_tables.py:23-42 | the sector columns are scaled exactly when the lifetimes of the table as loaded exist and are not empty; a missing probability column raises KeyError and no 'damage' column raises ValueError from `.min()` |
| SubseabedScaling.FindAndScale | baseline_methods/scale_subseabed_tables.py:44-82 | the table comes back unchanged or scaled by the ratio, as the decision says, and a scaled table had a non-empty lifetime list before scaling; a failed selection passes its error on, and a rescale of a table without a probability column raises KeyError |
| SubseabedScaling.DefaultRunRaises | baseline_methods/scale_subseabed_tables.py:74-77 | without rescaling, a sub-seabed utilisation above a positive rule utilisation raises NameError |
| SubseabedScaling.ScalingNeverRunsFromScript | baseline_methods/scale_subseabed_tables.py:85-118 | the script stops at `sys.exit()` (line 96) after its warnings, so `find_utils_subseabed_and_scale_lookup_table` is never called from it |
| StructuralReport.LastMatch | baseline_methods/read_structural_report.py:19-24 | the index of the last line containing the marker, 0 when no line does |
| StructuralReport.Window | baseline_methods/read_structural_report.py:26-33 | the lines after the last 'above' marker (or from it) up to the last 'below' marker; at least one line when a window is taken at the marker itself |
| StructuralReport.TextLines | baseline_methods/read_structural_report.py:7-38 | the window's lines, each followed by ' ' and the added word when one is given |
| StructuralReport.WindowBetweenMarkers | baseline_methods/read_structural_report.py:26-33 | with the markers in order, the lines strictly between them are returned |
| StructuralReport.WindowSingleLine | baseline_methods/read_structural_report.py:29-31 | when the below marker does not come after the start, exactly the single start line is returned |
| StructuralReport.FirstNumeric | baseline_methods/read_structural_report.py:44-53 | the first cell from k on that `float()` accepts (underscores between digits allowed), with every cell before it a label; only labels to the end raise IndexError, and an empty cell raises TypeError |
| StructuralReport.CleanRow | baseline_methods/read_structural_report.py:40-55 | the label cells from the start up to the first number are merged into the start cell and removed; the rest of the row is unchanged |
| StructuralReport.CleanMergesWords | baseline_methods/read_structural_report.py:49-50 | the merged cell is the labels without their spaces, joined by single spaces |
| StructuralReport.CleanRaisesIndexError | baseline_methods/read_structural_report.py:48 | the merge raises IndexError exactly when no number follows the start cell |
| StructuralReport.FloatOf | baseline_methods/read_structural_report.py:156 | `float(cell)`: a number stays, a text parses to a finite float with Python's syntax, underscores between digits included (ValueError otherwise), and an empty cell raises TypeError |
| StructuralReport.FloatOfGrouped | baseline_methods/read_structural_report.py:156 | a cell of two digit runs joined by an underscore reads as the number their digits spell together |
| StructuralReport.Max3 | baseline_methods/read_structural_report.py:92 | `max` of three cells is one of them and, compared as text, at least each of them in string order; the numeric order it was meant to use is stated alongside |
| StructuralReport.LargestThickness | baseline_methods/read_structural_report.py:57-92 | the largest of the row's thickness and its neighbours' (row 0 and the last row use themselves for the missing side); a one-row table raises IndexError |
| StructuralReport.ThickerThanNeighbours | baseline_methods/read_structural_report.py:75-92 | between rows of the same TP/MP, the result is at least both neighbours' thicknesses as text |
| StructuralReport.OwnThicknessAtJoint | baseline_methods/read_structural_report.py:78-86 | a row whose neighbours both lie on another TP/MP keeps its own thickness |
| StructuralReport.TextMaxMissesThickerWall | baseline_methods/read_structural_report.py:92 | of thicknesses '80' and '100', the text maximum picks '80' while the numeric one picks '100' |
| StructuralReport.ClusterOf | baseline_methods/read_structural_report.py:104-111 | the cluster is the one of a design position the line contains, or none |
| StructuralReport.ClusterPriority | baseline_methods/read_structural_report.py:109-111 | the last match in dict order wins: SHA over INT over DEEP |
| StructuralReport.TurbineNameOf | baseline_methods/read_structural_report.py:99-100 | the text after the first ': ' with spaces made underscores: no space remains and the length is kept; a line without ': ' raises IndexError |
| StructuralReport.TurbineAndCluster | baseline_methods/read_structural_report.py:94-113 | the name comes from the single 'Position' line and the cluster from the single 'load cluster' line; an empty page fails the assertion |
| StructuralReport.Insert | baseline_methods/read_structural_report.py:136-138 | `list.insert(i, x)`: x lands at position i (or at the end past it), the rest in order |
| StructuralReport.RowWords | baseline_methods/read_structural_report.py:131-138 | an 'omni' row gains the elevation and side of the line above and that line's description with '-free'; other rows are their words |
| StructuralReport.MarkedRow | baseline_methods/read_structural_report.py:140-146 | the side becomes 'I' or 'O', the orientation is None exactly for 'omni', and the description and validation type are merged |
| StructuralReport.WithOwner | baseline_methods/read_structural_report.py:148-150 | the row gains the cluster, the turbine name and a '0.0' thickness placeholder at its end |
| StructuralReport.NormaliseRow | baseline_methods/read_structural_report.py:130-150 | a cleaned row has at least 25 cells, side 'I' or 'O', and ends with cluster, turbine and placeholder |
| StructuralReport.NormaliseAll | baseline_methods/read_structural_report.py:130-150 | the first loop succeeds exactly when every row does, and then holds each row's result |
| StructuralReport.FixLifetime | baseline_methods/read_structural_report.py:155 | every '.1' in the duration becomes '.08', and a duration without '.1' is unchanged |
| StructuralReport.ReportLifeCorrected | baseline_methods/read_structural_report.py:155 | '27.1' becomes '27.08' |
| StructuralReport.NrefCycles | baseline_methods/read_structural_report.py:156 | Nref in millions: the stored number divided by a million is the cell's value as `float()` reads it, underscore grouping included, and a cell `float()` rejects passes its error on |
| StructuralReport.GroupedNref | baseline_methods/read_structural_report.py:156 | an Nref cell '1_0' is ten million cycles |
| StructuralReport.FinishRow | baseline_methods/read_structural_report.py:153-157 | the second loop on one row changes only its duration, Nref and last cell, and no other row |
| StructuralReport.Table | baseline_methods/read_structural_report.py:160-165 | each stored row is the first 28 cells of its row; a shorter row raises IndexError |
| StructuralReport.ReadReport | baseline_methods/read_structural_report.py:115-171 | one stored row of 28 columns per table line of pages 45 and 44, after the turbine and cluster were found |
| StructuralReport.SidesAreInOrOut | baseline_methods/read_structural_report.py:140 | every stored row has side 'I' or 'O' |
| TurbineNames.Search | baseline_methods/utils/DB_turbine_name_funcs.py:5 | `re.search`: the leftmost position where the pattern matches, and no match before it |
| TurbineNames.Leftmost | baseline_methods/utils/DB_turbine_name_funcs.py:5-6 | the leftmost match's text, or the whole path when nothing matches |
| TurbineNames.TurbinePatternMeans | baseline_methods/utils/DB_turbine_name_funcs.py:5 | the pattern `\w\w_\w\d\d_\w\w` matches a window exactly when the window is a turbine name, both directions |
| TurbineNames.ClusterPatternMeans | baseline_methods/utils/DB_turbine_name_funcs.py:9 | `JL\w` matches exactly 'JL' followed by a word character |
| TurbineNames.TurbineName | baseline_methods/utils/DB_turbine_name_funcs.py:4-6 | the result is the path itself or a turbine name the path contains |
| TurbineNames.ClusterName | baseline_methods/utils/DB_turbine_name_funcs.py:8-10 | the result is the path itself or a cluster name the path contains |
| TurbineNames.TurbineNameIsFirstMatch | baseline_methods/utils/DB_turbine_name_funcs.py:4-6 | a path holding a turbine name yields a turbine name, and that name yields itself |
| TurbineNames.LeftmostIdempotent | baseline_methods/utils/DB_turbine_name_funcs.py:5-6 | searching again in what was found finds the same text |
| TurbineNames.TurbineNameIdempotent | baseline_methods/utils/DB_turbine_name_funcs.py:4-6 | extracting the turbine name twice gives the name once extracted |
| TurbineNames.ClusterNameIdempotent | baseline_methods/utils/DB_turbine_name_funcs.py:8-10 | extracting the cluster name twice gives the name once extracted |
| TurbineNames.NoTurbineNameKeepsPath | baseline_methods/utils/DB_turbine_name_funcs.py:6 | a path without any turbine name is its own key |
| TurbineNames.SortPathsByName | baseline_methods/utils/DB_turbine_name_funcs.py:12-13 | the result is a permutation of the paths, ordered by turbine name under the given total ordering of names |
| Inspection.PositionToStr | baseline_methods/inspect_worst_util_characteristics.py:38-47 | the label is the place number followed by a two-letter suffix, 'th' from the fourth place on |
| Inspection.PositionReadsBack | baseline_methods/inspect_worst_util_characteristics.py:46 | the digits of the label read back as the place number |
| Inspection.Ordinal | baseline_methods/inspect_worst_util_characteristics.py:38-47 | the English ordinal: 'st', 'nd', 'rd' exactly for numbers ending in 1, 2, 3 but not 11, 12, 13 |
| Inspection.SuffixArithmetic | baseline_methods/inspect_worst_util_characteristics.py:38-47 | the same rule in terms of n % 10 and n % 100 |
| Inspection.OrdinalAgreesFirstTwenty | baseline_methods/inspect_worst_util_characteristics.py:38-47 | the label as written and the ordinal agree on the first twenty places |
| Inspection.PositionMisspellsTwentyFirst | baseline_methods/inspect_worst_util_characteristics.py:46 | place 21 is labelled '21th', where the ordinal is '21st' |
| Inspection.InspectFrom | baseline_methods/inspect_worst_util_characteristics.py:51-65 | the headings of the rows from `from` on while each is below the seabed or has a description containing 'free', stopping at the first row that is neither; without a seabed elevation a row raises NameError |
| Inspection.InspectDetails | baseline_methods/inspect_worst_util_characteristics.py:49-65 | the printed rows are the longest prefix of the sheet whose rows are below the seabed or have a description containing 'free' |
| Inspection.InspectionStopsAtFirstUnreported | baseline_methods/inspect_worst_util_characteristics.py:62-63 | the report covers exactly the rows before the first row that is neither below the seabed nor has a description containing 'free' |
| Inspection.KeyIndex | baseline_methods/inspect_worst_util_characteristics.py:87 | `res_dict[cluster]` finds JLN, JLO or JLP, and any other cluster raises KeyError |
| Inspection.WithValue | baseline_methods/inspect_worst_util_characteristics.py:82 | exactly the rows whose Dd_tot is not '-', in sheet order |
| Inspection.WorstOfSheet | baseline_methods/inspect_worst_util_characteristics.py:81-94 | the worst row has the largest Dd_tot of the kept rows, its lifetime is 27.08 / (Dd_tot / 100), and its key is the cluster read at label 0 (KeyError when the first row was dropped or the sheet is empty) |
| Inspection.StoreWorst | baseline_methods/inspect_worst_util_characteristics.py:79-101 | one worst row per sheet, grouped as the JLN rows, then JLO, then JLP, each group in sheet order |
| Inspection.DistributeIsGrouping | baseline_methods/inspect_worst_util_characteristics.py:87-96 | appending each worst row to its key's list extends each list by exactly its key's rows, in order |
| Inspection.GroupsCoverSheets | baseline_methods/inspect_worst_util_characteristics.py:98-101 | every worst row lands in exactly one of the three groups |

## Left out

- Reading files: PDF pages (PyPDF2), Excel, JSON, `.mat` and `.npy` files, and `os.walk`/`os.listdir`. Their contents are inputs: lines, columns, cycle lists or a reader function. Writing results back (`to_excel`, `to_json`, `np.save`) and the copying script for fatigue tables are not modelled.
- The IEEE-754 float32 decoding of the simulation buffer: the decoded values are a given `seq<real>`, and only the byte-length condition of `struct.unpack` is kept.
- Transcendental and real-exponent maths (π, sine, cosine, degree-to-radian, real powers, fifth root, 10^x), rainflow counting and the S-N Miner sum: they are parameters, so no numeric value of theirs is claimed. The rainflow and Miner wrappers around the external packages are not part of this model.
- Floating-point rounding: all arithmetic is exact over `real`.
- `natsort` ordering: the order of turbine names is a parameter, a total preorder.
- `multiprocessing.Pool`: only the sequential branch is modelled. The pooled branch computes the same rows, with two exceptions. With no cases, `np.array(outputs)` has shape (0,) rather than the (0, n_geo, n_angles) zeros of the sequential branch (baseline_methods/main.py:80). With several failing cases, `starmap` reports the error of whichever failing case finishes first, not necessarily the first in order.
- Logging, printing, plotting, and the `__main__` blocks beyond the lines cited in the table.
- `calculate_del.py`, `fatigue_calc_all_cases.py` and the ad-hoc inspection scripts other than `inspect_worst_util_characteristics.py`: they rely on external packages or do not state a computation.
- `get_top_five_utilizations` and the in-place-utilisation branch of `inspect_worst_util_characteristics.py` (lines 11-36 and 117-143): they repeat the selection of the stored branch over another column and only print.
- Python's `\w` and `\d`, and the `float()` parser, are modelled on ASCII text. Unicode word characters, digits and whitespace are not modelled.
- Utilization.HandleDffs: an empty numpy array, whose truth value depends on the numpy version, is outside the model.
- Utilization.DemAtMember: a zero Nref stops with `NonFinite` where numpy would go on with inf.
- Utilization.Interpolate: equal neighbour elevations stop with `NonFinite` where numpy would give inf or nan, and DEM rows of unequal length (a broadcasting case) are outside the model.
- Utilization.ScalingFactor: a zero closest DEM stops with `NonFinite` instead of giving inf or nan.
- Utilization.StressCycles: a zero section modulus stops with `NonFinite`.
- LookupTables.CaseDamage: a zero section modulus stops with `NonFinite`, and an SCF list whose length is not the number of sectors (a broadcasting case) is outside the model.
- Sections.SectionOf: a zero outer or inner radius stops with `NonFinite` where numpy gives inf.
- Lifetimes.CalculateLifetimes: DLC tables of different shapes are outside the model. The `for geo_idx in range(n_geo)` loop reads only the first table's number of rows, so later tables with more rows have their surplus rows ignored, and tables with fewer rows raise IndexError.
- Aggregation.Total: tables of different shapes are outside the model.
- MarkovParser.AddFrames: frames of different shapes, which pandas would align by label, are outside the model.
- SectorLoads.Place: a one-step block that numpy would stretch over a longer slice, and a case with no sectors, are outside the model.
- ScfSectors.ReadAngle: a token reading 'inf', 'infinity' or 'nan' (any case, any sign) stops with NonFinite where `float()` gives inf or nan and the snapping goes on with it. A literal too large for a double, such as '1e999', is read as its exact real value where `float()` gives inf.
- ScfSectors.SpecificAngles: inherits the ReadAngle gap, so a list with an 'inf' or 'nan' token fails where the source goes on.
- ScfSectors.ScfSectorList: inherits the ReadAngle gap, so an 'inf' or 'nan' specific angle gives no result where the source snaps it.
- StructuralReport.FloatOf: a cell reading 'inf' or 'nan' is outside the model.
- SubseabedScaling.CellValue: a Dd_tot of 'inf' or 'nan' is outside the model. Text is read with the plain float syntax, without the underscore grouping of `float()`: pandas' own number parser behind `pd.to_numeric` is not modelled beyond that.
- SubseabedScaling.Decide: scaling by an infinite ratio (a zero rule utilisation with rescaling on) is outside the model.
- SubseabedScaling.WorstBelowSeabed: on equal Dd_tot values it picks the first row in sheet order. pandas' default (unstable) sort does not promise which row comes first.
- Inspection.WorstOfSheet: the same tie rule as the sub-seabed selection.
- TurbineNames.SortPathsByName: the result is proved to be a sorted permutation, but not that equal names keep their relative order.

## Findings

| source | as written | input that shows it | evidently intended | confidence | as-written member | corrected member |
|---|---|---|---|---|---|---|
| baseline_methods/markov_parser.py:82-84 | after summing each chunk into `new_list_of_dfs`, the loop adds `list_of_dfs[idx]` (a single case) instead of `new_list_of_dfs[idx]` (a chunk sum) | eleven cases: chunk size 10 gives two chunks, and the result is the first ten cases plus case 1 instead of all eleven | the DLC frame is the concatenation of all cases, chunk sums in order | not executed | MarkovParser.ElevenCasesDiffer | MarkovParser.IntendedIsConcat |
| baseline_methods/read_structural_report.py:92 | `max` over the thickness cells, which are strings, compares them as text | thicknesses '80' and '100' on one TP/MP: the text maximum is '80' | the largest wall thickness by value | not executed | StructuralReport.TextMaxMissesThickerWall | StructuralReport.Max3 |
| baseline_methods/inspect_worst_util_characteristics.py:46 | every place from the fourth on gets 'th' | place 21 (pos 20) is labelled '21th' | English ordinals: 'st', 'nd', 'rd' after a last digit 1, 2, 3 except after 11, 12, 13 | not executed | Inspection.PositionMisspellsTwentyFirst | Inspection.Ordinal |

=== FILE: aggregation.dfy ===
/** Turning per-case tables into per-DLC and all-DLC results: the case loop
    and probability weighting of `main.py` and of the prototype's
    `calculate_and_save_damage.py`, the cross-DLC sums of
    `total_DEM_calculation.py` and `calculate_total_DEM.py`, and the DEM of
    the worst sector.
 */
module Aggregation {
  import opened Outcomes
  import opened Seqs
  import opened Numerics
  import opened Text
  import opened SectorLoads
  import opened CaseResults
  import Sections
  import SnCurves

  /** The `--DEM` command-line flag: DEM mode unless a given flag, lower-cased,
      is something other than 'dem'. */
  function DemMode(flag: Option<string>): (dem: bool)
    ensures flag.None? ==> dem
    ensures flag.Some? ==> (dem <==> Lower(flag.value) == "dem")
  {
    match flag
    case None => true
    case Some(f) => Lower(f) == "dem"
  }

  /** The two per-case functions `main.py` can dispatch to. */
  datatype CaseFunction = DamageFunction | DemFunction

  function SelectCaseFunction(dem: bool): (f: CaseFunction)
    ensures f.DemFunction? <==> dem
  {
    if dem then DemFunction else DamageFunction
  }

  /** Positional parameters of `calculate_damage_case_i` and `calculate_DEM_case_i`. */
  function Arity(f: CaseFunction): nat {
    match f
    case DamageFunction => 8
    case DemFunction => 6
  }

  /** `calc_func(*arguments[i])` with a tuple of `nArgs` entries: the wrong
      count raises TypeError before anything is read. */
  function CallCase(f: CaseFunction, nArgs: nat, m: Maths, fat: Fatigue, io: Reader, files: CaseFiles,
                    pointAngles: seq<real>, geos: seq<Sections.GeoRecord>): (r: Result<Matrix>)
    ensures nArgs != Arity(f) ==> r == Err(TypeError)
    ensures nArgs == Arity(f) && f.DamageFunction? ==> r == DamageCase(m, fat, io, files, pointAngles, geos)
    ensures nArgs == Arity(f) && f.DemFunction? ==> r == DemCase(m, fat, io, files, pointAngles, geos)
  {
    if nArgs != Arity(f) then Err(TypeError)
    else if f.DamageFunction? then DamageCase(m, fat, io, files, pointAngles, geos)
    else DemCase(m, fat, io, files, pointAngles, geos)
  }

  /** `range_storage_path + f'_case{i}.json'`. */
  function StoragePath(prefix: string, i: nat): (p: string)
    ensures |p| >= |prefix| + 11 && p[..|prefix|] == prefix
    ensures p[|p| - 5..] == ".json"
  {
    prefix + "_case" + NatToString(i) + ".json"
  }

  /** Different cases get different storage paths. */
  lemma StoragePathsDistinct(prefix: string, i: nat, j: nat)
    requires i != j
    ensures StoragePath(prefix, i) != StoragePath(prefix, j)
  {
    if StoragePath(prefix, i) == StoragePath(prefix, j) {
      var p := StoragePath(prefix, i);
      var n := |prefix| + 5;
      assert NatToString(i) == p[n..|p| - 5];
      assert NatToString(j) == p[n..|p| - 5];
      NatToStringInjective(i, j);
    }
  }

  /** The summary table of one DLC: every case through `calc_func` with the
      8-entry argument tuple `main.py` builds, case `c` in slice `c`. */
  function SummaryTable(dem: bool, m: Maths, fat: Fatigue, io: Reader, cases: seq<CaseFiles>,
                        pointAngles: seq<real>, geos: seq<Sections.GeoRecord>): (r: Result<seq<Matrix>>)
    ensures r.Ok? ==> |r.value| == |cases|
    ensures r.Ok? ==> forall c :: 0 <= c < |cases| ==>
      Ok(r.value[c]) == CallCase(SelectCaseFunction(dem), 8, m, fat, io, cases[c], pointAngles, geos)
      && IsShape(r.value[c], |geos|, |pointAngles|)
    ensures r.Ok? <==> forall c :: 0 <= c < |cases| ==> CallCase(SelectCaseFunction(dem), 8, m, fat, io, cases[c], pointAngles, geos).Ok?
  {
    MapResult(cases, files => CallCase(SelectCaseFunction(dem), 8, m, fat, io, files, pointAngles, geos))
  }

  /** DEM mode never produces a table: the first case already fails with
      TypeError because the DEM function takes six arguments. */
  lemma DemModeRaisesTypeError(m: Maths, fat: Fatigue, io: Reader, cases: seq<CaseFiles>,
                               pointAngles: seq<real>, geos: seq<Sections.GeoRecord>)
    requires |cases| > 0
    ensures SummaryTable(true, m, fat, io, cases, pointAngles, geos) == Err(TypeError)
  {
    var r := SummaryTable(true, m, fat, io, cases, pointAngles, geos);
    assert CallCase(DemFunction, 8, m, fat, io, cases[0], pointAngles, geos) == Err(TypeError);
    if r.Err? {
      var i :| 0 <= i < |cases| && CallCase(DemFunction, 8, m, fat, io, cases[i], pointAngles, geos) == Err(r.error);
    }
  }

  /** Damage mode computes exactly the per-case damage tables. */
  lemma DamageModeCallsDamage(m: Maths, fat: Fatigue, io: Reader, cases: seq<CaseFiles>,
                              pointAngles: seq<real>, geos: seq<Sections.GeoRecord>)
    requires SummaryTable(false, m, fat, io, cases, pointAngles, geos).Ok?
    ensures var t := SummaryTable(false, m, fat, io, cases, pointAngles, geos).value;
      forall c :: 0 <= c < |cases| ==> Ok(t[c]) == DamageCase(m, fat, io, cases[c], pointAngles, geos)
  {
  }

  /** The entries of a (case, geometry, angle) table at one (g, a). */
  function Column(t: seq<Matrix>, nGeo: nat, nAngles: nat, g: nat, a: nat): (col: seq<real>)
    requires IsTensor(t, |t|, nGeo, nAngles)
    requires g < nGeo && a < nAngles
    ensures |col| == |t| && forall c :: 0 <= c < |t| ==> col[c] == t[c][g][a]
  {
    seq(|t|, c requires 0 <= c < |t| => t[c][g][a])
  }

  /** `np.dot(weights, table[:, :, a]).T * 6.0` for every sector `a`: the
      probability-weighted sum over cases, in hours per year. The same
      factor is used for damage and for DEM sums. A probability list of
      another length makes the dot product fail. */
  function Weighted(probs: seq<real>, t: seq<Matrix>, nGeo: nat, nAngles: nat): (r: Result<Matrix>)
    requires IsTensor(t, |t|, nGeo, nAngles)
    ensures r.Ok? <==> |probs| == |t|
    ensures r.Err? ==> r.error == ValueError
    ensures r.Ok? ==> IsShape(r.value, nGeo, nAngles)
    ensures r.Ok? ==> forall g, a :: 0 <= g < nGeo && 0 <= a < nAngles ==>
      r.value[g][a] == Dot(probs, Column(t, nGeo, nAngles, g, a)) * 6.0
  {
    if |probs| != |t| then Err(ValueError)
    else Ok(seq(nGeo, g requires 0 <= g < nGeo =>
              seq(nAngles, a requires 0 <= a < nAngles => Dot(probs, Column(t, nGeo, nAngles, g, a)) * 6.0)))
  }

  /** Weighting a DLC split into two groups of cases gives the sum of the two
      weighted tables, so case order does not matter blockwise. */
  lemma WeightedSplits(p1: seq<real>, t1: seq<Matrix>, p2: seq<real>, t2: seq<Matrix>, nGeo: nat, nAngles: nat)
    requires IsTensor(t1, |t1|, nGeo, nAngles)
    requires IsTensor(t2, |t2|, nGeo, nAngles)
    requires |p1| == |t1| && |p2| == |t2|
    ensures IsTensor(t1 + t2, |t1 + t2|, nGeo, nAngles)
    ensures Weighted(p1 + p2, t1 + t2, nGeo, nAngles).Ok?
    ensures forall g, a :: 0 <= g < nGeo && 0 <= a < nAngles ==>
      Weighted(p1 + p2, t1 + t2, nGeo, nAngles).value[g][a]
      == Weighted(p1, t1, nGeo, nAngles).value[g][a] + Weighted(p2, t2, nGeo, nAngles).value[g][a]
  {
    assert IsTensor(t1 + t2, |t1 + t2|, nGeo, nAngles) by {
      forall c | 0 <= c < |t1 + t2|
        ensures IsShape((t1 + t2)[c], nGeo, nAngles)
      {
        if c < |t1| { assert (t1 + t2)[c] == t1[c]; } else { assert (t1 + t2)[c] == t2[c - |t1|]; }
      }
    }
    forall g, a | 0 <= g < nGeo && 0 <= a < nAngles
      ensures Weighted(p1 + p2, t1 + t2, nGeo, nAngles).value[g][a]
           == Weighted(p1, t1, nGeo, nAngles).value[g][a] + Weighted(p2, t2, nGeo, nAngles).value[g][a]
    {
      var c1 := Column(t1, nGeo, nAngles, g, a);
      var c2 := Column(t2, nGeo, nAngles, g, a);
      assert Column(t1 + t2, nGeo, nAngles, g, a) == c1 + c2;
      DotConcat(p1, c1, p2, c2);
    }
  }

  /** `damage_table[:, geo_idx, :] = damage_geometry_i` for every geometry:
      per-geometry (case, angle) tables become one (case, geometry, angle)
      table. */
  function ByCase(perGeo: seq<Matrix>, nCases: nat, nAngles: nat): (t: seq<Matrix>)
    requires IsTensor(perGeo, |perGeo|, nCases, nAngles)
    ensures IsTensor(t, nCases, |perGeo|, nAngles)
    ensures forall c, g, a :: 0 <= c < nCases && 0 <= g < |perGeo| && 0 <= a < nAngles ==> t[c][g][a] == perGeo[g][c][a]
  {
    seq(nCases, c requires 0 <= c < nCases =>
      seq(|perGeo|, g requires 0 <= g < |perGeo| => perGeo[g][c]))
  }

  /** Slice `g` of the assembled table gives back geometry `g`'s table. */
  lemma ByCaseSlice(perGeo: seq<Matrix>, nCases: nat, nAngles: nat, g: nat)
    requires IsTensor(perGeo, |perGeo|, nCases, nAngles)
    requires g < |perGeo|
    ensures var t := ByCase(perGeo, nCases, nAngles);
      seq(nCases, c requires 0 <= c < nCases => t[c][g]) == perGeo[g]
  {
    var t := ByCase(perGeo, nCases, nAngles);
    var back := seq(nCases, c requires 0 <= c < nCases => t[c][g]);
    forall c | 0 <= c < nCases
      ensures back[c] == perGeo[g][c]
    {
      assert back[c] == t[c][g];
    }
  }

  /** Elementwise sum of DLC tables of one shape, starting from zeros of the
      first table's shape; a table of another shape is outside the model. */
  function Total(tables: seq<Matrix>, rows: nat, cols: nat): (r: Result<Matrix>)
    ensures r.Ok? <==> IsTensor(tables, |tables|, rows, cols)
    ensures r.Err? ==> r.error == OutsideModel
    ensures r.Ok? ==> IsShape(r.value, rows, cols)
    ensures r.Ok? ==> forall g, a :: 0 <= g < rows && 0 <= a < cols ==>
      r.value[g][a] == Sum(Column(tables, rows, cols, g, a))
  {
    if !IsTensor(tables, |tables|, rows, cols) then Err(OutsideModel)
    else Ok(seq(rows, g requires 0 <= g < rows =>
              seq(cols, a requires 0 <= a < cols => Sum(Column(tables, rows, cols, g, a)))))
  }

  /** The total does not depend on the order in which DLCs are visited. */
  lemma {:induction false} TotalOrderFree(tables: seq<Matrix>, others: seq<Matrix>, rows: nat, cols: nat)
    requires multiset(tables) == multiset(others)
    requires IsTensor(tables, |tables|, rows, cols)
    ensures Total(others, rows, cols).Ok?
    ensures Total(tables, rows, cols) == Total(others, rows, cols)
  {
    forall d | 0 <= d < |others|
      ensures IsShape(others[d], rows, cols)
    {
      assert others[d] in multiset(tables);
    }
    var t := Total(tables, rows, cols).value;
    var o := Total(others, rows, cols).value;
    forall g, a | 0 <= g < rows && 0 <= a < cols
      ensures t[g][a] == o[g][a]
    {
      ColumnPermutation(tables, others, rows, cols, g, a);
      SumPermutation(Column(tables, rows, cols, g, a), Column(others, rows, cols, g, a));
      assert t[g][a] == Sum(Column(tables, rows, cols, g, a));
      assert o[g][a] == Sum(Column(others, rows, cols, g, a));
    }
    forall g | 0 <= g < rows
      ensures t[g] == o[g]
    {
      assert forall a :: 0 <= a < cols ==> t[g][a] == o[g][a];
    }
    assert t == o;
  }

  /** Permuting the tables permutes each column the same way. */
  lemma ColumnPermutation(tables: seq<Matrix>, others: seq<Matrix>, rows: nat, cols: nat, g: nat, a: nat)
    requires multiset(tables) == multiset(others)
    requires IsTensor(tables, |tables|, rows, cols)
    requires IsTensor(others, |others|, rows, cols)
    requires g < rows && a < cols
    ensures multiset(Column(tables, rows, cols, g, a)) == multiset(Column(others, rows, cols, g, a))
  {
    var entry := (t: Matrix) => if g < |t| && a < |t[g]| then t[g][a] else 0.0;
    MapPermutation(tables, others, entry);
    assert Column(tables, rows, cols, g, a) == MapReal(tables, entry);
    assert Column(others, rows, cols, g, a) == MapReal(others, entry);
  }

  /** The largest entry of a non-empty row (`row.max()`). */
  function RowMax(row: seq<real>): (x: real)
    requires |row| > 0
    ensures forall a :: 0 <= a < |row| ==> row[a] <= x
    ensures exists a :: 0 <= a < |row| && row[a] == x
  {
    row[ArgMax(row)]
  }

  /** `(T_lifetime / N_equivalent * row.max()) ** (1 / 5)` with T = 25 years
      and N = 1e7 cycles; `max()` of an empty row raises ValueError. */
  function DemMax(m: Maths, row: seq<real>): (r: Result<real>)
    ensures r.Ok? <==> |row| > 0
    ensures r.Err? ==> r.error == ValueError
    ensures r.Ok? ==> r.value == m.root5(25.0 / 10000000.0 * RowMax(row))
  {
    if |row| == 0 then Err(ValueError) else Ok(m.root5(25.0 / 10000000.0 * RowMax(row)))
  }

  /** With a monotone fifth root, a row whose largest entry is no larger
      has no larger DEM_max, whatever the other entries. */
  lemma DemMaxMonotone(m: Maths, row1: seq<real>, row2: seq<real>)
    requires forall x, y :: x <= y ==> m.root5(x) <= m.root5(y)
    requires |row1| > 0 && |row2| > 0
    requires forall a :: 0 <= a < |row1| ==> exists b :: 0 <= b < |row2| && row1[a] <= row2[b]
    ensures DemMax(m, row1).value <= DemMax(m, row2).value
  {
    var a :| 0 <= a < |row1| && row1[a] == RowMax(row1);
    var b :| 0 <= b < |row2| && row1[a] <= row2[b];
    assert RowMax(row1) <= RowMax(row2);
    assert 25.0 / 10000000.0 * RowMax(row1) <= 25.0 / 10000000.0 * RowMax(row2);
  }

  /** The value `calculate_total_DEM.py` reports per row, in MNm. */
  function DemMaxMNm(m: Maths, row: seq<real>): (r: Result<real>)
    ensures r.Ok? <==> |row| > 0
    ensures r.Ok? ==> r.value * 1000000.0 == DemMax(m, row).value
  {
    var d :- DemMax(m, row);
    Ok(d / 1000000.0)
  }

  /** `x` is at least every entry of the table. */
  predicate IsMaxOf(total: Matrix, rows: nat, cols: nat, x: real)
    requires IsShape(total, rows, cols)
  {
    forall h, b :: 0 <= h < rows && 0 <= b < cols ==> total[h][b] <= x
  }

  /** `divmod(total.argmax(), total.shape[1])[0]`: the first row that holds
      a largest entry of the whole table. */
  function WorstRow(total: Matrix, rows: nat, cols: nat): (g: nat)
    requires IsShape(total, rows, cols) && rows > 0 && cols > 0
    ensures g < rows
    ensures exists a :: 0 <= a < cols && IsMaxOf(total, rows, cols, total[g][a])
    ensures forall h, b :: 0 <= h < g && 0 <= b < cols ==> !IsMaxOf(total, rows, cols, total[h][b])
  {
    var p := FlatArgMax(total, rows, cols);
    assert IsMaxOf(total, rows, cols, total[p.0][p.1]);
    assert forall h, b :: 0 <= h < p.0 && 0 <= b < cols ==> total[h][b] < total[p.0][p.1];
    p.0
  }

  /** `DEM * D / (2 * I) / 1e6`: the equivalent stress in MPa is the DEM over
      the outer-surface section modulus. */
  function EquivalentStress(dem: real, d: real, i: real): (s: Result<real>)
    ensures s.Ok? <==> i != 0.0
    ensures s.Ok? && d != 0.0 ==>
      Sections.SectionModulus(i, d, 0.0, "o").Ok? && s.value * Sections.SectionModulus(i, d, 0.0, "o").value * 1000000.0 == dem
    ensures s.Err? ==> s.error == NonFinite
  {
    if i == 0.0 then Err(NonFinite)
    else
      var s := dem * d / (2.0 * i) / 1000000.0;
      assert d != 0.0 ==> s * (i / (d / 2.0)) * 1000000.0 == dem by {
        if d != 0.0 {
          assert (d / (2.0 * i)) * (i / (d / 2.0)) == 1.0;
        }
      }
      Ok(s)
  }

  // ---------------------------------------------------------------- script

  /** The `__main__` block of `calculate_total_DEM.py` in statement order:
      the per-method comparison table (lines 36-128), `sys.exit()` (line
      129), then the worst-row search (lines 131-136) and the equivalent
      stress and damage (lines 138-160). */
  const TotalDemMain: seq<Step> := [
    Run("compare DEM methods"), Exit, Run("worst row"), Run("equivalent stress")]

  /** `sys.exit()` ends the script after the comparison table, so the
      worst-row and equivalent-stress stages (WorstRow, EquivalentStress)
      never run from it. */
  lemma WorstRowUnreachable()
    ensures Executed(TotalDemMain) == [Run("compare DEM methods")]
    ensures Run("worst row") !in Executed(TotalDemMain)
    ensures Run("equivalent stress") !in Executed(TotalDemMain)
  {
    var m := TotalDemMain;
    assert m[0] != Exit && m[1] == Exit;
    assert m[1..][0] == Exit;
    assert Executed(m[1..]) == [];
  }
}

=== FILE: case_results.dfy ===
/** Stress composition and the per-case results built on it:
    `calculate_damage_case_i` and `calculate_DEM_case_i` (one value per
    geometry and sector for one load case) and the prototype's
    `calculate_stress_timeseries`.
 */
module CaseResults {
  import opened Outcomes
  import opened Seqs
  import opened Numerics
  import opened Cycles
  import opened SectorLoads
  import Sections
  import SnCurves

  /** The rainflow counter (called with k = 128 bins) and the curve's miner
      sum, both supplied by external packages. */
  datatype Fatigue = Fatigue(rainflow: seq<real> -> seq<Cycle>, minerSum: seq<Cycle> -> real)

  /** Stress in MPa at one point: F/A + M/Z in Pa, times the sector's SCF,
      times α·1e-6. */
  function PointStress(f: real, moment: real, a: real, z: real, scf: real, alpha: real): real
    requires a != 0.0 && z != 0.0
  {
    (f / a + moment / z) * scf * (alpha * 1e-6)
  }

  /** Stress is linear in the loads: scaling force and moment by c scales
      the stress by c. */
  lemma PointStressLinear(f: real, moment: real, a: real, z: real, scf: real, alpha: real, c: real)
    requires a != 0.0 && z != 0.0
    ensures PointStress(c * f, c * moment, a, z, scf, alpha) == c * PointStress(f, moment, a, z, scf, alpha)
  {
    assert (c * f) / a + (c * moment) / z == c * (f / a + moment / z);
  }

  /** Axial force and bending moment contribute separately: the stress is the
      force-only stress plus the moment-only stress. */
  lemma PointStressSuperposition(f: real, moment: real, a: real, z: real, scf: real, alpha: real)
    requires a != 0.0 && z != 0.0
    ensures PointStress(f, moment, a, z, scf, alpha) == PointStress(f, 0.0, a, z, scf, alpha) + PointStress(0.0, moment, a, z, scf, alpha)
  {
  }

  /** The SCF numpy applies to row `a` of a stress block when multiplying by
      `scf_per_point[:, None]`: a single-entry list stretches over all rows. */
  function RowScf(scfs: seq<real>, a: nat): real
    requires |scfs| > 0
  {
    if |scfs| == 1 then scfs[0] else if a < |scfs| then scfs[a] else 1.0
  }

  /** The (angle, step) stress block of one geometry for one case (lines
      31-48 of `calculate_damage_case_i`). Channels follow numpy indexing;
      a zero A or Z would give inf/nan, where the model stops; the SCF list
      must have one entry per actual angle or a single one. */
  function GeometryStress(m: Maths, content: Matrix, g: Sections.GeoRecord): (r: Result<Matrix>)
    requires Rectangular(content)
    ensures r.Ok? <==> (PyIndex(content, g.mxCol - 1).Ok? && PyIndex(content, g.myCol - 1).Ok? && PyIndex(content, g.fzCol - 1).Ok?
                        && g.a != 0.0 && g.z != 0.0
                        && (|g.scfPerPoint| == |g.actualAngles| || |g.scfPerPoint| == 1))
    ensures r.Ok? ==> |r.value| == |g.actualAngles|
    ensures r.Ok? ==>
      var mx := PyIndex(content, g.mxCol - 1).value;
      var my := PyIndex(content, g.myCol - 1).value;
      var fz := PyIndex(content, g.fzCol - 1).value;
      forall a :: 0 <= a < |g.actualAngles| ==>
        |r.value[a]| == |fz|
        && forall s :: 0 <= s < |fz| ==>
             r.value[a][s] == PointStress(fz[s], Projected(m, Baseline, g.actualAngles[a], mx[s], my[s]),
                                          g.a, g.z, RowScf(g.scfPerPoint, a), g.alpha)
    ensures r.Err? ==> r.error in {IndexError, NonFinite, ValueError}
  {
    var mx :- PyIndex(content, g.mxCol - 1);
    var my :- PyIndex(content, g.myCol - 1);
    var fz :- PyIndex(content, g.fzCol - 1);
    if g.a == 0.0 || g.z == 0.0 then Err(NonFinite)
    else if |g.scfPerPoint| != |g.actualAngles| && |g.scfPerPoint| != 1 then Err(ValueError)
    else
      assert |mx| == |my| == |fz|;
      Ok(seq(|g.actualAngles|, a requires 0 <= a < |g.actualAngles| =>
        StressRow(fz, Resolve(m, Baseline, g.actualAngles[a], mx, my), g.a, g.z, RowScf(g.scfPerPoint, a), g.alpha)))
  }

  function StressRow(fz: seq<real>, moment: seq<real>, a: real, z: real, scf: real, alpha: real): (r: seq<real>)
    requires |fz| == |moment| && a != 0.0 && z != 0.0
    ensures |r| == |fz|
    ensures forall s :: 0 <= s < |fz| ==> r[s] == PointStress(fz[s], moment[s], a, z, scf, alpha)
  {
    seq(|fz|, s requires 0 <= s < |fz| => PointStress(fz[s], moment[s], a, z, scf, alpha))
  }

  /** `damage[geo_idx, ang_idx] = value` for every row of `block`, into a
      zero row of `nPoints` sectors: sectors the block does not reach stay
      0, and a block longer than the row fails on the first missing column. */
  function FillRow(values: seq<real>, nPoints: nat): (r: Result<seq<real>>)
    ensures r.Ok? <==> |values| <= nPoints
    ensures r.Err? ==> r.error == IndexError
    ensures r.Ok? ==> |r.value| == nPoints
    ensures r.Ok? ==> forall a :: 0 <= a < nPoints ==> r.value[a] == (if a < |values| then values[a] else 0.0)
  {
    if |values| > nPoints then Err(IndexError)
    else Ok(seq(nPoints, a requires 0 <= a < nPoints => if a < |values| then values[a] else 0.0))
  }

  /** Per-sector damage of one geometry: miner_sum(rainflow(stress[a], k=128)). */
  function GeometryDamage(m: Maths, fat: Fatigue, content: Matrix, nPoints: nat, g: Sections.GeoRecord): (r: Result<seq<real>>)
    requires Rectangular(content)
    ensures r.Ok? <==> GeometryStress(m, content, g).Ok? && |g.actualAngles| <= nPoints
    ensures r.Ok? ==> |r.value| == nPoints
    ensures r.Ok? ==> forall a :: 0 <= a < nPoints ==>
      r.value[a] == (if a < |g.actualAngles| then fat.minerSum(fat.rainflow(GeometryStress(m, content, g).value[a])) else 0.0)
  {
    var stress :- GeometryStress(m, content, g);
    FillRow(seq(|stress|, a requires 0 <= a < |stress| => fat.minerSum(fat.rainflow(stress[a]))), nPoints)
  }

  /** `calculate_damage_case_i(binary, descr, point_angles, geo_matrix, curve,
      rainflow_func, store_ranges, range_storage_path)`: a (geometry, sector)
      damage table for one case; the last two arguments are never used. */
  function DamageCase(m: Maths, fat: Fatigue, io: Reader, files: CaseFiles, pointAngles: seq<real>,
                      geos: seq<Sections.GeoRecord>): (r: Result<Matrix>)
    ensures r.Ok? ==> ReadCase(io, files).Ok?
    ensures r.Ok? ==> IsShape(r.value, |geos|, |pointAngles|)
    ensures r.Ok? ==> forall g :: 0 <= g < |geos| ==>
      Ok(r.value[g]) == GeometryDamage(m, fat, ReadCase(io, files).value, |pointAngles|, geos[g])
    ensures ReadCase(io, files).Ok? ==>
      (r.Ok? <==> forall g :: 0 <= g < |geos| ==> GeometryDamage(m, fat, ReadCase(io, files).value, |pointAngles|, geos[g]).Ok?)
  {
    var content :- ReadCase(io, files);
    MapResult(geos, g => GeometryDamage(m, fat, content, |pointAngles|, g))
  }

  /** The baseline-sign moment block of one geometry (`calculate_DEM_case_i`
      reads no axial force, so a bad Fz column does not fail here). */
  function GeometryMoments(m: Maths, content: Matrix, g: Sections.GeoRecord): (r: Result<Matrix>)
    requires Rectangular(content)
    ensures r.Ok? <==> PyIndex(content, g.mxCol - 1).Ok? && PyIndex(content, g.myCol - 1).Ok?
    ensures r.Err? ==> r.error == IndexError
    ensures r.Ok? ==> |r.value| == |g.actualAngles|
    ensures r.Ok? ==> forall a :: 0 <= a < |g.actualAngles| ==>
      r.value[a] == Resolve(m, Baseline, g.actualAngles[a], PyIndex(content, g.mxCol - 1).value, PyIndex(content, g.myCol - 1).value)
  {
    var mx :- PyIndex(content, g.mxCol - 1);
    var my :- PyIndex(content, g.myCol - 1);
    assert |mx| == |my|;
    Ok(seq(|g.actualAngles|, a requires 0 <= a < |g.actualAngles| => Resolve(m, Baseline, g.actualAngles[a], mx, my)))
  }

  /** Per-sector internal DEM sum of one geometry. */
  function GeometryDem(m: Maths, fat: Fatigue, content: Matrix, nPoints: nat, g: Sections.GeoRecord): (r: Result<seq<real>>)
    requires Rectangular(content)
    ensures r.Ok? <==> GeometryMoments(m, content, g).Ok? && |g.actualAngles| <= nPoints
    ensures r.Ok? ==> |r.value| == nPoints
    ensures r.Ok? ==> forall a :: 0 <= a < nPoints ==>
      r.value[a] == (if a < |g.actualAngles| then DemSum(fat.rainflow(GeometryMoments(m, content, g).value[a])) else 0.0)
  {
    var moments :- GeometryMoments(m, content, g);
    FillRow(seq(|moments|, a requires 0 <= a < |moments| => DemSum(fat.rainflow(moments[a]))), nPoints)
  }

  /** `calculate_DEM_case_i(binary, descr, point_angles, geo_matrix, curve,
      rainflow_func)`: a (geometry, sector) table of internal DEM sums for
      one case; `curve` is never used. */
  function DemCase(m: Maths, fat: Fatigue, io: Reader, files: CaseFiles, pointAngles: seq<real>,
                   geos: seq<Sections.GeoRecord>): (r: Result<Matrix>)
    ensures r.Ok? ==> ReadCase(io, files).Ok?
    ensures r.Ok? ==> IsShape(r.value, |geos|, |pointAngles|)
    ensures r.Ok? ==> forall g :: 0 <= g < |geos| ==>
      Ok(r.value[g]) == GeometryDem(m, fat, ReadCase(io, files).value, |pointAngles|, geos[g])
    ensures ReadCase(io, files).Ok? ==>
      (r.Ok? <==> forall g :: 0 <= g < |geos| ==> GeometryDem(m, fat, ReadCase(io, files).value, |pointAngles|, geos[g]).Ok?)
  {
    var content :- ReadCase(io, files);
    MapResult(geos, g => GeometryDem(m, fat, content, |pointAngles|, g))
  }

  /** With a rainflow counter that yields non-negative cycles, every DEM
      entry of a case is non-negative. */
  lemma DemCaseNonNegative(m: Maths, fat: Fatigue, io: Reader, files: CaseFiles, pointAngles: seq<real>,
                           geos: seq<Sections.GeoRecord>)
    requires forall xs :: NonNegative(fat.rainflow(xs))
    requires DemCase(m, fat, io, files, pointAngles, geos).Ok?
    ensures var t := DemCase(m, fat, io, files, pointAngles, geos).value;
      forall g, a :: 0 <= g < |geos| && 0 <= a < |pointAngles| ==> t[g][a] >= 0.0
  {
    var t := DemCase(m, fat, io, files, pointAngles, geos).value;
    var content := ReadCase(io, files).value;
    forall g, a | 0 <= g < |geos| && 0 <= a < |pointAngles|
      ensures t[g][a] >= 0.0
    {
      var row := GeometryDem(m, fat, content, |pointAngles|, geos[g]);
      assert Ok(t[g]) == row;
      if a < |geos[g].actualAngles| {
        DemSumNonNegative(fat.rainflow(GeometryMoments(m, content, geos[g]).value[a]));
      }
    }
  }

  /** The closed form of `calculate_stress_timeseries`: entry (c, i, s) is
      F/A + M/Z, times `scf_per_point[i]` for the first `len(actual_angles)`
      sectors, times α and 1e-6. */
  function StressEntry(f: real, moment: real, s: Sections.Section, scfs: seq<real>, nActual: nat, i: nat, alpha: real): real
    requires s.a != 0.0 && s.z != 0.0 && nActual <= |scfs|
  {
    var scf := if i < nActual then scfs[i] else 1.0;
    ((f / s.a + moment / s.z) * scf) * alpha * 1e-6
  }

  /** The tensor `f(forces, moments)` entry by entry. */
  function Combine(forces: seq<Matrix>, moments: seq<Matrix>, nAngles: nat, nSteps: nat, a: real, z: real): (r: seq<Matrix>)
    requires IsTensor(forces, |forces|, nAngles, nSteps) && IsTensor(moments, |forces|, nAngles, nSteps)
    requires a != 0.0 && z != 0.0
    ensures IsTensor(r, |forces|, nAngles, nSteps)
    ensures forall c, i, s :: 0 <= c < |forces| && 0 <= i < nAngles && 0 <= s < nSteps ==>
      r[c][i][s] == forces[c][i][s] / a + moments[c][i][s] / z
  {
    seq(|forces|, c requires 0 <= c < |forces| =>
      seq(nAngles, i requires 0 <= i < nAngles =>
        seq(nSteps, s requires 0 <= s < nSteps => forces[c][i][s] / a + moments[c][i][s] / z)))
  }

  /** `stress[:, i, :] *= k`. */
  function ScaleSlice(t: seq<Matrix>, nAngles: nat, nSteps: nat, i: nat, k: real): (r: seq<Matrix>)
    requires IsTensor(t, |t|, nAngles, nSteps) && i < nAngles
    ensures IsTensor(r, |t|, nAngles, nSteps)
    ensures forall c, j, s :: 0 <= c < |t| && 0 <= j < nAngles && 0 <= s < nSteps ==>
      r[c][j][s] == (if j == i then t[c][j][s] * k else t[c][j][s])
  {
    seq(|t|, c requires 0 <= c < |t| =>
      seq(nAngles, j requires 0 <= j < nAngles =>
        if j == i then seq(nSteps, s requires 0 <= s < nSteps => t[c][j][s] * k) else t[c][j]))
  }

  /** `stress * alpha * 1e-6`. */
  function ScaleAll(t: seq<Matrix>, nAngles: nat, nSteps: nat, k: real): (r: seq<Matrix>)
    requires IsTensor(t, |t|, nAngles, nSteps)
    ensures IsTensor(r, |t|, nAngles, nSteps)
    ensures forall c, j, s :: 0 <= c < |t| && 0 <= j < nAngles && 0 <= s < nSteps ==> r[c][j][s] == t[c][j][s] * k
  {
    seq(|t|, c requires 0 <= c < |t| =>
      seq(nAngles, j requires 0 <= j < nAngles =>
        seq(nSteps, s requires 0 <= s < nSteps => t[c][j][s] * k)))
  }

  /** `calculate_stress_timeseries(forces, moments, geometry, actual_angles,
      scf_per_point, curve)` over (case, angle, step) tensors of one shape.
      The SCF loop runs over `actual_angles`, so a list longer than the
      tensor's angle axis or than `scf_per_point` fails with IndexError. */
  method StressTimeseries(m: Maths, forces: seq<Matrix>, moments: seq<Matrix>, nAngles: nat, nSteps: nat,
                          row: Sections.GeometryRow, actualAngles: seq<real>, scfs: seq<real>, curve: SnCurves.SnCurve)
    returns (r: Result<seq<Matrix>>)
    requires IsTensor(forces, |forces|, nAngles, nSteps) && IsTensor(moments, |forces|, nAngles, nSteps)
    requires curve.tRef == 25.0
    ensures r.Ok? <==> Sections.SectionOf(m.pi, row).Ok? && Sections.SectionOf(m.pi, row).value.a != 0.0
                       && Sections.SectionOf(m.pi, row).value.z != 0.0
                       && |actualAngles| <= nAngles && |actualAngles| <= |scfs|
    ensures r.Ok? ==> IsTensor(r.value, |forces|, nAngles, nSteps)
    ensures r.Ok? ==>
      var s := Sections.SectionOf(m.pi, row).value;
      var alpha := Sections.Alpha(m.pow, Sections.EffectiveThickness(row.lT, row.tMax), curve.tRef, curve.k);
      forall c, i, k :: 0 <= c < |forces| && 0 <= i < nAngles && 0 <= k < nSteps ==>
        r.value[c][i][k] == StressEntry(forces[c][i][k], moments[c][i][k], s, scfs, |actualAngles|, i, alpha)
    ensures r.Err? ==> r.error in {NonFinite, IndexError}
  {
    var section := Sections.SectionOf(m.pi, row);
    if section.Err? || section.value.a == 0.0 || section.value.z == 0.0 {
      return Err(NonFinite);
    }
    var s := section.value;
    var alpha := Sections.Alpha(m.pow, Sections.EffectiveThickness(row.lT, row.tMax), curve.tRef, curve.k);
    var stress := Combine(forces, moments, nAngles, nSteps, s.a, s.z);
    var withScf :- ApplyScfs(stress, nAngles, nSteps, |actualAngles|, scfs);
    var scaled := ScaleAll(withScf, nAngles, nSteps, alpha);
    r := Ok(ScaleAll(scaled, nAngles, nSteps, 1e-6));
    assert forall c, i, k :: 0 <= c < |forces| && 0 <= i < nAngles && 0 <= k < nSteps ==>
      r.value[c][i][k] == StressEntry(forces[c][i][k], moments[c][i][k], s, scfs, |actualAngles|, i, alpha);
  }

  /** `for i, _ in enumerate(actual_angles): stress[:, i, :] *= scf_per_point[i]`. */
  method ApplyScfs(t: seq<Matrix>, nAngles: nat, nSteps: nat, nActual: nat, scfs: seq<real>) returns (r: Result<seq<Matrix>>)
    requires IsTensor(t, |t|, nAngles, nSteps)
    ensures r.Ok? <==> nActual <= nAngles && nActual <= |scfs|
    ensures r.Err? ==> r.error == IndexError
    ensures r.Ok? ==> IsTensor(r.value, |t|, nAngles, nSteps)
    ensures r.Ok? ==> forall c, j, k :: 0 <= c < |t| && 0 <= j < nAngles && 0 <= k < nSteps ==>
      r.value[c][j][k] == t[c][j][k] * (if j < nActual then scfs[j] else 1.0)
  {
    var stress := t;
    var i := 0;
    while i < nActual
      invariant 0 <= i <= nActual
      invariant i <= nAngles && i <= |scfs|
      invariant IsTensor(stress, |t|, nAngles, nSteps)
      invariant forall c, j, k :: 0 <= c < |t| && 0 <= j < nAngles && 0 <= k < nSteps ==>
        stress[c][j][k] == t[c][j][k] * (if j < i then scfs[j] else 1.0)
    {
      if i >= nAngles || i >= |scfs| {
        return Err(IndexError);
      }
      stress := ScaleSlice(stress, nAngles, nSteps, i, scfs[i]);
      i := i + 1;
    }
    return Ok(stress);
  }
}

=== FILE: cycles.dfy ===
/** Rainflow cycles as the pipeline handles them after counting: (range,
    count) pairs that are scaled, concatenated and summed into the internal
    damage-equivalent-moment sum Σ n·(1.01·ΔM)^5.
 */
module Cycles {
  import opened Numerics

  /** One row of a rainflow result: a range and how many times it occurs
      (0.5 for a half cycle). */
  datatype Cycle = Cycle(range: real, count: real)

  predicate NonNegative(cs: seq<Cycle>) {
    forall i :: 0 <= i < |cs| ==> cs[i].range >= 0.0 && cs[i].count >= 0.0
  }

  /** Counts multiplied by `w`, ranges untouched. */
  function ScaleCounts(cs: seq<Cycle>, w: real): (r: seq<Cycle>)
    ensures |r| == |cs|
    ensures forall i :: 0 <= i < |cs| ==> r[i].range == cs[i].range && r[i].count == cs[i].count * w
  {
    seq(|cs|, i requires 0 <= i < |cs| => Cycle(cs[i].range, cs[i].count * w))
  }

  /** Ranges multiplied by `s`, counts untouched. */
  function ScaleRanges(cs: seq<Cycle>, s: real): (r: seq<Cycle>)
    ensures |r| == |cs|
    ensures forall i :: 0 <= i < |cs| ==> r[i].range == cs[i].range * s && r[i].count == cs[i].count
  {
    seq(|cs|, i requires 0 <= i < |cs| => Cycle(cs[i].range * s, cs[i].count))
  }

  lemma ScaleCountsTail(cs: seq<Cycle>, w: real)
    requires |cs| > 0
    ensures ScaleCounts(cs, w)[1..] == ScaleCounts(cs[1..], w)
  {
    var a := ScaleCounts(cs, w)[1..];
    var b := ScaleCounts(cs[1..], w);
    assert forall i :: 0 <= i < |a| ==> a[i] == b[i];
  }

  lemma ScaleRangesTail(cs: seq<Cycle>, s: real)
    requires |cs| > 0
    ensures ScaleRanges(cs, s)[1..] == ScaleRanges(cs[1..], s)
  {
    var a := ScaleRanges(cs, s)[1..];
    var b := ScaleRanges(cs[1..], s);
    assert forall i :: 0 <= i < |a| ==> a[i] == b[i];
  }

  /** The sum of the counts. */
  function TotalCount(cs: seq<Cycle>): real
    decreases |cs|
  {
    if |cs| == 0 then 0.0 else cs[0].count + TotalCount(cs[1..])
  }

  /** `((ranges[:, [0]].T * 1.01) ** 5.0).dot(ranges[:, [1]])`. */
  function DemSum(cs: seq<Cycle>): (d: real)
    ensures |cs| == 0 ==> d == 0.0
    decreases |cs|
  {
    if |cs| == 0 then 0.0 else Pow5(1.01 * cs[0].range) * cs[0].count + DemSum(cs[1..])
  }

  /** With non-negative ranges and counts the DEM sum is non-negative. */
  lemma {:induction false} DemSumNonNegative(cs: seq<Cycle>)
    requires NonNegative(cs)
    ensures DemSum(cs) >= 0.0
    decreases |cs|
  {
    if |cs| > 0 {
      assert NonNegative(cs[1..]) by {
        forall i | 0 <= i < |cs| - 1
          ensures cs[1..][i].range >= 0.0 && cs[1..][i].count >= 0.0
        {
          assert cs[1..][i] == cs[i + 1];
        }
      }
      DemSumNonNegative(cs[1..]);
      var p := Pow5(1.01 * cs[0].range);
      assert p >= 0.0;
      NonNegativeProduct(p, cs[0].count);
    }
  }

  lemma NonNegativeProduct(x: real, y: real)
    requires x >= 0.0 && y >= 0.0
    ensures x * y >= 0.0
  {
  }

  /** The DEM sum is linear in the counts. */
  lemma {:induction false} DemSumScaleCounts(cs: seq<Cycle>, w: real)
    ensures DemSum(ScaleCounts(cs, w)) == w * DemSum(cs)
    decreases |cs|
  {
    if |cs| > 0 {
      var r := ScaleCounts(cs, w);
      ScaleCountsTail(cs, w);
      DemSumScaleCounts(cs[1..], w);
      var p := Pow5(1.01 * cs[0].range);
      assert r[0].range == cs[0].range && r[0].count == cs[0].count * w;
      assert DemSum(r) == p * (cs[0].count * w) + w * DemSum(cs[1..]);
      assert DemSum(cs) == p * cs[0].count + DemSum(cs[1..]);
      FactorWeight(p, cs[0].count, w, DemSum(cs[1..]));
    }
  }

  lemma FactorWeight(p: real, c: real, w: real, rest: real)
    ensures p * (c * w) + w * rest == w * (p * c + rest)
  {
    assert p * (c * w) == w * (p * c);
  }

  /** A fifth power of a product is the product of the fifth powers. */
  lemma Pow5Product(x: real, y: real)
    ensures Pow5(x * y) == Pow5(x) * Pow5(y)
  {
    assert Pow5(x * y) == (x * y) * (x * y) * (x * y) * (x * y) * (x * y);
  }

  /** Scaling every range by `s` multiplies the DEM sum by s^5. */
  lemma {:induction false} DemSumScaleRanges(cs: seq<Cycle>, s: real)
    ensures DemSum(ScaleRanges(cs, s)) == Pow5(s) * DemSum(cs)
    decreases |cs|
  {
    if |cs| > 0 {
      var r := ScaleRanges(cs, s);
      ScaleRangesTail(cs, s);
      DemSumScaleRanges(cs[1..], s);
      assert 1.01 * (cs[0].range * s) == (1.01 * cs[0].range) * s;
      Pow5Product(1.01 * cs[0].range, s);
      var p := Pow5(1.01 * cs[0].range);
      assert Pow5(1.01 * r[0].range) == p * Pow5(s);
      assert (p * Pow5(s)) * cs[0].count == Pow5(s) * (p * cs[0].count);
    }
  }

  /** The DEM sum of concatenated cycle lists is the sum of their sums. */
  lemma {:induction false} DemSumConcat(a: seq<Cycle>, b: seq<Cycle>)
    ensures DemSum(a + b) == DemSum(a) + DemSum(b)
    decreases |a|
  {
    if |a| == 0 {
      assert a + b == b;
    } else {
      assert (a + b)[1..] == a[1..] + b;
      DemSumConcat(a[1..], b);
    }
  }

  /** Concatenation adds the total counts. */
  lemma {:induction false} TotalCountConcat(a: seq<Cycle>, b: seq<Cycle>)
    ensures TotalCount(a + b) == TotalCount(a) + TotalCount(b)
    decreases |a|
  {
    if |a| == 0 {
      assert a + b == b;
    } else {
      assert (a + b)[1..] == a[1..] + b;
      TotalCountConcat(a[1..], b);
    }
  }

  /** Scaling the counts by `w` scales their total by `w`. */
  lemma {:induction false} TotalCountScale(cs: seq<Cycle>, w: real)
    ensures TotalCount(ScaleCounts(cs, w)) == w * TotalCount(cs)
    decreases |cs|
  {
    if |cs| > 0 {
      ScaleCountsTail(cs, w);
      TotalCountScale(cs[1..], w);
    }
  }

  /** The total count depends on the counts alone. */
  lemma {:induction false} SameCountsTotal(a: seq<Cycle>, b: seq<Cycle>)
    requires |a| == |b|
    requires forall i :: 0 <= i < |a| ==> a[i].count == b[i].count
    ensures TotalCount(a) == TotalCount(b)
    decreases |a|
  {
    if |a| > 0 {
      assert forall i :: 0 <= i < |a[1..]| ==> a[1..][i].count == b[1..][i].count by {
        forall i | 0 <= i < |a[1..]| ensures a[1..][i].count == b[1..][i].count {
          assert a[1..][i] == a[i + 1] && b[1..][i] == b[i + 1];
        }
      }
      SameCountsTotal(a[1..], b[1..]);
    }
  }
}

=== FILE: inspection.dfy ===
/** Inspecting the utilisations the structural reports give
    (`inspect_worst_util_characteristics.py`): ordinal labels, the walk down
    a turbine's largest utilisations, and the sheet of each turbine's worst
    member with the life it stands for.
 */
module Inspection {
  import opened Outcomes
  import opened Seqs
  import opened Text
  import SubseabedScaling

  // ---------------------------------------------------------------- ordinals

  /** `position_to_str`: '1st', '2nd', '3rd' for the first three places and
      the place number followed by 'th' after that. */
  function PositionToStr(pos: nat): (s: string)
    ensures |s| >= 3 && s[..|s| - 2] == NatToString(pos + 1)
    ensures pos >= 3 ==> s[|s| - 2..] == "th"
  {
    if pos == 0 then "1st"
    else if pos == 1 then "2nd"
    else if pos == 2 then "3rd"
    else NatToString(pos + 1) + "th"
  }

  /** The label reads back as the place number. */
  lemma PositionReadsBack(pos: nat)
    ensures var s := PositionToStr(pos); ParseInt(s[..|s| - 2]) == Ok(pos + 1)
  {
    ParseIntOfIntToString(pos + 1);
  }

  /** The English ordinal suffix of a place number. */
  function OrdinalSuffix(n: nat): string {
    if 11 <= n % 100 <= 13 then "th"
    else if n % 10 == 1 then "st"
    else if n % 10 == 2 then "nd"
    else if n % 10 == 3 then "rd"
    else "th"
  }

  /** The ordinal label `position_to_str` evidently means. */
  function Ordinal(pos: nat): string {
    NatToString(pos + 1) + OrdinalSuffix(pos + 1)
  }

  /** The corrected label is the place number followed by a suffix that
      follows its last two digits: 'st' after a final 1 except in 11, 'nd'
      after a final 2 except in 12, 'rd' after a final 3 except in 13; so
      place 21 is '21st'. */
  lemma {:induction false} OrdinalFollowsLastDigits(pos: nat)
    ensures var s := Ordinal(pos); |s| >= 3 && s[..|s| - 2] == NatToString(pos + 1)
    ensures var s, d := Ordinal(pos), NatToString(pos + 1);
      s[|s| - 2..] == "st" <==> EndsWith(d, "1") && !EndsWith(d, "11")
    ensures var s, d := Ordinal(pos), NatToString(pos + 1);
      s[|s| - 2..] == "nd" <==> EndsWith(d, "2") && !EndsWith(d, "12")
    ensures var s, d := Ordinal(pos), NatToString(pos + 1);
      s[|s| - 2..] == "rd" <==> EndsWith(d, "3") && !EndsWith(d, "13")
  {
    var n := pos + 1;
    var s := Ordinal(pos);
    assert s[..|s| - 2] == NatToString(n) && s[|s| - 2..] == OrdinalSuffix(n);
    SuffixRule(n, 1, "st");
    SuffixRule(n, 2, "nd");
    SuffixRule(n, 3, "rd");
    assert [DigitChar(1)] == "1" && [DigitChar(2)] == "2" && [DigitChar(3)] == "3";
    assert [DigitChar(1), DigitChar(1)] == "11" && [DigitChar(1), DigitChar(2)] == "12";
    assert [DigitChar(1), DigitChar(3)] == "13";
  }

  lemma {:induction false} SuffixRule(n: nat, c: nat, suffix: string)
    requires (c == 1 && suffix == "st") || (c == 2 && suffix == "nd") || (c == 3 && suffix == "rd")
    ensures var d := NatToString(n);
      OrdinalSuffix(n) == suffix <==> EndsWith(d, [DigitChar(c)]) && !EndsWith(d, [DigitChar(1), DigitChar(c)])
  {
    EndsWithDigit(n, c);
    EndsWithTeen(n, c);
    SuffixArithmetic(n, c, suffix);
  }

  /** The suffix in terms of `n % 10` and `n % 100`. */
  lemma {:induction false} SuffixArithmetic(n: nat, c: nat, suffix: string)
    requires (c == 1 && suffix == "st") || (c == 2 && suffix == "nd") || (c == 3 && suffix == "rd")
    ensures OrdinalSuffix(n) == suffix <==> n % 10 == c && n % 100 != 10 + c
  {
    LastTwoDigits(n);
    assert "st"[0] == 's' && "nd"[0] == 'n' && "rd"[0] == 'r' && "th"[0] == 't';
    if 11 <= n % 100 <= 13 {
      assert OrdinalSuffix(n) == "th";
    } else if n % 10 == c {
      assert OrdinalSuffix(n) == suffix;
    } else {
      assert OrdinalSuffix(n)[0] != suffix[0];
    }
  }

  /** The last two characters of `str(n)`: the digits of `n % 10` and, when
      `n` has two digits or more, of `n / 10 % 10`. */
  lemma {:induction false} TailDigits(n: nat)
    ensures var d := NatToString(n); d[|d| - 1] == DigitChar(n % 10)
    ensures n < 10 ==> |NatToString(n)| == 1
    ensures n >= 10 ==> var d := NatToString(n); |d| >= 2 && d[|d| - 2] == DigitChar(n / 10 % 10)
  {
    var d := NatToString(n);
    if n >= 10 {
      var high := NatToString(n / 10);
      assert d == high + [DigitChar(n % 10)];
      if n / 10 >= 10 {
        assert high == NatToString(n / 10 / 10) + [DigitChar(n / 10 % 10)];
      }
      assert d[|d| - 2] == high[|high| - 1];
    }
  }

  lemma DigitCharInjective(a: nat, b: nat)
    requires a < 10 && b < 10
    ensures DigitChar(a) == DigitChar(b) <==> a == b
  {
  }

  /** `str(n)` ends in digit `c` exactly when `n % 10 == c`. */
  lemma {:induction false} EndsWithDigit(n: nat, c: nat)
    requires c < 10
    ensures EndsWith(NatToString(n), [DigitChar(c)]) <==> n % 10 == c
  {
    var d := NatToString(n);
    TailDigits(n);
    DigitCharInjective(n % 10, c);
    assert EndsWith(d, [DigitChar(c)]) <==> d[|d| - 1] == DigitChar(c);
  }

  /** `str(n)` ends in '1' followed by digit `c` exactly when
      `n % 100 == 10 + c`. */
  lemma {:induction false} EndsWithTeen(n: nat, c: nat)
    requires c < 10
    ensures EndsWith(NatToString(n), [DigitChar(1), DigitChar(c)]) <==> n % 100 == 10 + c
  {
    var d := NatToString(n);
    TailDigits(n);
    DigitCharInjective(n % 10, c);
    if n < 10 {
      assert !EndsWith(d, [DigitChar(1), DigitChar(c)]);
    } else {
      DigitCharInjective(n / 10 % 10, 1);
      LastTwoDigits(n);
      assert EndsWith(d, [DigitChar(1), DigitChar(c)]) <==> d[|d| - 2] == DigitChar(1) && d[|d| - 1] == DigitChar(c);
    }
  }

  lemma LastTwoDigits(n: nat)
    ensures n % 100 == 10 * (n / 10 % 10) + n % 10
  {
    var q := n / 100;
    var t := n / 10 % 10;
    assert n / 10 == 10 * q + t;
    assert n == 100 * q + 10 * t + n % 10;
  }

  /** The two labels agree on the first twenty places. */
  lemma {:induction false} OrdinalAgreesFirstTwenty(pos: nat)
    requires pos < 20
    ensures Ordinal(pos) == PositionToStr(pos)
  {
    var n := pos + 1;
    assert n % 100 == n;
    if pos < 3 {
      assert NatToString(n) == [DigitChar(n)];
      assert OrdinalSuffix(n) == PositionToStr(pos)[1..];
    } else if n < 10 {
      assert n % 10 == n;
    } else if 13 < n < 20 {
      assert n % 10 == n - 10;
    } else if n == 20 {
      assert n % 10 == 0;
    }
  }

  /** Place 21 is labelled '21th'. */
  lemma PositionMisspellsTwentyFirst()
    ensures PositionToStr(20) == "21th"
    ensures Ordinal(20) == "21st"
  {
    assert NatToString(2) == [DigitChar(2)] == "2";
    assert NatToString(21) == NatToString(2) + [DigitChar(1)] == "21";
  }

  // ---------------------------------------------------------------- inspection

  /** A row of one turbine's sheet, sorted on utilisation beforehand. */
  datatype UtilRow = UtilRow(elevation: real, description: string)

  /** What line 55 or line 59 prints about a row. */
  datatype Remark = BelowSeabed | FreeCorrosion

  /** A printed heading: the row's place (0 for the first row) and what was
      found there; it is printed as `position_to_str(place)` (modelled by
      PositionToStr) and the remark. */
  datatype Heading = Heading(place: nat, remark: Remark)

  /** The row is reported: at or below the seabed, or described as free
      corrosion. */
  predicate Reported(row: UtilRow, seabed: real) {
    row.elevation <= seabed || Contains(row.description, "free")
  }

  function RemarkOf(row: UtilRow, seabed: real): Remark {
    if row.elevation <= seabed then BelowSeabed else FreeCorrosion
  }

  /** `inspect_details_of_largest_util` from row `from` on: the headings
      printed, one per row, until the first row that is neither below the
      seabed nor free corrosion. `seabed_elevation` is a module global bound
      only inside the `__main__` block (line 110); without it the first
      comparison raises NameError. */
  function InspectFrom(rows: seq<UtilRow>, from: nat, seabed: Option<real>): (r: Result<seq<Heading>>)
    requires from <= |rows|
    ensures seabed.None? ==> (r.Ok? <==> from == |rows|) && (r.Err? ==> r.error == NameError)
    ensures r.Ok? ==> from + |r.value| <= |rows|
    ensures r.Ok? && from < |rows| ==> seabed.Some?
    ensures r.Ok? ==> forall i :: from <= i < from + |r.value| ==>
      Reported(rows[i], seabed.value) && r.value[i - from] == Heading(i, RemarkOf(rows[i], seabed.value))
    ensures r.Ok? && from + |r.value| < |rows| ==> !Reported(rows[from + |r.value|], seabed.value)
    decreases |rows| - from
  {
    if from == |rows| then Ok([])
    else if seabed.None? then Err(NameError)
    else if !Reported(rows[from], seabed.value) then Ok([])
    else
      var rest :- InspectFrom(rows, from + 1, seabed);
      var here := Heading(from, RemarkOf(rows[from], seabed.value));
      var r := [here] + rest;
      Ok(r)
  }

  /** The whole sheet, from its first row. */
  function InspectDetails(rows: seq<UtilRow>, seabed: Option<real>): (r: Result<seq<Heading>>)
    ensures seabed.None? ==> (r.Ok? <==> |rows| == 0)
    ensures r.Ok? ==> |r.value| <= |rows|
    ensures r.Ok? ==> forall i :: 0 <= i < |r.value| ==> Reported(rows[i], seabed.value)
    ensures r.Ok? && |r.value| < |rows| ==> !Reported(rows[|r.value|], seabed.value)
  {
    var r := InspectFrom(rows, 0, seabed);
    r
  }

  /** The headings cover exactly the longest run of reported rows at the top
      of the sheet. */
  lemma {:induction false} InspectionStopsAtFirstUnreported(rows: seq<UtilRow>, seabed: real, k: nat)
    requires k <= |rows|
    requires forall i :: 0 <= i < k ==> Reported(rows[i], seabed)
    requires k == |rows| || !Reported(rows[k], seabed)
    ensures InspectDetails(rows, Some(seabed)).Ok?
    ensures |InspectDetails(rows, Some(seabed)).value| == k
  {
    InspectFromCovers(rows, 0, seabed, k);
  }

  lemma {:induction false} InspectFromCovers(rows: seq<UtilRow>, from: nat, seabed: real, k: nat)
    requires from <= k <= |rows|
    requires forall i :: from <= i < k ==> Reported(rows[i], seabed)
    requires k == |rows| || !Reported(rows[k], seabed)
    ensures InspectFrom(rows, from, Some(seabed)).Ok?
    ensures |InspectFrom(rows, from, Some(seabed)).value| == k - from
    decreases k - from
  {
    if from < k {
      InspectFromCovers(rows, from + 1, seabed, k);
    }
  }

  // ---------------------------------------------------------------- worst member per turbine

  /** One row of a turbine's 'geos_from_structure_report' sheet: its
      turbine, its design cluster (None for a missing cell), elevation and
      'Dd_tot'. */
  datatype SheetRow = SheetRow(turbine: string, cluster: Option<string>, elevation: real, ddTot: SubseabedScaling.DdCell)

  /** The row kept for a turbine (line 89 or 94): the sheet row, its
      'Dd_tot' as a number and the report lifetime of line 86. */
  datatype WorstRow = WorstRow(row: SheetRow, util: real, lifetime: ExtReal)

  /** The keys of `res_dict` (line 79), in insertion order. */
  const ClusterKeys: seq<string> := ["JLN", "JLO", "JLP"]

  /** `res_dict[key]`: the position of a known key, KeyError otherwise
      (also for a missing cluster, which pandas reads as NaN). */
  function KeyIndex(cluster: Option<string>): (r: Result<nat>)
    ensures r.Ok? <==> cluster.Some? && cluster.value in ClusterKeys
    ensures r.Ok? ==> r.value < |ClusterKeys| && ClusterKeys[r.value] == cluster.value
    ensures r.Err? ==> r.error == KeyError
  {
    if cluster == Some("JLN") then Ok(0)
    else if cluster == Some("JLO") then Ok(1)
    else if cluster == Some("JLP") then Ok(2)
    else Err(KeyError)
  }

  /** `df[df['Dd_tot'] != '-']`, in sheet order. */
  function WithValue(rows: seq<SheetRow>): (r: seq<SheetRow>)
    ensures |r| <= |rows|
    ensures forall x :: x in r <==> x in rows && !x.ddTot.Dash?
    ensures |rows| > 0 && !rows[0].ddTot.Dash? ==> |r| > 0 && r[0] == rows[0]
    decreases |rows|
  {
    if |rows| == 0 then []
    else
      var rest := WithValue(rows[1..]);
      assert forall x :: x in rows <==> x == rows[0] || x in rows[1..];
      if rows[0].ddTot.Dash? then rest else [rows[0]] + rest
  }

  /** `pd.to_numeric` of one 'Dd_tot' cell, shared with the sub-seabed
      selection. */
  function DdValue(row: SheetRow): (r: Result<real>)
    ensures r.Ok? <==> SubseabedScaling.CellValue(SubseabedScaling.InfoRow(row.elevation, row.ddTot)).Ok?
    ensures r.Ok? ==> r.value == SubseabedScaling.CellValue(SubseabedScaling.InfoRow(row.elevation, row.ddTot)).value.util
  {
    var p :- SubseabedScaling.CellValue(SubseabedScaling.InfoRow(row.elevation, row.ddTot));
    Ok(p.util)
  }

  /** Lines 81-89 for one sheet: the rows with a value are converted and
      sorted on 'Dd_tot' descending, and the first (largest) is kept with
      its lifetime. The key into `res_dict` is `res['cluster'][0]`, the
      cluster of the row LABELLED 0, i.e. the sheet's first row: KeyError
      when that row was dropped for its '-' or the sheet is empty. */
  function WorstOfSheet(rows: seq<SheetRow>): (r: Result<(nat, WorstRow)>)
    ensures r.Ok? ==> r.value.0 < |ClusterKeys|
    ensures r.Ok? ==> |rows| > 0 && !rows[0].ddTot.Dash? && KeyIndex(rows[0].cluster) == Ok(r.value.0)
    ensures r.Ok? ==> var w := r.value.1;
      w.row in rows && !w.row.ddTot.Dash? && DdValue(w.row) == Ok(w.util)
      && w.lifetime == SubseabedScaling.ReportLifetime(w.util)
    ensures r.Ok? ==> forall x :: x in rows && !x.ddTot.Dash? ==> DdValue(x).Ok? && DdValue(x).value <= r.value.1.util
    ensures |rows| == 0 ==> r == Err(KeyError)
  {
    var kept := WithValue(rows);
    var values :- MapResult(kept, DdValue);
    if |rows| == 0 || rows[0].ddTot.Dash? then Err(KeyError)
    else
      var key :- KeyIndex(rows[0].cluster);
      var k := ArgMax(values);
      LargestKept(rows, kept, values, k);
      Ok((key, WorstRow(kept[k], values[k], SubseabedScaling.ReportLifetime(values[k]))))
  }

  lemma LargestKept(rows: seq<SheetRow>, kept: seq<SheetRow>, values: seq<real>, k: nat)
    requires kept == WithValue(rows)
    requires |values| == |kept| && forall i :: 0 <= i < |kept| ==> DdValue(kept[i]) == Ok(values[i])
    requires k < |values| && forall j :: 0 <= j < |values| ==> values[j] <= values[k]
    ensures kept[k] in rows && !kept[k].ddTot.Dash?
    ensures forall x :: x in rows && !x.ddTot.Dash? ==> DdValue(x).Ok? && DdValue(x).value <= values[k]
  {
    assert kept[k] in kept;
    forall x | x in rows && !x.ddTot.Dash?
      ensures DdValue(x).Ok? && DdValue(x).value <= values[k]
    {
      var j :| 0 <= j < |kept| && kept[j] == x;
    }
  }

  /** Appending each worst row to the list of its key (lines 87-96). */
  function Distribute(worst: seq<(nat, WorstRow)>, lists: seq<seq<WorstRow>>): (r: seq<seq<WorstRow>>)
    requires |lists| == |ClusterKeys|
    requires forall i :: 0 <= i < |worst| ==> worst[i].0 < |ClusterKeys|
    ensures |r| == |ClusterKeys|
    decreases |worst|
  {
    if |worst| == 0 then lists
    else
      var w := worst[0];
      Distribute(worst[1..], lists[w.0 := lists[w.0] + [w.1]])
  }

  /** The worst rows whose key is `key`, in sheet order. */
  function OfKey(worst: seq<(nat, WorstRow)>, key: nat): (ws: seq<WorstRow>)
    ensures |ws| <= |worst|
    ensures forall x :: x in ws <==> exists i :: 0 <= i < |worst| && worst[i] == (key, x)
    decreases |worst|
  {
    if |worst| == 0 then []
    else
      var rest := OfKey(worst[1..], key);
      assert forall i :: 1 <= i < |worst| ==> worst[1..][i - 1] == worst[i];
      (if worst[0].0 == key then [worst[0].1] else []) + rest
  }

  /** Lines 79-101: the sheets' worst rows, gathered per key of `res_dict`,
      and `df_new`, the lists of 'JLN', 'JLO' and 'JLP' one after the
      other. The first sheet that raises ends the run; otherwise every
      sheet's worst row is stored once, those keyed 'JLN' first, then 'JLO',
      then 'JLP', each group in sheet order. */
  function StoreWorst(sheets: seq<seq<SheetRow>>): (r: Result<seq<WorstRow>>)
    ensures r.Ok? <==> forall i :: 0 <= i < |sheets| ==> WorstOfSheet(sheets[i]).Ok?
    ensures r.Ok? ==> |r.value| == |sheets|
    ensures r.Ok? ==> var worst := MapResult(sheets, WorstOfSheet).value;
      r.value == OfKey(worst, 0) + OfKey(worst, 1) + OfKey(worst, 2)
  {
    var worst :- MapResult(sheets, WorstOfSheet);
    Ok(Gathered(worst))
  }

  /** Lines 98-101 on the worst rows of all sheets. */
  function Gathered(worst: seq<(nat, WorstRow)>): (r: seq<WorstRow>)
    requires forall i :: 0 <= i < |worst| ==> worst[i].0 < |ClusterKeys|
    ensures |r| == |worst|
    ensures r == OfKey(worst, 0) + OfKey(worst, 1) + OfKey(worst, 2)
  {
    var empty: seq<seq<WorstRow>> := [[], [], []];
    var lists := Distribute(worst, empty);
    DistributeIsGrouping(worst, empty);
    assert lists[0] == empty[0] + OfKey(worst, 0) == OfKey(worst, 0);
    assert lists[1] == empty[1] + OfKey(worst, 1) == OfKey(worst, 1);
    assert lists[2] == empty[2] + OfKey(worst, 2) == OfKey(worst, 2);
    GroupsCoverSheets(worst);
    lists[0] + lists[1] + lists[2]
  }

  /** The fold appends to each list exactly the worst rows with that key,
      in sheet order. */
  lemma {:induction false} DistributeIsGrouping(worst: seq<(nat, WorstRow)>, lists: seq<seq<WorstRow>>)
    requires |lists| == |ClusterKeys|
    requires forall i :: 0 <= i < |worst| ==> worst[i].0 < |ClusterKeys|
    ensures forall key :: 0 <= key < |ClusterKeys| ==> Distribute(worst, lists)[key] == lists[key] + OfKey(worst, key)
    decreases |worst|
  {
    if |worst| > 0 {
      var w := worst[0];
      var next := lists[w.0 := lists[w.0] + [w.1]];
      DistributeIsGrouping(worst[1..], next);
      forall key | 0 <= key < |ClusterKeys|
        ensures Distribute(worst, lists)[key] == lists[key] + OfKey(worst, key)
      {
        if key == w.0 {
          assert next[key] == lists[key] + [w.1];
        }
      }
    }
  }

  /** Every worst row lands in exactly one of the three lists. */
  lemma {:induction false} GroupsCoverSheets(worst: seq<(nat, WorstRow)>)
    requires forall i :: 0 <= i < |worst| ==> worst[i].0 < |ClusterKeys|
    ensures |OfKey(worst, 0)| + |OfKey(worst, 1)| + |OfKey(worst, 2)| == |worst|
    decreases |worst|
  {
    if |worst| > 0 {
      GroupsCoverSheets(worst[1..]);
    }
  }
}

=== FILE: lifetimes.dfy ===
/** Lifetimes from damage tables (`lifetime_calculation_from_lookup.py`,
    `lifetime_calculation.py`, `calculate_lifetime_from_damage.py` and the
    prototype's `calculate_lifetime_from_damage.py`): the yearly damage per
    sector is the probability-weighted sum of the 10-minute case damages
    times six, and the lifetime its reciprocal.
 */
module Lifetimes {
  import opened Outcomes
  import opened Seqs
  import opened Text
  import Aggregation
  import LookupTables

  // ---------------------------------------------------------------- frames

  /** A numeric column of a table. */
  datatype Column = Column(name: string, values: seq<real>)
  type Frame = seq<Column>

  /** All columns of a frame have one length, the number of rows. */
  predicate WellFormed(f: Frame, nRows: nat) {
    forall k :: 0 <= k < |f| ==> |f[k].values| == nRows
  }

  function Names(f: Frame): (ns: seq<string>)
    ensures |ns| == |f| && forall k :: 0 <= k < |f| ==> ns[k] == f[k].name
  {
    seq(|f|, k requires 0 <= k < |f| => f[k].name)
  }

  /** `df[name]`: the column of that name, KeyError when there is none. The
      readers give every column a distinct name, so the first match found
      here is the only one. */
  function Select(f: Frame, name: string): (r: Result<seq<real>>)
    ensures r.Ok? <==> name in Names(f)
    ensures r.Err? ==> r.error == KeyError
    ensures r.Ok? ==> exists k :: 0 <= k < |f| && f[k].name == name && f[k].values == r.value
    decreases |f|
  {
    if |f| == 0 then Err(KeyError)
    else if f[0].name == name then Ok(f[0].values)
    else
      assert Names(f) == [f[0].name] + Names(f[1..]);
      Select(f[1..], name)
  }

  /** `df.filter(regex = pattern)` for a pattern without special characters:
      the columns whose name contains it, in frame order. */
  function FilterColumns(f: Frame, pattern: string): (r: Frame)
    ensures |r| <= |f|
    ensures forall c :: c in r ==> c in f && Contains(c.name, pattern)
    ensures forall c :: c in f && Contains(c.name, pattern) ==> c in r
    decreases |f|
  {
    if |f| == 0 then []
    else
      var rest := FilterColumns(f[1..], pattern);
      assert forall c :: c in f ==> c == f[0] || c in f[1..];
      if Contains(f[0].name, pattern) then [f[0]] + rest else rest
  }

  // ---------------------------------------------------------------- lifetime

  /** `probs[:, None] * (dmg * 6.0)` summed over the cases, for one sector. */
  function WeightedColumn(probs: seq<real>, dmg: seq<real>): (w: seq<real>)
    requires |dmg| == |probs|
    ensures |w| == |probs| && forall c :: 0 <= c < |probs| ==> w[c] == probs[c] * (dmg[c] * 6.0)
  {
    seq(|probs|, c requires 0 <= c < |probs| => probs[c] * (dmg[c] * 6.0))
  }

  function YearlyDamage(probs: seq<real>, dmg: seq<real>): real
    requires |dmg| == |probs|
  {
    Sum(WeightedColumn(probs, dmg))
  }

  /** The reciprocal of the yearly damage per damage column; a zero yearly
      damage is numpy's inf (or nan when 0/0 cannot arise: 1 is not 0). */
  function LifetimesOf(probs: seq<real>, dmgs: Frame): (ls: seq<ExtReal>)
    requires WellFormed(dmgs, |probs|)
    ensures |ls| == |dmgs|
    ensures forall s :: 0 <= s < |dmgs| ==> ls[s] == Divide(1.0, YearlyDamage(probs, dmgs[s].values))
  {
    seq(|dmgs|, s requires 0 <= s < |dmgs| => Divide(1.0, YearlyDamage(probs, dmgs[s].values)))
  }

  /** `calculate_lifetime_from_fatigue_lookup_table(df)` with the column
      names of one variant: the probability column `probsName` and the
      damage columns matching `dmgPattern`. */
  function LifetimeFromFrame(f: Frame, nRows: nat, probsName: string, dmgPattern: string): (r: Result<seq<ExtReal>>)
    requires WellFormed(f, nRows)
    ensures r.Ok? <==> probsName in Names(f)
    ensures r.Err? ==> r.error == KeyError
    ensures r.Ok? ==> r.value == LifetimesOf(Select(f, probsName).value, FilterColumns(f, dmgPattern))
  {
    var probs :- Select(f, probsName);
    var k :| 0 <= k < |f| && f[k].name == probsName && f[k].values == probs;
    var dmgs := FilterColumns(f, dmgPattern);
    assert WellFormed(dmgs, |probs|);
    Ok(LifetimesOf(probs, dmgs))
  }

  const LookupProbColumn: string := "Tot_Prob_in_10_percent_" + "idling_scenario_hr_year"

  /** `lifetime_calculation_from_lookup.py`: the sheet's probability column
      and the columns matching 'damage'. */
  function LifetimeFromLookup(f: Frame, nRows: nat): (r: Result<seq<ExtReal>>)
    requires WellFormed(f, nRows)
    ensures r == LifetimeFromFrame(f, nRows, LookupProbColumn, "damage")
  {
    LifetimeFromFrame(f, nRows, LookupProbColumn, "damage")
  }

  /** `lifetime_calculation.py`: the 'probs' column and the columns matching
      'dmg', the layout `create_fatigue_table_DLC_i` writes. */
  function LifetimeFromTable(f: Frame, nRows: nat): (r: Result<seq<ExtReal>>)
    requires WellFormed(f, nRows)
    ensures r == LifetimeFromFrame(f, nRows, "probs", "dmg")
  {
    LifetimeFromFrame(f, nRows, "probs", "dmg")
  }

  /** A substring needs each of its characters in the string. */
  lemma {:induction false} ContainsNeedsChar(s: string, sub: string, i: nat)
    requires i < |sub| && sub[i] !in s
    ensures !Contains(s, sub)
    decreases |s|
  {
    if |sub| <= |s| {
      assert s[..|sub|][i] == s[i];
      assert s[i] in s;
    }
    if |s| > 0 {
      ContainsNeedsChar(s[1..], sub, i);
    }
  }

  /** The frame of a table `create_fatigue_table_DLC_i` writes. */
  predicate HasTableLayout(f: Frame, nSectors: nat) {
    Names(f) == LookupTables.TableColumns(nSectors)
  }

  lemma SectorName(f: Frame, nSectors: nat, k: nat)
    requires HasTableLayout(f, nSectors) && 3 <= k < |f|
    ensures f[k].name == "dmg_sector_" + NatToString(k - 3)
  {
    var ns := LookupTables.TableColumns(nSectors);
    assert ns[3 + (k - 3)] == "dmg_sector_" + NatToString(k - 3);
    assert f[k].name == Names(f)[k];
  }

  /** None of the first three column names contains 'dmg' or 'damage'. */
  lemma HeaderNamesLack()
    ensures !Contains("DLC", "dmg") && !Contains("case_no", "dmg") && !Contains("probs", "dmg")
    ensures !Contains("DLC", "damage") && !Contains("case_no", "damage") && !Contains("probs", "damage")
  {
    ContainsNeedsChar("DLC", "dmg", 0);
    ContainsNeedsChar("case_no", "dmg", 0);
    ContainsNeedsChar("probs", "dmg", 0);
    ContainsNeedsChar("DLC", "damage", 0);
    ContainsNeedsChar("case_no", "damage", 0);
    ContainsNeedsChar("probs", "damage", 0);
  }

  lemma HeaderOfLayout(f: Frame, nSectors: nat)
    requires HasTableLayout(f, nSectors)
    ensures |f| == 3 + nSectors
    ensures f[0].name == "DLC" && f[1].name == "case_no" && f[2].name == "probs"
  {
    assert f[0].name == Names(f)[0] && f[1].name == Names(f)[1] && f[2].name == Names(f)[2];
  }

  /** `df[name]` finds the first column of that name. */
  lemma {:induction false} SelectAt(f: Frame, name: string, i: nat)
    requires i < |f| && f[i].name == name
    requires forall j :: 0 <= j < i ==> f[j].name != name
    ensures Select(f, name) == Ok(f[i].values)
    decreases i
  {
    if i > 0 {
      assert f[1..][i - 1] == f[i];
      assert forall j :: 0 <= j < i - 1 ==> f[1..][j] == f[j + 1];
      SelectAt(f[1..], name, i - 1);
    }
  }

  /** Leading columns that do not match are filtered away. */
  lemma {:induction false} FilterDropsPrefix(f: Frame, pattern: string, i: nat)
    requires i <= |f|
    requires forall j :: 0 <= j < i ==> !Contains(f[j].name, pattern)
    ensures FilterColumns(f, pattern) == FilterColumns(f[i..], pattern)
    decreases i
  {
    if i > 0 {
      assert f[1..][i - 1..] == f[i..];
      assert forall j :: 0 <= j < i - 1 ==> f[1..][j] == f[j + 1];
      FilterDropsPrefix(f[1..], pattern, i - 1);
    }
  }

  lemma SelectThird(f: Frame, name: string)
    requires |f| >= 3 && f[0].name != name && f[1].name != name && f[2].name == name
    ensures Select(f, name) == Ok(f[2].values)
  {
    var g := f[1..];
    var h := g[1..];
    assert g[0] == f[1] && h[0] == f[2];
    assert Select(h, name) == Ok(f[2].values);
    assert Select(g, name) == Select(h, name);
  }

  lemma FilterSkipsThree(f: Frame, pattern: string)
    requires |f| >= 3
    requires !Contains(f[0].name, pattern) && !Contains(f[1].name, pattern) && !Contains(f[2].name, pattern)
    ensures FilterColumns(f, pattern) == FilterColumns(f[3..], pattern)
  {
    var g := f[1..];
    var h := g[1..];
    assert g[0] == f[1] && h[0] == f[2] && h[1..] == f[3..];
    assert FilterColumns(h, pattern) == FilterColumns(f[3..], pattern);
    assert FilterColumns(g, pattern) == FilterColumns(h, pattern);
  }

  /** On that layout `lifetime_calculation.py` reads the probabilities and
      exactly the sector damage columns, in sector order. */
  lemma {:induction false} TableReaderMatchesLayout(f: Frame, nRows: nat, nSectors: nat)
    requires WellFormed(f, nRows) && HasTableLayout(f, nSectors)
    ensures Select(f, "probs") == Ok(f[2].values)
    ensures FilterColumns(f, "dmg") == f[3..]
  {
    HeaderOfLayout(f, nSectors);
    HeaderNamesLack();
    SelectThird(f, "probs");
    FilterSkipsThree(f, "dmg");
    SectorColumnsMatch(f, nSectors);
    AllMatch(f[3..], "dmg");
  }

  lemma {:induction false} SectorColumnsMatch(f: Frame, nSectors: nat)
    requires HasTableLayout(f, nSectors)
    ensures |f| >= 3 && forall k :: 0 <= k < |f[3..]| ==> Contains(f[3..][k].name, "dmg")
  {
    HeaderOfLayout(f, nSectors);
    forall k | 0 <= k < |f[3..]|
      ensures Contains(f[3..][k].name, "dmg")
    {
      SectorName(f, nSectors, k + 3);
      assert f[3..][k] == f[k + 3];
      SectorNameHasDmg(k);
    }
  }

  lemma SectorNameHasDmg(j: nat)
    ensures Contains("dmg_sector_" + NatToString(j), "dmg")
  {
    var name := "dmg_sector_" + NatToString(j);
    assert name[..3] == "dmg";
    assert StartsWith(name, "dmg");
  }

  lemma {:induction false} AllMatch(f: Frame, pattern: string)
    requires forall k :: 0 <= k < |f| ==> Contains(f[k].name, pattern)
    ensures FilterColumns(f, pattern) == f
    decreases |f|
  {
    if |f| > 0 {
      AllMatch(f[1..], pattern);
    }
  }

  /** A sector column name has no 'a' in it. */
  lemma SectorNameLacksA(j: nat)
    ensures !Contains("dmg_sector_" + NatToString(j), "damage")
  {
    var pre := "dmg_sector_";
    var digits := NatToString(j);
    var name := pre + digits;
    assert 'a' !in pre;
    forall i | 0 <= i < |name|
      ensures name[i] != 'a'
    {
      if i < |pre| {
        assert name[i] == pre[i] && pre[i] in pre;
      } else {
        assert name[i] == digits[i - |pre|] && IsDigit(digits[i - |pre|]);
      }
    }
    ContainsNeedsChar(name, "damage", 1);
  }

  /** On the same layout `lifetime_calculation_from_lookup.py` finds no
      probability column (KeyError), and none of its columns contains
      'damage': the producer's and this reader's column names disagree. */
  lemma {:induction false} LookupReaderMissesLayout(f: Frame, nRows: nat, nSectors: nat)
    requires WellFormed(f, nRows) && HasTableLayout(f, nSectors)
    ensures LifetimeFromLookup(f, nRows) == Err(KeyError)
    ensures FilterColumns(f, "damage") == []
  {
    NoLookupProbColumn(f, nSectors);
    NoDamageColumns(f, nSectors);
    NoneMatch(f, "damage");
  }

  lemma {:induction false} NoLookupProbColumn(f: Frame, nSectors: nat)
    requires HasTableLayout(f, nSectors)
    ensures LookupProbColumn !in Names(f)
  {
    HeaderOfLayout(f, nSectors);
    var ns := Names(f);
    forall k | 0 <= k < |ns|
      ensures ns[k] != LookupProbColumn
    {
      assert ns[k] == f[k].name;
      if k >= 3 {
        SectorName(f, nSectors, k);
        var name := "dmg_sector_" + NatToString(k - 3);
        assert name[0] == 'd';
        assert LookupProbColumn[0] == 'T';
      }
    }
  }

  lemma {:induction false} NoDamageColumns(f: Frame, nSectors: nat)
    requires HasTableLayout(f, nSectors)
    ensures forall k :: 0 <= k < |f| ==> !Contains(f[k].name, "damage")
  {
    HeaderOfLayout(f, nSectors);
    HeaderNamesLack();
    forall k | 0 <= k < |f|
      ensures !Contains(f[k].name, "damage")
    {
      if k >= 3 {
        SectorName(f, nSectors, k);
        SectorNameLacksA(k - 3);
      }
    }
  }

  lemma {:induction false} NoneMatch(f: Frame, pattern: string)
    requires forall k :: 0 <= k < |f| ==> !Contains(f[k].name, pattern)
    ensures FilterColumns(f, pattern) == []
    decreases |f|
  {
    if |f| > 0 {
      NoneMatch(f[1..], pattern);
    }
  }

  /** The environment columns `get_env_from_casefile` reads from the DLC
      sheet, in order; the last is the probability column. */
  const EnvColumns: seq<string> := ["Nacelle angle [deg]", "Wind Speed [m/s]", "Wind Direction [deg]",
    "Wave direction [deg]", "Hs windsea [m]", "Tp windsea [s]", "Hs swell [m]", "Tp swell [s]",
    "Water Level [mMSL]", "Current speed  (depth averaged) [m/s]", "Current dir [deg]", LookupProbColumn]

  /** The columns of `create_fatigue_table` in `calculate_lifetime_from_damage.py`:
      the environment, then 'DLC', then the damage of each sector with a
      1-based number. */
  function OverallTableColumns(nSectors: nat): (cols: seq<string>)
    ensures |cols| == |EnvColumns| + 1 + nSectors
    ensures cols[..|EnvColumns|] == EnvColumns && cols[|EnvColumns|] == "DLC"
    ensures forall j :: 1 <= j <= nSectors ==> cols[12 + j] == "fatigue_damage_sector_" + NatToString(j)
  {
    EnvColumns + ["DLC"] + seq(nSectors, j requires 0 <= j < nSectors => "fatigue_damage_sector_" + NatToString(j + 1))
  }

  /** A string with no `sub[0]` directly followed by `sub[1]` cannot contain `sub`. */
  lemma {:induction false} ContainsNeedsPair(s: string, sub: string)
    requires |sub| >= 2
    requires forall i :: 0 <= i < |s| - 1 ==> s[i] != sub[0] || s[i + 1] != sub[1]
    ensures !Contains(s, sub)
    decreases |s|
  {
    if |sub| <= |s| {
      assert s[..|sub|][0] == s[0] && s[..|sub|][1] == s[1];
    }
    if |s| > 0 {
      forall i | 0 <= i < |s[1..]| - 1
        ensures s[1..][i] != sub[0] || s[1..][i + 1] != sub[1]
      {
        assert s[1..][i] == s[i + 1] && s[1..][i + 1] == s[i + 2];
      }
      ContainsNeedsPair(s[1..], sub);
    }
  }

  /** A window equal to `sub` makes `s` contain it. */
  lemma {:induction false} ContainsAt(s: string, sub: string, i: nat)
    requires i + |sub| <= |s| && s[i..i + |sub|] == sub
    ensures Contains(s, sub)
    decreases i
  {
    if i > 0 {
      assert s[1..][i - 1..i - 1 + |sub|] == s[i..i + |sub|];
      ContainsAt(s[1..], sub, i - 1);
    } else {
      assert s[..|sub|] == sub;
    }
  }

  lemma NoDaPair(s: string)
    requires forall i :: 0 <= i < |s| - 1 ==> s[i] != 'd' || s[i + 1] != 'a'
    ensures !Contains(s, "damage")
  {
    ContainsNeedsPair(s, "damage");
  }

  /** Each environment column name, one at a time: no 'd' is followed by 'a'. */
  lemma NacelleAngleLacksDamage()
    ensures !Contains(EnvColumns[0], "damage")
  {
    var s := "Nacelle angle [deg]";
    assert EnvColumns[0] == s;
    forall i | 0 <= i < |s| - 1
      ensures s[i] != 'd' || s[i + 1] != 'a'
    {
    }
    NoDaPair(s);
  }

  lemma WindSpeedLacksDamage()
    ensures !Contains(EnvColumns[1], "damage")
  {
    var s := "Wind Speed [m/s]";
    assert EnvColumns[1] == s;
    forall i | 0 <= i < |s| - 1
      ensures s[i] != 'd' || s[i + 1] != 'a'
    {
    }
    NoDaPair(s);
  }

  lemma WindDirectionLacksDamage()
    ensures !Contains(EnvColumns[2], "damage")
  {
    var s := "Wind Direction [deg]";
    assert EnvColumns[2] == s;
    forall i | 0 <= i < |s| - 1
      ensures s[i] != 'd' || s[i + 1] != 'a'
    {
    }
    NoDaPair(s);
  }

  lemma WaveDirectionLacksDamage()
    ensures !Contains(EnvColumns[3], "damage")
  {
    var s := "Wave direction [deg]";
    assert EnvColumns[3] == s;
    forall i | 0 <= i < |s| - 1
      ensures s[i] != 'd' || s[i + 1] != 'a'
    {
    }
    NoDaPair(s);
  }

  lemma HsWindseaLacksDamage()
    ensures !Contains(EnvColumns[4], "damage")
  {
    var s := "Hs windsea [m]";
    assert EnvColumns[4] == s;
    forall i | 0 <= i < |s| - 1
      ensures s[i] != 'd' || s[i + 1] != 'a'
    {
    }
    NoDaPair(s);
  }

  lemma TpWindseaLacksDamage()
    ensures !Contains(EnvColumns[5], "damage")
  {
    var s := "Tp windsea [s]";
    assert EnvColumns[5] == s;
    forall i | 0 <= i < |s| - 1
      ensures s[i] != 'd' || s[i + 1] != 'a'
    {
    }
    NoDaPair(s);
  }

  lemma HsSwellLacksDamage()
    ensures !Contains(EnvColumns[6], "damage")
  {
    var s := "Hs swell [m]";
    assert EnvColumns[6] == s;
    forall i | 0 <= i < |s| - 1
      ensures s[i] != 'd' || s[i + 1] != 'a'
    {
    }
    NoDaPair(s);
  }

  lemma TpSwellLacksDamage()
    ensures !Contains(EnvColumns[7], "damage")
  {
    var s := "Tp swell [s]";
    assert EnvColumns[7] == s;
    forall i | 0 <= i < |s| - 1
      ensures s[i] != 'd' || s[i + 1] != 'a'
    {
    }
    NoDaPair(s);
  }

  lemma WaterLevelLacksDamage()
    ensures !Contains(EnvColumns[8], "damage")
  {
    var s := "Water Level [mMSL]";
    assert EnvColumns[8] == s;
    forall i | 0 <= i < |s| - 1
      ensures s[i] != 'd' || s[i + 1] != 'a'
    {
    }
    NoDaPair(s);
  }

  lemma CurrentSpeedLacksDamage()
    ensures !Contains(EnvColumns[9], "damage")
  {
    var s := "Current speed  (depth averaged) [m/s]";
    assert EnvColumns[9] == s;
    forall i | 0 <= i < |s| - 1
      ensures s[i] != 'd' || s[i + 1] != 'a'
    {
    }
    NoDaPair(s);
  }

  lemma CurrentDirLacksDamage()
    ensures !Contains(EnvColumns[10], "damage")
  {
    var s := "Current dir [deg]";
    assert EnvColumns[10] == s;
    forall i | 0 <= i < |s| - 1
      ensures s[i] != 'd' || s[i + 1] != 'a'
    {
    }
    NoDaPair(s);
  }

  lemma ProbabilityLacksDamage()
    ensures !Contains(EnvColumns[11], "damage")
  {
    assert EnvColumns[11] == LookupProbColumn;
    assert 'm' !in LookupProbColumn;
    ContainsNeedsChar(LookupProbColumn, "damage", 2);
  }

  /** No environment column contains 'damage'. */
  lemma EnvNamesLackDamage()
    ensures forall k :: 0 <= k < |EnvColumns| ==> !Contains(EnvColumns[k], "damage")
  {
    var e := EnvColumns;
    forall k | 0 <= k < |e|
      ensures !Contains(e[k], "damage")
    {
      if k == 0 {
        NacelleAngleLacksDamage();
      } else if k == 1 {
        WindSpeedLacksDamage();
      } else if k == 2 {
        WindDirectionLacksDamage();
      } else if k == 3 {
        WaveDirectionLacksDamage();
      } else if k == 4 {
        HsWindseaLacksDamage();
      } else if k == 5 {
        TpWindseaLacksDamage();
      } else if k == 6 {
        HsSwellLacksDamage();
      } else if k == 7 {
        TpSwellLacksDamage();
      } else if k == 8 {
        WaterLevelLacksDamage();
      } else if k == 9 {
        CurrentSpeedLacksDamage();
      } else if k == 10 {
        CurrentDirLacksDamage();
      } else {
        ProbabilityLacksDamage();
      }
    }
  }

  lemma OverallSectorHasDamage(j: nat)
    ensures Contains("fatigue_damage_sector_" + NatToString(j), "damage")
  {
    var s := "fatigue_damage_sector_" + NatToString(j);
    assert s[8..14] == "damage";
    ContainsAt(s, "damage", 8);
  }

  /** On the layout of `create_fatigue_table`, `lifetime_calculation_from_lookup.py`
      reads the sheet's probability column and exactly the damage columns,
      in sector order: this reader belongs to that producer. */
  lemma {:induction false} LookupReaderMatchesOverallLayout(f: Frame, nRows: nat, nSectors: nat)
    requires WellFormed(f, nRows) && Names(f) == OverallTableColumns(nSectors)
    ensures |f| == 13 + nSectors
    ensures LifetimeFromLookup(f, nRows) == Ok(LifetimesOf(f[11].values, f[13..]))
  {
    OverallProbColumn(f, nSectors);
    OverallDamageColumns(f, nSectors);
  }

  lemma {:induction false} OverallHeader(f: Frame, nSectors: nat)
    requires Names(f) == OverallTableColumns(nSectors)
    ensures |f| == 13 + nSectors
    ensures forall k :: 0 <= k < 12 ==> f[k].name == EnvColumns[k]
    ensures f[12].name == "DLC"
    ensures forall k :: 13 <= k < |f| ==> f[k].name == "fatigue_damage_sector_" + NatToString(k - 12)
  {
    var cols := OverallTableColumns(nSectors);
    assert |EnvColumns| == 12;
    forall k | 0 <= k < 12
      ensures f[k].name == EnvColumns[k]
    {
      assert f[k].name == Names(f)[k] == cols[k] == cols[..12][k];
    }
    assert f[12].name == Names(f)[12];
    forall k | 13 <= k < |f|
      ensures f[k].name == "fatigue_damage_sector_" + NatToString(k - 12)
    {
      assert f[k].name == Names(f)[k] == cols[12 + (k - 12)];
    }
  }

  lemma EnvShorterThanProbability(k: nat)
    requires k < 11
    ensures |EnvColumns[k]| < |LookupProbColumn|
  {
    assert |LookupProbColumn| == 46;
  }

  lemma {:induction false} OverallProbColumn(f: Frame, nSectors: nat)
    requires Names(f) == OverallTableColumns(nSectors)
    ensures |f| == 13 + nSectors
    ensures Select(f, LookupProbColumn) == Ok(f[11].values)
  {
    OverallHeader(f, nSectors);
    assert f[11].name == LookupProbColumn;
    forall j | 0 <= j < 11
      ensures f[j].name != LookupProbColumn
    {
      EnvShorterThanProbability(j);
    }
    SelectAt(f, LookupProbColumn, 11);
  }

  lemma {:induction false} OverallDamageColumns(f: Frame, nSectors: nat)
    requires Names(f) == OverallTableColumns(nSectors)
    ensures |f| == 13 + nSectors
    ensures FilterColumns(f, "damage") == f[13..]
  {
    OverallHeader(f, nSectors);
    DamageAfterHeader(f);
  }

  /** Behind the environment columns and 'DLC' every column is a damage
      column, and only those are. */
  lemma {:induction false} DamageAfterHeader(f: Frame)
    requires |f| >= 13
    requires forall k :: 0 <= k < 12 ==> f[k].name == EnvColumns[k]
    requires f[12].name == "DLC"
    requires forall k :: 13 <= k < |f| ==> f[k].name == "fatigue_damage_sector_" + NatToString(k - 12)
    ensures FilterColumns(f, "damage") == f[13..]
  {
    HeaderLacksDamage(f);
    FilterDropsPrefix(f, "damage", 13);
    SectorsHaveDamage(f);
    AllMatch(f[13..], "damage");
  }

  lemma HeaderLacksDamage(f: Frame)
    requires |f| >= 13
    requires forall k :: 0 <= k < 12 ==> f[k].name == EnvColumns[k]
    requires f[12].name == "DLC"
    ensures forall j :: 0 <= j < 13 ==> !Contains(f[j].name, "damage")
  {
    EnvNamesLackDamage();
    ContainsNeedsChar("DLC", "damage", 0);
  }

  lemma SectorsHaveDamage(f: Frame)
    requires |f| >= 13
    requires forall k :: 13 <= k < |f| ==> f[k].name == "fatigue_damage_sector_" + NatToString(k - 12)
    ensures forall k :: 0 <= k < |f[13..]| ==> Contains(f[13..][k].name, "damage")
  {
    forall k | 0 <= k < |f[13..]|
      ensures Contains(f[13..][k].name, "damage")
    {
      assert f[13..][k] == f[13 + k];
      OverallSectorHasDamage(k + 1);
    }
  }


  lemma ScaledTerm(p: real, d: real, r: real)
    ensures p * (d * r * 6.0) == r * (p * (d * 6.0))
  {
  }

  /** Scaling every damage by `r` scales the yearly damage by `r`. */
  lemma WeightedScale(probs: seq<real>, dmg: seq<real>, scaled: seq<real>, r: real)
    requires |dmg| == |probs| && |scaled| == |probs|
    requires forall c :: 0 <= c < |probs| ==> scaled[c] == dmg[c] * r
    ensures YearlyDamage(probs, scaled) == r * YearlyDamage(probs, dmg)
  {
    var w := WeightedColumn(probs, dmg);
    var ws := WeightedColumn(probs, scaled);
    forall c | 0 <= c < |ws|
      ensures ws[c] == r * w[c]
    {
      ScaledTerm(probs[c], dmg[c], r);
    }
    SumScale(w, ws, r);
  }

  /** Multiplying every damage by `r > 0` divides every finite lifetime by
      `r` and keeps an infinite one infinite. */
  lemma LifetimeScaling(probs: seq<real>, dmg: seq<real>, scaled: seq<real>, r: real)
    requires |dmg| == |probs| && |scaled| == |probs| && r > 0.0
    requires forall c :: 0 <= c < |probs| ==> scaled[c] == dmg[c] * r
    ensures var before := Divide(1.0, YearlyDamage(probs, dmg));
            var after := Divide(1.0, YearlyDamage(probs, scaled));
      (before.Finite? <==> after.Finite?) && (before.Finite? ==> after.v * r == before.v)
      && (before.PosInf? <==> after.PosInf?)
  {
    WeightedScale(probs, dmg, scaled, r);
    var y := YearlyDamage(probs, dmg);
    if y != 0.0 {
      assert (1.0 / (r * y)) * r == 1.0 / y;
    }
  }

  /** `lifetimes.min()`: the governing lifetime is the smallest over the
      sectors; nan propagates and an empty array has no minimum. */
  function MinLifetime(ls: seq<ExtReal>): (r: Result<ExtReal>)
    ensures r.Ok? <==> |ls| > 0
    ensures r.Err? ==> r.error == ValueError
    ensures r.Ok? && (exists s :: 0 <= s < |ls| && ls[s].NaN?) ==> r.value.NaN?
    ensures r.Ok? && (forall s :: 0 <= s < |ls| ==> !ls[s].NaN?) ==>
      r.value in ls && !r.value.NaN? && forall s :: 0 <= s < |ls| ==> LessEq(r.value, ls[s])
    decreases |ls|
  {
    if |ls| == 0 then Err(ValueError)
    else if ls[0].NaN? then Ok(NaN)
    else if |ls| == 1 then Ok(ls[0])
    else
      var rest := MinLifetime(ls[1..]);
      assert forall s :: 1 <= s < |ls| ==> ls[1..][s - 1] == ls[s];
      if rest.value.NaN? then Ok(NaN) else Ok(Min2(ls[0], rest.value))
  }

  // ---------------------------------------------------------------- path filter

  /** The position of `name` among the registry's keys, `|reg|` when absent. */
  function FindName(reg: seq<(string, string)>, name: string): (i: nat)
    ensures i <= |reg|
    ensures i < |reg| ==> reg[i].0 == name
    ensures forall j :: 0 <= j < i ==> reg[j].0 != name
    decreases |reg|
  {
    if |reg| == 0 then 0
    else if reg[0].0 == name then 0
    else 1 + FindName(reg[1..], name)
  }

  /** One step of the loop over the paths: a new turbine is appended, a
      known one is overwritten in place only by a 'subseabed' path. */
  function Register(reg: seq<(string, string)>, name: string, p: string): (r: seq<(string, string)>)
  {
    var i := FindName(reg, name);
    if i == |reg| then reg + [(name, p)]
    else if Contains(p, "subseabed") then reg[i := (name, p)]
    else reg
  }

  /** The insertion-ordered dict built by `filter_paths_based_on_subseabed_scaling`. */
  function Registry(paths: seq<string>, turbine: string -> string): seq<(string, string)>
    decreases |paths|
  {
    if |paths| == 0 then []
    else
      var n := |paths| - 1;
      Register(Registry(paths[..n], turbine), turbine(paths[n]), paths[n])
  }

  predicate DistinctNames(reg: seq<(string, string)>) {
    forall i, j :: 0 <= i < j < |reg| ==> reg[i].0 != reg[j].0
  }

  /** The path kept for `name` is the one at index `i` of `paths`: its
      turbine name is `name`, no later path of that turbine contains
      'subseabed', and it either contains 'subseabed' itself or is the
      turbine's first path. */
  ghost predicate Kept(paths: seq<string>, turbine: string -> string, name: string, i: nat) {
    i < |paths| && turbine(paths[i]) == name
    && (forall j :: i < j < |paths| && turbine(paths[j]) == name ==> !Contains(paths[j], "subseabed"))
    && (Contains(paths[i], "subseabed") || forall j :: 0 <= j < i ==> turbine(paths[j]) != name)
  }

  ghost predicate RegistryOf(paths: seq<string>, turbine: string -> string, reg: seq<(string, string)>) {
    DistinctNames(reg)
    && (forall p :: p in paths ==> exists k :: 0 <= k < |reg| && reg[k].0 == turbine(p))
    && (forall k :: 0 <= k < |reg| ==> exists i: nat :: Kept(paths, turbine, reg[k].0, i) && reg[k].1 == paths[i])
  }

  /** The registry holds one entry per turbine, and that entry is the kept path. */
  lemma {:induction false} RegistryFacts(paths: seq<string>, turbine: string -> string)
    ensures RegistryOf(paths, turbine, Registry(paths, turbine))
    decreases |paths|
  {
    if |paths| > 0 {
      RegistryFacts(paths[..|paths| - 1], turbine);
      RegisterKeeps(paths, turbine, Registry(paths[..|paths| - 1], turbine));
    }
  }

  /** A later path of another turbine, or one without 'subseabed', leaves a
      kept path kept. */
  lemma KeptExtends(paths: seq<string>, turbine: string -> string, name: string, i: nat)
    requires |paths| > 0 && Kept(paths[..|paths| - 1], turbine, name, i)
    requires turbine(paths[|paths| - 1]) != name || !Contains(paths[|paths| - 1], "subseabed")
    ensures Kept(paths, turbine, name, i)
  {
    var n := |paths| - 1;
    forall j | i < j < |paths| && turbine(paths[j]) == name
      ensures !Contains(paths[j], "subseabed")
    {
      if j < n {
        assert paths[j] == paths[..n][j];
      }
    }
    forall j | 0 <= j < i
      ensures paths[j] == paths[..n][j]
    {
    }
  }

  lemma RegisterKeeps(paths: seq<string>, turbine: string -> string, prev: seq<(string, string)>)
    requires |paths| > 0 && RegistryOf(paths[..|paths| - 1], turbine, prev)
    ensures RegistryOf(paths, turbine, Register(prev, turbine(paths[|paths| - 1]), paths[|paths| - 1]))
  {
    RegisterCovers(paths, turbine, prev);
    RegisterKeepsKept(paths, turbine, prev);
  }

  /** After registering the last path every turbine of the paths has an entry. */
  lemma RegisterCovers(paths: seq<string>, turbine: string -> string, prev: seq<(string, string)>)
    requires |paths| > 0 && RegistryOf(paths[..|paths| - 1], turbine, prev)
    ensures var r := Register(prev, turbine(paths[|paths| - 1]), paths[|paths| - 1]);
      forall p :: p in paths ==> exists k :: 0 <= k < |r| && r[k].0 == turbine(p)
  {
    var n := |paths| - 1;
    var name := turbine(paths[n]);
    var i := FindName(prev, name);
    var r := Register(prev, name, paths[n]);
    assert |r| == if i == |prev| then |prev| + 1 else |prev|;
    assert forall k :: 0 <= k < |prev| ==> r[k].0 == prev[k].0;
    assert paths == paths[..n] + [paths[n]];
    forall p | p in paths
      ensures exists k :: 0 <= k < |r| && r[k].0 == turbine(p)
    {
      if p in paths[..n] {
        var k :| 0 <= k < |prev| && prev[k].0 == turbine(p);
        assert r[k].0 == prev[k].0;
      } else {
        assert p == paths[n];
        if i < |prev| {
          assert r[i].0 == name;
        } else {
          assert r[|prev|].0 == name;
        }
      }
    }
  }

  /** After registering the last path every entry holds the kept path of its
      turbine. */
  lemma RegisterKeepsKept(paths: seq<string>, turbine: string -> string, prev: seq<(string, string)>)
    requires |paths| > 0 && RegistryOf(paths[..|paths| - 1], turbine, prev)
    ensures var r := Register(prev, turbine(paths[|paths| - 1]), paths[|paths| - 1]);
      forall k :: 0 <= k < |r| ==> exists j: nat :: Kept(paths, turbine, r[k].0, j) && r[k].1 == paths[j]
  {
    var n := |paths| - 1;
    var name := turbine(paths[n]);
    var i := FindName(prev, name);
    var r := Register(prev, name, paths[n]);
    assert |r| == if i == |prev| then |prev| + 1 else |prev|;
    forall k | 0 <= k < |r|
      ensures exists j: nat :: Kept(paths, turbine, r[k].0, j) && r[k].1 == paths[j]
    {
      if k < |prev| && (k != i || !Contains(paths[n], "subseabed")) {
        assert r[k] == prev[k];
        UntouchedEntryKept(paths, turbine, prev, k);
      } else if k < |prev| {
        assert r[k] == (name, paths[n]);
        assert Kept(paths, turbine, name, n);
      } else {
        assert r[k] == (name, paths[n]);
        NewEntryKept(paths, turbine, prev);
      }
    }
  }

  /** An entry the last path does not replace still holds a kept path. */
  lemma UntouchedEntryKept(paths: seq<string>, turbine: string -> string, prev: seq<(string, string)>, k: nat)
    requires |paths| > 0 && RegistryOf(paths[..|paths| - 1], turbine, prev) && k < |prev|
    requires var name := turbine(paths[|paths| - 1]);
      k != FindName(prev, name) || !Contains(paths[|paths| - 1], "subseabed")
    ensures exists j: nat :: Kept(paths, turbine, prev[k].0, j) && prev[k].1 == paths[j]
  {
    var n := |paths| - 1;
    var j: nat :| Kept(paths[..n], turbine, prev[k].0, j) && prev[k].1 == paths[..n][j];
    KeptExtends(paths, turbine, prev[k].0, j);
  }

  /** The first path of a turbine not seen before is kept. */
  lemma NewEntryKept(paths: seq<string>, turbine: string -> string, prev: seq<(string, string)>)
    requires |paths| > 0 && RegistryOf(paths[..|paths| - 1], turbine, prev)
    requires FindName(prev, turbine(paths[|paths| - 1])) == |prev|
    ensures Kept(paths, turbine, turbine(paths[|paths| - 1]), |paths| - 1)
  {
    var n := |paths| - 1;
    var name := turbine(paths[n]);
    forall j | 0 <= j < n
      ensures turbine(paths[j]) != name
    {
      assert paths[j] in paths[..n];
    }
  }

  /** `list(registry.values())`. */
  function FilterPaths(paths: seq<string>, turbine: string -> string): (r: seq<string>)
    ensures |r| <= |paths|
  {
    var reg := Registry(paths, turbine);
    RegistryLength(paths, turbine);
    seq(|reg|, k requires 0 <= k < |reg| => reg[k].1)
  }

  lemma {:induction false} RegistryLength(paths: seq<string>, turbine: string -> string)
    ensures |Registry(paths, turbine)| <= |paths|
    decreases |paths|
  {
    if |paths| > 0 {
      RegistryLength(paths[..|paths| - 1], turbine);
    }
  }

  /** The filtered paths hold one path per turbine, every turbine is
      represented, and each path is the kept one for its turbine: the last
      'subseabed' path of the turbine if there is one, else its first path. */
  lemma FilterPathsCorrect(paths: seq<string>, turbine: string -> string)
    ensures var r := FilterPaths(paths, turbine);
      (forall p :: p in paths ==> exists k :: 0 <= k < |r| && turbine(r[k]) == turbine(p))
      && (forall k, l :: 0 <= k < l < |r| ==> turbine(r[k]) != turbine(r[l]))
      && (forall k :: 0 <= k < |r| ==> exists i: nat :: Kept(paths, turbine, turbine(r[k]), i) && r[k] == paths[i])
  {
    var reg := Registry(paths, turbine);
    var r := FilterPaths(paths, turbine);
    RegistryFacts(paths, turbine);
    forall k | 0 <= k < |reg|
      ensures turbine(r[k]) == reg[k].0
      ensures exists i: nat :: Kept(paths, turbine, turbine(r[k]), i) && r[k] == paths[i]
    {
      var i: nat :| Kept(paths, turbine, reg[k].0, i) && reg[k].1 == paths[i];
      assert r[k] == reg[k].1;
    }
  }

  /** A turbine's subseabed-scaled table supersedes its plain one, whichever
      comes first. */
  lemma SubseabedSupersedes(plain: string, scaled: string, turbine: string -> string)
    requires turbine(plain) == turbine(scaled)
    requires Contains(scaled, "subseabed") && !Contains(plain, "subseabed")
    ensures FilterPaths([plain, scaled], turbine) == [scaled]
    ensures FilterPaths([scaled, plain], turbine) == [scaled]
  {
    assert [plain, scaled][..1] == [plain];
    assert [scaled, plain][..1] == [scaled];
    assert [plain][..0] == [] && [scaled][..0] == [];
    assert Registry([plain], turbine) == [(turbine(plain), plain)];
    assert Registry([scaled], turbine) == [(turbine(scaled), scaled)];
  }

  // ---------------------------------------------------------------- file types

  datatype Reader = Csv | Json | Xml | Excel | Hdf | Sql

  /** `read_any_filetype`: the suffix checks in order; 'tsv' and 'xlsx' are
      matched without their dot. */
  function FileType(file: string): (r: Result<Reader>)
    ensures r == Ok(Csv) <==> EndsWith(file, ".csv") || EndsWith(file, "tsv")
    ensures r.Err? <==> !(EndsWith(file, ".csv") || EndsWith(file, "tsv") || EndsWith(file, ".json") || EndsWith(file, ".xml")
                          || EndsWith(file, ".xls") || EndsWith(file, "xlsx") || EndsWith(file, ".hdf") || EndsWith(file, ".sql"))
    ensures r.Err? ==> r.error == ValueError
    ensures r == Ok(Excel) ==> EndsWith(file, ".xls") || EndsWith(file, "xlsx")
  {
    if EndsWith(file, ".csv") || EndsWith(file, "tsv") then Ok(Csv)
    else if EndsWith(file, ".json") then Ok(Json)
    else if EndsWith(file, ".xml") then Ok(Xml)
    else if EndsWith(file, ".xls") || EndsWith(file, "xlsx") then Ok(Excel)
    else if EndsWith(file, ".hdf") then Ok(Hdf)
    else if EndsWith(file, ".sql") then Ok(Sql)
    else Err(ValueError)
  }

  /** Suffixes without a dot are accepted as they are: a name merely ending
      in 'tsv' is read as csv, one ending in 'xlsx' as Excel; '.txt' is
      refused. */
  lemma DotlessSuffixes()
    ensures FileType("lookup_tabletsv") == Ok(Csv)
    ensures FileType("lookup_tablexlsx") == Ok(Excel)
    ensures FileType("lookup_table.txt") == Err(ValueError)
  {
    assert EndsWith("lookup_tabletsv", "tsv");
    assert !EndsWith("lookup_tablexlsx", ".csv") && !EndsWith("lookup_tablexlsx", "tsv");
    assert !EndsWith("lookup_tablexlsx", ".json") && !EndsWith("lookup_tablexlsx", ".xml");
    assert !EndsWith("lookup_tablexlsx", ".xls") && EndsWith("lookup_tablexlsx", "xlsx");
  }

  // ---------------------------------------------------------------- damage files

  /** The 'python' and 'matlab' path templates of `calculate_lifetimes`; any
      other method name is a KeyError.  The matlab branch leaves the loaded
      damage as it is. */
  function DamagePath(how: string, dlc: string): (r: Result<string>)
    ensures r.Ok? <==> how == "python" || how == "matlab"
    ensures r.Err? ==> r.error == KeyError
    ensures r.Ok? ==> EndsWith(r.value, dlc + ".mat")
  {
    if how == "python" then Ok("C:\\Appl\\TDI\\getting_started\\fatpack_test\\output\\damage_DB_JLO_" + dlc + ".mat")
    else if how == "matlab" then Ok("C:\\Appl\\TDI\\getting_started\\fatpack_test\\output\\fatigue_DB_JLO_" + dlc + ".mat")
    else Err(KeyError)
  }

  /** `1 / (damage * factor)` with numpy's division. */
  function LifetimeOf(damage: real, factor: real): (l: ExtReal)
    ensures damage * factor != 0.0 ==> l.Finite? && l.v * (damage * factor) == 1.0
    ensures damage * factor == 0.0 ==> l.PosInf?
  {
    Divide(1.0, damage * factor)
  }

  /** The lifetimes of one row of total damage. */
  function ReciprocalRow(row: seq<real>, factor: real): (ls: seq<ExtReal>)
    ensures |ls| == |row| && forall a :: 0 <= a < |row| ==> ls[a] == LifetimeOf(row[a], factor)
  {
    seq(|row|, a requires 0 <= a < |row| => LifetimeOf(row[a], factor))
  }

  /** `1 / (total_damage * factor)` elementwise: 3.0 (the DFF) in the
      baseline script, 1.0 for the prototype's plain `1 / total_damage`. */
  function Reciprocals(total: Matrix, rows: nat, cols: nat, factor: real): (ls: seq<seq<ExtReal>>)
    requires IsShape(total, rows, cols)
    ensures |ls| == rows && forall g :: 0 <= g < rows ==> |ls[g]| == cols
    ensures forall g, a :: 0 <= g < rows && 0 <= a < cols ==> ls[g][a] == LifetimeOf(total[g][a], factor)
  {
    seq(rows, g requires 0 <= g < rows => ReciprocalRow(total[g], factor))
  }

  /** `calculate_lifetimes`: the combined damage tables of the DLCs summed
      (the first table fixes the shape) and turned into lifetimes. */
  function CalculateLifetimes(combined: seq<Matrix>, rows: nat, cols: nat, factor: real): (r: Result<seq<seq<ExtReal>>>)
    ensures r.Ok? <==> IsTensor(combined, |combined|, rows, cols)
    ensures r.Err? ==> r.error == OutsideModel
    ensures r.Ok? ==> |r.value| == rows && forall g :: 0 <= g < rows ==> |r.value[g]| == cols
    ensures r.Ok? ==> forall g, a :: 0 <= g < rows && 0 <= a < cols ==>
      r.value[g][a] == LifetimeOf(Sum(Aggregation.Column(combined, rows, cols, g, a)), factor)
  {
    var total :- Aggregation.Total(combined, rows, cols);
    Ok(Reciprocals(total, rows, cols, factor))
  }

  /** The DLC order does not change any lifetime. */
  lemma LifetimesOrderFree(combined: seq<Matrix>, others: seq<Matrix>, rows: nat, cols: nat, factor: real)
    requires multiset(combined) == multiset(others)
    requires IsTensor(combined, |combined|, rows, cols)
    ensures CalculateLifetimes(combined, rows, cols, factor) == CalculateLifetimes(others, rows, cols, factor)
  {
    Aggregation.TotalOrderFree(combined, others, rows, cols);
  }

  // ---------------------------------------------------------------- worst row

  /** numpy's `argmin` order on floats: a nan is taken at once, otherwise the
      order of the extended line, so an infinite lifetime loses to every
      finite one. */
  predicate NoLarger(a: ExtReal, b: ExtReal) {
    a.NaN? || (!b.NaN? && LessEq(a, b))
  }

  lemma NoLargerTotal(a: ExtReal, b: ExtReal)
    ensures NoLarger(a, b) || NoLarger(b, a)
  {
  }

  lemma NoLargerTransitive(a: ExtReal, b: ExtReal, c: ExtReal)
    requires NoLarger(a, b) && NoLarger(b, c)
    ensures NoLarger(a, c)
  {
  }

  /** `row.argmin()`: the first position holding a smallest value. */
  function RowArgMin(row: seq<ExtReal>): (c: nat)
    requires |row| > 0
    ensures c < |row|
    ensures forall j :: 0 <= j < |row| ==> NoLarger(row[c], row[j])
    ensures forall j :: 0 <= j < c ==> !NoLarger(row[j], row[c])
    decreases |row|
  {
    if |row| == 1 then 0
    else
      var init := row[..|row| - 1];
      var k := RowArgMin(init);
      var last := |row| - 1;
      assert forall j :: 0 <= j < last ==> init[j] == row[j];
      if NoLarger(row[k], row[last]) then k
      else
        NoLargerTotal(row[k], row[last]);
        forall j | 0 <= j < last
          ensures NoLarger(row[last], row[j]) && !NoLarger(row[j], row[last])
        {
          NoLargerTransitive(row[last], row[k], row[j]);
          if NoLarger(row[j], row[last]) {
            NoLargerTransitive(row[k], row[j], row[last]);
          }
        }
        last
  }

  /** The position (g, c) holds a smallest value of the table, and no
      earlier position in row-major order does. */
  predicate FirstLeast(ls: seq<seq<ExtReal>>, rows: nat, cols: nat, g: nat, c: nat)
    requires |ls| == rows && forall r :: 0 <= r < rows ==> |ls[r]| == cols
  {
    g < rows && c < cols
    && (forall r, a :: 0 <= r < rows && 0 <= a < cols ==> NoLarger(ls[g][c], ls[r][a]))
    && (forall r, a :: 0 <= r < rows && 0 <= a < cols && (r < g || (r == g && a < c)) ==>
          !NoLarger(ls[r][a], ls[g][c]))
  }

  /** `divmod(ls.argmin(), ls.shape[1])`: the row and column of the first
      smallest value in row-major order. */
  function GridArgMin(ls: seq<seq<ExtReal>>, rows: nat, cols: nat): (p: (nat, nat))
    requires |ls| == rows && rows > 0 && cols > 0 && forall r :: 0 <= r < rows ==> |ls[r]| == cols
    ensures FirstLeast(ls, rows, cols, p.0, p.1)
    decreases rows
  {
    var last := rows - 1;
    var c := RowArgMin(ls[last]);
    if rows == 1 then (0, c)
    else
      var init := ls[..last];
      var q := GridArgMin(init, last, cols);
      assert forall r :: 0 <= r < last ==> init[r] == ls[r];
      if NoLarger(ls[q.0][q.1], ls[last][c]) then
        forall r, a | 0 <= r < rows && 0 <= a < cols
          ensures NoLarger(ls[q.0][q.1], ls[r][a])
        {
          if r == last {
            NoLargerTransitive(ls[q.0][q.1], ls[last][c], ls[r][a]);
          }
        }
        q
      else
        NoLargerTotal(ls[q.0][q.1], ls[last][c]);
        forall r, a | 0 <= r < rows && 0 <= a < cols
          ensures NoLarger(ls[last][c], ls[r][a])
          ensures (r < last || a < c) ==> !NoLarger(ls[r][a], ls[last][c])
        {
          if r < last {
            NoLargerTransitive(ls[last][c], ls[q.0][q.1], ls[r][a]);
            if NoLarger(ls[r][a], ls[last][c]) {
              NoLargerTransitive(ls[q.0][q.1], ls[r][a], ls[last][c]);
            }
          }
        }
        (last, c)
  }

  /** `divmod(lifetimes.argmin(), lifetimes.shape[1])[0]` of
      `create_overall_lookuptable`, the lifetimes being `1 / (total * DFF)`:
      numpy raises ValueError on an empty table. With non-negative totals
      and a positive DFF it is the row of the first largest total damage,
      a zero total counting as an infinite lifetime. */
  function WorstLifetimeRow(total: Matrix, rows: nat, cols: nat, factor: real): (r: Result<nat>)
    requires IsShape(total, rows, cols)
    ensures r.Err? <==> rows == 0 || cols == 0
    ensures r.Err? ==> r.error == ValueError
    ensures r.Ok? ==> exists c :: 0 <= c < cols && FirstLeast(Reciprocals(total, rows, cols, factor), rows, cols, r.value, c)
    ensures r.Ok? && factor > 0.0 && (forall g, a :: 0 <= g < rows && 0 <= a < cols ==> total[g][a] >= 0.0) ==>
      r.value == FlatArgMax(total, rows, cols).0
  {
    if rows == 0 || cols == 0 then Err(ValueError)
    else
      var p := GridArgMin(Reciprocals(total, rows, cols, factor), rows, cols);
      assert factor > 0.0 && (forall g, a :: 0 <= g < rows && 0 <= a < cols ==> total[g][a] >= 0.0) ==>
        p == FlatArgMax(total, rows, cols) by {
        if factor > 0.0 && forall g, a :: 0 <= g < rows && 0 <= a < cols ==> total[g][a] >= 0.0 {
          LeastLifetimeIsMostDamage(total, rows, cols, factor);
        }
      }
      Ok(p.0)
  }

  /** `damage[:, worst_elevation_idx, :]`: the 10-minute damage of every
      case at the row of the smallest lifetime. */
  function WorstRowDamage(damage: seq<Matrix>, total: Matrix, rows: nat, cols: nat, factor: real): (t: Result<Matrix>)
    requires IsTensor(damage, |damage|, rows, cols)
    requires IsShape(total, rows, cols)
    ensures t.Err? <==> rows == 0 || cols == 0
    ensures t.Err? ==> t.error == ValueError
    ensures t.Ok? ==> IsShape(t.value, |damage|, cols)
    ensures t.Ok? ==> forall c, a :: 0 <= c < |damage| && 0 <= a < cols ==>
      t.value[c][a] == damage[c][WorstLifetimeRow(total, rows, cols, factor).value][a]
    ensures t.Ok? && factor > 0.0 && (forall g, a :: 0 <= g < rows && 0 <= a < cols ==> total[g][a] >= 0.0) ==>
      forall c, a :: 0 <= c < |damage| && 0 <= a < cols ==> t.value[c][a] == damage[c][FlatArgMax(total, rows, cols).0][a]
  {
    var g :- WorstLifetimeRow(total, rows, cols, factor);
    Ok(seq(|damage|, c requires 0 <= c < |damage| => damage[c][g]))
  }

  /** The first smallest lifetime and the first largest total damage sit at
      the same position, zero totals (infinite lifetimes) included. */
  lemma {:induction false} LeastLifetimeIsMostDamage(total: Matrix, rows: nat, cols: nat, factor: real)
    requires IsShape(total, rows, cols) && rows > 0 && cols > 0 && factor > 0.0
    requires forall g, a :: 0 <= g < rows && 0 <= a < cols ==> total[g][a] >= 0.0
    ensures GridArgMin(Reciprocals(total, rows, cols, factor), rows, cols) == FlatArgMax(total, rows, cols)
  {
    var ls := Reciprocals(total, rows, cols, factor);
    var p := GridArgMin(ls, rows, cols);
    forall r, c | 0 <= r < rows && 0 <= c < cols
      ensures total[r][c] <= total[p.0][p.1]
      ensures (r < p.0 || (r == p.0 && c < p.1)) ==> total[r][c] < total[p.0][p.1]
    {
      LifetimeOrder(total[p.0][p.1], total[r][c], factor);
      LifetimeOrder(total[r][c], total[p.0][p.1], factor);
    }
    FlatMaxUnique(total, rows, cols, p, FlatArgMax(total, rows, cols));
  }

  /** Two positions that are both "largest, and strictly larger than every
      earlier entry" coincide. */
  lemma FlatMaxUnique(m: Matrix, rows: nat, cols: nat, p: (nat, nat), q: (nat, nat))
    requires IsShape(m, rows, cols) && p.0 < rows && p.1 < cols && q.0 < rows && q.1 < cols
    requires forall r, c :: 0 <= r < rows && 0 <= c < cols ==> m[r][c] <= m[p.0][p.1] && m[r][c] <= m[q.0][q.1]
    requires forall r, c :: 0 <= r < rows && 0 <= c < cols && (r < p.0 || (r == p.0 && c < p.1)) ==> m[r][c] < m[p.0][p.1]
    requires forall r, c :: 0 <= r < rows && 0 <= c < cols && (r < q.0 || (r == q.0 && c < q.1)) ==> m[r][c] < m[q.0][q.1]
    ensures p == q
  {
    assert m[p.0][p.1] == m[q.0][q.1];
  }

  /** `1 / (total * DFF)` reverses the order of non-negative totals, a zero
      total giving the infinite lifetime that every finite one beats. */
  lemma LifetimeOrder(x: real, y: real, f: real)
    requires x >= 0.0 && y >= 0.0 && f > 0.0
    ensures NoLarger(LifetimeOf(x, f), LifetimeOf(y, f)) <==> y <= x
  {
    if x > 0.0 && y > 0.0 {
      ReciprocalOrder(x, y, f);
      ReciprocalOrder(y, x, f);
    }
  }

  /** `1 / (x * f)` reverses the order of positive values. */
  lemma ReciprocalOrder(x: real, y: real, f: real)
    requires x > 0.0 && y > 0.0 && f > 0.0
    ensures 1.0 / (y * f) < 1.0 / (x * f) ==> x < y
    ensures 1.0 / (y * f) <= 1.0 / (x * f) ==> x <= y
  {
    var a := x * f;
    var b := y * f;
    assert a > 0.0 && b > 0.0;
    assert x < y <==> a < b;
    assert 1.0 / b < 1.0 / a <==> a < b by {
      assert (1.0 / b) * a * b == a && (1.0 / a) * a * b == b;
    }
  }
}

=== FILE: lookup_tables.dfy ===
/** DEM-scaled damage per case and the fatigue lookup table
    (`fatigue_lookup_table.py`, `calculate_damage_and_fatigue_table.py`,
    `create_fatigue_lookup_table.py`): the markov moment cycles of the
    member closest to the worst elevation are scaled by the DEM factor,
    turned into hotspot stress cycles per sector, and the miner sum times the
    DFF is stored per case and sector, one table per DLC.
 */
module LookupTables {
  import opened Outcomes
  import opened Seqs
  import opened Text
  import opened Cycles
  import Sections

  /** `DLC_IDs` of both scripts. */
  const DlcIds: seq<string> := ["DLC12", "DLC24a", "DLC31", "DLC41a", "DLC41b", "DLC64a", "DLC64b"]
  /** `T_lifetime`, `N_equivalent`, the default `DFF` and `wohler_exp`. */
  const Lifetime: real := 25.75
  const NEquivalent: real := 10000000.0
  const DefaultDff: real := 3.0
  const WohlerExp: real := 5.0

  // ---------------------------------------------------------------- case damage

  /** The fields of the cross-section record the case damage reads;
      `gritblast` is None when the record has no such key. */
  datatype CrossSection = CrossSection(z: real, scfPerPoint: seq<real>, gritblast: Option<real>, alpha: real)

  /** The record `create_geo_matrix` builds carries no 'gritblast' key. */
  function CrossSectionOfRecord(g: Sections.GeoRecord): (c: CrossSection)
    ensures c.gritblast.None? && c.z == g.z && c.scfPerPoint == g.scfPerPoint && c.alpha == g.alpha
  {
    CrossSection(g.z, g.scfPerPoint, None, g.alpha)
  }

  /** One stress cycle in MPa from one moment cycle:
      `range * factor / Z * scf * gritblast * alpha * 1e-6`, count kept. */
  function StressCycle(c: Cycle, factor: real, z: real, scf: real, gritblast: real, alpha: real): Cycle
    requires z != 0.0
  {
    Cycle(c.range * factor / z * scf * gritblast * alpha * 0.000001, c.count)
  }

  /** The stress cycles of one sector. */
  function SectorStress(cycles: seq<Cycle>, factor: real, z: real, scf: real, gritblast: real, alpha: real): (r: seq<Cycle>)
    requires z != 0.0
    ensures |r| == |cycles|
    ensures forall i :: 0 <= i < |cycles| ==> r[i] == StressCycle(cycles[i], factor, z, scf, gritblast, alpha)
  {
    seq(|cycles|, i requires 0 <= i < |cycles| => StressCycle(cycles[i], factor, z, scf, gritblast, alpha))
  }

  /** `calculate_unweighted_damage_case_i` (and its twin
      `calculate_damage_scaled_by_DEM_case_i`): per sector the miner sum of
      the scaled stress cycles times the DFF.  A missing 'gritblast' key
      raises KeyError; a zero section modulus gives non-finite stresses; an
      SCF list whose length differs from the number of sectors does not
      broadcast. */
  function CaseDamage(miner: seq<Cycle> -> real, moments: seq<seq<Cycle>>, factor: real, cs: CrossSection, dff: real): (r: Result<seq<real>>)
    ensures r.Ok? <==> cs.z != 0.0 && cs.gritblast.Some? && |cs.scfPerPoint| == |moments|
    ensures cs.gritblast.None? && cs.z != 0.0 ==> r == Err(KeyError)
    ensures r.Ok? ==> |r.value| == |moments|
    ensures r.Ok? ==> forall s :: 0 <= s < |moments| ==>
      r.value[s] == miner(SectorStress(moments[s], factor, cs.z, cs.scfPerPoint[s], cs.gritblast.value, cs.alpha)) * dff
  {
    if cs.z == 0.0 then Err(NonFinite)
    else if cs.gritblast.None? then Err(KeyError)
    else if |cs.scfPerPoint| != |moments| then Err(OutsideModel)
    else
      Ok(seq(|moments|, s requires 0 <= s < |moments| =>
        miner(SectorStress(moments[s], factor, cs.z, cs.scfPerPoint[s], cs.gritblast.value, cs.alpha)) * dff))
  }

  /** The stress cycles keep the counts of the moment cycles, so the number
      of cycles the miner sum sees is the markov matrix's own. */
  lemma SectorStressKeepsCounts(cycles: seq<Cycle>, factor: real, z: real, scf: real, gritblast: real, alpha: real)
    requires z != 0.0
    ensures TotalCount(SectorStress(cycles, factor, z, scf, gritblast, alpha)) == TotalCount(cycles)
  {
    SameCountsTotal(SectorStress(cycles, factor, z, scf, gritblast, alpha), cycles);
  }

  /** Scaling the moment ranges beforehand is the same as passing the factor:
      the DEM factor acts on the ranges only. */
  lemma FactorActsOnRanges(miner: seq<Cycle> -> real, moments: seq<seq<Cycle>>, factor: real, cs: CrossSection, dff: real)
    ensures CaseDamage(miner, moments, factor, cs, dff) ==
            CaseDamage(miner, seq(|moments|, s requires 0 <= s < |moments| => ScaleRanges(moments[s], factor)), 1.0, cs, dff)
  {
    var scaled := seq(|moments|, s requires 0 <= s < |moments| => ScaleRanges(moments[s], factor));
    if cs.z != 0.0 && cs.gritblast.Some? && |cs.scfPerPoint| == |moments| {
      var a := CaseDamage(miner, moments, factor, cs, dff).value;
      var b := CaseDamage(miner, scaled, 1.0, cs, dff).value;
      forall s | 0 <= s < |moments|
        ensures a[s] == b[s]
      {
        var g := cs.gritblast.value;
        var x := SectorStress(moments[s], factor, cs.z, cs.scfPerPoint[s], g, cs.alpha);
        var y := SectorStress(scaled[s], 1.0, cs.z, cs.scfPerPoint[s], g, cs.alpha);
        forall i | 0 <= i < |x|
          ensures x[i] == y[i]
        {
          assert scaled[s][i].range * 1.0 == moments[s][i].range * factor;
        }
        assert x == y;
      }
      assert a == b;
    }
  }

  /** Passing a `create_geo_matrix` record as the cross section raises
      KeyError at the gritblast lookup, for every section with a nonzero
      modulus. */
  lemma RecordRaisesKeyError(miner: seq<Cycle> -> real, moments: seq<seq<Cycle>>, factor: real, g: Sections.GeoRecord, dff: real)
    requires g.z != 0.0
    ensures CaseDamage(miner, moments, factor, CrossSectionOfRecord(g), dff) == Err(KeyError)
  {
  }

  /** The argument tuples of `calculate_damage_and_fatigue_table.py` carry
      three elements, so the DFF keeps its default 3.0; those of
      `fatigue_lookup_table.py` carry the worst row's rule DFF. */
  function ArgumentDff(given: Option<real>): (dff: real)
    ensures given.None? ==> dff == DefaultDff
    ensures given.Some? ==> dff == given.value
  {
    if given.None? then DefaultDff else given.value
  }

  // ---------------------------------------------------------------- worst elevation

  /** A row of `util_rule_vs_report.xlsx`. */
  datatype UtilRow = UtilRow(miner: real, ruleDff: real, inPlace: real, memberClosest: int, scalingFactor: real)

  function RuleUtilizations(rows: seq<UtilRow>): (us: seq<real>)
    ensures |us| == |rows| && forall i :: 0 <= i < |rows| ==> us[i] == rows[i].miner * rows[i].ruleDff * 100.0
  {
    seq(|rows|, i requires 0 <= i < |rows| => rows[i].miner * rows[i].ruleDff * 100.0)
  }

  function InPlace(rows: seq<UtilRow>): (us: seq<real>)
    ensures |us| == |rows| && forall i :: 0 <= i < |rows| ==> us[i] == rows[i].inPlace
  {
    seq(|rows|, i requires 0 <= i < |rows| => rows[i].inPlace)
  }

  /** Which utilisation picks the worst elevation: the rule's
      (`fatigue_lookup_table.py`) or the report's
      (`calculate_damage_and_fatigue_table.py`). */
  datatype Criterion = ByRule | ByReport

  /** The position of the worst elevation: the first largest utilisation of
      the criterion; an empty table has no argmax. */
  function WorstElevation(rows: seq<UtilRow>, c: Criterion): (r: Result<nat>)
    ensures r.Ok? <==> |rows| > 0
    ensures r.Err? ==> r.error == ValueError
    ensures r.Ok? && c.ByRule? ==> r.value < |rows| && forall i :: 0 <= i < |rows| ==>
      rows[i].miner * rows[i].ruleDff * 100.0 <= rows[r.value].miner * rows[r.value].ruleDff * 100.0
    ensures r.Ok? && c.ByRule? ==> forall i :: 0 <= i < r.value ==>
      rows[i].miner * rows[i].ruleDff * 100.0 < rows[r.value].miner * rows[r.value].ruleDff * 100.0
    ensures r.Ok? && c.ByReport? ==> r.value < |rows| && forall i :: 0 <= i < |rows| ==> rows[i].inPlace <= rows[r.value].inPlace
    ensures r.Ok? && c.ByReport? ==> forall i :: 0 <= i < r.value ==> rows[i].inPlace < rows[r.value].inPlace
  {
    if |rows| == 0 then Err(ValueError)
    else if c.ByRule? then Ok(ArgMax(RuleUtilizations(rows)))
    else Ok(ArgMax(InPlace(rows)))
  }

  /** What the damage step takes from the worst elevation: its cross section
      (looked up by position in the geometry records, KeyError past their
      end), the closest member, the DEM scaling factor and the DFF (the
      row's rule DFF, overriding the module's 3.0, for the rule criterion). */
  datatype Selection = Selection(section: nat, member: int, factor: real, dff: Option<real>)

  function SelectWorst(rows: seq<UtilRow>, nRecords: nat, c: Criterion): (r: Result<Selection>)
    ensures r.Ok? <==> |rows| > 0 && WorstElevation(rows, c).value < nRecords
    ensures r.Ok? ==> var w := WorstElevation(rows, c).value;
      r.value == Selection(w, rows[w].memberClosest, rows[w].scalingFactor,
                           if c.ByRule? then Some(rows[w].ruleDff) else None)
  {
    var w :- WorstElevation(rows, c);
    if w >= nRecords then Err(KeyError)
    else Ok(Selection(w, rows[w].memberClosest, rows[w].scalingFactor, if c.ByRule? then Some(rows[w].ruleDff) else None))
  }

  /** The two scripts pick the same elevation when the rule and the report
      rank the rows alike. */
  lemma CriteriaAgree(rows: seq<UtilRow>)
    requires |rows| > 0
    requires forall i, j :: 0 <= i < |rows| && 0 <= j < |rows| ==>
      (rows[i].inPlace < rows[j].inPlace <==> RuleUtilizations(rows)[i] < RuleUtilizations(rows)[j])
    ensures WorstElevation(rows, ByRule) == WorstElevation(rows, ByReport)
  {
    var us := RuleUtilizations(rows);
    var ps := InPlace(rows);
    var b := ArgMax(ps);
    forall j | 0 <= j < |rows|
      ensures us[j] <= us[b]
    {
      assert !(ps[b] < ps[j]);
    }
    forall j | 0 <= j < b
      ensures us[j] < us[b]
    {
      assert ps[j] < ps[b];
    }
    ArgMaxUnique(us, b);
  }

  // ---------------------------------------------------------------- per DLC

  /** `damages_per_case_DLC_i[case_i, :] = damage`: a row of the sector
      count is stored as is, a single value is broadcast along the row, any
      other length does not fit. */
  function AssignRow(damage: seq<real>, width: nat): (r: Result<seq<real>>)
    ensures r.Ok? <==> |damage| == width || |damage| == 1
    ensures r.Ok? ==> |r.value| == width
    ensures |damage| == width ==> r == Ok(damage)
    ensures |damage| == 1 && r.Ok? ==> forall j :: 0 <= j < width ==> r.value[j] == damage[0]
    ensures r.Err? ==> r.error == ValueError
  {
    if |damage| == width then Ok(damage)
    else if |damage| == 1 then Ok(seq(width, j requires 0 <= j < width => damage[0]))
    else Err(ValueError)
  }

  /** The damage table of one DLC: case i reads the i-th matched file, for
      every case of the DLC sheet; a sheet with more cases than matched
      files raises IndexError. */
  function DlcDamages(miner: seq<Cycle> -> real, load: string -> seq<seq<Cycle>>, paths: seq<string>, nCases: nat,
                      factor: real, cs: CrossSection, dff: real, nSectors: nat): (r: Result<Matrix>)
    ensures nCases > |paths| ==> r == Err(IndexError)
    ensures r.Ok? ==> IsShape(r.value, nCases, nSectors)
    ensures r.Ok? ==> forall i :: 0 <= i < nCases ==>
      var d := CaseDamage(miner, load(paths[i]), factor, cs, dff);
      d.Ok? && AssignRow(d.value, nSectors) == Ok(r.value[i])
  {
    if nCases > |paths| then Err(IndexError)
    else
      var rows :- MapResult(paths[..nCases], (p: string) =>
        var d :- CaseDamage(miner, load(p), factor, cs, dff);
        AssignRow(d, nSectors));
      assert forall i :: 0 <= i < nCases ==> paths[..nCases][i] == paths[i];
      Ok(rows)
  }

  // ---------------------------------------------------------------- table layout

  /** The column names of `create_fatigue_table_DLC_i`, in order. */
  function TableColumns(nSectors: nat): (cols: seq<string>)
    ensures |cols| == 3 + nSectors
    ensures cols[0] == "DLC" && cols[1] == "case_no" && cols[2] == "probs"
    ensures forall j :: 0 <= j < nSectors ==> cols[3 + j] == "dmg_sector_" + NatToString(j)
  {
    ["DLC", "case_no", "probs"] + seq(nSectors, j requires 0 <= j < nSectors => "dmg_sector_" + NatToString(j))
  }

  /** One row of the table; None is pandas' NaN left by the outer join. */
  datatype TableRow = TableRow(dlc: Option<string>, caseNo: Option<nat>, prob: Option<real>, damage: seq<Option<real>>)

  function Cell<T>(present: bool, v: T): Option<T> {
    if present then Some(v) else None
  }

  /** `create_fatigue_table_DLC_i(damage, dlc_id, probs)`: four frames put
      side by side on their row index, so the table has as many rows as the
      longer of the damage and the probabilities, and a shorter frame leaves
      NaN.  The DLC column has one entry per row of the damage frame, which
      has no rows at all when there are no sectors. */
  function FatigueTable(damage: Matrix, nCases: nat, nSectors: nat, dlc: string, probs: seq<real>): (t: seq<TableRow>)
    requires IsShape(damage, nCases, nSectors)
    ensures |t| == if nCases >= |probs| then nCases else |probs|
    ensures forall i :: 0 <= i < |t| ==> |t[i].damage| == nSectors
    ensures forall i :: 0 <= i < |t| ==> (t[i].caseNo.Some? <==> i < nCases) && (i < nCases ==> t[i].caseNo.value == i)
    ensures forall i :: 0 <= i < |t| ==> (t[i].prob.Some? <==> i < |probs|) && (i < |probs| ==> t[i].prob.value == probs[i])
    ensures forall i :: 0 <= i < |t| ==> (t[i].dlc.Some? <==> i < nCases && nSectors > 0) && (t[i].dlc.Some? ==> t[i].dlc.value == dlc)
    ensures forall i, j :: 0 <= i < |t| && 0 <= j < nSectors ==>
      (t[i].damage[j].Some? <==> i < nCases) && (i < nCases ==> t[i].damage[j].value == damage[i][j])
  {
    var n := if nCases >= |probs| then nCases else |probs|;
    seq(n, i requires 0 <= i < n =>
      TableRow(Cell(i < nCases && nSectors > 0, dlc),
               Cell(i < nCases, i),
               if i < |probs| then Some(probs[i]) else None,
               seq(nSectors, j requires 0 <= j < nSectors => if i < nCases then Some(damage[i][j]) else None)))
  }

  /** With one probability per case and at least one sector every cell is
      filled: row i is (dlc, i, probs[i], damage[i]). */
  lemma FatigueTableComplete(damage: Matrix, nCases: nat, nSectors: nat, dlc: string, probs: seq<real>)
    requires IsShape(damage, nCases, nSectors) && |probs| == nCases && nSectors > 0
    ensures var t := FatigueTable(damage, nCases, nSectors, dlc, probs);
      |t| == nCases && forall i :: 0 <= i < nCases ==>
        t[i].dlc == Some(dlc) && t[i].caseNo == Some(i) && t[i].prob == Some(probs[i])
        && forall j :: 0 <= j < nSectors ==> t[i].damage[j] == Some(damage[i][j])
  {
  }

  /** `pd.concat(out_dfs, axis=0)`: the DLC tables stacked in DLC order. */
  function OverallTable(tables: seq<seq<TableRow>>): (t: seq<TableRow>)
    ensures |tables| > 0 ==> t == tables[0] + OverallTable(tables[1..])
    decreases |tables|
  {
    if |tables| == 0 then [] else tables[0] + OverallTable(tables[1..])
  }

  /** Stacking keeps every row: the overall table is as long as the DLC
      tables together, in DLC order. */
  lemma {:induction false} OverallTableConcat(a: seq<seq<TableRow>>, b: seq<seq<TableRow>>)
    ensures OverallTable(a + b) == OverallTable(a) + OverallTable(b)
    decreases |a|
  {
    if |a| == 0 {
      assert a + b == b;
    } else {
      assert (a + b)[1..] == a[1..] + b;
      OverallTableConcat(a[1..], b);
    }
  }

  // ---------------------------------------------------------------- scripts

  /** Importing either script fails: `fatigue_lookup_table.py` imports
      `get_files_in_dir_matching_identifier`, which `parse_markov_matrices.py`
      does not define (it defines the `_natsorted` variant), and
      `calculate_damage_and_fatigue_table.py` imports
      `get_markov_files_paths`, which `markov_parser.py` does not define. */
  datatype Script = LookupTableScript | DamageAndFatigueTableScript

  const ParseMarkovMatricesNames: set<string> := {
    "get_files_in_dir_matching_identifier_natsorted",
    "open_npy_cycle_file_and_scale_counts",
    "get_all_moment_cycles_weighted_by_probs_member_i",
    "parse_markov_files_cluster_i", "concatenate_all_DBA_markov_matrices"}
  const MarkovParserNames: set<string> := {
    "find_markov_file_paths", "open_range_json_and_scale_counts",
    "add_contents_of_list_of_dataframes", "parse_markov_files"}

  function Imported(s: Script): (p: (string, set<string>))
  {
    match s
    case LookupTableScript => ("get_files_in_dir_matching_identifier", ParseMarkovMatricesNames)
    case DamageAndFatigueTableScript => ("get_markov_files_paths", MarkovParserNames)
  }

  /** `from module import name`: ImportError when the module lacks the name. */
  function ImportName(name: string, defined: set<string>): (r: Result<()>)
    ensures r.Ok? <==> name in defined
    ensures r.Err? ==> r.error == ImportError
  {
    if name in defined then Ok(()) else Err(ImportError)
  }

  lemma ScriptsFailToImport(s: Script)
    ensures ImportName(Imported(s).0, Imported(s).1) == Err(ImportError)
  {
    var name := Imported(s).0;
    if s.LookupTableScript? {
      assert name != "get_files_in_dir_matching_identifier_natsorted" by {
        assert |name| != |"get_files_in_dir_matching_identifier_natsorted"|;
      }
      assert name != "open_npy_cycle_file_and_scale_counts" by { assert name[0] != 'o'; }
      assert name != "get_all_moment_cycles_weighted_by_probs_member_i" by { assert name[4] != 'a'; }
      assert name != "parse_markov_files_cluster_i" by { assert name[0] != 'p'; }
      assert name != "concatenate_all_DBA_markov_matrices" by { assert name[0] != 'c'; }
    } else {
      assert name != "find_markov_file_paths" by { assert name[0] != 'f'; }
      assert name != "open_range_json_and_scale_counts" by { assert name[0] != 'o'; }
      assert name != "add_contents_of_list_of_dataframes" by { assert name[0] != 'a'; }
      assert name != "parse_markov_files" by { assert name[0] != 'p'; }
    }
  }

  /** `calculate_damage_from_DEM_scale` calls `create_geo_matrix` with two
      arguments (line 63 of `fatigue_lookup_table.py`, line 59 of
      `calculate_damage_and_fatigue_table.py`), which raises TypeError. */
  lemma DamageFromDemScaleRaises(m: Numerics.Maths, rows: seq<Sections.GeometryRow>, sectors: seq<real>)
    ensures Sections.CreateGeoMatrixCall(m, rows, sectors, None) == Err(TypeError)
  {
  }
}

=== FILE: markov_matrices.dfy ===
/** Per-member markov matrices from stored rainflow cycles
    (`parse_markov_matrices.py`): every case's cycles get their counts
    weighted by the case probability and the 10-minute-to-hour factor 6, then
    all cases of a DLC and all DLCs are concatenated along the cycle axis.
 */
module MarkovMatrices {
  import opened Outcomes
  import opened Seqs
  import opened Text
  import opened Cycles

  /** One stored array `(n_sectors, n_cycles, 2)`: the cycles of every sector. */
  type SectorCycles = seq<seq<Cycle>>

  /** `[dir + '\\' + name for name in listing if identifier in name]`, in
      listing order. */
  function FilesMatching(dir: string, identifier: string, listing: seq<string>): (r: seq<string>)
    ensures |r| <= |listing|
    ensures forall p :: p in r ==> exists n :: n in listing && Contains(n, identifier) && p == dir + "\\" + n
    ensures forall n :: n in listing && Contains(n, identifier) ==> dir + "\\" + n in r
    decreases |listing|
  {
    if |listing| == 0 then []
    else
      var rest := FilesMatching(dir, identifier, listing[1..]);
      assert forall n :: n in listing[1..] ==> n in listing;
      if Contains(listing[0], identifier) then [dir + "\\" + listing[0]] + rest else rest
  }

  /** Filtering keeps the listing's order: a split listing filters to the
      two filtered halves, one after the other. */
  lemma {:induction false} FilesMatchingConcat(dir: string, identifier: string, a: seq<string>, b: seq<string>)
    ensures FilesMatching(dir, identifier, a + b) == FilesMatching(dir, identifier, a) + FilesMatching(dir, identifier, b)
    decreases |a|
  {
    if |a| == 0 {
      assert a + b == b;
    } else {
      assert (a + b)[1..] == a[1..] + b;
      FilesMatchingConcat(dir, identifier, a[1..], b);
    }
  }

  /** `fr'DB_{cluster}_{DLC}cycles_member{member}'`. */
  function Identifier(cluster: string, dlc: string, member: int): string {
    "DB_" + cluster + "_" + dlc + "cycles_member" + IntToString(member)
  }

  /** `open_npy_cycle_file_and_scale_counts`: counts times `weight * 6.0`,
      ranges and the shape untouched. */
  function ScaleCase(cycles: SectorCycles, weight: real): (r: SectorCycles)
    ensures |r| == |cycles|
    ensures forall s :: 0 <= s < |cycles| ==> |r[s]| == |cycles[s]|
    ensures forall s, i :: 0 <= s < |cycles| && 0 <= i < |cycles[s]| ==>
      r[s][i].range == cycles[s][i].range && r[s][i].count == cycles[s][i].count * (weight * 6.0)
  {
    seq(|cycles|, s requires 0 <= s < |cycles| => ScaleCounts(cycles[s], weight * 6.0))
  }

  /** Scaling a case scales each sector's total count by `6 * weight`. */
  lemma ScaleCaseTotal(cycles: SectorCycles, weight: real, s: nat)
    requires s < |cycles|
    ensures TotalCount(ScaleCase(cycles, weight)[s]) == weight * 6.0 * TotalCount(cycles[s])
  {
    assert ScaleCase(cycles, weight)[s] == ScaleCounts(cycles[s], weight * 6.0);
    TotalCountScale(cycles[s], weight * 6.0);
  }

  predicate SameSectors(blocks: seq<SectorCycles>, n: nat) {
    forall k :: 0 <= k < |blocks| ==> |blocks[k]| == n
  }

  /** Sector `s` of every block, one block after the other. */
  function Joined(blocks: seq<SectorCycles>, s: nat): seq<Cycle>
    requires forall k :: 0 <= k < |blocks| ==> s < |blocks[k]|
    decreases |blocks|
  {
    if |blocks| == 0 then [] else blocks[0][s] + Joined(blocks[1..], s)
  }

  /** Joining a split list of blocks joins the two halves in order. */
  lemma {:induction false} JoinedConcat(a: seq<SectorCycles>, b: seq<SectorCycles>, s: nat)
    requires forall k :: 0 <= k < |a| ==> s < |a[k]|
    requires forall k :: 0 <= k < |b| ==> s < |b[k]|
    ensures forall k :: 0 <= k < |a + b| ==> s < |(a + b)[k]|
    ensures Joined(a + b, s) == Joined(a, s) + Joined(b, s)
    decreases |a|
  {
    assert forall k :: 0 <= k < |a + b| ==> s < |(a + b)[k]| by {
      forall k | 0 <= k < |a + b| ensures s < |(a + b)[k]| {
        if k < |a| { assert (a + b)[k] == a[k]; } else { assert (a + b)[k] == b[k - |a|]; }
      }
    }
    if |a| == 0 {
      assert a + b == b;
    } else {
      assert (a + b)[1..] == a[1..] + b;
      JoinedConcat(a[1..], b, s);
    }
  }

  /** The sector-`s` total count of the joined blocks, summed block by block. */
  lemma {:induction false} JoinedTotal(blocks: seq<SectorCycles>, s: nat)
    requires forall k :: 0 <= k < |blocks| ==> s < |blocks[k]|
    ensures TotalCount(Joined(blocks, s))
      == Sum(seq(|blocks|, k requires 0 <= k < |blocks| => TotalCount(blocks[k][s])))
    decreases |blocks|
  {
    var totals := seq(|blocks|, k requires 0 <= k < |blocks| => TotalCount(blocks[k][s]));
    if |blocks| > 0 {
      JoinedTotal(blocks[1..], s);
      TotalCountConcat(blocks[0][s], Joined(blocks[1..], s));
      assert totals[1..] == seq(|blocks| - 1, k requires 0 <= k < |blocks| - 1 => TotalCount(blocks[1..][k][s]));
    }
  }

  /** `np.concatenate(blocks, axis=1)`: ValueError for no blocks or blocks
      with different sector counts. */
  function ConcatCycles(blocks: seq<SectorCycles>): (r: Result<SectorCycles>)
    ensures r.Ok? <==> |blocks| > 0 && SameSectors(blocks, |blocks[0]|)
    ensures r.Err? ==> r.error == ValueError
    ensures r.Ok? ==> |r.value| == |blocks[0]|
    ensures r.Ok? ==> forall s :: 0 <= s < |r.value| ==> r.value[s] == Joined(blocks, s)
  {
    if |blocks| == 0 || !SameSectors(blocks, |blocks[0]|) then Err(ValueError)
    else Ok(seq(|blocks[0]|, s requires 0 <= s < |blocks[0]| => Joined(blocks, s)))
  }

  /** The cycles of one DLC: case `i` is the `i`-th matched file weighted by
      `probabilities[i]`; more files than probabilities raise IndexError. */
  function DlcCycles(probs: seq<real>, files: seq<string>, load: string -> SectorCycles): (r: Result<SectorCycles>)
    ensures |files| > |probs| ==> r == Err(IndexError)
    ensures |files| <= |probs| ==>
      r == ConcatCycles(seq(|files|, i requires 0 <= i < |files| => ScaleCase(load(files[i]), probs[i])))
  {
    if |files| > |probs| then Err(IndexError)
    else ConcatCycles(seq(|files|, i requires 0 <= i < |files| => ScaleCase(load(files[i]), probs[i])))
  }

  /** The weighted cases of one DLC, case `i` with `probs[i]`. */
  function ScaleCases(probs: seq<real>, cases: seq<SectorCycles>): (r: seq<SectorCycles>)
    requires |cases| <= |probs|
    ensures |r| == |cases|
  {
    seq(|cases|, i requires 0 <= i < |cases| => ScaleCase(cases[i], probs[i]))
  }

  /** `6 · p_i · (count sum of sector s of case i)` for every case. */
  function WeightedTotals(probs: seq<real>, cases: seq<SectorCycles>, s: nat): (r: seq<real>)
    requires |cases| <= |probs|
    requires forall i :: 0 <= i < |cases| ==> s < |cases[i]|
    ensures |r| == |cases|
  {
    seq(|cases|, i requires 0 <= i < |cases| => probs[i] * 6.0 * TotalCount(cases[i][s]))
  }

  lemma ScaledJoinedTotal(probs: seq<real>, cases: seq<SectorCycles>, s: nat)
    requires |cases| <= |probs|
    requires forall i :: 0 <= i < |cases| ==> s < |cases[i]|
    ensures forall k :: 0 <= k < |cases| ==> s < |ScaleCases(probs, cases)[k]|
    ensures TotalCount(Joined(ScaleCases(probs, cases), s)) == Sum(WeightedTotals(probs, cases, s))
  {
    var blocks := ScaleCases(probs, cases);
    JoinedTotal(blocks, s);
    var lhs := seq(|blocks|, k requires 0 <= k < |blocks| => TotalCount(blocks[k][s]));
    forall i | 0 <= i < |cases|
      ensures lhs[i] == WeightedTotals(probs, cases, s)[i]
    {
      ScaleCaseTotal(cases[i], probs[i], s);
    }
    assert lhs == WeightedTotals(probs, cases, s);
  }

  /** Each sector of a DLC carries `Σ 6 · p_i · (count sum of case i)`. */
  lemma DlcCyclesTotal(probs: seq<real>, files: seq<string>, load: string -> SectorCycles, s: nat)
    requires DlcCycles(probs, files, load).Ok?
    requires s < |DlcCycles(probs, files, load).value|
    ensures |files| <= |probs|
    ensures forall i :: 0 <= i < |files| ==> s < |load(files[i])|
    ensures TotalCount(DlcCycles(probs, files, load).value[s])
      == Sum(WeightedTotals(probs, seq(|files|, i requires 0 <= i < |files| => load(files[i])), s))
  {
    var cases := seq(|files|, i requires 0 <= i < |files| => load(files[i]));
    var blocks := seq(|files|, i requires 0 <= i < |files| => ScaleCase(load(files[i]), probs[i]));
    assert blocks == ScaleCases(probs, cases);
    assert DlcCycles(probs, files, load) == ConcatCycles(blocks);
    assert SameSectors(blocks, |blocks[0]|);
    assert forall i :: 0 <= i < |files| ==> |blocks[i]| == |cases[i]|;
    ScaledJoinedTotal(probs, cases, s);
  }

  /** `get_all_moment_cycles_weighted_by_probs_member_i`: for every DLC (its
      name and the probabilities of its sheet) the natsorted matching files,
      then all DLCs joined in the given order. */
  function MemberCycles(dir: string, listing: seq<string>, natsort: seq<string> -> seq<string>,
                        cluster: string, member: int, dlcs: seq<(string, seq<real>)>,
                        load: string -> SectorCycles): (r: Result<SectorCycles>)
    ensures |dlcs| == 0 ==> r == Err(ValueError)
    ensures r.Ok? ==> forall d :: 0 <= d < |dlcs| ==>
      DlcCycles(dlcs[d].1, natsort(FilesMatching(dir, Identifier(cluster, dlcs[d].0, member), listing)), load).Ok?
  {
    var perDlc :- MapResult(dlcs, (d: (string, seq<real>)) =>
      DlcCycles(d.1, natsort(FilesMatching(dir, Identifier(cluster, d.0, member), listing)), load));
    ConcatCycles(perDlc)
  }

  /** The member's cycles are the DLC blocks joined in DLC order. */
  lemma MemberCyclesInDlcOrder(dir: string, listing: seq<string>, natsort: seq<string> -> seq<string>,
                               cluster: string, member: int, dlcs: seq<(string, seq<real>)>,
                               load: string -> SectorCycles, s: nat)
    requires MemberCycles(dir, listing, natsort, cluster, member, dlcs, load).Ok?
    requires s < |MemberCycles(dir, listing, natsort, cluster, member, dlcs, load).value|
    ensures |dlcs| > 0
    ensures exists blocks: seq<SectorCycles> ::
      |blocks| == |dlcs|
      && (forall d :: 0 <= d < |dlcs| ==>
            Ok(blocks[d]) == DlcCycles(dlcs[d].1, natsort(FilesMatching(dir, Identifier(cluster, dlcs[d].0, member), listing)), load)
            && s < |blocks[d]|)
      && MemberCycles(dir, listing, natsort, cluster, member, dlcs, load).value[s] == Joined(blocks, s)
  {
    var f := (d: (string, seq<real>)) =>
      DlcCycles(d.1, natsort(FilesMatching(dir, Identifier(cluster, d.0, member), listing)), load);
    var perDlc := MapResult(dlcs, f);
    assert perDlc.Ok?;
    var blocks := perDlc.value;
    assert forall d :: 0 <= d < |dlcs| ==> f(dlcs[d]) == Ok(blocks[d]);
    assert MemberCycles(dir, listing, natsort, cluster, member, dlcs, load) == ConcatCycles(blocks);
    assert SameSectors(blocks, |blocks[0]|);
    assert forall d :: 0 <= d < |dlcs| ==> s < |blocks[d]|;
    assert MemberCycles(dir, listing, natsort, cluster, member, dlcs, load).value[s] == Joined(blocks, s);
  }
}

=== FILE: markov_parser.dfy ===
/** The frame-based markov parser (`markov_parser.py`): per-case JSON frames
    whose cells hold `[range, count]` lists get their counts weighted, the
    frames of a DLC are concatenated cell by cell in chunks, and the DLCs are
    concatenated in order.  The chunk recombination is modelled twice: as
    written, and as its own comment says it was meant.
 */
module MarkovParser {
  import opened Outcomes
  import opened Cycles
  import MarkovMatrices

  /** A JSON cell: a list of `[range, count, ...]` rows. */
  type RawCell = seq<seq<real>>
  type RawFrame = seq<seq<RawCell>>

  /** Rows are geometries, columns sectors, each cell a list of cycles. */
  type Frame = seq<seq<seq<Cycle>>>

  predicate Shaped<T>(f: seq<seq<T>>, rows: nat, cols: nat) {
    |f| == rows && forall r :: 0 <= r < rows ==> |f[r]| == cols
  }

  predicate AllShaped(fs: seq<Frame>, rows: nat, cols: nat) {
    forall f :: f in fs ==> Shaped(f, rows, cols)
  }

  predicate SameShape(a: Frame, b: Frame) {
    |a| == |b| && forall r :: 0 <= r < |a| ==> |a[r]| == |b[r]|
  }

  /** Every row of the cell has as many entries as the first. */
  predicate Uniform(cell: RawCell) {
    forall i :: 0 <= i < |cell| ==> |cell[i]| == |cell[0]|
  }

  /** The (range, count) pairs of a cell whose rows have two entries or more. */
  function CellCycles(cell: RawCell): (cs: seq<Cycle>)
    requires forall i :: 0 <= i < |cell| ==> |cell[i]| >= 2
    ensures |cs| == |cell|
  {
    seq(|cell|, i requires 0 <= i < |cell| => Cycle(cell[i][0], cell[i][1]))
  }

  /** The lambda of `open_range_json_and_scale_counts` on one cell:
      `np.hstack((a[:, [0]], a[:, [1]] * weight * 6.0))` with `a = np.array(cell)`.
      An empty cell or one with fewer than two columns has no column 1
      (IndexError); ragged rows do not make an array (ValueError). */
  function ScaleCell(cell: RawCell, weight: real): (r: Result<seq<Cycle>>)
    ensures r.Ok? <==> |cell| > 0 && Uniform(cell) && |cell[0]| >= 2
    ensures r == Err(ValueError) <==> |cell| > 0 && !Uniform(cell)
    ensures r.Err? ==> r.error == ValueError || r.error == IndexError
    ensures r.Ok? ==> |r.value| == |cell| && forall i :: 0 <= i < |cell| ==>
      r.value[i].range == cell[i][0] && r.value[i].count == cell[i][1] * weight * 6.0
  {
    if |cell| == 0 then Err(IndexError)
    else if !Uniform(cell) then Err(ValueError)
    else if |cell[0]| < 2 then Err(IndexError)
    else Ok(seq(|cell|, i requires 0 <= i < |cell| => Cycle(cell[i][0], cell[i][1] * weight * 6.0)))
  }

  /** A cell is weighted exactly as the array-based parser weights a sector:
      ranges kept, counts times `weight * 6`. */
  lemma ScaleCellIsScaleCounts(cell: RawCell, weight: real)
    requires |cell| > 0 && Uniform(cell) && |cell[0]| >= 2
    ensures ScaleCell(cell, weight) == Ok(ScaleCounts(CellCycles(cell), weight * 6.0))
  {
    var a := ScaleCell(cell, weight).value;
    var b := ScaleCounts(CellCycles(cell), weight * 6.0);
    forall i | 0 <= i < |a|
      ensures a[i] == b[i]
    {
      assert cell[i][1] * weight * 6.0 == cell[i][1] * (weight * 6.0);
      assert a[i].range == b[i].range && a[i].count == b[i].count;
    }
    assert |a| == |b|;
    assert a == b;
  }

  function ScaleRow(row: seq<RawCell>, weight: real): Result<seq<seq<Cycle>>> {
    MapResult(row, (cell: RawCell) => ScaleCell(cell, weight))
  }

  /** `open_range_json_and_scale_counts` after the file is read: `applymap`
      of the cell rule; the frame fails when any cell fails. */
  function ScaleFrame(raw: RawFrame, weight: real): (r: Result<Frame>)
    ensures r.Ok? <==> forall i, j :: 0 <= i < |raw| && 0 <= j < |raw[i]| ==> ScaleCell(raw[i][j], weight).Ok?
    ensures r.Ok? ==> SameShapeRaw(r.value, raw)
    ensures r.Ok? ==> forall i, j :: 0 <= i < |raw| && 0 <= j < |raw[i]| ==> Ok(r.value[i][j]) == ScaleCell(raw[i][j], weight)
    ensures r.Err? ==> exists i, j :: 0 <= i < |raw| && 0 <= j < |raw[i]| && ScaleCell(raw[i][j], weight) == Err(r.error)
  {
    var r := MapResult(raw, (row: seq<RawCell>) => ScaleRow(row, weight));
    assert r.Err? ==> exists i :: 0 <= i < |raw| && ScaleRow(raw[i], weight) == Err(r.error);
    r
  }

  predicate SameShapeRaw(f: Frame, raw: RawFrame) {
    |f| == |raw| && forall r :: 0 <= r < |f| ==> |f[r]| == |raw[r]|
  }

  /** pandas `a + b` on two frames of one layout: every cell's lists are
      concatenated.  Frames of different layouts align labels into `nan`
      cells, which the model does not follow. */
  function AddFrames(a: Frame, b: Frame): (r: Result<Frame>)
    ensures r.Ok? <==> SameShape(a, b)
    ensures r.Err? ==> r.error == OutsideModel
    ensures r.Ok? ==> SameShape(r.value, a)
    ensures r.Ok? ==> forall i, j :: 0 <= i < |a| && 0 <= j < |a[i]| ==> r.value[i][j] == a[i][j] + b[i][j]
  {
    if !SameShape(a, b) then Err(OutsideModel)
    else Ok(seq(|a|, i requires 0 <= i < |a| =>
              seq(|a[i]|, j requires 0 <= j < |a[i]| => a[i][j] + b[i][j])))
  }

  /** `DataFrame.empty`: no rows or no columns. */
  predicate IsEmpty(f: Frame) {
    |f| == 0 || |f[0]| == 0
  }

  /** The loop of `add_contents_of_list_of_dataframes` from an accumulator. */
  function AddContentsFrom(acc: Frame, dfs: seq<Frame>): Result<Frame>
    decreases |dfs|
  {
    if |dfs| == 0 then Ok(acc)
    else
      var next :- if IsEmpty(acc) then Ok(dfs[0]) else AddFrames(acc, dfs[0]);
      AddContentsFrom(next, dfs[1..])
  }

  /** `add_contents_of_list_of_dataframes(df_list)`: start from an empty
      frame; an empty accumulator is replaced, any other is added to. */
  function AddContents(dfs: seq<Frame>): (r: Result<Frame>)
    ensures |dfs| == 0 ==> r == Ok([])
    ensures |dfs| == 1 ==> r == Ok(dfs[0])
  {
    assert |dfs| == 1 ==> AddContentsFrom([], dfs) == AddContentsFrom(dfs[0], dfs[1..]);
    AddContentsFrom([], dfs)
  }

  /** Every frame has cell (i, j). */
  predicate Covers(dfs: seq<Frame>, i: nat, j: nat) {
    forall f :: f in dfs ==> i < |f| && j < |f[i]|
  }

  /** The reference: cell (i, j) of every frame, one after the other. */
  function CellConcat(dfs: seq<Frame>, i: nat, j: nat): seq<Cycle>
    requires Covers(dfs, i, j)
    decreases |dfs|
  {
    if |dfs| == 0 then []
    else
      assert dfs[0] in dfs;
      assert forall f :: f in dfs[1..] ==> f in dfs;
      dfs[0][i][j] + CellConcat(dfs[1..], i, j)
  }

  lemma {:induction false} CellConcatConcat(a: seq<Frame>, b: seq<Frame>, i: nat, j: nat)
    requires Covers(a, i, j) && Covers(b, i, j)
    ensures Covers(a + b, i, j)
    ensures CellConcat(a + b, i, j) == CellConcat(a, i, j) + CellConcat(b, i, j)
    decreases |a|
  {
    assert forall f :: f in a + b ==> f in a || f in b;
    if |a| == 0 {
      assert a + b == b;
    } else {
      assert (a + b)[1..] == a[1..] + b;
      assert forall f :: f in a[1..] ==> f in a;
      CellConcatConcat(a[1..], b, i, j);
    }
  }

  lemma ShapedCovers(dfs: seq<Frame>, rows: nat, cols: nat, i: nat, j: nat)
    requires AllShaped(dfs, rows, cols) && i < rows && j < cols
    ensures Covers(dfs, i, j)
  {
  }

  /** From a full accumulator the loop concatenates every frame's cells onto
      the accumulator's. */
  lemma {:induction false} AddContentsFromConcat(acc: Frame, dfs: seq<Frame>, rows: nat, cols: nat)
    requires rows > 0 && cols > 0
    requires Shaped(acc, rows, cols) && AllShaped(dfs, rows, cols)
    ensures AddContentsFrom(acc, dfs).Ok?
    ensures Shaped(AddContentsFrom(acc, dfs).value, rows, cols)
    ensures forall i, j :: 0 <= i < rows && 0 <= j < cols ==>
      Covers(dfs, i, j) && AddContentsFrom(acc, dfs).value[i][j] == acc[i][j] + CellConcat(dfs, i, j)
    decreases |dfs|
  {
    if |dfs| > 0 {
      assert dfs[0] in dfs;
      assert forall f :: f in dfs[1..] ==> f in dfs;
      var next := AddFrames(acc, dfs[0]).value;
      assert AddContentsFrom(acc, dfs) == AddContentsFrom(next, dfs[1..]) by {
        assert !IsEmpty(acc) by { assert |acc[0]| == cols; }
      }
      AddContentsFromConcat(next, dfs[1..], rows, cols);
      var total := AddContentsFrom(next, dfs[1..]).value;
      forall i, j | 0 <= i < rows && 0 <= j < cols
        ensures Covers(dfs, i, j) && total[i][j] == acc[i][j] + CellConcat(dfs, i, j)
      {
        ShapedCovers(dfs, rows, cols, i, j);
        CellConcatStep(dfs, i, j, acc[i][j], next[i][j], total[i][j]);
      }
    }
  }

  /** One step of the fold at cell (i, j). */
  lemma CellConcatStep(dfs: seq<Frame>, i: nat, j: nat, a: seq<Cycle>, n: seq<Cycle>, t: seq<Cycle>)
    requires |dfs| > 0 && Covers(dfs, i, j)
    requires n == a + dfs[0][i][j]
    requires Covers(dfs[1..], i, j) && t == n + CellConcat(dfs[1..], i, j)
    ensures t == a + CellConcat(dfs, i, j)
  {
    assert (a + dfs[0][i][j]) + CellConcat(dfs[1..], i, j) == a + (dfs[0][i][j] + CellConcat(dfs[1..], i, j));
  }

  /** On frames of one non-empty layout `add_contents_of_list_of_dataframes`
      is the cell-wise concatenation in list order. */
  lemma AddContentsIsConcat(dfs: seq<Frame>, rows: nat, cols: nat)
    requires rows > 0 && cols > 0 && |dfs| > 0
    requires AllShaped(dfs, rows, cols)
    ensures AddContents(dfs).Ok?
    ensures Shaped(AddContents(dfs).value, rows, cols)
    ensures forall i, j :: 0 <= i < rows && 0 <= j < cols ==>
      Covers(dfs, i, j) && AddContents(dfs).value[i][j] == CellConcat(dfs, i, j)
  {
    assert dfs[0] in dfs;
    assert forall f :: f in dfs[1..] ==> f in dfs;
    assert AddContents(dfs) == AddContentsFrom(dfs[0], dfs[1..]);
    AddContentsFromConcat(dfs[0], dfs[1..], rows, cols);
    forall i, j | 0 <= i < rows && 0 <= j < cols
      ensures Covers(dfs, i, j) && AddContents(dfs).value[i][j] == CellConcat(dfs, i, j)
    {
      ShapedCovers(dfs, rows, cols, i, j);
    }
  }

  /** `+` applied to every further frame, without the empty-frame rule. */
  function AddEach(acc: Frame, extra: seq<Frame>): Result<Frame>
    decreases |extra|
  {
    if |extra| == 0 then Ok(acc)
    else
      var next :- AddFrames(acc, extra[0]);
      AddEach(next, extra[1..])
  }

  lemma {:induction false} AddEachConcat(acc: Frame, extra: seq<Frame>, rows: nat, cols: nat)
    requires Shaped(acc, rows, cols) && AllShaped(extra, rows, cols)
    ensures AddEach(acc, extra).Ok?
    ensures Shaped(AddEach(acc, extra).value, rows, cols)
    ensures forall i, j :: 0 <= i < rows && 0 <= j < cols ==>
      Covers(extra, i, j) && AddEach(acc, extra).value[i][j] == acc[i][j] + CellConcat(extra, i, j)
    decreases |extra|
  {
    if |extra| > 0 {
      var next := AddFirst(acc, extra, rows, cols);
      AddEachConcat(next, extra[1..], rows, cols);
      var sum := AddEach(next, extra[1..]).value;
      forall i, j | 0 <= i < rows && 0 <= j < cols
        ensures Covers(extra, i, j) && sum[i][j] == acc[i][j] + CellConcat(extra, i, j)
      {
        ShapedCovers(extra, rows, cols, i, j);
        CellStep(acc[i][j], extra, next[i][j], sum[i][j], i, j);
      }
    }
  }

  /** One cell of an AddEach step: adding the first frame's cell and then
      the concatenation of the rest is adding the concatenation of all. */
  lemma CellStep(accCell: seq<Cycle>, extra: seq<Frame>, nextCell: seq<Cycle>, sumCell: seq<Cycle>, i: nat, j: nat)
    requires |extra| > 0 && Covers(extra, i, j)
    requires nextCell == accCell + extra[0][i][j]
    requires Covers(extra[1..], i, j) && sumCell == nextCell + CellConcat(extra[1..], i, j)
    ensures sumCell == accCell + CellConcat(extra, i, j)
  {
    assert extra[0] in extra;
    assert (accCell + extra[0][i][j]) + CellConcat(extra[1..], i, j)
        == accCell + (extra[0][i][j] + CellConcat(extra[1..], i, j));
  }

  /** One step of AddEach: the first further frame is added onto the
      accumulator, cell by cell, and the rest follow. */
  lemma AddFirst(acc: Frame, extra: seq<Frame>, rows: nat, cols: nat) returns (next: Frame)
    requires |extra| > 0 && Shaped(acc, rows, cols) && AllShaped(extra, rows, cols)
    ensures Shaped(next, rows, cols) && Shaped(extra[0], rows, cols) && AllShaped(extra[1..], rows, cols)
    ensures forall i, j :: 0 <= i < rows && 0 <= j < cols ==> next[i][j] == acc[i][j] + extra[0][i][j]
    ensures AddEach(acc, extra) == AddEach(next, extra[1..])
  {
    assert extra[0] in extra;
    assert forall f :: f in extra[1..] ==> f in extra;
    assert SameShape(acc, extra[0]);
    next := AddFrames(acc, extra[0]).value;
  }

  /** `max(10, int(n_cases / 10))`. */
  function ChunkSize(n: nat): (size: nat)
    ensures size >= 10 && size >= n / 10
    ensures size == 10 || size == n / 10
  {
    if n / 10 > 10 then n / 10 else 10
  }

  /** The elements of the pieces, piece after piece. */
  function Concat<T>(pieces: seq<seq<T>>): seq<T>
    decreases |pieces|
  {
    if |pieces| == 0 then [] else pieces[0] + Concat(pieces[1..])
  }

  /** `[xs[i : i + size] for i in range(0, len(xs), size)]`. */
  function Chunks<T>(xs: seq<T>, size: nat): (r: seq<seq<T>>)
    requires size > 0
    ensures Concat(r) == xs
    ensures |r| <= |xs|
    ensures forall k :: 0 <= k < |r| ==> 0 < |r[k]| <= size
    ensures forall k :: 0 <= k < |r| - 1 ==> |r[k]| == size
    ensures |xs| > 0 ==> |r| > 0 && r[0] == xs[..if |xs| < size then |xs| else size]
    ensures |xs| <= size <==> |r| <= 1
    decreases |xs|
  {
    if |xs| == 0 then []
    else if |xs| <= size then [xs]
    else
      var rest := Chunks(xs[size..], size);
      assert xs[..size] + xs[size..] == xs;
      [xs[..size]] + rest
  }

  /** A frame from each chunk, through `add_contents_of_list_of_dataframes`. */
  function ChunkSums(dfs: seq<Frame>): Result<seq<Frame>> {
    MapResult(Chunks(dfs, ChunkSize(|dfs|)), AddContents)
  }

  /** The recombination of the chunk frames at lines 82-84 (`AsWritten`) or
      by `add_contents_of_list_of_dataframes(new_list_of_dfs)` as the comment
      at line 81 proposes (`Intended`). */
  datatype Combiner = AsWritten | Intended

  /** The frame of one DLC from its scaled case frames. */
  function DlcFrame(combiner: Combiner, dfs: seq<Frame>): (r: Result<Frame>)
    ensures combiner == AsWritten && |dfs| == 0 ==> r == Err(IndexError)
    ensures combiner == Intended && |dfs| == 0 ==> r == Ok([])
  {
    var sums :- ChunkSums(dfs);
    match combiner
    case Intended => AddContents(sums)
    case AsWritten =>
      if |sums| == 0 then Err(IndexError)
      else AddEach(sums[0], dfs[1..|sums|])
  }

  lemma {:induction false} CellConcatOfChunks(pieces: seq<seq<Frame>>, sums: seq<Frame>, i: nat, j: nat)
    requires |sums| == |pieces|
    requires forall k :: 0 <= k < |pieces| ==> Covers(pieces[k], i, j)
    requires Covers(sums, i, j)
    requires forall k :: 0 <= k < |pieces| ==> sums[k][i][j] == CellConcat(pieces[k], i, j)
    ensures Covers(Concat(pieces), i, j)
    ensures CellConcat(sums, i, j) == CellConcat(Concat(pieces), i, j)
    decreases |pieces|
  {
    if |pieces| > 0 {
      assert forall f :: f in sums[1..] ==> f in sums;
      CellConcatOfChunks(pieces[1..], sums[1..], i, j);
      CellConcatConcat(pieces[0], Concat(pieces[1..]), i, j);
    }
  }

  lemma ChunksShaped(dfs: seq<Frame>, pieces: seq<seq<Frame>>, rows: nat, cols: nat, k: nat)
    requires AllShaped(dfs, rows, cols) && Concat(pieces) == dfs && k < |pieces|
    ensures AllShaped(pieces[k], rows, cols)
  {
    ConcatMember(pieces, k);
  }

  lemma {:induction false} ConcatMember<T>(pieces: seq<seq<T>>, k: nat)
    requires k < |pieces|
    ensures forall x :: x in pieces[k] ==> x in Concat(pieces)
    decreases k
  {
    if k > 0 {
      ConcatMember(pieces[1..], k - 1);
    }
  }

  /** The intended recombination is the cell-wise concatenation of every
      case of the DLC, in case order. */
  lemma IntendedIsConcat(dfs: seq<Frame>, rows: nat, cols: nat)
    requires rows > 0 && cols > 0 && |dfs| > 0
    requires AllShaped(dfs, rows, cols)
    ensures DlcFrame(Intended, dfs).Ok?
    ensures Shaped(DlcFrame(Intended, dfs).value, rows, cols)
    ensures forall i, j :: 0 <= i < rows && 0 <= j < cols ==>
      Covers(dfs, i, j) && DlcFrame(Intended, dfs).value[i][j] == CellConcat(dfs, i, j)
  {
    var pieces := Chunks(dfs, ChunkSize(|dfs|));
    forall k | 0 <= k < |pieces|
      ensures AllShaped(pieces[k], rows, cols) && AddContents(pieces[k]).Ok?
    {
      ChunksShaped(dfs, pieces, rows, cols, k);
      AddContentsIsConcat(pieces[k], rows, cols);
    }
    var sums := ChunkSums(dfs).value;
    assert forall k :: 0 <= k < |pieces| ==> AddContents(pieces[k]) == Ok(sums[k]);
    forall k | 0 <= k < |pieces|
      ensures Shaped(sums[k], rows, cols)
    {
      AddContentsIsConcat(pieces[k], rows, cols);
    }
    assert AllShaped(sums, rows, cols);
    AddContentsIsConcat(sums, rows, cols);
    forall i, j | 0 <= i < rows && 0 <= j < cols
      ensures Covers(dfs, i, j) && DlcFrame(Intended, dfs).value[i][j] == CellConcat(dfs, i, j)
    {
      ShapedCovers(dfs, rows, cols, i, j);
      forall k | 0 <= k < |pieces|
        ensures Covers(pieces[k], i, j) && sums[k][i][j] == CellConcat(pieces[k], i, j)
      {
        AddContentsIsConcat(pieces[k], rows, cols);
      }
      CellConcatOfChunks(pieces, sums, i, j);
    }
  }

  /** As written, the DLC frame is the first chunk followed by the single
      cases 1 .. (number of chunks - 1), not the other chunks. */
  lemma AsWrittenIsFirstChunkPlusCases(dfs: seq<Frame>, rows: nat, cols: nat)
    requires rows > 0 && cols > 0 && |dfs| > 0
    requires AllShaped(dfs, rows, cols)
    ensures DlcFrame(AsWritten, dfs).Ok?
    ensures Shaped(DlcFrame(AsWritten, dfs).value, rows, cols)
    ensures var size := ChunkSize(|dfs|);
      var first := if |dfs| < size then |dfs| else size;
      var n := |Chunks(dfs, size)|;
      1 <= n <= |dfs| &&
      forall i, j :: 0 <= i < rows && 0 <= j < cols ==>
        Covers(dfs[..first], i, j) && Covers(dfs[1..n], i, j)
        && DlcFrame(AsWritten, dfs).value[i][j] == CellConcat(dfs[..first], i, j) + CellConcat(dfs[1..n], i, j)
  {
    var size := ChunkSize(|dfs|);
    var first := if |dfs| < size then |dfs| else size;
    var pieces := Chunks(dfs, size);
    forall k | 0 <= k < |pieces|
      ensures AllShaped(pieces[k], rows, cols) && AddContents(pieces[k]).Ok?
    {
      ChunksShaped(dfs, pieces, rows, cols, k);
      AddContentsIsConcat(pieces[k], rows, cols);
    }
    var sums := ChunkSums(dfs).value;
    assert AddContents(pieces[0]) == Ok(sums[0]);
    assert pieces[0] == dfs[..first];
    assert AllShaped(dfs[..first], rows, cols);
    AddContentsIsConcat(dfs[..first], rows, cols);
    var n := |pieces|;
    assert forall f :: f in dfs[1..n] ==> f in dfs;
    AddEachConcat(sums[0], dfs[1..n], rows, cols);
    assert DlcFrame(AsWritten, dfs) == AddEach(sums[0], dfs[1..n]);
  }

  /** With a single chunk (ten cases or fewer) the two recombinations agree. */
  lemma OneChunkAgrees(dfs: seq<Frame>, rows: nat, cols: nat)
    requires rows > 0 && cols > 0 && 0 < |dfs| <= 10
    requires AllShaped(dfs, rows, cols)
    ensures DlcFrame(AsWritten, dfs) == DlcFrame(Intended, dfs)
  {
    AsWrittenIsFirstChunkPlusCases(dfs, rows, cols);
    IntendedIsConcat(dfs, rows, cols);
    var a := DlcFrame(AsWritten, dfs).value;
    var b := DlcFrame(Intended, dfs).value;
    assert dfs[..|dfs|] == dfs;
    assert forall i :: 0 <= i < rows ==> a[i] == b[i];
  }

  /** Case `k` of the counterexample: one geometry, one sector, one cycle of
      range `k` counted once. */
  function Single(k: nat): Frame {
    [[[Cycle(k as real, 1.0)]]]
  }

  /** Eleven cases make two chunks (10 + 1): as written the eleventh case's
      cycles are lost and case 1's appear twice, so the DLC frame differs
      from the intended one. */
  lemma ElevenCasesDiffer()
    ensures var dfs := seq(11, k requires 0 <= k < 11 => Single(k));
      DlcFrame(AsWritten, dfs).Ok? && DlcFrame(Intended, dfs).Ok?
      && DlcFrame(AsWritten, dfs) != DlcFrame(Intended, dfs)
  {
    var dfs := seq(11, k requires 0 <= k < 11 => Single(k));
    assert AllShaped(dfs, 1, 1);
    assert ChunkSize(11) == 10;
    var pieces := Chunks(dfs, 10);
    assert |pieces| == 2;
    AsWrittenIsFirstChunkPlusCases(dfs, 1, 1);
    IntendedIsConcat(dfs, 1, 1);
    var a := DlcFrame(AsWritten, dfs).value[0][0];
    var b := DlcFrame(Intended, dfs).value[0][0];
    assert dfs[1..2] == [Single(1)];
    assert CellConcat(dfs[1..2], 0, 0) == [Cycle(1.0, 1.0)];
    assert a[|a| - 1] == Cycle(1.0, 1.0);
    assert dfs == dfs[..10] + [Single(10)];
    CellConcatConcat(dfs[..10], [Single(10)], 0, 0);
    assert CellConcat([Single(10)], 0, 0) == [Cycle(10.0, 1.0)];
    assert b[|b| - 1] == Cycle(10.0, 1.0);
  }

  /** One DLC of `parse_markov_files`: the files whose names contain
      `DB_{cluster}_{DLC}` in listing order, paired with the probabilities
      by position (IndexError for surplus files), then the `logger` call at
      line 58, which raises NameError unless the module runs as a script,
      then every case frame read and weighted, then the recombination. */
  function ParseDlc(combiner: Combiner, loggerBound: bool, dir: string, cluster: string,
                    dlc: (string, seq<real>), listing: seq<string>, read: string -> RawFrame): (r: Result<Frame>)
    ensures var files := MarkovMatrices.FilesMatching(dir, "DB_" + cluster + "_" + dlc.0, listing);
      (|files| > |dlc.1| ==> r == Err(IndexError))
      && (|files| <= |dlc.1| && !loggerBound ==> r == Err(NameError))
  {
    var files := MarkovMatrices.FilesMatching(dir, "DB_" + cluster + "_" + dlc.0, listing);
    if |files| > |dlc.1| then Err(IndexError)
    else if !loggerBound then Err(NameError)
    else
      var dfs :- CaseFrames(files, dlc.1, read);
      DlcFrame(combiner, dfs)
  }

  /** Every matched file read and weighted by its probability, in order; the
      first file whose frame cannot be scaled ends the DLC with its error. */
  function CaseFrames(files: seq<string>, weights: seq<real>, read: string -> RawFrame): (r: Result<seq<Frame>>)
    requires |files| <= |weights|
    ensures r.Ok? <==> forall k :: 0 <= k < |files| ==> ScaleFrame(read(files[k]), weights[k]).Ok?
    ensures r.Ok? ==> |r.value| == |files|
    ensures r.Ok? ==> forall k :: 0 <= k < |files| ==> ScaleFrame(read(files[k]), weights[k]) == Ok(r.value[k])
  {
    var args := seq(|files|, i requires 0 <= i < |files| => (files[i], weights[i]));
    var scale := (p: (string, real)) => ScaleFrame(read(p.0), p.1);
    assert forall k :: 0 <= k < |files| ==> scale(args[k]) == ScaleFrame(read(files[k]), weights[k]);
    MapResult(args, scale)
  }

  /** A well-formed frame scales into a frame of its shape whose cells are
      the raw cells with counts scaled by 6 × the weight. */
  lemma ScaleGoodFrame(raw: RawFrame, weight: real, rows: nat, cols: nat)
    requires GoodRaw(raw, rows, cols)
    ensures ScaleFrame(raw, weight).Ok?
    ensures Shaped(ScaleFrame(raw, weight).value, rows, cols)
    ensures forall i, j :: 0 <= i < rows && 0 <= j < cols ==>
      GoodCell(raw[i][j]) && ScaleFrame(raw, weight).value[i][j] == ScaledCycles(raw[i][j], weight)
  {
    forall i, j | 0 <= i < rows && 0 <= j < cols
      ensures GoodCell(raw[i][j]) && ScaleCell(raw[i][j], weight) == Ok(ScaledCycles(raw[i][j], weight))
    {
      assert GoodCell(raw[i][j]);
      ScaleCellIsScaleCounts(raw[i][j], weight);
    }
  }

  /** Well-formed files of one shape scale into frames of that shape. */
  lemma CaseFramesScaled(files: seq<string>, weights: seq<real>, read: string -> RawFrame, rows: nat, cols: nat)
    requires |files| <= |weights|
    requires AllGood(RawFrames(files, read), rows, cols)
    ensures CaseFrames(files, weights, read).Ok?
    ensures var dfs := CaseFrames(files, weights, read).value;
      forall k :: 0 <= k < |files| ==> dfs[k] == ScaleFrame(read(files[k]), weights[k]).value
    ensures AllShaped(CaseFrames(files, weights, read).value, rows, cols)
  {
    forall k | 0 <= k < |files|
      ensures ScaleFrame(read(files[k]), weights[k]).Ok?
      ensures Shaped(ScaleFrame(read(files[k]), weights[k]).value, rows, cols)
    {
      assert GoodRaw(RawFrames(files, read)[k], rows, cols);
      ScaleGoodFrame(read(files[k]), weights[k], rows, cols);
    }
    var dfs := CaseFrames(files, weights, read).value;
    forall g | g in dfs
      ensures Shaped(g, rows, cols)
    {
      var k :| 0 <= k < |dfs| && dfs[k] == g;
    }
  }

  /** A Markov file's cell as `open_range_json_and_scale_counts` can scale it:
      non-empty, rectangular, with a range and a count in every row. */
  predicate GoodCell(cell: RawCell) {
    |cell| > 0 && Uniform(cell) && |cell[0]| >= 2
  }

  predicate GoodRaw(raw: RawFrame, rows: nat, cols: nat) {
    Shaped(raw, rows, cols) && forall i, j :: 0 <= i < rows && 0 <= j < cols ==> GoodCell(raw[i][j])
  }

  predicate AllGood(raws: seq<RawFrame>, rows: nat, cols: nat) {
    forall k :: 0 <= k < |raws| ==> GoodRaw(raws[k], rows, cols)
  }

  /** The (range, count) cycles of a well-formed cell, counts scaled by
      6 × the weight. */
  function ScaledCycles(cell: RawCell, weight: real): (cs: seq<Cycle>)
    requires GoodCell(cell)
    ensures |cs| == |cell|
  {
    assert forall t :: 0 <= t < |cell| ==> |cell[t]| >= 2;
    ScaleCounts(CellCycles(cell), weight * 6.0)
  }

  /** The reference for one DLC: cell (i, j) of each file in turn, its counts
      scaled by 6 × that file's probability. */
  function ScaledConcat(raws: seq<RawFrame>, weights: seq<real>, rows: nat, cols: nat, i: nat, j: nat): seq<Cycle>
    requires i < rows && j < cols && |weights| >= |raws|
    requires AllGood(raws, rows, cols)
    decreases |raws|
  {
    if |raws| == 0 then []
    else
      assert GoodRaw(raws[0], rows, cols);
      assert AllGood(raws[1..], rows, cols) by {
        forall k | 0 <= k < |raws| - 1 ensures GoodRaw(raws[1..][k], rows, cols) {
          assert raws[1..][k] == raws[k + 1];
        }
      }
      ScaledCycles(raws[0][i][j], weights[0]) + ScaledConcat(raws[1..], weights[1..], rows, cols, i, j)
  }

  /** The frames the matched files hold, in file order. */
  function RawFrames(files: seq<string>, read: string -> RawFrame): (raws: seq<RawFrame>)
    ensures |raws| == |files| && forall k :: 0 <= k < |files| ==> raws[k] == read(files[k])
  {
    seq(|files|, k requires 0 <= k < |files| => read(files[k]))
  }

  /** With the intended recombination, a DLC whose matched files all hold
      well-formed frames of one shape gives, in every cell, that cell of each
      file in listing order with its counts scaled by 6 × the file's
      probability; no matched file gives the empty frame. */
  lemma ParseDlcIsConcat(dir: string, cluster: string, dlc: (string, seq<real>), listing: seq<string>,
                         read: string -> RawFrame, rows: nat, cols: nat)
    requires rows > 0 && cols > 0
    requires var files := MarkovMatrices.FilesMatching(dir, "DB_" + cluster + "_" + dlc.0, listing);
      |files| <= |dlc.1| && AllGood(RawFrames(files, read), rows, cols)
    ensures var files := MarkovMatrices.FilesMatching(dir, "DB_" + cluster + "_" + dlc.0, listing);
      var r := ParseDlc(Intended, true, dir, cluster, dlc, listing, read);
      r.Ok?
      && (|files| == 0 ==> r.value == [])
      && (|files| > 0 ==>
            Shaped(r.value, rows, cols)
            && forall i, j :: 0 <= i < rows && 0 <= j < cols ==>
                 r.value[i][j] == ScaledConcat(RawFrames(files, read), dlc.1, rows, cols, i, j))
  {
    var files := MarkovMatrices.FilesMatching(dir, "DB_" + cluster + "_" + dlc.0, listing);
    CaseFramesScaled(files, dlc.1, read, rows, cols);
    var dfs := CaseFrames(files, dlc.1, read).value;
    DlcFromCaseFrames(dir, cluster, dlc, listing, read, files, dfs);
    if |files| > 0 {
      CaseFramesConcat(files, dlc.1, read, rows, cols);
    }
  }

  /** The intended recombination of well-formed case frames is the reference,
      cell by cell. */
  lemma CaseFramesConcat(files: seq<string>, weights: seq<real>, read: string -> RawFrame, rows: nat, cols: nat)
    requires rows > 0 && cols > 0 && 0 < |files| <= |weights|
    requires AllGood(RawFrames(files, read), rows, cols)
    ensures CaseFrames(files, weights, read).Ok?
    ensures var d := DlcFrame(Intended, CaseFrames(files, weights, read).value);
      d.Ok? && Shaped(d.value, rows, cols)
      && forall i, j :: 0 <= i < rows && 0 <= j < cols ==>
           d.value[i][j] == ScaledConcat(RawFrames(files, read), weights, rows, cols, i, j)
  {
    var raws := RawFrames(files, read);
    CaseFramesScaled(files, weights, read, rows, cols);
    var dfs := CaseFrames(files, weights, read).value;
    IntendedIsConcat(dfs, rows, cols);
    forall i, j | 0 <= i < rows && 0 <= j < cols
      ensures CellConcat(dfs, i, j) == ScaledConcat(raws, weights, rows, cols, i, j)
    {
      forall k | 0 <= k < |dfs|
        ensures Shaped(dfs[k], rows, cols) && GoodCell(raws[k][i][j])
          && dfs[k][i][j] == ScaledCycles(raws[k][i][j], weights[k])
      {
        ScaleGoodFrame(raws[k], weights[k], rows, cols);
      }
      CellConcatIsScaled(dfs, raws, weights, rows, cols, i, j);
    }
  }

  /** With the logger bound and no surplus file, one DLC is the intended
      recombination of its case frames. */
  lemma DlcFromCaseFrames(dir: string, cluster: string, dlc: (string, seq<real>), listing: seq<string>,
                          read: string -> RawFrame, files: seq<string>, dfs: seq<Frame>)
    requires files == MarkovMatrices.FilesMatching(dir, "DB_" + cluster + "_" + dlc.0, listing)
    requires |files| <= |dlc.1| && CaseFrames(files, dlc.1, read) == Ok(dfs)
    ensures ParseDlc(Intended, true, dir, cluster, dlc, listing, read) == DlcFrame(Intended, dfs)
  {
  }

  /** Cell by cell, the concatenation of the scaled frames is the reference. */
  lemma {:induction false} CellConcatIsScaled(dfs: seq<Frame>, raws: seq<RawFrame>, weights: seq<real>,
                                              rows: nat, cols: nat, i: nat, j: nat)
    requires i < rows && j < cols && |dfs| == |raws| <= |weights|
    requires AllGood(raws, rows, cols)
    requires forall k :: 0 <= k < |dfs| ==>
      Shaped(dfs[k], rows, cols) && GoodCell(raws[k][i][j]) && dfs[k][i][j] == ScaledCycles(raws[k][i][j], weights[k])
    ensures Covers(dfs, i, j) && CellConcat(dfs, i, j) == ScaledConcat(raws, weights, rows, cols, i, j)
    decreases |dfs|
  {
    if |dfs| > 0 {
      assert forall g :: g in dfs[1..] ==> g in dfs;
      assert forall k :: 0 <= k < |raws| - 1 ==> raws[1..][k] == raws[k + 1] && dfs[1..][k] == dfs[k + 1];
      CellConcatIsScaled(dfs[1..], raws[1..], weights[1..], rows, cols, i, j);
    }
  }

  /** The DLC loop of `parse_markov_files` from an accumulator. */
  function ParseFrom(combiner: Combiner, loggerBound: bool, dir: string, cluster: string, acc: Frame,
                     dlcs: seq<(string, seq<real>)>, listing: seq<string>, read: string -> RawFrame): Result<Frame>
    decreases |dlcs|
  {
    if |dlcs| == 0 then Ok(acc)
    else
      var d :- ParseDlc(combiner, loggerBound, dir, cluster, dlcs[0], listing, read);
      var next :- if IsEmpty(acc) then Ok(d) else AddFrames(acc, d);
      ParseFrom(combiner, loggerBound, dir, cluster, next, dlcs[1..], listing, read)
  }

  /** `parse_markov_files(range_storage_path, DLC_IDs, cluster_ID)`, each DLC
      given with the probabilities of its sheet. */
  function ParseMarkovFiles(combiner: Combiner, loggerBound: bool, dir: string, cluster: string,
                            dlcs: seq<(string, seq<real>)>, listing: seq<string>, read: string -> RawFrame): (r: Result<Frame>)
    ensures |dlcs| == 0 ==> r == Ok([])
  {
    ParseFrom(combiner, loggerBound, dir, cluster, [], dlcs, listing, read)
  }

  lemma {:induction false} ParseFromIsAddContents(combiner: Combiner, loggerBound: bool, dir: string, cluster: string, acc: Frame,
                                                  dlcs: seq<(string, seq<real>)>, listing: seq<string>, read: string -> RawFrame,
                                                  frames: seq<Frame>)
    requires |frames| == |dlcs|
    requires forall d :: 0 <= d < |dlcs| ==> ParseDlc(combiner, loggerBound, dir, cluster, dlcs[d], listing, read) == Ok(frames[d])
    ensures ParseFrom(combiner, loggerBound, dir, cluster, acc, dlcs, listing, read) == AddContentsFrom(acc, frames)
    decreases |dlcs|
  {
    if |dlcs| > 0 {
      assert ParseDlc(combiner, loggerBound, dir, cluster, dlcs[0], listing, read) == Ok(frames[0]);
      var next := if IsEmpty(acc) then Ok(frames[0]) else AddFrames(acc, frames[0]);
      if next.Ok? {
        assert forall d :: 0 <= d < |dlcs| - 1 ==> dlcs[1..][d] == dlcs[d + 1] && frames[1..][d] == frames[d + 1];
        ParseFromIsAddContents(combiner, loggerBound, dir, cluster, next.value, dlcs[1..], listing, read, frames[1..]);
      }
    }
  }

  /** When every DLC yields a frame, the DLC frames are combined exactly as
      `add_contents_of_list_of_dataframes` combines a list, so in DLC order. */
  lemma ParseIsAddContents(combiner: Combiner, loggerBound: bool, dir: string, cluster: string,
                           dlcs: seq<(string, seq<real>)>, listing: seq<string>, read: string -> RawFrame)
    requires MapResult(dlcs, (d: (string, seq<real>)) => ParseDlc(combiner, loggerBound, dir, cluster, d, listing, read)).Ok?
    ensures ParseMarkovFiles(combiner, loggerBound, dir, cluster, dlcs, listing, read)
         == AddContents(MapResult(dlcs, (d: (string, seq<real>)) => ParseDlc(combiner, loggerBound, dir, cluster, d, listing, read)).value)
  {
    var frames := MapResult(dlcs, (d: (string, seq<real>)) => ParseDlc(combiner, loggerBound, dir, cluster, d, listing, read)).value;
    ParseFromIsAddContents(combiner, loggerBound, dir, cluster, [], dlcs, listing, read, frames);
  }
}

=== FILE: numerics.dfy ===
/** The floating-point mathematics the pipeline takes from numpy and the
    rainflow/S-N packages, passed in as values: every member that needs one of
    them receives it here instead of assuming a particular implementation.
 */
module Numerics {

  /** `pi` is `np.pi`; `sin` and `cos` take radians; `pow(x, y)` is `x ** y`
      for a real exponent; `root5` is `x ** (1/5)`. */
  datatype Maths = Maths(pi: real, sin: real -> real, cos: real -> real,
                         pow: (real, real) -> real, root5: real -> real)

  /** `np.deg2rad`. */
  function Deg2Rad(m: Maths, deg: real): real {
    deg * m.pi / 180.0
  }

  /** `np.deg2rad(range(0, 359, 15))` and `[float(i) for i in range(0, 359, 15)]`:
      the 24 sector angles 0, 15, ..., 345 in degrees. */
  function SectorAngles(): (angles: seq<real>)
    ensures |angles| == 24
    ensures forall i :: 0 <= i < 24 ==> angles[i] == 15.0 * i as real
    ensures forall i :: 0 <= i < 24 ==> 0.0 <= angles[i] < 360.0
  {
    seq(24, i requires 0 <= i < 24 => 15.0 * i as real)
  }

  /** `x ** 5` with an integer exponent, multiplied out. */
  function Pow5(x: real): (p: real)
    ensures x >= 0.0 ==> p >= 0.0
  {
    x * x * x * x * x
  }
}

=== FILE: outcomes.dfy ===
/** Failure-compatible results for the exceptions the pipeline's Python code can
    raise, and an extended real line for the places where numpy yields `inf` or
    `nan` instead of raising.
 */
module Outcomes {

  /** The exception (or numpy behaviour) that ends a computation. */
  datatype Error =
    | IndexError      // subscript out of range, argmin/argmax of nothing to index
    | ValueError      // int()/float() rejects a token, reshape or argmin of an empty array
    | TypeError       // wrong number of arguments, unsupported operand, isinstance misuse
    | KeyError        // missing dictionary key or frame column
    | NameError       // a name that is only bound under `if __name__ == '__main__'`
    | ImportError     // `from m import f` where m does not define f
    | StructError     // struct.unpack given a buffer whose length does not fit the format
    | NonFinite       // numpy would carry on with inf or nan; the model stops here
    | OutsideModel    // numpy broadcasting of a size-1 axis or pandas label alignment
    | AssertionError  // a failed `assert` statement
    | AttributeError  // a string method called on None or on a float

  datatype Result<+T> = Ok(value: T) | Err(error: Error) {
    predicate IsFailure() { Err? }

    function PropagateFailure<U>(): Result<U>
      requires Err?
    {
      Err(error)
    }

    function Extract(): T
      requires Ok?
    {
      value
    }
  }

  /** A statement of a script's `__main__` block: a named stage, or
      `sys.exit()`. */
  datatype Step = Run(stage: string) | Exit

  /** The statements a run of the block executes: everything before the
      first `sys.exit()`, and nothing after it. */
  function Executed(steps: seq<Step>): (r: seq<Step>)
    ensures r <= steps
    ensures Exit !in r
    ensures |r| < |steps| ==> steps[|r|] == Exit
    decreases |steps|
  {
    if |steps| == 0 || steps[0] == Exit then [] else [steps[0]] + Executed(steps[1..])
  }

  /** A stage placed after a `sys.exit()` never runs. */
  lemma AfterExitNeverRuns(steps: seq<Step>, e: nat, k: nat)
    requires e < k < |steps| && steps[e] == Exit
    ensures |Executed(steps)| <= e
    ensures steps[k] !in Executed(steps) || steps[k] in steps[..e]
  {
    var r := Executed(steps);
    if steps[k] in r {
      var i :| 0 <= i < |r| && r[i] == steps[k];
      assert steps[..e][i] == steps[k];
    }
  }

  /** A value Python may leave as `None`. */
  datatype Option<T> = None | Some(value: T)

  /** IEEE-754 double precision seen as the real line extended with two
      infinities and a not-a-number; rounding is not modelled. */
  datatype ExtReal = Finite(v: real) | PosInf | NegInf | NaN

  /** numpy's float division `a / b`: a zero divisor gives a signed infinity,
      or nan for `0 / 0`. */
  function Divide(a: real, b: real): (q: ExtReal)
    ensures b != 0.0 ==> q == Finite(a / b) && q.v * b == a
    ensures b == 0.0 ==> (q.NaN? <==> a == 0.0)
    ensures b == 0.0 && a > 0.0 ==> q.PosInf?
    ensures b == 0.0 && a < 0.0 ==> q.NegInf?
  {
    if b != 0.0 then Finite(a / b)
    else if a > 0.0 then PosInf
    else if a < 0.0 then NegInf
    else NaN
  }

  /** numpy's `np.minimum` of two values that are not nan. */
  function Min2(a: ExtReal, b: ExtReal): (m: ExtReal)
    requires !a.NaN? && !b.NaN?
    ensures m == a || m == b
    ensures LessEq(m, a) && LessEq(m, b)
  {
    if LessEq(a, b) then a else b
  }

  /** Order of the extended line without nan. */
  predicate LessEq(a: ExtReal, b: ExtReal)
    requires !a.NaN? && !b.NaN?
  {
    match (a, b)
    case (NegInf, _) => true
    case (_, PosInf) => true
    case (Finite(x), Finite(y)) => x <= y
    case _ => false
  }

  /** Python's `max(a, b)` on floats: the first argument unless the second is
      strictly larger. */
  function PyMax(a: real, b: real): (m: real)
    ensures m >= a && m >= b
    ensures m == a || m == b
    ensures b > a <==> m == b && m != a
  {
    if b > a then b else a
  }

  /** Python's `min(a, b)` on floats: the first argument unless the second is
      strictly smaller. */
  function PyMin(a: real, b: real): (m: real)
    ensures m <= a && m <= b
    ensures m == a || m == b
    ensures b < a <==> m == b && m != a
  {
    if b < a then b else a
  }

  function Abs(x: real): (y: real)
    ensures y >= 0.0
    ensures y == x || y == -x
  {
    if x < 0.0 then -x else x
  }

  /** Python's subscript `xs[i]` with negative indices counted from the end. */
  function PyIndex<T>(xs: seq<T>, i: int): (r: Result<T>)
    ensures r.Ok? <==> -|xs| <= i < |xs|
    ensures 0 <= i < |xs| ==> r == Ok(xs[i])
    ensures -|xs| <= i < 0 ==> r == Ok(xs[|xs| + i])
  {
    if 0 <= i < |xs| then Ok(xs[i])
    else if -|xs| <= i < 0 then Ok(xs[|xs| + i])
    else Err(IndexError)
  }

  /** A Python loop that applies `f` to each element in order and stops at
      the first exception: every result, or the first error. */
  function MapResult<A, B>(xs: seq<A>, f: A -> Result<B>): (r: Result<seq<B>>)
    ensures r.Ok? <==> forall i :: 0 <= i < |xs| ==> f(xs[i]).Ok?
    ensures r.Ok? ==> |r.value| == |xs|
    ensures r.Ok? ==> forall i :: 0 <= i < |xs| ==> f(xs[i]) == Ok(r.value[i])
    ensures r.Err? ==> exists i :: 0 <= i < |xs| && f(xs[i]) == Err(r.error) && forall j :: 0 <= j < i ==> f(xs[j]).Ok?
    decreases |xs|
  {
    if |xs| == 0 then Ok([])
    else
      var first := f(xs[0]);
      if first.Err? then Err(first.error)
      else
        var rest := MapResult(xs[1..], f);
        assert forall i :: 1 <= i < |xs| ==> xs[1..][i - 1] == xs[i];
        if rest.Err? then
          var k :| 0 <= k < |xs| - 1 && f(xs[1..][k]) == Err(rest.error) && forall j :: 0 <= j < k ==> f(xs[1..][j]).Ok?;
          assert f(xs[k + 1]) == Err(rest.error);
          Err(rest.error)
        else Ok([first.value] + rest.value)
  }
}

=== FILE: scf_sectors.dfy ===
/** `get_scf_sector_list`: which of the evenly spaced hot-spot angles carry the
    geometry's stress concentration factor. The baseline and the prototype
    copies of the function are the same algorithm and share this model.
 */
module ScfSectors {
  import opened Outcomes
  import opened Text
  import opened Seqs

  /** The angles and factors the snapping loop carries along. */
  datatype Sectors = Sectors(angles: seq<real>, scfs: seq<real>)

  predicate WellFormed(s: Sectors) {
    |s.angles| > 0 && |s.scfs| == |s.angles|
  }

  /** `float(token.strip())`, kept only when it is a finite number. */
  function ReadAngle(token: string): (r: Result<real>)
    ensures r.Ok? <==> ReadFloat(Strip(token)).Ok? && ReadFloat(Strip(token)).value.Finite?
    ensures r.Ok? ==> ReadFloat(Strip(token)) == Ok(Finite(r.value))
  {
    var x :- ReadFloat(Strip(token));
    if x.Finite? then Ok(x.v) else Err(NonFinite)
  }

  /** `list(map(read, tokens))`: the first token `read` rejects ends the
      whole list. */
  function ReadAll(tokens: seq<string>, read: string -> Result<real>): (r: Result<seq<real>>)
    ensures r.Ok? <==> forall i :: 0 <= i < |tokens| ==> read(tokens[i]).Ok?
    ensures r.Ok? ==> |r.value| == |tokens|
    ensures r.Ok? ==> forall i :: 0 <= i < |tokens| ==> read(tokens[i]) == Ok(r.value[i])
    decreases |tokens|
  {
    if |tokens| == 0 then Ok([])
    else
      var x := read(tokens[0]);
      if x.Err? then Err(x.error)
      else
        var rest := ReadAll(tokens[1..], read);
        assert forall i :: 1 <= i < |tokens| ==> tokens[1..][i - 1] == tokens[i];
        if rest.Err? then Err(rest.error)
        else Ok([x.value] + rest.value)
  }

  /** The specific angles of a non-omni `scf_sector` cell: split on commas,
      strip, `float`. A token that reads as inf or nan is outside the model. */
  function SpecificAngles(scfSector: string): (r: Result<seq<real>>)
    ensures r.Ok? ==> forall i :: 0 <= i < |SplitOn(scfSector, ",")| ==> ReadAngle(SplitOn(scfSector, ",")[i]).Ok?
    ensures (forall i :: 0 <= i < |SplitOn(scfSector, ",")| ==> ReadAngle(SplitOn(scfSector, ",")[i]).Ok?) ==> r.Ok?
    ensures r.Ok? ==> |r.value| == |SplitOn(scfSector, ",")|
    ensures r.Ok? ==> forall i :: 0 <= i < |r.value| ==> ReadAngle(SplitOn(scfSector, ",")[i]) == Ok(r.value[i])
  {
    var parts := SplitOn(scfSector, ",");
    var read := ReadAngle;
    assert forall i :: 0 <= i < |parts| ==> read(parts[i]) == ReadAngle(parts[i]);
    ReadAll(parts, read)
  }

  /** `np.absolute(angles - a).argmin()`: the first index nearest to `a`. */
  function Nearest(angles: seq<real>, a: real): (i: nat)
    requires |angles| > 0
    ensures i < |angles|
    ensures forall j :: 0 <= j < |angles| ==> Abs(angles[i] - a) <= Abs(angles[j] - a)
    ensures forall j :: 0 <= j < i ==> Abs(angles[i] - a) < Abs(angles[j] - a)
  {
    var d := seq(|angles|, j requires 0 <= j < |angles| => Abs(angles[j] - a));
    assert forall j :: 0 <= j < |angles| ==> d[j] == Abs(angles[j] - a);
    ArgMin(d)
  }

  /** One pass of the loop: the nearest entry of the current list takes the
      specific angle and the geometry's factor; nothing else changes. */
  function Snap(s: Sectors, a: real, scf: real): (r: (Sectors, nat))
    requires WellFormed(s)
    ensures WellFormed(r.0) && |r.0.angles| == |s.angles|
    ensures r.1 < |s.angles| && r.0.angles[r.1] == a && r.0.scfs[r.1] == scf
    ensures forall j :: 0 <= j < |s.angles| && j != r.1 ==> r.0.angles[j] == s.angles[j] && r.0.scfs[j] == s.scfs[j]
    ensures forall j :: 0 <= j < |s.angles| ==> Abs(s.angles[r.1] - a) <= Abs(s.angles[j] - a)
    ensures forall j :: 0 <= j < r.1 ==> Abs(s.angles[r.1] - a) < Abs(s.angles[j] - a)
  {
    var i := Nearest(s.angles, a);
    (Sectors(s.angles[i := a], s.scfs[i := scf]), i)
  }

  /** The whole loop over the specific angles, in order, with the index each
      one was snapped to. */
  function SnapAll(s: Sectors, specific: seq<real>, scf: real): (r: (Sectors, seq<nat>))
    requires WellFormed(s)
    ensures WellFormed(r.0) && |r.0.angles| == |s.angles|
    ensures |r.1| == |specific|
    ensures forall k :: 0 <= k < |r.1| ==> r.1[k] < |s.angles|
    decreases |specific|
  {
    if |specific| == 0 then (s, [])
    else
      var (p, trace) := SnapAll(s, specific[..|specific| - 1], scf);
      var (q, i) := Snap(p, specific[|specific| - 1], scf);
      (q, trace + [i])
  }

  /** An entry no specific angle was snapped to keeps its angle and factor. */
  lemma {:induction false} SnapAllFrame(s: Sectors, specific: seq<real>, scf: real, j: nat)
    requires WellFormed(s) && j < |s.angles|
    requires j !in SnapAll(s, specific, scf).1
    ensures SnapAll(s, specific, scf).0.angles[j] == s.angles[j]
    ensures SnapAll(s, specific, scf).0.scfs[j] == s.scfs[j]
    decreases |specific|
  {
    if |specific| > 0 {
      var n := |specific|;
      var (p, trace) := SnapAll(s, specific[..n - 1], scf);
      assert SnapAll(s, specific, scf).1 == trace + [Snap(p, specific[n - 1], scf).1];
      SnapAllFrame(s, specific[..n - 1], scf, j);
    }
  }

  /** An entry some specific angle was snapped to carries the geometry's
      factor and holds one of the specific angles. */
  lemma {:induction false} SnapAllHit(s: Sectors, specific: seq<real>, scf: real, j: nat)
    requires WellFormed(s) && j < |s.angles|
    requires j in SnapAll(s, specific, scf).1
    ensures SnapAll(s, specific, scf).0.scfs[j] == scf
    ensures SnapAll(s, specific, scf).0.angles[j] in specific
    decreases |specific|
  {
    var n := |specific|;
    var (p, trace) := SnapAll(s, specific[..n - 1], scf);
    var (q, i) := Snap(p, specific[n - 1], scf);
    assert SnapAll(s, specific, scf) == (q, trace + [i]);
    if j != i {
      assert j in trace;
      SnapAllHit(s, specific[..n - 1], scf, j);
      assert p.angles[j] in specific[..n - 1];
    }
  }

  /** The last specific angle always survives at the index it was given. */
  lemma SnapAllLast(s: Sectors, specific: seq<real>, scf: real)
    requires WellFormed(s) && |specific| > 0
    ensures SnapAll(s, specific, scf).0.angles[SnapAll(s, specific, scf).1[|specific| - 1]] == specific[|specific| - 1]
  {
  }

  /** Every angle is matched against the list as the earlier specific angles
      left it: the k-th index is the first nearest entry of that list. */
  lemma {:induction false} SnapAllProgressive(s: Sectors, specific: seq<real>, scf: real, k: nat)
    requires WellFormed(s) && k < |specific|
    ensures SnapAll(s, specific, scf).1[k] == Nearest(SnapAll(s, specific[..k], scf).0.angles, specific[k])
    decreases |specific|
  {
    var n := |specific|;
    var pre := specific[..n - 1];
    var (p, trace) := SnapAll(s, pre, scf);
    var last := Snap(p, specific[n - 1], scf);
    assert SnapAll(s, specific, scf) == (last.0, trace + [last.1]);
    if k < n - 1 {
      SnapAllProgressive(s, pre, scf, k);
      assert pre[..k] == specific[..k];
      assert pre[k] == specific[k];
      assert (trace + [last.1])[k] == trace[k];
    } else {
      assert specific[..k] == pre;
      assert last.1 == Nearest(p.angles, specific[k]);
    }
  }

  /** `get_scf_sector_list(geometry, point_angles)` for a geometry with
      factor `scf` and sector cell `scfSector`. */
  function ScfSectorList(scf: real, scfSector: string, pointAngles: seq<real>): (r: Result<(seq<real>, seq<real>)>)
    ensures r.Ok? ==> |r.value.0| == |pointAngles| && |r.value.1| == |pointAngles|
    ensures scfSector == "omni" ==>
      (r.Ok? && r.value.0 == pointAngles && forall i :: 0 <= i < |pointAngles| ==> r.value.1[i] == scf)
    ensures scfSector != "omni" ==> (r.Ok? <==> |pointAngles| > 0 && SpecificAngles(scfSector).Ok?)
  {
    var n := |pointAngles|;
    if scfSector == "omni" then Ok((pointAngles, seq(n, _ => scf)))
    else
      var specific :- SpecificAngles(scfSector);
      if n == 0 then Err(ValueError)
      else
        var (s, _) := SnapAll(Unsnapped(pointAngles), specific, scf);
        Ok((s.angles, s.scfs))
  }

  /** The hot-spot list before any snapping: the given angles, factor 1. */
  function Unsnapped(pointAngles: seq<real>): (s: Sectors)
    requires |pointAngles| > 0
    ensures WellFormed(s) && s.angles == pointAngles
    ensures forall i :: 0 <= i < |pointAngles| ==> s.scfs[i] == 1.0
  {
    Sectors(pointAngles, seq(|pointAngles|, _ => 1.0))
  }

  /** The indices the specific angles were snapped to, in order. */
  function SnapTrace(scf: real, specific: seq<real>, pointAngles: seq<real>): (trace: seq<nat>)
    requires |pointAngles| > 0
    ensures |trace| == |specific|
    ensures forall k :: 0 <= k < |trace| ==> trace[k] < |pointAngles|
  {
    SnapAll(Unsnapped(pointAngles), specific, scf).1
  }

  lemma ScfSectorListSnaps(scf: real, scfSector: string, pointAngles: seq<real>)
    requires scfSector != "omni" && ScfSectorList(scf, scfSector, pointAngles).Ok?
    ensures var s1 := SnapAll(Unsnapped(pointAngles), SpecificAngles(scfSector).value, scf).0;
      ScfSectorList(scf, scfSector, pointAngles) == Ok((s1.angles, s1.scfs))
  {
  }

  /** Outside the omni case an index some specific angle was snapped to
      carries the geometry's factor and one of the specific angles. */
  lemma ScfSectorSnapped(scf: real, scfSector: string, pointAngles: seq<real>, i: nat)
    requires scfSector != "omni" && ScfSectorList(scf, scfSector, pointAngles).Ok?
    requires i < |pointAngles| && i in SnapTrace(scf, SpecificAngles(scfSector).value, pointAngles)
    ensures ScfSectorList(scf, scfSector, pointAngles).value.1[i] == scf
    ensures ScfSectorList(scf, scfSector, pointAngles).value.0[i] in SpecificAngles(scfSector).value
  {
    ScfSectorListSnaps(scf, scfSector, pointAngles);
    SnapAllHit(Unsnapped(pointAngles), SpecificAngles(scfSector).value, scf, i);
  }

  /** Outside the omni case every index no specific angle was snapped to keeps
      its angle and the factor 1. */
  lemma ScfSectorUntouched(scf: real, scfSector: string, pointAngles: seq<real>, i: nat)
    requires scfSector != "omni" && ScfSectorList(scf, scfSector, pointAngles).Ok?
    requires i < |pointAngles| && i !in SnapTrace(scf, SpecificAngles(scfSector).value, pointAngles)
    ensures ScfSectorList(scf, scfSector, pointAngles).value.1[i] == 1.0
    ensures ScfSectorList(scf, scfSector, pointAngles).value.0[i] == pointAngles[i]
  {
    ScfSectorListSnaps(scf, scfSector, pointAngles);
    SnapAllFrame(Unsnapped(pointAngles), SpecificAngles(scfSector).value, scf, i);
  }

  /** The last specific angle is always among the returned angles. */
  lemma ScfSectorLastPresent(scf: real, scfSector: string, pointAngles: seq<real>)
    requires scfSector != "omni" && ScfSectorList(scf, scfSector, pointAngles).Ok?
    ensures var specific := SpecificAngles(scfSector).value;
      specific[|specific| - 1] in ScfSectorList(scf, scfSector, pointAngles).value.0
  {
    ScfSectorListSnaps(scf, scfSector, pointAngles);
    SnapAllLast(Unsnapped(pointAngles), SpecificAngles(scfSector).value, scf);
  }

  /** A capitalised `Omni` is not the omni marker: `float('Omni')` raises. */
  lemma ScfSectorOmniCapitalised(scf: real, pointAngles: seq<real>)
    ensures ScfSectorList(scf, "Omni", pointAngles) == Err(ValueError)
  {
    assert "Omni" != "omni" by { assert "Omni"[0] != "omni"[0]; }
    SpecificAnglesOmni();
  }

  lemma SpecificAnglesOmni()
    ensures SpecificAngles("Omni") == Err(ValueError)
  {
    SplitWithoutSeparator("Omni", ',');
    assert SplitOn("Omni", ",") == ["Omni"];
    ReadAngleOmni();
  }

  lemma ReadAngleOmni()
    ensures ReadAngle("Omni") == Err(ValueError)
  {
    OmniIsStripped();
    OmniIsNotFloat();
  }

  lemma OmniIsStripped()
    ensures Strip("Omni") == "Omni"
  {
    StripNoSpaceEnds("Omni");
  }

  lemma OmniIsNotFloat()
    ensures ReadFloat("Omni") == Err(ValueError)
  {
    assert '_' !in "Omni";
    ParseFloatRejectsOmni();
  }
}

=== FILE: sections.dfy ===
/** Tubular cross-section properties at one elevation (`create_geo_matrix` and
    the first lines of `calculate_stress_timeseries`), and the per-geometry
    record the damage and DEM calculations read.
 */
module Sections {
  import opened Outcomes
  import opened Numerics
  import ScfSectors
  import SnCurves

  /** One row of the geometry sheet. */
  datatype GeometryRow = GeometryRow(
    od: real,            // outer diameter, metres
    wt: real,            // wall thickness, millimetres
    inout: string,       // 'o' for the outer surface, anything else the inner
    lT: real,            // weld length used in the effective thickness
    tMax: real,          // the sheet's 'T' column, millimetres
    mxCol: int, myCol: int, fzCol: int,   // 1-based channel numbers
    scf: real, scfSector: string,
    z: real,             // elevation
    memberJlo: string)

  /** Diameter, wall thickness in metres, area, second moment of area and
      section modulus. */
  datatype Section = Section(d: real, t: real, a: real, i: real, z: real)

  /** The record `create_geo_matrix` stores per geometry. */
  datatype GeoRecord = GeoRecord(
    mxCol: int, myCol: int, fzCol: int, scf: real, scfSector: string,
    d: real, t: real, a: real, i: real, z: real,
    elevation: real,
    wt: real,                  // effective thickness, millimetres
    alpha: real,
    actualAngles: seq<real>, scfPerPoint: seq<real>,
    memberJlo: string)

  /** `np.pi * ((D/2)**2 - ((D - 2*t)/2)**2)`. */
  function Area(pi: real, d: real, t: real): (a: real)
    ensures a == pi * (t * (d - t))
    ensures pi > 0.0 && 0.0 < t < d ==> a > 0.0
  {
    var outer := (d / 2.0) * (d / 2.0);
    var inner := ((d - 2.0 * t) / 2.0) * ((d - 2.0 * t) / 2.0);
    assert outer - inner == t * (d - t);
    PositiveProduct(pi, t * (d - t));
    pi * (outer - inner)
  }

  lemma PositiveProduct(x: real, y: real)
    ensures x > 0.0 && y > 0.0 ==> x * y > 0.0
  {
  }

  function Pow4(x: real): real {
    (x * x) * (x * x)
  }

  lemma Pow4Increasing(x: real, y: real)
    requires 0.0 <= x < y
    ensures Pow4(x) < Pow4(y)
  {
    SquareIncreasing(x, y);
    SquareIncreasing(x * x, y * y);
  }

  lemma SquareIncreasing(x: real, y: real)
    requires 0.0 <= x < y
    ensures 0.0 <= x * x < y * y
  {
    assert y * y - x * x == (y - x) * (y + x);
    PositiveProduct(y - x, y + x);
    assert x * x >= 0.0 by {
      if x > 0.0 { PositiveProduct(x, x); }
    }
  }

  /** `np.pi / 64 * (D**4 - (D - 2*t)**4)`; positive for a wall thinner than
      the radius. */
  function Inertia(pi: real, d: real, t: real): (i: real)
    ensures pi > 0.0 && 0.0 < t && 2.0 * t < d ==> i > 0.0
    ensures t == 0.0 ==> i == 0.0
  {
    if pi > 0.0 && 0.0 < t && 2.0 * t < d then
      InertiaPositive(pi, d, t);
      pi / 64.0 * (Pow4(d) - Pow4(d - 2.0 * t))
    else
      pi / 64.0 * (Pow4(d) - Pow4(d - 2.0 * t))
  }

  lemma InertiaPositive(pi: real, d: real, t: real)
    requires pi > 0.0 && 0.0 < t && 2.0 * t < d
    ensures pi / 64.0 * (Pow4(d) - Pow4(d - 2.0 * t)) > 0.0
  {
    var q := pi / 64.0;
    var x := Pow4(d) - Pow4(d - 2.0 * t);
    Pow4Increasing(d - 2.0 * t, d);
    assert q > 0.0 && x > 0.0;
    PositiveProduct(q, x);
  }

  /** `I / (D/2)` on the outer surface (`inout == 'o'`), `I / (D/2 - t)` for
      every other flag; numpy's division by zero is outside the model. */
  function SectionModulus(i: real, d: real, t: real, inout: string): (r: Result<real>)
    ensures inout == "o" ==> (r.Ok? <==> d != 0.0) && (r.Ok? ==> r.value * (d / 2.0) == i)
    ensures inout != "o" ==> (r.Ok? <==> d / 2.0 - t != 0.0) && (r.Ok? ==> r.value * (d / 2.0 - t) == i)
    ensures r.Err? ==> r.error == NonFinite
  {
    var c := if inout == "o" then d / 2.0 else d / 2.0 - t;
    if c == 0.0 then Err(NonFinite) else Ok(i / c)
  }

  /** The inner surface is closer to the neutral axis, so its modulus is at
      least the outer one. */
  lemma InnerModulusAtLeastOuter(i: real, d: real, t: real)
    requires i >= 0.0 && 0.0 <= t && 2.0 * t < d
    ensures SectionModulus(i, d, t, "i").Ok? && SectionModulus(i, d, t, "o").Ok?
    ensures SectionModulus(i, d, t, "o").value <= SectionModulus(i, d, t, "i").value
  {
    var zo := SectionModulus(i, d, t, "o").value;
    var zi := SectionModulus(i, d, t, "i").value;
    assert zo * (d / 2.0) == zi * (d / 2.0 - t);
    assert zi >= 0.0;
    assert zi * (d / 2.0) >= zi * (d / 2.0 - t);
  }

  /** The section of one geometry row: millimetres to metres, then A, I, Z. */
  function SectionOf(pi: real, row: GeometryRow): (r: Result<Section>)
    ensures r.Ok? ==> r.value.d == row.od && r.value.t * 1000.0 == row.wt
    ensures r.Ok? ==> r.value.a == pi * (r.value.t * (r.value.d - r.value.t))
    ensures r.Ok? ==> r.value.i == Inertia(pi, row.od, r.value.t)
    ensures r.Ok? ==> SectionModulus(r.value.i, r.value.d, r.value.t, row.inout) == Ok(r.value.z)
    ensures r.Err? ==> r.error == NonFinite
  {
    var d := row.od;
    var t := row.wt / 1000.0;
    var a := Area(pi, d, t);
    var i := Inertia(pi, d, t);
    var z :- SectionModulus(i, d, t, row.inout);
    Ok(Section(d, t, a, i, z))
  }

  /** `min(14.0 + 0.66 * L_t, T)` in millimetres. */
  function EffectiveThickness(lT: real, tMax: real): (w: real)
    ensures w <= tMax && w <= 14.0 + 0.66 * lT
    ensures w == tMax || w == 14.0 + 0.66 * lT
  {
    PyMin(14.0 + 0.66 * lT, tMax)
  }

  /** `max(1.0, (wt / t_ref) ** k)`: the thickness factor never falls below 1. */
  function Alpha(pow: (real, real) -> real, wt: real, tRef: real, k: real): (alpha: real)
    requires tRef != 0.0
    ensures alpha >= 1.0
    ensures alpha == 1.0 || alpha == pow(wt / tRef, k)
    ensures pow(wt / tRef, k) > 1.0 ==> alpha == pow(wt / tRef, k)
  {
    PyMax(1.0, pow(wt / tRef, k))
  }

  /** One entry of `create_geo_matrix`. */
  function GeoRecordOf(m: Maths, row: GeometryRow, pointAngles: seq<real>, curve: SnCurves.SnCurve): (r: Result<GeoRecord>)
    requires curve.tRef == 25.0
    ensures r.Ok? <==> SectionOf(m.pi, row).Ok? && ScfSectors.ScfSectorList(row.scf, row.scfSector, pointAngles).Ok?
    ensures r.Ok? ==> (var g := r.value;
      g.mxCol == row.mxCol && g.myCol == row.myCol && g.fzCol == row.fzCol
      && g.scf == row.scf && g.scfSector == row.scfSector
      && g.elevation == row.z && g.memberJlo == row.memberJlo && g.d == row.od)
    ensures r.Ok? ==> r.value.t * 1000.0 == row.wt && r.value.wt <= row.tMax
    ensures r.Ok? ==> r.value.alpha >= 1.0
    ensures r.Ok? ==>
      (r.value.actualAngles, r.value.scfPerPoint) == ScfSectors.ScfSectorList(row.scf, row.scfSector, pointAngles).value
    ensures r.Ok? ==> |r.value.actualAngles| == |pointAngles| && |r.value.scfPerPoint| == |pointAngles|
  {
    var s :- SectionOf(m.pi, row);
    var angles :- ScfSectors.ScfSectorList(row.scf, row.scfSector, pointAngles);
    var wt := EffectiveThickness(row.lT, row.tMax);
    Ok(GeoRecord(row.mxCol, row.myCol, row.fzCol, row.scf, row.scfSector,
                 s.d, s.t, s.a, s.i, s.z, row.z, wt,
                 Alpha(m.pow, wt, curve.tRef, curve.k),
                 angles.0, angles.1, row.memberJlo))
  }

  /** `create_geo_matrix(geometry, point_angles, curve)`: one record per row,
      keyed by row position; the first row that fails ends the whole table. */
  function CreateGeoMatrix(m: Maths, rows: seq<GeometryRow>, pointAngles: seq<real>, curve: SnCurves.SnCurve): (r: Result<seq<GeoRecord>>)
    requires curve.tRef == 25.0
    ensures r.Ok? <==> forall g :: 0 <= g < |rows| ==> GeoRecordOf(m, rows[g], pointAngles, curve).Ok?
    ensures r.Ok? ==> |r.value| == |rows|
    ensures r.Ok? ==> forall g :: 0 <= g < |rows| ==> Ok(r.value[g]) == GeoRecordOf(m, rows[g], pointAngles, curve)
  {
    var record := (row: GeometryRow) => GeoRecordOf(m, row, pointAngles, curve);
    assert forall g :: 0 <= g < |rows| ==> record(rows[g]) == GeoRecordOf(m, rows[g], pointAngles, curve);
    MapResult(rows, record)
  }

  /** A call of `create_geo_matrix(geometry, point_angles[, curve])`: the
      definition needs all three, so a call without the curve raises
      TypeError before the body runs. */
  function CreateGeoMatrixCall(m: Maths, rows: seq<GeometryRow>, pointAngles: seq<real>, curve: Option<SnCurves.SnCurve>): (r: Result<seq<GeoRecord>>)
    requires curve.Some? ==> curve.value.tRef == 25.0
    ensures curve.None? ==> r == Err(TypeError)
    ensures curve.Some? ==> r == CreateGeoMatrix(m, rows, pointAngles, curve.value)
  {
    if curve.None? then Err(TypeError) else CreateGeoMatrix(m, rows, pointAngles, curve.value)
  }
}

=== FILE: sector_loads.dfy ===
/** Reading one load case and projecting its tower moments onto the sectors
    of the circumference (`get_forces_and_moments_time_series`,
    `get_moment_time_series` and the first half of the per-case damage and
    DEM calculations).
 */
module SectorLoads {
  import opened Outcomes
  import opened Seqs
  import opened Numerics
  import opened Text
  import SimulationFile

  /** The two ways the code base projects (Mx, My) onto the sector at angle
      θ: `sin θ·Mx − cos θ·My` in the baseline per-case functions and
      `sin θ·Mx + cos θ·My` in the prototypes. */
  datatype Convention = Baseline | Prototype

  function Sign(c: Convention): real {
    if c.Baseline? then -1.0 else 1.0
  }

  /** The bending moment at one time step about the sector `deg` degrees
      round the circumference. */
  function Projected(m: Maths, c: Convention, deg: real, mx: real, my: real): real {
    m.sin(Deg2Rad(m, deg)) * mx + Sign(c) * (m.cos(Deg2Rad(m, deg)) * my)
  }

  /** One sector's moment time series from the Mx and My channels. */
  function Resolve(m: Maths, c: Convention, deg: real, mx: seq<real>, my: seq<real>): (r: seq<real>)
    requires |mx| == |my|
    ensures |r| == |mx|
    ensures forall s :: 0 <= s < |r| ==> r[s] == Projected(m, c, deg, mx[s], my[s])
  {
    seq(|mx|, s requires 0 <= s < |mx| => Projected(m, c, deg, mx[s], my[s]))
  }

  /** The baseline convention is the prototype one with My reversed. */
  lemma ConventionsMirror(m: Maths, deg: real, mx: seq<real>, my: seq<real>)
    requires |mx| == |my|
    ensures Resolve(m, Baseline, deg, mx, my) == Resolve(m, Prototype, deg, mx, Negated(my))
  {
    var b := Resolve(m, Baseline, deg, mx, my);
    var p := Resolve(m, Prototype, deg, mx, Negated(my));
    forall s | 0 <= s < |mx|
      ensures b[s] == p[s]
    {
      assert b[s] == Projected(m, Baseline, deg, mx[s], my[s]);
      assert p[s] == Projected(m, Prototype, deg, mx[s], -my[s]);
    }
  }

  /** The two conventions agree on a load with no My component. */
  lemma ConventionsAgreeWithoutMy(m: Maths, deg: real, mx: seq<real>, my: seq<real>)
    requires |mx| == |my|
    requires forall s :: 0 <= s < |my| ==> my[s] == 0.0
    ensures Resolve(m, Baseline, deg, mx, my) == Resolve(m, Prototype, deg, mx, my)
  {
    var b := Resolve(m, Baseline, deg, mx, my);
    var p := Resolve(m, Prototype, deg, mx, my);
    forall s | 0 <= s < |mx|
      ensures b[s] == p[s]
    {
      assert b[s] == Projected(m, Baseline, deg, mx[s], 0.0);
    }
  }

  /** Projection is linear: the moment of a superposed load is the sum of the
      moments of its parts. */
  lemma ResolveAdditive(m: Maths, c: Convention, deg: real, mx1: seq<real>, my1: seq<real>, mx2: seq<real>, my2: seq<real>)
    requires |mx1| == |my1| == |mx2| == |my2|
    ensures Resolve(m, c, deg, Added(mx1, mx2), Added(my1, my2))
         == Added(Resolve(m, c, deg, mx1, my1), Resolve(m, c, deg, mx2, my2))
  {
    var whole := Resolve(m, c, deg, Added(mx1, mx2), Added(my1, my2));
    var parts := Added(Resolve(m, c, deg, mx1, my1), Resolve(m, c, deg, mx2, my2));
    forall s | 0 <= s < |mx1|
      ensures whole[s] == parts[s]
    {
      var sn := m.sin(Deg2Rad(m, deg));
      var cs := m.cos(Deg2Rad(m, deg));
      assert whole[s] == sn * (mx1[s] + mx2[s]) + Sign(c) * (cs * (my1[s] + my2[s]));
      assert parts[s] == (sn * mx1[s] + Sign(c) * (cs * my1[s])) + (sn * mx2[s] + Sign(c) * (cs * my2[s]));
    }
  }

  function Negated(xs: seq<real>): (r: seq<real>)
    ensures |r| == |xs| && forall i :: 0 <= i < |xs| ==> r[i] == -xs[i]
  {
    seq(|xs|, i requires 0 <= i < |xs| => -xs[i])
  }

  function Added(xs: seq<real>, ys: seq<real>): (r: seq<real>)
    requires |xs| == |ys|
    ensures |r| == |xs| && forall i :: 0 <= i < |xs| ==> r[i] == xs[i] + ys[i]
  {
    seq(|xs|, i requires 0 <= i < |xs| => xs[i] + ys[i])
  }

  /** The axial-force block (every sector sees the same Fz row) and the
      moment block (one row per sector) of one load case. */
  datatype CaseLoads = CaseLoads(forces: Matrix, moments: Matrix)

  /** `get_forces_and_moments_time_series_case_i` once the file is decoded:
      `pos` holds the 1-based channel numbers minus one, which numpy reads
      from the end when negative. */
  function LoadsOfContent(m: Maths, c: Convention, content: Matrix, pos: (int, int, int), angles: seq<real>): (r: Result<CaseLoads>)
    requires Rectangular(content)
    ensures r.Ok? <==> PyIndex(content, pos.0).Ok? && PyIndex(content, pos.1).Ok? && PyIndex(content, pos.2).Ok?
    ensures r.Err? ==> r.error == IndexError
    ensures r.Ok? ==> |r.value.forces| == |angles| && |r.value.moments| == |angles|
    ensures r.Ok? ==> forall a :: 0 <= a < |angles| ==> r.value.forces[a] == PyIndex(content, pos.2).value
    ensures r.Ok? ==> forall a :: 0 <= a < |angles| ==>
      |r.value.moments[a]| == |PyIndex(content, pos.2).value|
      && forall s :: 0 <= s < |r.value.moments[a]| ==>
           r.value.moments[a][s] == Projected(m, c, angles[a], PyIndex(content, pos.0).value[s], PyIndex(content, pos.1).value[s])
  {
    var mx :- PyIndex(content, pos.0);
    var my :- PyIndex(content, pos.1);
    var fz :- PyIndex(content, pos.2);
    assert |mx| == |my| == |fz| == |content[0]|;
    Ok(CaseLoads(seq(|angles|, a requires 0 <= a < |angles| => fz),
                 seq(|angles|, a requires 0 <= a < |angles| => Resolve(m, c, angles[a], mx, my))))
  }

  /** `out[case_i, :, :] = block` into a slice of shape (nAngles, nSteps):
      the block's own step count must match; numpy would also stretch a
      single step across the slice, which the model does not follow. */
  function Place(block: Matrix, nAngles: nat, nSteps: nat): (r: Result<Matrix>)
    requires |block| == nAngles && Rectangular(block)
    ensures r.Ok? <==> nAngles > 0 && |block[0]| == nSteps
    ensures r.Ok? ==> r.value == block && IsShape(r.value, nAngles, nSteps)
    ensures nAngles > 0 && |block[0]| != nSteps && |block[0]| != 1 ==> r == Err(ValueError)
    ensures r.Err? ==> r.error == ValueError || r.error == OutsideModel
  {
    if nAngles == 0 || (|block[0]| == 1 && nSteps != 1) then Err(OutsideModel)
    else if |block[0]| != nSteps then Err(ValueError)
    else Ok(block)
  }

  /** Where a case's two files are and how to read them: the file system
      and the float32 decoding are parameters of the model. */
  datatype CaseFiles = CaseFiles(results: string, descr: string)
  datatype Reader = Reader(bytes: string -> Result<seq<SimulationFile.byte>>,
                           text: string -> Result<string>,
                           decode: seq<SimulationFile.byte> -> real)

  /** `read_bladed_file(binary_file, text_file)`: the binary file is opened
      first, then the descriptor. */
  function ReadCase(io: Reader, files: CaseFiles): (r: Result<Matrix>)
    ensures io.bytes(files.results).Err? ==> r == Err(io.bytes(files.results).error)
    ensures r.Ok? ==> io.bytes(files.results).Ok? && io.text(files.descr).Ok?
    ensures r.Ok? ==> Ok(r.value) == SimulationFile.ReadBladedFile(io.text(files.descr).value, io.bytes(files.results).value, io.decode)
    ensures r.Ok? ==> Rectangular(r.value)
  {
    var content :- io.bytes(files.results);
    var descriptor :- io.text(files.descr);
    SimulationFile.ReadBladedFile(descriptor, content, io.decode)
  }

  /** The channel positions of `get_forces_and_moments_time_series`. */
  function Positions(mxCol: int, myCol: int, fzCol: int): (pos: (int, int, int))
    ensures pos.0 + 1 == mxCol && pos.1 + 1 == myCol && pos.2 + 1 == fzCol
  {
    (mxCol - 1, myCol - 1, fzCol - 1)
  }

  /** One case of `get_forces_and_moments_time_series`: read, resolve with
      the prototype sign, and place both blocks into their slices. */
  function PrototypeCase(m: Maths, io: Reader, pos: (int, int, int), angles: seq<real>, nSteps: nat, files: CaseFiles): (r: Result<CaseLoads>)
    ensures r.Ok? ==> ReadCase(io, files).Ok?
    ensures r.Ok? ==> Ok(r.value) == LoadsOfContent(m, Prototype, ReadCase(io, files).value, pos, angles)
    ensures r.Ok? ==> IsShape(r.value.forces, |angles|, nSteps) && IsShape(r.value.moments, |angles|, nSteps)
  {
    var content :- ReadCase(io, files);
    var loads :- LoadsOfContent(m, Prototype, content, pos, angles);
    var moments :- Place(loads.moments, |angles|, nSteps);
    var forces :- Place(loads.forces, |angles|, nSteps);
    Ok(CaseLoads(forces, moments))
  }

  /** `get_forces_and_moments_time_series(df, geo_row, point_angles,
      n_timesteps)` on its sequential branch: slice `i` of both tensors comes
      from case `i`, and the first failing case ends the call. */
  function ForcesAndMoments(m: Maths, io: Reader, cases: seq<CaseFiles>, mxCol: int, myCol: int, fzCol: int,
                            angles: seq<real>, nSteps: nat): (r: Result<seq<CaseLoads>>)
    ensures r.Ok? <==> forall i :: 0 <= i < |cases| ==>
      PrototypeCase(m, io, Positions(mxCol, myCol, fzCol), angles, nSteps, cases[i]).Ok?
    ensures r.Ok? ==> |r.value| == |cases|
    ensures r.Ok? ==> forall i :: 0 <= i < |cases| ==>
      IsShape(r.value[i].forces, |angles|, nSteps) && IsShape(r.value[i].moments, |angles|, nSteps)
      && Ok(r.value[i]) == LoadsOfContent(m, Prototype, ReadCase(io, cases[i]).value, Positions(mxCol, myCol, fzCol), angles)
  {
    var pos := Positions(mxCol, myCol, fzCol);
    MapResult(cases, files => PrototypeCase(m, io, pos, angles, nSteps, files))
  }

  /** A row of the load-case sheet that `get_moment_time_series` reads. */
  datatype SheetRow = SheetRow(simulationName: string, path: string, prob: real)

  /** `os.path.join(folder + path, simulation_name.replace('XXX', cluster))`;
      the platform's path join is a parameter. */
  function CaseBase(join: (string, string) -> string, cluster: string, folder: string, row: SheetRow): string {
    join(folder + row.path, ReplaceAll(row.simulationName, "XXX", cluster))
  }

  /** The results file (`.$105`) and description file (`.%105`) of a case. */
  function CaseFilesOf(join: (string, string) -> string, cluster: string, folder: string, row: SheetRow): (f: CaseFiles)
    ensures f.results == CaseBase(join, cluster, folder, row) + ".$105"
    ensures f.descr == CaseBase(join, cluster, folder, row) + ".%105"
  {
    var base := CaseBase(join, cluster, folder, row);
    CaseFiles(base + ".$105", base + ".%105")
  }

  /** The two paths of a case differ in exactly one character, the one after
      the shared stem and its dot. */
  lemma CaseFilesDifferInSuffixOnly(join: (string, string) -> string, cluster: string, folder: string, row: SheetRow)
    ensures var f := CaseFilesOf(join, cluster, folder, row);
      var n := |CaseBase(join, cluster, folder, row)|;
      |f.results| == |f.descr| == n + 5
      && f.results[n + 1] == '$' && f.descr[n + 1] == '%'
      && forall k :: 0 <= k < n + 5 && k != n + 1 ==> f.results[k] == f.descr[k]
  {
    var base := CaseBase(join, cluster, folder, row);
    var f := CaseFilesOf(join, cluster, folder, row);
    var n := |base|;
    forall k | 0 <= k < n + 5 && k != n + 1
      ensures f.results[k] == f.descr[k]
    {
      if k < n {
        assert f.results[k] == base[k] && f.descr[k] == base[k];
      }
    }
  }

  /** The simulation name is the file name whenever it names no cluster
      placeholder. */
  lemma CaseBaseWithoutPlaceholder(join: (string, string) -> string, cluster: string, folder: string, row: SheetRow)
    requires !Contains(row.simulationName, "XXX")
    ensures CaseBase(join, cluster, folder, row) == join(folder + row.path, row.simulationName)
  {
    ReplaceAbsent(row.simulationName, "XXX", cluster);
  }

  /** One case of `get_moment_time_series`: channels 0 and 1 as Mx and My,
      the 24 fixed sectors, the prototype sign. */
  function SheetCase(m: Maths, io: Reader, join: (string, string) -> string, cluster: string, folder: string,
                     nSteps: nat, row: SheetRow): (r: Result<Matrix>)
    ensures r.Ok? ==> IsShape(r.value, 24, nSteps)
    ensures r.Ok? ==> ReadCase(io, CaseFilesOf(join, cluster, folder, row)).Ok?
    ensures r.Ok? ==> var content := ReadCase(io, CaseFilesOf(join, cluster, folder, row)).value;
      |content| >= 2 && forall a :: 0 <= a < 24 ==> r.value[a] == Resolve(m, Prototype, 15.0 * a as real, content[0], content[1])
  {
    var content :- ReadCase(io, CaseFilesOf(join, cluster, folder, row));
    if |content| < 2 then Err(IndexError)
    else Place(SectorBlock(m, content[0], content[1]), 24, nSteps)
  }

  /** The 24-sector moment block of `get_moment_time_series`. */
  function SectorBlock(m: Maths, mx: seq<real>, my: seq<real>): (b: Matrix)
    requires |mx| == |my|
    ensures |b| == 24 && Rectangular(b)
    ensures forall a :: 0 <= a < 24 ==> b[a] == Resolve(m, Prototype, 15.0 * a as real, mx, my)
  {
    var angles := SectorAngles();
    seq(24, a requires 0 <= a < 24 => Resolve(m, Prototype, angles[a], mx, my))
  }

  /** `get_moment_time_series(DLC_ID, cluster_ID, config, folder,
      time_series_length)`: the moment tensor, case by case in sheet order,
      and the sheet's probabilities in the same order. */
  function MomentTimeSeries(m: Maths, io: Reader, join: (string, string) -> string, sheet: seq<SheetRow>,
                            cluster: string, folder: string, nSteps: nat): (r: Result<(seq<Matrix>, seq<real>)>)
    ensures r.Ok? <==> forall i :: 0 <= i < |sheet| ==> SheetCase(m, io, join, cluster, folder, nSteps, sheet[i]).Ok?
    ensures r.Ok? ==> |r.value.0| == |sheet| && |r.value.1| == |sheet|
    ensures r.Ok? ==> forall i :: 0 <= i < |sheet| ==>
      IsShape(r.value.0[i], 24, nSteps)
      && Ok(r.value.0[i]) == SheetCase(m, io, join, cluster, folder, nSteps, sheet[i])
      && r.value.1[i] == sheet[i].prob
  {
    var moments :- MapResult(sheet, row => SheetCase(m, io, join, cluster, folder, nSteps, row));
    Ok((moments, seq(|sheet|, i requires 0 <= i < |sheet| => sheet[i].prob)))
  }
}

=== FILE: seqs.dfy ===
/** Sequences of reals as numpy's one- and two-dimensional arrays: sums, dot
    products, first-index argmax/argmin (numpy returns the first index of a
    tie), masked argmin/argmax, and row-major flattening.
 */
module Seqs {

  type Matrix = seq<seq<real>>

  /** Every row has `cols` entries and there are `rows` of them. */
  predicate IsShape(m: Matrix, rows: nat, cols: nat) {
    |m| == rows && forall r :: 0 <= r < |m| ==> |m[r]| == cols
  }

  /** A three-dimensional array of shape (n, rows, cols). */
  predicate IsTensor(t: seq<Matrix>, n: nat, rows: nat, cols: nat) {
    |t| == n && forall c :: 0 <= c < n ==> IsShape(t[c], rows, cols)
  }

  /** A numpy two-dimensional array: all rows have the first row's length. */
  predicate Rectangular(m: Matrix) {
    forall r :: 0 <= r < |m| ==> |m[r]| == |m[0]|
  }

  function Sum(xs: seq<real>): real
    decreases |xs|
  {
    if |xs| == 0 then 0.0 else xs[0] + Sum(xs[1..])
  }

  lemma {:induction false} SumConcat(a: seq<real>, b: seq<real>)
    ensures Sum(a + b) == Sum(a) + Sum(b)
    decreases |a|
  {
    if |a| == 0 {
      assert a + b == b;
    } else {
      assert (a + b)[1..] == a[1..] + b;
      SumConcat(a[1..], b);
    }
  }

  lemma {:induction false} SumNonNegative(xs: seq<real>)
    requires forall i :: 0 <= i < |xs| ==> xs[i] >= 0.0
    ensures Sum(xs) >= 0.0
    decreases |xs|
  {
    if |xs| > 0 {
      SumNonNegative(xs[1..]);
    }
  }

  /** A common factor comes out of a sum. */
  lemma {:induction false} SumScale(xs: seq<real>, ys: seq<real>, r: real)
    requires |ys| == |xs| && forall i :: 0 <= i < |xs| ==> ys[i] == r * xs[i]
    ensures Sum(ys) == r * Sum(xs)
    decreases |xs|
  {
    if |xs| > 0 {
      SumScale(xs[1..], ys[1..], r);
    }
  }

  /** Removing one element from a sum subtracts it. */
  lemma {:induction false} SumRemove(xs: seq<real>, i: nat)
    requires i < |xs|
    ensures Sum(xs) == xs[i] + Sum(xs[..i] + xs[i + 1..])
  {
    assert xs == xs[..i] + [xs[i]] + xs[i + 1..];
    SumConcat(xs[..i] + [xs[i]], xs[i + 1..]);
    SumConcat(xs[..i], [xs[i]]);
    SumConcat(xs[..i], xs[i + 1..]);
    assert Sum([xs[i]]) == xs[i] + Sum([xs[i]][1..]);
  }

  /** Taking the same value out of two equal multisets of sequences. */
  lemma MultisetTakeOut<T>(xs: seq<T>, ys: seq<T>, j: nat)
    requires |xs| > 0 && j < |ys| && ys[j] == xs[0]
    requires multiset(xs) == multiset(ys)
    ensures multiset(xs[1..]) == multiset(ys[..j] + ys[j + 1..])
  {
    var rest := ys[..j] + ys[j + 1..];
    assert ys == ys[..j] + [ys[j]] + ys[j + 1..];
    assert multiset(ys) == multiset(rest) + multiset{ys[j]};
    assert xs == [xs[0]] + xs[1..];
    assert multiset(xs) == multiset(xs[1..]) + multiset{xs[0]};
    calc {
      multiset(xs[1..]);
      multiset(xs) - multiset{xs[0]};
      multiset(ys) - multiset{ys[j]};
      multiset(rest);
    }
  }

  /** A sum does not depend on the order of its terms. */
  lemma {:induction false} SumPermutation(xs: seq<real>, ys: seq<real>)
    requires multiset(xs) == multiset(ys)
    ensures Sum(xs) == Sum(ys)
    decreases |xs|
  {
    if |xs| == 0 {
      assert |ys| == |multiset(ys)| == 0;
    } else {
      assert xs[0] in multiset(ys);
      var j :| 0 <= j < |ys| && ys[j] == xs[0];
      MultisetTakeOut(xs, ys, j);
      SumPermutation(xs[1..], ys[..j] + ys[j + 1..]);
      SumRemove(ys, j);
    }
  }

  /** `f` applied to every element. */
  function MapReal<T>(xs: seq<T>, f: T -> real): (r: seq<real>)
    ensures |r| == |xs| && forall i :: 0 <= i < |xs| ==> r[i] == f(xs[i])
  {
    seq(|xs|, i requires 0 <= i < |xs| => f(xs[i]))
  }

  /** Rearranging the elements rearranges their images. */
  lemma {:induction false} MapPermutation<T>(xs: seq<T>, ys: seq<T>, f: T -> real)
    requires multiset(xs) == multiset(ys)
    ensures multiset(MapReal(xs, f)) == multiset(MapReal(ys, f))
    decreases |xs|
  {
    if |xs| == 0 {
      assert |ys| == |multiset(ys)| == 0;
      assert MapReal(ys, f) == [];
    } else {
      assert xs[0] in multiset(ys);
      var j :| 0 <= j < |ys| && ys[j] == xs[0];
      MultisetTakeOut(xs, ys, j);
      var rest := ys[..j] + ys[j + 1..];
      MapPermutation(xs[1..], rest, f);
      var mx := MapReal(xs, f);
      var my := MapReal(ys, f);
      assert MapReal(xs[1..], f) == mx[1..];
      assert MapReal(rest, f) == my[..j] + my[j + 1..];
      assert mx == [mx[0]] + mx[1..];
      assert my == my[..j] + [my[j]] + my[j + 1..];
      assert my[j] == mx[0];
    }
  }

  /** `np.dot(w, xs)` of two vectors of one length. */
  function Dot(w: seq<real>, xs: seq<real>): real
    requires |w| == |xs|
    decreases |xs|
  {
    if |xs| == 0 then 0.0 else w[0] * xs[0] + Dot(w[1..], xs[1..])
  }

  /** A dot product splits over concatenated vectors. */
  lemma {:induction false} DotConcat(w1: seq<real>, xs1: seq<real>, w2: seq<real>, xs2: seq<real>)
    requires |w1| == |xs1| && |w2| == |xs2|
    ensures Dot(w1 + w2, xs1 + xs2) == Dot(w1, xs1) + Dot(w2, xs2)
    decreases |xs1|
  {
    if |xs1| == 0 {
      assert w1 + w2 == w2 && xs1 + xs2 == xs2;
    } else {
      assert (w1 + w2)[1..] == w1[1..] + w2;
      assert (xs1 + xs2)[1..] == xs1[1..] + xs2;
      DotConcat(w1[1..], xs1[1..], w2, xs2);
    }
  }

  /** The first index of a largest element (numpy `argmax`). */
  function ArgMax(xs: seq<real>): (i: nat)
    requires |xs| > 0
    ensures i < |xs|
    ensures forall j :: 0 <= j < |xs| ==> xs[j] <= xs[i]
    ensures forall j :: 0 <= j < i ==> xs[j] < xs[i]
    decreases |xs|
  {
    if |xs| == 1 then 0
    else
      var k := ArgMax(xs[..|xs| - 1]);
      if xs[|xs| - 1] > xs[k] then |xs| - 1 else k
  }

  /** The first index of a smallest element (numpy `argmin`). */
  function ArgMin(xs: seq<real>): (i: nat)
    requires |xs| > 0
    ensures i < |xs|
    ensures forall j :: 0 <= j < |xs| ==> xs[i] <= xs[j]
    ensures forall j :: 0 <= j < i ==> xs[i] < xs[j]
    decreases |xs|
  {
    if |xs| == 1 then 0
    else
      var k := ArgMin(xs[..|xs| - 1]);
      if xs[|xs| - 1] < xs[k] then |xs| - 1 else k
  }

  /** The two properties of ArgMax single out one index. */
  lemma ArgMaxUnique(xs: seq<real>, i: nat)
    requires i < |xs|
    requires forall j :: 0 <= j < |xs| ==> xs[j] <= xs[i]
    requires forall j :: 0 <= j < i ==> xs[j] < xs[i]
    ensures ArgMax(xs) == i
  {
  }

  /** The two properties of ArgMin single out one index. */
  lemma ArgMinUnique(xs: seq<real>, i: nat)
    requires i < |xs|
    requires forall j :: 0 <= j < |xs| ==> xs[i] <= xs[j]
    requires forall j :: 0 <= j < i ==> xs[i] < xs[j]
    ensures ArgMin(xs) == i
  {
  }

  /** numpy's `np.ma.masked_array(xs, mask=masked).argmin()`: the first index of
      the smallest unmasked element, and 0 when every element is masked. */
  function MaskedArgMin(xs: seq<real>, masked: seq<bool>): (i: nat)
    requires |masked| == |xs|
    ensures i < |xs| || (i == 0 && |xs| == 0)
    ensures (exists j :: 0 <= j < |xs| && !masked[j]) ==>
              i < |xs| && !masked[i]
              && (forall j :: 0 <= j < |xs| && !masked[j] ==> xs[i] <= xs[j])
              && (forall j :: 0 <= j < i && !masked[j] ==> xs[i] < xs[j])
    ensures (forall j :: 0 <= j < |xs| ==> masked[j]) ==> i == 0
    decreases |xs|
  {
    if |xs| == 0 then 0
    else
      var n := |xs| - 1;
      var k := MaskedArgMin(xs[..n], masked[..n]);
      if masked[n] then k
      else if forall j :: 0 <= j < n ==> masked[j] then n
      else if xs[n] < xs[k] then n
      else k
  }

  /** numpy's `np.ma.masked_array(xs, mask=masked).argmax()`: the first index of
      the largest unmasked element, and 0 when every element is masked. */
  function MaskedArgMax(xs: seq<real>, masked: seq<bool>): (i: nat)
    requires |masked| == |xs|
    ensures i < |xs| || (i == 0 && |xs| == 0)
    ensures (exists j :: 0 <= j < |xs| && !masked[j]) ==>
              i < |xs| && !masked[i]
              && (forall j :: 0 <= j < |xs| && !masked[j] ==> xs[j] <= xs[i])
              && (forall j :: 0 <= j < i && !masked[j] ==> xs[j] < xs[i])
    ensures (forall j :: 0 <= j < |xs| ==> masked[j]) ==> i == 0
    decreases |xs|
  {
    if |xs| == 0 then 0
    else
      var n := |xs| - 1;
      var k := MaskedArgMax(xs[..n], masked[..n]);
      if masked[n] then k
      else if forall j :: 0 <= j < n ==> masked[j] then n
      else if xs[n] > xs[k] then n
      else k
  }

  /** Row-major flattening (`ndarray.flatten()` / `argmax()` on a matrix). */
  function Flatten(m: Matrix): (flat: seq<real>)
    decreases |m|
  {
    if |m| == 0 then [] else m[0] + Flatten(m[1..])
  }

  /** `a * b` by repeated addition: the flattening proofs below stay linear. */
  function Mul(a: nat, b: nat): nat
    decreases a
  {
    if a == 0 then 0 else b + Mul(a - 1, b)
  }

  lemma {:induction false} MulIsProduct(a: nat, b: nat)
    ensures Mul(a, b) == a * b
    decreases a
  {
    if a > 0 {
      MulIsProduct(a - 1, b);
    }
  }

  lemma MulMonotone(a: nat, b: nat, c: nat)
    requires a <= b
    ensures a * c <= b * c
  {
  }

  /** Row-major positions are ordered like (row, column) pairs. */
  lemma {:induction false} RowMajorOrder(r: nat, c: nat, r0: nat, c0: nat, cols: nat)
    requires c < cols && c0 < cols
    ensures Mul(r, cols) + c < Mul(r0, cols) + c0 <==> r < r0 || (r == r0 && c < c0)
    ensures Mul(r, cols) + c == Mul(r0, cols) + c0 <==> r == r0 && c == c0
    decreases r + r0
  {
    if r > 0 && r0 > 0 {
      RowMajorOrder(r - 1, c, r0 - 1, c0, cols);
    } else if r > 0 {
      assert Mul(r, cols) == cols + Mul(r - 1, cols);
    } else if r0 > 0 {
      assert Mul(r0, cols) == cols + Mul(r0 - 1, cols);
    }
  }

  /** A row-major position splits back into its row and column. */
  lemma RowMajorDivMod(r: nat, c: nat, cols: nat)
    requires c < cols
    ensures (r * cols + c) / cols == r && (r * cols + c) % cols == c
  {
    var k := r * cols + c;
    var q, m := k / cols, k % cols;
    assert k == q * cols + m && 0 <= m < cols;
    MulIsProduct(q, cols);
    MulIsProduct(r, cols);
    RowMajorOrder(q, m, r, c, cols);
  }

  /** Python's `divmod(k, cols)` on non-negative integers. */
  function DivMod(k: nat, cols: nat): (p: (nat, nat))
    requires cols > 0
    ensures Mul(p.0, cols) + p.1 == k && p.1 < cols
  {
    MulIsProduct(k / cols, cols);
    (k / cols, k % cols)
  }

  lemma {:induction false} FlattenLength(m: Matrix, rows: nat, cols: nat)
    requires IsShape(m, rows, cols)
    ensures |Flatten(m)| == Mul(rows, cols)
    decreases rows
  {
    if rows > 0 {
      FlattenLength(m[1..], rows - 1, cols);
    }
  }

  /** Entry (r, c) sits at position `r * cols + c` of the flattened matrix. */
  lemma {:induction false} FlattenIndex(m: Matrix, rows: nat, cols: nat, r: nat, c: nat)
    requires IsShape(m, rows, cols) && r < rows && c < cols
    ensures Mul(r, cols) + c < |Flatten(m)|
    ensures Flatten(m)[Mul(r, cols) + c] == m[r][c]
    decreases r
  {
    FlattenLength(m, rows, cols);
    if r > 0 {
      FlattenIndex(m[1..], rows - 1, cols, r - 1, c);
    }
  }

  /** Every position of the flattened matrix is some entry (r, c). */
  lemma {:induction false} FlatPosition(m: Matrix, rows: nat, cols: nat, k: nat) returns (r: nat, c: nat)
    requires IsShape(m, rows, cols) && k < |Flatten(m)|
    ensures r < rows && c < cols && k == Mul(r, cols) + c
    decreases rows
  {
    FlattenLength(m, rows, cols);
    if k < cols {
      r, c := 0, k;
    } else {
      FlattenLength(m[1..], rows - 1, cols);
      var r1, c1 := FlatPosition(m[1..], rows - 1, cols, k - cols);
      r, c := r1 + 1, c1;
    }
  }

  lemma FlattenNonEmpty(m: Matrix, rows: nat, cols: nat)
    requires IsShape(m, rows, cols) && rows > 0 && cols > 0
    ensures |Flatten(m)| > 0
  {
    FlattenLength(m, rows, cols);
  }

  /** `divmod(m.argmax(), m.shape[1])`: the row and column of the first
      largest entry in row-major order. */
  function FlatArgMax(m: Matrix, rows: nat, cols: nat): (p: (nat, nat))
    requires IsShape(m, rows, cols) && rows > 0 && cols > 0
    ensures p.0 < rows && p.1 < cols
    ensures forall r, c :: 0 <= r < rows && 0 <= c < cols ==> m[r][c] <= m[p.0][p.1]
    ensures forall r, c :: 0 <= r < rows && 0 <= c < cols && (r < p.0 || (r == p.0 && c < p.1)) ==>
              m[r][c] < m[p.0][p.1]
  {
    FlattenNonEmpty(m, rows, cols);
    var k := ArgMax(Flatten(m));
    var p := DivMod(k, cols);
    FlatArgMaxFacts(m, rows, cols, k, p.0, p.1);
    p
  }

  lemma FlatArgMaxFacts(m: Matrix, rows: nat, cols: nat, k: nat, r0: nat, c0: nat)
    requires IsShape(m, rows, cols) && rows > 0 && cols > 0
    requires |Flatten(m)| > 0 && k == ArgMax(Flatten(m))
    requires Mul(r0, cols) + c0 == k && c0 < cols
    ensures r0 < rows
    ensures forall r, c :: 0 <= r < rows && 0 <= c < cols ==> m[r][c] <= m[r0][c0]
    ensures forall r, c :: 0 <= r < rows && 0 <= c < cols && (r < r0 || (r == r0 && c < c0)) ==>
              m[r][c] < m[r0][c0]
  {
    var r1, c1 := FlatPosition(m, rows, cols, k);
    RowMajorOrder(r0, c0, r1, c1, cols);
    FlattenIndex(m, rows, cols, r0, c0);
    forall r, c | 0 <= r < rows && 0 <= c < cols
      ensures m[r][c] <= m[r0][c0]
    {
      FlattenIndex(m, rows, cols, r, c);
    }
    forall r, c | 0 <= r < rows && 0 <= c < cols && (r < r0 || (r == r0 && c < c0))
      ensures m[r][c] < m[r0][c0]
    {
      FlattenIndex(m, rows, cols, r, c);
      RowMajorOrder(r, c, r0, c0, cols);
    }
  }

  /** `divmod(m.argmin(), m.shape[1])`: the row and column of the first
      smallest entry in row-major order. */
  function FlatArgMin(m: Matrix, rows: nat, cols: nat): (p: (nat, nat))
    requires IsShape(m, rows, cols) && rows > 0 && cols > 0
    ensures p.0 < rows && p.1 < cols
    ensures forall r, c :: 0 <= r < rows && 0 <= c < cols ==> m[p.0][p.1] <= m[r][c]
    ensures forall r, c :: 0 <= r < rows && 0 <= c < cols && (r < p.0 || (r == p.0 && c < p.1)) ==>
              m[p.0][p.1] < m[r][c]
  {
    FlattenNonEmpty(m, rows, cols);
    var k := ArgMin(Flatten(m));
    var p := DivMod(k, cols);
    FlatArgMinFacts(m, rows, cols, k, p.0, p.1);
    p
  }

  lemma FlatArgMinFacts(m: Matrix, rows: nat, cols: nat, k: nat, r0: nat, c0: nat)
    requires IsShape(m, rows, cols) && rows > 0 && cols > 0
    requires |Flatten(m)| > 0 && k == ArgMin(Flatten(m))
    requires Mul(r0, cols) + c0 == k && c0 < cols
    ensures r0 < rows
    ensures forall r, c :: 0 <= r < rows && 0 <= c < cols ==> m[r0][c0] <= m[r][c]
    ensures forall r, c :: 0 <= r < rows && 0 <= c < cols && (r < r0 || (r == r0 && c < c0)) ==>
              m[r0][c0] < m[r][c]
  {
    var r1, c1 := FlatPosition(m, rows, cols, k);
    RowMajorOrder(r0, c0, r1, c1, cols);
    FlattenIndex(m, rows, cols, r0, c0);
    forall r, c | 0 <= r < rows && 0 <= c < cols
      ensures m[r0][c0] <= m[r][c]
    {
      FlattenIndex(m, rows, cols, r, c);
    }
    forall r, c | 0 <= r < rows && 0 <= c < cols && (r < r0 || (r == r0 && c < c0))
      ensures m[r0][c0] < m[r][c]
    {
      FlattenIndex(m, rows, cols, r, c);
      RowMajorOrder(r, c, r0, c0, cols);
    }
  }
}

=== FILE: simulation_file.dfy ===
/** Reading one Bladed result: a text descriptor declaring the matrix shape and
    a binary file of little-endian 32-bit floats stored column by column
    (numpy `order='F'`: the row index varies fastest).
 */
module SimulationFile {
  import opened Outcomes
  import opened Text
  import opened Seqs

  newtype byte = x: int | 0 <= x < 256

  /** The shape the descriptor declares: tokens 1 and 2 of line 8 (counting
      from 0) after `split('\n')` and `split()`, read with `int()`. */
  function DeclaredShape(descriptor: string): (r: Result<(int, int)>)
    ensures r.Ok? ==> |SplitOn(descriptor, "\n")| >= 9 && |Tokens(SplitOn(descriptor, "\n")[8])| >= 3
    ensures |SplitOn(descriptor, "\n")| < 9 ==> r == Err(IndexError)
    ensures r.Ok? ==> ReadInt(Tokens(SplitOn(descriptor, "\n")[8])[1]) == Ok(r.value.0)
    ensures r.Ok? ==> ReadInt(Tokens(SplitOn(descriptor, "\n")[8])[2]) == Ok(r.value.1)
  {
    var lines := SplitOn(descriptor, "\n");
    if |lines| < 9 then Err(IndexError)
    else
      var dimens := Tokens(lines[8]);
      if |dimens| < 2 then Err(IndexError)
      else
        var rows :- ReadInt(dimens[1]);
        if |dimens| < 3 then Err(IndexError)
        else
          var cols :- ReadInt(dimens[2]);
          Ok((rows, cols))
  }

  /** `struct.unpack("<" + "f" * (len(content) // 4), content)`: one float per
      four bytes, and `struct.error` when the length is not a multiple of four.
      `decode` stands for the IEEE-754 single-precision reading of four bytes. */
  function Unpack(content: seq<byte>, decode: seq<byte> -> real): (r: Result<seq<real>>)
    ensures r.Ok? <==> |content| % 4 == 0
    ensures r.Err? ==> r.error == StructError
    ensures r.Ok? ==> |r.value| * 4 == |content|
    ensures r.Ok? ==> forall i :: 0 <= i < |r.value| ==> r.value[i] == decode(content[4 * i..4 * i + 4])
  {
    if |content| % 4 != 0 then Err(StructError)
    else Ok(seq(|content| / 4, i requires 0 <= i < |content| / 4 => decode(content[4 * i..4 * i + 4])))
  }

  /** The shape numpy's `reshape` settles on for `n` elements: both sizes given,
      or one of them `-1` and inferred; `ValueError` otherwise. */
  function ResolveShape(n: nat, rows: int, cols: int): (r: Result<(nat, nat)>)
    ensures r.Ok? ==> r.value.0 * r.value.1 == n
    ensures r.Ok? && rows >= 0 ==> r.value.0 == rows
    ensures r.Ok? && cols >= 0 ==> r.value.1 == cols
    ensures rows >= 0 && cols >= 0 ==> (r.Ok? <==> rows * cols == n)
    ensures r.Err? ==> r.error == ValueError
    ensures (rows < -1 || cols < -1 || (rows == -1 && cols == -1)) ==> r.Err?
  {
    if rows >= 0 && cols >= 0 then
      if rows * cols == n then Ok((rows, cols)) else Err(ValueError)
    else if rows == -1 && cols > 0 then
      if n % cols == 0 then Ok((n / cols, cols)) else Err(ValueError)
    else if cols == -1 && rows > 0 then
      if n % rows == 0 then Ok((rows, n / rows)) else Err(ValueError)
    else Err(ValueError)
  }

  lemma FortranIndexBound(r: nat, c: nat, rows: nat, cols: nat)
    requires r < rows && c < cols
    ensures r + c * rows < rows * cols
  {
    MulMonotone(c + 1, cols, rows);
  }

  /** Entry (i, j) of `m` is element `i + j * rows` of `flat`: the layout
      numpy's `order='F'` reads. */
  predicate FortranLayout(m: Matrix, flat: seq<real>) {
    forall i, j :: 0 <= i < |m| && 0 <= j < |m[i]| ==> i + j * |m| < |flat| && m[i][j] == flat[i + j * |m|]
  }

  /** `np.reshape(flat, (rows, cols), order='F')` once the shape is settled. */
  function FortranFill(flat: seq<real>, rows: nat, cols: nat): (m: Matrix)
    requires rows * cols == |flat|
    ensures IsShape(m, rows, cols)
    ensures FortranLayout(m, flat)
  {
    var m := seq(rows, r requires 0 <= r < rows => FortranRow(flat, rows, cols, r));
    assert FortranLayout(m, flat) by {
      forall i, j | 0 <= i < |m| && 0 <= j < |m[i]|
        ensures i + j * |m| < |flat| && m[i][j] == flat[i + j * |m|]
      {
        assert m[i] == FortranRow(flat, rows, cols, i);
      }
    }
    m
  }

  /** Row `r` of the column-major reading. */
  function FortranRow(flat: seq<real>, rows: nat, cols: nat, r: nat): (row: seq<real>)
    requires rows * cols == |flat| && r < rows
    ensures |row| == cols
    ensures forall j :: 0 <= j < cols ==> r + j * rows < |flat| && row[j] == flat[r + j * rows]
  {
    var row := seq(cols, c requires 0 <= c < cols => FortranEntry(flat, rows, cols, r, c));
    assert forall j :: 0 <= j < cols ==> r + j * rows < |flat| && row[j] == flat[r + j * rows] by {
      forall j | 0 <= j < cols
        ensures r + j * rows < |flat| && row[j] == flat[r + j * rows]
      {
        var x := FortranEntry(flat, rows, cols, r, j);
        assert row[j] == x;
      }
    }
    row
  }

  function FortranEntry(flat: seq<real>, rows: nat, cols: nat, r: nat, c: nat): (x: real)
    requires rows * cols == |flat| && r < rows && c < cols
    ensures r + c * rows < |flat| && x == flat[r + c * rows]
  {
    FortranIndexBound(r, c, rows, cols);
    flat[r + c * rows]
  }

  /** The inverse of FortranFill: read a matrix column by column. */
  function FortranFlatten(m: Matrix, rows: nat, cols: nat): (flat: seq<real>)
    requires IsShape(m, rows, cols)
    ensures |flat| == rows * cols
  {
    if rows == 0 then []
    else
      seq(rows * cols, k requires 0 <= k < rows * cols =>
        DivBelow(k, rows, cols);
        m[k % rows][k / rows])
  }

  lemma DivBelow(k: nat, rows: nat, cols: nat)
    requires rows > 0 && k < rows * cols
    ensures k / rows < cols
  {
    var q, r := k / rows, k % rows;
    assert k == q * rows + r;
    if q >= cols {
      MulMonotone(cols, q, rows);
    }
  }

  /** Reading a column-major buffer into a matrix and writing it back out
      column by column gives the buffer back. */
  lemma FlattenOfFill(flat: seq<real>, rows: nat, cols: nat)
    requires rows * cols == |flat|
    ensures FortranFlatten(FortranFill(flat, rows, cols), rows, cols) == flat
  {
    var m := FortranFill(flat, rows, cols);
    if rows > 0 {
      var back := FortranFlatten(m, rows, cols);
      forall k | 0 <= k < |flat|
        ensures back[k] == flat[k]
      {
        DivBelow(k, rows, cols);
        var c, r := k / rows, k % rows;
        assert k == r + c * rows;
      }
    }
  }

  /** Writing a matrix out column by column and reading it back gives the
      matrix. */
  lemma FillOfFlatten(m: Matrix, rows: nat, cols: nat)
    requires IsShape(m, rows, cols)
    ensures FortranFill(FortranFlatten(m, rows, cols), rows, cols) == m
  {
    var flat := FortranFlatten(m, rows, cols);
    var back := FortranFill(flat, rows, cols);
    forall r | 0 <= r < rows
      ensures back[r] == m[r]
    {
      forall c | 0 <= c < cols
        ensures back[r][c] == m[r][c]
      {
        FortranIndexBound(r, c, rows, cols);
        RowMajorDivMod(c, r, rows);
        assert c * rows + r == r + c * rows;
      }
    }
  }

  /** `read_bladed_file`: the matrix of channels (rows) by time steps (columns)
      that the descriptor and the binary buffer describe. */
  function ReadBladedFile(descriptor: string, content: seq<byte>, decode: seq<byte> -> real): (r: Result<Matrix>)
    ensures DeclaredShape(descriptor).Err? ==> r == Err(DeclaredShape(descriptor).error)
    ensures DeclaredShape(descriptor).Ok? && |content| % 4 != 0 ==> r == Err(StructError)
    ensures r.Ok? ==> |content| % 4 == 0 && DeclaredShape(descriptor).Ok?
    ensures r.Ok? ==>
      var (rows, cols) := DeclaredShape(descriptor).value;
      (rows >= 0 ==> |r.value| == rows)
      && (forall i :: 0 <= i < |r.value| ==> (cols >= 0 ==> |r.value[i]| == cols))
    ensures DeclaredShape(descriptor).Ok? && |content| % 4 == 0 ==>
      var (rows, cols) := DeclaredShape(descriptor).value;
      (r.Ok? <==> ResolveShape(|content| / 4, rows, cols).Ok?)
      && (r.Err? ==> r.error == ValueError)
      && (rows >= 0 && cols >= 0 ==> (r.Ok? <==> rows * cols * 4 == |content|))
    ensures r.Ok? ==> FortranLayout(r.value, Unpack(content, decode).value)
    ensures r.Ok? ==> Rectangular(r.value)
  {
    var (rows, cols) :- DeclaredShape(descriptor);
    var flat :- Unpack(content, decode);
    var shape :- ResolveShape(|flat|, rows, cols);
    Ok(FortranFill(flat, shape.0, shape.1))
  }

  /** A descriptor whose line 8 reads `<tag> <rows> <cols> ...` declares
      exactly that shape. */
  lemma DeclaredShapeOfDescriptor(header: seq<string>, tag: string, rows: int, cols: int, more: seq<string>, tail: seq<string>)
    requires |header| == 8
    requires forall i :: 0 <= i < |header| ==> Avoids(header[i], '\n')
    requires forall i :: 0 <= i < |tail| ==> Avoids(tail[i], '\n')
    requires |tag| > 0 && NoSpace(tag)
    requires forall i :: 0 <= i < |more| ==> |more[i]| > 0 && NoSpace(more[i])
    ensures DeclaredShape(JoinWith(header + [DimensionLine(tag, rows, cols, more)] + tail, "\n")) == Ok((rows, cols))
  {
    var words := [tag, IntToString(rows), IntToString(cols)] + more;
    var line := DimensionLine(tag, rows, cols, more);
    var lines := header + [line] + tail;
    LineEightWords(tag, rows, cols, more);
    DescriptorLines(header, line, tail);
    DeclaredShapeFromLines(JoinWith(lines, "\n"), header, line, tail, words, rows, cols);
  }

  lemma DeclaredShapeFromLines(descriptor: string, header: seq<string>, line: string, tail: seq<string>,
                               words: seq<string>, rows: int, cols: int)
    requires SplitOn(descriptor, "\n") == header + [line] + tail && |header| == 8
    requires Tokens(line) == words && |words| >= 3
    requires words[1] == IntToString(rows) && words[2] == IntToString(cols)
    ensures DeclaredShape(descriptor) == Ok((rows, cols))
  {
    assert (header + [line] + tail)[8] == line;
    ReadIntOfIntToString(rows);
    ReadIntOfIntToString(cols);
  }

  lemma LineEightWords(tag: string, rows: int, cols: int, more: seq<string>)
    requires |tag| > 0 && NoSpace(tag)
    requires forall i :: 0 <= i < |more| ==> |more[i]| > 0 && NoSpace(more[i])
    ensures Tokens(DimensionLine(tag, rows, cols, more)) == [tag, IntToString(rows), IntToString(cols)] + more
    ensures Avoids(DimensionLine(tag, rows, cols, more), '\n')
  {
    var words := [tag, IntToString(rows), IntToString(cols)] + more;
    IntToStringNoSpace(rows);
    IntToStringNoSpace(cols);
    assert forall i :: 0 <= i < |words| ==> |words[i]| > 0 && NoSpace(words[i]);
    TokensOfJoin(words);
    assert forall i :: 0 <= i < |words| ==> Avoids(words[i], '\n');
    JoinAvoids(words, " ", '\n');
  }

  lemma DescriptorLines(header: seq<string>, line: string, tail: seq<string>)
    requires forall i :: 0 <= i < |header| ==> Avoids(header[i], '\n')
    requires forall i :: 0 <= i < |tail| ==> Avoids(tail[i], '\n')
    requires Avoids(line, '\n')
    ensures SplitOn(JoinWith(header + [line] + tail, "\n"), "\n") == header + [line] + tail
  {
    var lines := header + [line] + tail;
    LinesAvoid(header, line, tail);
    SplitOfJoin(lines, '\n');
    assert "\n" == ['\n'];
  }

  lemma LinesAvoid(header: seq<string>, line: string, tail: seq<string>)
    requires forall i :: 0 <= i < |header| ==> Avoids(header[i], '\n')
    requires forall i :: 0 <= i < |tail| ==> Avoids(tail[i], '\n')
    requires Avoids(line, '\n')
    ensures forall i :: 0 <= i < |header + [line] + tail| ==> Avoids((header + [line] + tail)[i], '\n')
  {
    var lines := header + [line] + tail;
    forall i | 0 <= i < |lines|
      ensures Avoids(lines[i], '\n')
    {
      if i < |header| {
        assert lines[i] == header[i];
      } else if i == |header| {
        assert lines[i] == line;
      } else {
        assert lines[i] == tail[i - |header| - 1];
      }
    }
  }

  /** Line 8 of a descriptor: a tag, the row and column counts, then any
      further words, separated by single spaces. */
  function DimensionLine(tag: string, rows: int, cols: int, more: seq<string>): string {
    JoinWith([tag, IntToString(rows), IntToString(cols)] + more, " ")
  }

  lemma IntToStringNoSpace(i: int)
    ensures NoSpace(IntToString(i))
  {
    var s := IntToString(i);
    assert forall k :: 0 <= k < |s| ==> IsDigit(s[k]) || s[k] == '-';
  }
}

=== FILE: sn_curves.dfy ===
/** The S-N curve parameters of DNVGL-RP-C203 (April 2016), Table 2-1, S-N
    curves in air, and the fields the three curve classes (`SN_Curve_fatpack`,
    `SN_Curve_qats`, `DNV_SN_Curve`) set up from them. The evaluation of a
    curve (the Palmgren-Miner sum) belongs to external packages and stays
    abstract.
 */
module SnCurves {
  import opened Outcomes

  /** One row of the table: slopes, intercepts, the switch cycle count, the
      fatigue limit in MPa and the thickness exponent. */
  datatype CurveRow = CurveRow(name: string, m1: real, loga1: real, m2: real, nd: real,
                               loga2: real, fl: real, k: real)

  const Reference: string := "DNVGL-RP-C203 Ed.: Apr 2016, Tab. 2-1 S-N curves in air"

  /** The reference thickness in millimetres every class stores. */
  const TRef: real := 25.0

  const Table: seq<CurveRow> := [
    CurveRow("B1", 4.0, 15.117, 5.0, 10000000.0, 17.146, 106.97, 0.00),
    CurveRow("B2", 4.0, 14.885, 5.0, 10000000.0, 16.856,  93.59, 0.00),
    CurveRow("C",  3.0, 12.592, 5.0, 10000000.0, 16.320,  73.10, 0.05),
    CurveRow("C1", 3.0, 12.449, 5.0, 10000000.0, 16.081,  65.50, 0.10),
    CurveRow("C2", 3.0, 12.301, 5.0, 10000000.0, 15.835,  58.48, 0.15),
    CurveRow("D",  3.0, 12.164, 5.0, 10000000.0, 15.606,  52.63, 0.20),
    CurveRow("E",  3.0, 12.010, 5.0, 10000000.0, 15.350,  46.78, 0.20),
    CurveRow("F",  3.0, 11.855, 5.0, 10000000.0, 15.091,  41.52, 0.25),
    CurveRow("F1", 3.0, 11.699, 5.0, 10000000.0, 14.832,  36.84, 0.25),
    CurveRow("F3", 3.0, 11.546, 5.0, 10000000.0, 14.576,  32.75, 0.25),
    CurveRow("G",  3.0, 11.398, 5.0, 10000000.0, 14.330,  29.24, 0.25),
    CurveRow("W1", 3.0, 11.261, 5.0, 10000000.0, 14.101,  26.32, 0.25),
    CurveRow("W2", 3.0, 11.107, 5.0, 10000000.0, 13.845,  23.39, 0.25),
    CurveRow("W3", 3.0, 10.970, 5.0, 10000000.0, 13.617,  21.05, 0.25)
  ]

  /** Which class built the curve; it decides the stored name. */
  datatype Library = Fatpack | Qats | Dnv

  /** The fields a curve object keeps besides the external curve itself. */
  datatype SnCurve = SnCurve(name: string, title: string, data: CurveRow, tRef: real, k: real)

  /** The index of the first row of `rows` with the given name. */
  function FindRow(rows: seq<CurveRow>, name: string): (r: Result<nat>)
    ensures r.Ok? <==> exists i :: 0 <= i < |rows| && rows[i].name == name
    ensures r.Ok? ==> r.value < |rows| && rows[r.value].name == name
    ensures r.Ok? ==> forall i :: 0 <= i < r.value ==> rows[i].name != name
    ensures r.Err? ==> r.error == KeyError
  {
    if |rows| == 0 then Err(KeyError)
    else if rows[0].name == name then Ok(0)
    else
      var r := FindRow(rows[1..], name);
      assert forall i :: 1 <= i < |rows| ==> rows[i] == rows[1..][i - 1];
      if r.Err? then r else Ok(r.value + 1)
  }

  /** What every row of the table shares, and where the slope m1 is 4. */
  lemma RowFacts(i: nat)
    requires i < |Table|
    ensures Table[i].m2 == 5.0 && Table[i].nd == 10000000.0
    ensures 0.0 <= Table[i].k <= 0.25
    ensures Table[i].m1 == 4.0 <==> Table[i].name == "B1" || Table[i].name == "B2"
    ensures Table[i].m1 == 3.0 <==> Table[i].name != "B1" && Table[i].name != "B2"
  {
  }

  /** `self.input[name]` followed by `self.data['k']`: an unknown name raises
      KeyError, and `reference` finds the reference string, whose `['k']`
      raises TypeError. */
  function Lookup(name: string): (r: Result<CurveRow>)
    ensures name == "reference" ==> r == Err(TypeError)
    ensures name != "reference" ==> (r.Ok? <==> exists i :: 0 <= i < |Table| && Table[i].name == name)
    ensures r.Err? && name != "reference" ==> r.error == KeyError
    ensures r.Ok? ==> r.value in Table && r.value.name == name
    ensures r.Ok? ==> r.value.m2 == 5.0 && r.value.nd == 10000000.0
    ensures r.Ok? ==> 0.0 <= r.value.k <= 0.25
    ensures r.Ok? ==> (r.value.m1 == 4.0 <==> name == "B1" || name == "B2")
    ensures r.Ok? ==> (r.value.m1 == 3.0 <==> name != "B1" && name != "B2")
  {
    if name == "reference" then Err(TypeError)
    else
      var i :- FindRow(Table, name);
      RowFacts(i);
      Ok(Table[i])
  }

  /** The stored name: `_fatpack` or `_qats` appended, or the bare name. */
  function CurveName(lib: Library, name: string): (n: string)
    ensures lib.Dnv? ==> n == name
    ensures !lib.Dnv? ==> |n| > |name| && n[..|name|] == name
  {
    match lib
    case Fatpack => name + "_fatpack"
    case Qats => name + "_qats"
    case Dnv => name
  }

  /** A curve constructor: name, title, table row, reference thickness and k. */
  function MakeCurve(lib: Library, name: string): (r: Result<SnCurve>)
    ensures r.Ok? <==> Lookup(name).Ok?
    ensures r.Err? ==> r.error == Lookup(name).error
    ensures r.Ok? ==> r.value.data == Lookup(name).value && r.value.k == r.value.data.k
    ensures r.Ok? ==> r.value.tRef == 25.0
    ensures r.Ok? ==> r.value.title == Reference + ", " + name
    ensures r.Ok? ==> r.value.name == CurveName(lib, name)
  {
    var data :- Lookup(name);
    Ok(SnCurve(CurveName(lib, name), Reference + ", " + name, data, TRef, data.k))
  }

  /** The curve names, in table order. */
  lemma TableNames()
    ensures |Table| == 14
    ensures seq(14, i requires 0 <= i < 14 => Table[i].name)
      == ["B1", "B2", "C", "C1", "C2", "D", "E", "F", "F1", "F3", "G", "W1", "W2", "W3"]
  {
  }

  /** Neighbouring rows: the intercepts and the fatigue limit fall, `k` does
      not. */
  lemma TableStepsDown(i: nat)
    requires i + 1 < |Table|
    ensures Table[i + 1].loga1 < Table[i].loga1
    ensures Table[i + 1].loga2 < Table[i].loga2
    ensures Table[i + 1].fl < Table[i].fl
    ensures Table[i].k <= Table[i + 1].k
  {
  }

  /** Down the table, log a1, log a2 and the fatigue limit strictly decrease
      and the thickness exponent never decreases. */
  lemma {:induction false} TableMonotone(i: nat, j: nat)
    requires i < j < |Table|
    ensures Table[j].loga1 < Table[i].loga1
    ensures Table[j].loga2 < Table[i].loga2
    ensures Table[j].fl < Table[i].fl
    ensures Table[i].k <= Table[j].k
    decreases j - i
  {
    TableStepsDown(j - 1);
    if i < j - 1 {
      TableMonotone(i, j - 1);
    }
  }

  /** Distinct names give distinct rows, so a curve's data identifies it. */
  lemma LookupInjective(a: string, b: string)
    requires Lookup(a).Ok? && Lookup(a) == Lookup(b)
    ensures a == b
  {
  }
}

=== FILE: structural_report.dfy ===
/** Reading a foundation structural design report (`read_structural_report.py`):
    the text of the report's pages, given as lines, is cut to the table
    between two marker lines, each line is split on single spaces and
    normalised, and the rows become the 28 columns of a table.
 */
module StructuralReport {
  import opened Outcomes
  import opened Text

  /** A cell of a report row: text, Python's None, or a float the reader
      has already converted. */
  datatype Field = Word(s: string) | NoValue | Number(v: real)

  // ---------------------------------------------------------------- line window

  /** The index of the last line that contains `id`, 0 when none does
      (lines 19-24). */
  function LastMatch(lines: seq<string>, id: string): (i: nat)
    ensures |lines| == 0 ==> i == 0
    ensures |lines| > 0 ==> i < |lines|
    ensures i > 0 ==> Contains(lines[i], id)
    ensures forall j :: i < j < |lines| ==> !Contains(lines[j], id)
    ensures (exists j :: 0 <= j < |lines| && Contains(lines[j], id)) ==> Contains(lines[i], id)
    decreases |lines|
  {
    if |lines| == 0 then 0
    else if Contains(lines[|lines| - 1], id) then |lines| - 1
    else
      var i := LastMatch(lines[..|lines| - 1], id);
      assert forall j :: 0 <= j < |lines| - 1 ==> lines[..|lines| - 1][j] == lines[j];
      i
  }

  function Clamp(x: nat, n: nat): (c: nat)
    ensures c <= n && c <= x && (c == x || c == n)
  {
    if x <= n then x else n
  }

  /** `lines[above_idx: below_idx]` after lines 26-31: the window starts on
      the line after the `above` marker (on it when `atElement`), ends
      before the `below` marker, and is a single line when the `below`
      marker does not come after the start. */
  function Window(lines: seq<string>, above: string, below: string, atElement: bool): (w: seq<string>)
    ensures |w| <= |lines|
    ensures |lines| > 0 && atElement ==> |w| >= 1
  {
    var a := LastMatch(lines, above);
    var b := LastMatch(lines, below);
    var start := if atElement then a else a + 1;
    var stop := if start >= b then start + 1 else b;
    lines[Clamp(start, |lines|)..Clamp(stop, |lines|)]
  }

  /** `get_text_as_lines_from_page` on the lines of a page: the window,
      each line followed by a space and `addWord` when that is not empty. */
  function TextLines(lines: seq<string>, above: string, below: string, atElement: bool, addWord: string): (r: seq<string>)
    ensures var w := Window(lines, above, below, atElement);
      |r| == |w|
      && (addWord == "" ==> r == w)
      && (addWord != "" ==> forall k :: 0 <= k < |r| ==> r[k] == w[k] + " " + addWord)
  {
    var w := Window(lines, above, below, atElement);
    if addWord == "" then w
    else seq(|w|, k requires 0 <= k < |w| => w[k] + " " + addWord)
  }

  /** With the `above` marker last on line `a` and the `below` marker last
      on a later line `b`, the window is exactly the lines strictly between
      them. */
  lemma WindowBetweenMarkers(lines: seq<string>, above: string, below: string, a: nat, b: nat)
    requires a + 1 < b < |lines|
    requires Contains(lines[a], above) && forall j :: a < j < |lines| ==> !Contains(lines[j], above)
    requires Contains(lines[b], below) && forall j :: b < j < |lines| ==> !Contains(lines[j], below)
    ensures TextLines(lines, above, below, false, "") == lines[a + 1..b]
  {
    assert LastMatch(lines, above) == a;
    assert LastMatch(lines, below) == b;
  }

  /** When the `below` marker is last seen at or before the window's start,
      exactly the start line is taken. */
  lemma WindowSingleLine(lines: seq<string>, above: string, below: string, atElement: bool)
    requires var start := if atElement then LastMatch(lines, above) else LastMatch(lines, above) + 1;
      start < |lines| && LastMatch(lines, below) <= start
    ensures var start := if atElement then LastMatch(lines, above) else LastMatch(lines, above) + 1;
      Window(lines, above, below, atElement) == [lines[start]]
  {
  }

  // ---------------------------------------------------------------- merging split words

  /** A cell `float()` accepts. */
  predicate Numeric(f: Field) {
    f.Number? || (f.Word? && ReadFloat(f.s).Ok?)
  }

  /** A cell `float()` rejects with ValueError: text that is not a number. */
  predicate Label(f: Field) {
    f.Word? && ReadFloat(f.s).Err?
  }

  /** How `float()` treats a cell: it accepts it, rejects it with ValueError,
      or raises TypeError on None. */
  datatype Kind = Num | Lbl | Missing

  function KindOf(f: Field): (c: Kind)
    ensures c == Num <==> Numeric(f)
    ensures c == Lbl <==> Label(f)
    ensures c == Missing <==> f.NoValue?
  {
    if f.NoValue? then Missing else if Numeric(f) then Num else Lbl
  }

  /** The kind of every cell of the row. */
  function Kinds(row: seq<Field>): (ks: seq<Kind>)
    ensures |ks| == |row|
    ensures forall i :: 0 <= i < |row| ==> ks[i] == KindOf(row[i])
  {
    seq(|row|, i requires 0 <= i < |row| => KindOf(row[i]))
  }

  /** The first index from `k` on whose kind is `Num`, scanning over kinds. */
  function FirstNum(ks: seq<Kind>, k: nat): (r: Result<nat>)
    ensures r.Ok? ==> (k <= r.value < |ks| && ks[r.value] == Num
                       && forall i :: k <= i < r.value ==> ks[i] == Lbl)
    ensures r == Err(IndexError) <==> forall i :: k <= i < |ks| ==> ks[i] == Lbl
    ensures r.Err? ==> r.error == IndexError || r.error == TypeError
    decreases |ks| - k
  {
    if k >= |ks| then Err(IndexError)
    else match ks[k]
      case Missing => Err(TypeError)
      case Num => Ok(k)
      case Lbl => FirstNum(ks, k + 1)
  }

  /** The first index from `k` on whose cell `float()` accepts: IndexError
      when the row ends first, TypeError at a None (lines 44-53 catch only
      ValueError). */
  function FirstNumeric(row: seq<Field>, k: nat): (r: Result<nat>)
    ensures r.Ok? ==> (k <= r.value < |row| && Numeric(row[r.value])
                       && forall i :: k <= i < r.value ==> Label(row[i]))
    ensures r == Err(IndexError) <==> forall i :: k <= i < |row| ==> Label(row[i])
    ensures r.Err? ==> r.error == IndexError || r.error == TypeError
  {
    var ks := Kinds(row);
    var r := FirstNum(ks, k);
    assert forall i :: k <= i < |row| ==> (ks[i] == Lbl <==> Label(row[i]));
    r
  }

  /** `row[i].replace(' ', '')` of each cell from `start` up to `stop`, or
      AttributeError when one of them is not text. */
  function Squeezed(row: seq<Field>, start: nat, stop: nat): (r: Result<seq<string>>)
    requires start <= stop <= |row|
    ensures r.Ok? <==> forall i :: start <= i < stop ==> row[i].Word?
    ensures r.Err? ==> r.error == AttributeError
    ensures r.Ok? ==> (|r.value| == stop - start
                       && forall i :: start <= i < stop ==> r.value[i - start] == ReplaceAll(row[i].s, " ", ""))
    decreases stop - start
  {
    if start == stop then Ok([])
    else if !row[start].Word? then Err(AttributeError)
    else
      var rest :- Squeezed(row, start + 1, stop);
      Ok([ReplaceAll(row[start].s, " ", "")] + rest)
  }

  /** `clean_row_elements_with_spaces(row, start)`: the cells from `start` up
      to the next numeric cell are joined with spaces into cell `start` and
      the others removed. */
  function CleanRow(row: seq<Field>, start: nat): (r: Result<seq<Field>>)
    ensures r.Ok? ==> FirstNumeric(row, start + 1).Ok?
    ensures r.Ok? ==> var j := FirstNumeric(row, start + 1).value;
      |r.value| == |row| - (j - start - 1)
      && r.value[..start] == row[..start]
      && r.value[start].Word?
      && r.value[start + 1..] == row[j..]
    ensures FirstNumeric(row, start + 1).Err? ==> r == Err(FirstNumeric(row, start + 1).error)
  {
    var j :- FirstNumeric(row, start + 1);
    var parts :- Squeezed(row, start, j);
    Ok(row[..start] + [Word(JoinWith(parts, " "))] + row[j..])
  }

  function Words(ws: seq<string>): (fs: seq<Field>)
    ensures |fs| == |ws| && forall i :: 0 <= i < |ws| ==> fs[i] == Word(ws[i])
  {
    seq(|ws|, i requires 0 <= i < |ws| => Word(ws[i]))
  }

  lemma {:induction false} AvoidsSpace(w: string)
    requires Avoids(w, ' ')
    ensures !Contains(w, " ")
    decreases |w|
  {
    if |w| > 0 {
      AvoidsSpace(w[1..]);
      assert w[..1][0] == w[0];
    }
  }

  /** The text of the cells from `start` up to `stop`. */
  function Spelled(row: seq<Field>, start: nat, stop: nat): (ws: seq<string>)
    requires start <= stop <= |row| && forall i :: start <= i < stop ==> row[i].Word?
    ensures |ws| == stop - start && forall i :: start <= i < stop ==> ws[i - start] == row[i].s
  {
    seq(stop - start, i requires 0 <= i < stop - start => row[start + i].s)
  }

  /** A description split into words and followed by a number is merged
      back: the words from `start` up to the number at `stop` become one
      cell, joined by single spaces, and nothing else changes. */
  lemma {:induction false} CleanMergesWords(row: seq<Field>, start: nat, stop: nat)
    requires start < stop < |row| && Numeric(row[stop])
    requires forall i :: start <= i < stop ==> row[i].Word? && Avoids(row[i].s, ' ')
    requires forall i :: start < i < stop ==> Label(row[i])
    ensures CleanRow(row, start)
         == Ok(row[..start] + [Word(JoinWith(Spelled(row, start, stop), " "))] + row[stop..])
  {
    FirstNumericStops(row, start + 1, stop);
    var ws := Spelled(row, start, stop);
    var parts := Squeezed(row, start, stop);
    forall i | 0 <= i < |ws|
      ensures parts.value[i] == ws[i]
    {
      AvoidsSpace(ws[i]);
      ReplaceAbsent(ws[i], " ", "");
    }
    assert parts.value == ws;
  }

  /** Only a row with no number after `start` raises IndexError: the loop
      runs off its end. */
  lemma CleanRaisesIndexError(row: seq<Field>, start: nat)
    ensures CleanRow(row, start) == Err(IndexError) <==> forall i :: start < i < |row| ==> Label(row[i])
  {
  }

  lemma {:induction false} FirstNumStops(ks: seq<Kind>, k: nat, j: nat)
    requires k <= j < |ks| && ks[j] == Num
    requires forall i :: k <= i < j ==> ks[i] == Lbl
    ensures FirstNum(ks, k) == Ok(j)
    decreases j - k
  {
    if k < j {
      FirstNumStops(ks, k + 1, j);
    }
  }

  lemma FirstNumericStops(row: seq<Field>, k: nat, j: nat)
    requires k <= j < |row| && Numeric(row[j])
    requires forall i :: k <= i < j ==> Label(row[i])
    ensures FirstNumeric(row, k) == Ok(j)
  {
    FirstNumStops(Kinds(row), k, j);
  }

  // ---------------------------------------------------------------- thickness

  /** How the largest of three thicknesses is chosen: `AsText` is Python's
      `max` on the strings the report reader holds (line 92), `ByValue`
      compares the numbers they spell. */
  datatype ThicknessOrder = AsText | ByValue

  /** `float(cell)`: a number stays, text must parse as a finite float
      (ValueError otherwise), None raises TypeError. */
  function FloatOf(f: Field): (r: Result<real>)
    ensures f.Number? ==> r == Ok(f.v)
    ensures r.Ok? && f.Word? ==> ReadFloat(f.s) == Ok(Finite(r.value))
    ensures f.Word? && ReadFloat(f.s).Err? ==> r == Err(ValueError)
    ensures f.NoValue? ==> r == Err(TypeError)
  {
    match f
    case Number(v) => Ok(v)
    case NoValue => Err(TypeError)
    case Word(s) =>
      var p := ReadFloat(s);
      if p.Err? then Err(ValueError)
      else if p.value.Finite? then Ok(p.value.v)
      else Err(OutsideModel)
  }

  /** `max(a, b, c)`: the first of the largest. On text cells `AsText`
      compares code points; any other mix raises TypeError. */
  function Max3(a: Field, b: Field, c: Field, order: ThicknessOrder): (r: Result<Field>)
    ensures r.Ok? ==> r.value == a || r.value == b || r.value == c
    ensures order == AsText ==> (r.Ok? <==> a.Word? && b.Word? && c.Word?)
    ensures order == AsText && r.Ok? ==>
      r.value.Word? && !StrLess(r.value.s, a.s) && !StrLess(r.value.s, b.s) && !StrLess(r.value.s, c.s)
    ensures order == ByValue && r.Ok? ==>
      FloatOf(r.value).Ok? && var m := FloatOf(r.value).value;
      FloatOf(a).Ok? && FloatOf(b).Ok? && FloatOf(c).Ok?
      && FloatOf(a).value <= m && FloatOf(b).value <= m && FloatOf(c).value <= m
  {
    match order
    case AsText =>
      if a.Word? && b.Word? && c.Word? then
        var m := StrMax3(a.s, b.s, c.s);
        Ok(if m == a.s then a else if m == b.s then b else c)
      else Err(TypeError)
    case ByValue =>
      var x :- FloatOf(a);
      var y :- FloatOf(b);
      var z :- FloatOf(c);
      var ab := if x < y then b else a;
      var vab := if x < y then y else x;
      Ok(if vab < z then c else ab)
  }

  /** Cell `k` of a row, IndexError past its end. */
  function Cell(row: seq<Field>, k: nat): (r: Result<Field>)
    ensures r.Ok? <==> k < |row|
    ensures r.Ok? ==> r.value == row[k]
    ensures r.Err? ==> r.error == IndexError
  {
    if k < |row| then Ok(row[k]) else Err(IndexError)
  }

  /** `add_largest_thickness(lines, lines_corrected, line_idx)`: the largest
      of the row's own thickness (column 5) and its neighbours'; the first
      and last rows use their only neighbour, an interior row uses a
      neighbour only when it is on the same structure (column 24). */
  function LargestThickness(rows: seq<seq<Field>>, idx: nat, order: ThicknessOrder): (r: Result<Field>)
    requires idx < |rows|
    ensures |rows| == 1 ==> r == Err(IndexError)
    ensures r.Ok? ==> |rows[idx]| > 5
    ensures r.Ok? ==> (r.value == rows[idx][5]
                       || (idx > 0 && |rows[idx - 1]| > 5 && r.value == rows[idx - 1][5])
                       || (idx + 1 < |rows| && |rows[idx + 1]| > 5 && r.value == rows[idx + 1][5]))
    ensures r.Ok? && order == AsText ==> r.value.Word? && rows[idx][5].Word? && !StrLess(r.value.s, rows[idx][5].s)
  {
    var row := rows[idx];
    var own :- Cell(row, 5);
    if idx == 0 then
      if |rows| < 2 then Err(IndexError)
      else
        var below :- Cell(rows[1], 5);
        Max3(own, own, below, order)
    else if idx == |rows| - 1 then
      var above :- Cell(rows[idx - 1], 5);
      Max3(own, above, own, order)
    else
      var here :- Cell(row, 24);
      var up :- Cell(rows[idx - 1], 24);
      var down :- Cell(rows[idx + 1], 24);
      // both neighbours have a column 24, so their column 5 exists too
      var above := if here != up then own else rows[idx - 1][5];
      var below := if here != down then own else rows[idx + 1][5];
      Max3(own, above, below, order)
  }

  /** An interior row between rows of the same structure gets at least the
      thickness of both neighbours. */
  lemma ThickerThanNeighbours(rows: seq<seq<Field>>, idx: nat)
    requires 0 < idx < |rows| - 1
    requires LargestThickness(rows, idx, AsText).Ok?
    requires rows[idx][24] == rows[idx - 1][24] && rows[idx][24] == rows[idx + 1][24]
    ensures var t := LargestThickness(rows, idx, AsText).value;
      !StrLess(t.s, rows[idx - 1][5].s) && !StrLess(t.s, rows[idx + 1][5].s)
  {
  }

  /** An interior row between rows of other structures keeps its own
      thickness. */
  lemma OwnThicknessAtJoint(rows: seq<seq<Field>>, idx: nat, order: ThicknessOrder)
    requires 0 < idx < |rows| - 1
    requires |rows[idx]| > 24 && |rows[idx - 1]| > 24 && |rows[idx + 1]| > 24
    requires rows[idx][24] != rows[idx - 1][24] && rows[idx][24] != rows[idx + 1][24]
    requires rows[idx][5].Word?
    ensures order == AsText ==> LargestThickness(rows, idx, order) == Ok(rows[idx][5])
    ensures order == ByValue && FloatOf(rows[idx][5]).Ok? ==> LargestThickness(rows, idx, order) == Ok(rows[idx][5])
  {
    var t := rows[idx][5];
    if order == AsText {
      StrLessIrreflexive(t.s);
    }
  }

  /** Two rows of one structure, 80 mm over 100 mm: Python's string `max`
      keeps "80" because "1" sorts before "8", while the thicker wall is
      100 mm. */
  lemma TextMaxMissesThickerWall()
    ensures var rows := [ThicknessRow("80"), ThicknessRow("100")];
      LargestThickness(rows, 0, AsText) == Ok(Word("80"))
      && LargestThickness(rows, 0, ByValue) == Ok(Word("100"))
  {
    var rows := [ThicknessRow("80"), ThicknessRow("100")];
    assert rows[0][5] == Word("80") && rows[1][5] == Word("100");
    assert LargestThickness(rows, 0, AsText) == Max3(Word("80"), Word("80"), Word("100"), AsText);
    assert LargestThickness(rows, 0, ByValue) == Max3(Word("80"), Word("80"), Word("100"), ByValue);
    TextOrderOfThicknesses();
    ParseEighty();
    ParseHundred();
  }

  lemma TextOrderOfThicknesses()
    ensures StrMax3("80", "80", "100") == "80"
  {
    assert StrLess("100", "80");
    StrLessIrreflexive("80");
    assert !StrLess("80", "100");
  }

  /** A cell holding a plain string of digits reads as the number they spell. */
  lemma FloatOfDigits(w: string)
    requires |w| > 0 && AllDigits(w)
    ensures FloatOf(Word(w)) == Ok(DigitsValue(w) as real)
  {
    NotSpecialWord(w);
    assert NoSpace(w);
    assert '_' !in w by {
      assert forall k :: 0 <= k < |w| ==> IsDigit(w[k]);
    }
    ParseFloatUnsigned(w);
  }

  /** Digit grouping is read as `float()` reads it: two digit runs joined by
      an underscore give the number their digits spell together. */
  lemma FloatOfGrouped(a: string, b: string)
    requires |a| > 0 && |b| > 0 && AllDigits(a) && AllDigits(b)
    ensures FloatOf(Word(a + "_" + b)) == Ok(DigitsValue(a + b) as real)
  {
    GroupingInvisible(a, b);
  }

  lemma ParseEighty()
    ensures FloatOf(Word("80")) == Ok(80.0)
  {
    var w := "80";
    assert AllDigits(w);
    assert DigitsValue(w) == 80 by {
      assert w[..1] == "8";
    }
    FloatOfDigits(w);
  }

  lemma ParseHundred()
    ensures FloatOf(Word("100")) == Ok(100.0)
  {
    var w := "100";
    assert AllDigits(w);
    assert DigitsValue("10") == 10 by {
      assert "10"[..1] == "1";
    }
    assert DigitsValue(w) == 100 by {
      assert w[..2] == "10";
    }
    FloatOfDigits(w);
  }

  /** A 25-cell row whose only thickness is `t`. */
  function ThicknessRow(t: string): (row: seq<Field>)
    ensures |row| == 25 && row[5] == Word(t) && row[24] == Word("MP")
  {
    seq(25, k requires 0 <= k < 25 => if k == 5 then Word(t) else if k == 24 then Word("MP") else Word("x"))
  }

  // ---------------------------------------------------------------- turbine and cluster

  /** `design_position_to_cluster` in dict order. */
  const DesignPositions: seq<(string, string)> := [("DEEP", "JLN"), ("INT", "JLO"), ("SHA", "JLP")]

  /** The loop at lines 109-111 over `pairs`: the cluster of the last key
      found in the line, `found` when none is. */
  function ClusterFold(line: string, pairs: seq<(string, string)>, found: Option<string>): (r: Option<string>)
    ensures (forall k :: 0 <= k < |pairs| ==> !Contains(line, pairs[k].0)) ==> r == found
    ensures r != found ==> exists k :: 0 <= k < |pairs| && Contains(line, pairs[k].0) && r == Some(pairs[k].1)
    decreases |pairs|
  {
    if |pairs| == 0 then found
    else
      var next := if Contains(line, pairs[0].0) then Some(pairs[0].1) else found;
      var r := ClusterFold(line, pairs[1..], next);
      assert forall k :: 1 <= k < |pairs| ==> pairs[1..][k - 1] == pairs[k];
      r
  }

  function ClusterOf(line: string): (r: Option<string>)
    ensures r.Some? ==> exists k :: (0 <= k < |DesignPositions| && Contains(line, DesignPositions[k].0)
                                     && r.value == DesignPositions[k].1)
  {
    ClusterFold(line, DesignPositions, None)
  }

  /** The fold in closed form: SHA outranks INT, which outranks DEEP. */
  lemma ClusterPriority(line: string)
    ensures ClusterOf(line) ==
      if Contains(line, "SHA") then Some("JLP")
      else if Contains(line, "INT") then Some("JLO")
      else if Contains(line, "DEEP") then Some("JLN")
      else None
  {
    var p := DesignPositions;
    assert p[1..] == [("INT", "JLO"), ("SHA", "JLP")];
    assert p[1..][1..] == [("SHA", "JLP")];
    assert p[1..][1..][1..] == [];
  }

  /** `line.split(': ')[1].replace(' ', '_')`. */
  function TurbineNameOf(line: string): (r: Result<string>)
    ensures r.Ok? <==> |SplitOn(line, ": ")| >= 2
    ensures r.Err? ==> r.error == IndexError
    ensures r.Ok? ==> Avoids(r.value, ' ') && |r.value| == |SplitOn(line, ": ")[1]|
  {
    var parts := SplitOn(line, ": ");
    if |parts| < 2 then Err(IndexError)
    else
      UnderscoresLeaveNoSpace(parts[1]);
      Ok(ReplaceAll(parts[1], " ", "_"))
  }

  lemma {:induction false} UnderscoresLeaveNoSpace(s: string)
    ensures Avoids(ReplaceAll(s, " ", "_"), ' ') && |ReplaceAll(s, " ", "_")| == |s|
    decreases |s|
  {
    if |s| >= 1 {
      UnderscoresLeaveNoSpace(s[1..]);
      if s[..1] != " " {
        assert s[0] != ' ';
      }
    }
  }

  /** `find_turbine_and_cluster_ID` on the lines of page 1: the single line
      from 'Position' up to 'Turbine' names the turbine, the single line
      from 'load cluster' up to 'MP diameter' names the design position;
      AssertionError when either window is not one line. */
  function TurbineAndCluster(page: seq<string>): (r: Result<(string, Option<string>)>)
    ensures var t := TextLines(page, "Position", "Turbine", true, "");
      r.Ok? ==> |t| == 1 && TurbineNameOf(t[0]) == Ok(r.value.0)
    ensures var c := TextLines(page, "load cluster", "MP diameter", true, "");
      r.Ok? ==> |c| == 1 && r.value.1 == ClusterOf(c[0])
    ensures |page| == 0 ==> r == Err(AssertionError)
  {
    var t := TextLines(page, "Position", "Turbine", true, "");
    if |t| != 1 then Err(AssertionError)
    else
      var name :- TurbineNameOf(t[0]);
      var c := TextLines(page, "load cluster", "MP diameter", true, "");
      if |c| != 1 then Err(AssertionError)
      else Ok((name, ClusterOf(c[0])))
  }

  // ---------------------------------------------------------------- rows

  /** `list.insert(i, x)`. */
  function Insert<T>(xs: seq<T>, i: nat, x: T): (r: seq<T>)
    ensures |r| == |xs| + 1
    ensures i <= |xs| ==> r[i] == x && r[..i] == xs[..i] && r[i + 1..] == xs[i..]
    ensures i > |xs| ==> r == xs + [x]
  {
    if i <= |xs| then xs[..i] + [x] + xs[i..] else xs + [x]
  }

  /** Lines 131-138: the words of line `idx`, preceded, when the first word
      is 'omni', by the elevation and side of the line above (Python's
      `lines[-1]` for the first line) and with that line's description
      and '-free' as the description. */
  function RowWords(lines: seq<string>, idx: nat): (r: Result<seq<string>>)
    requires idx < |lines|
    ensures Lower(SplitOn(lines[idx], " ")[0]) != "omni" ==> r == Ok(SplitOn(lines[idx], " "))
    ensures r.Ok? && Lower(SplitOn(lines[idx], " ")[0]) == "omni" ==>
      |r.value| == |SplitOn(lines[idx], " ")| + 3 && r.value[3 + 1..] == SplitOn(lines[idx], " ")[1..]
      && EndsWith(r.value[3], "-free")
  {
    var words := SplitOn(lines[idx], " ");
    if Lower(words[0]) == "omni" then
      var above := if idx == 0 then lines[|lines| - 1] else lines[idx - 1];
      var wa := SplitOn(above, " ");
      if |wa| < 4 then Err(IndexError)
      else
        var row := Insert(Insert(Insert(words, 0, wa[0]), 1, wa[1]), 3, wa[3] + "-free");
        assert (wa[3] + "-free")[|wa[3] + "-free"| - 5..] == "-free";
        Ok(row)
    else Ok(words)
  }

  /** Lines 131-150 for line `idx`: side 'in' becomes 'I' and anything else
      'O', an 'omni' orientation becomes None, the description (from column
      3) and validation type (from column 21) are merged, and the cluster,
      the turbine name and a '0.0' thickness placeholder are appended. */
  function NormaliseRow(lines: seq<string>, idx: nat, cluster: Option<string>, turbine: string): (r: Result<seq<Field>>)
    requires idx < |lines|
    ensures r.Ok? ==> |r.value| >= 25
    ensures r.Ok? ==> r.value[1] == Word("I") || r.value[1] == Word("O")
    ensures r.Ok? ==> var n := |r.value|;
      r.value[n - 3] == (if cluster.Some? then Word(cluster.value) else NoValue)
      && r.value[n - 2] == Word(turbine) && r.value[n - 1] == Word("0.0")
  {
    var words :- RowWords(lines, idx);
    var marked :- MarkedRow(words);
    Ok(WithOwner(marked, cluster, turbine))
  }

  /** Lines 140-146 on the words of one row. */
  function MarkedRow(words: seq<string>): (r: Result<seq<Field>>)
    ensures r.Ok? ==> |r.value| >= 22
    ensures r.Ok? ==> r.value[1] == Word("I") || r.value[1] == Word("O")
    ensures r.Ok? ==> |words| >= 3 && (r.value[2] == NoValue <==> Lower(words[2]) == "omni")
  {
    if |words| < 3 then Err(IndexError)
    else
      var side := if words[1] == "in" then Word("I") else Word("O");
      var orientation := if Lower(words[2]) == "omni" then NoValue else Word(words[2]);
      var row := [Word(words[0]), side, orientation] + Words(words[3..]);
      assert row[1] == side && row[2] == orientation;
      Described(row)
  }

  /** Lines 144-146: the description merged from column 3, then the
      validation type from column 21; the first three cells are kept. */
  function Described(row: seq<Field>): (r: Result<seq<Field>>)
    requires |row| >= 3
    ensures r.Ok? ==> |r.value| >= 22 && r.value[..3] == row[..3]
  {
    var described :- CleanRow(row, 3);
    var typed :- CleanRow(described, 21);
    PrefixOfPrefix(typed, described, 3, 21);
    Ok(typed)
  }

  lemma PrefixOfPrefix(a: seq<Field>, b: seq<Field>, n: nat, m: nat)
    requires n <= m <= |a| && m <= |b| && a[..m] == b[..m]
    ensures a[..n] == b[..n]
  {
    assert a[..n] == a[..m][..n];
    assert b[..n] == b[..m][..n];
  }

  /** Lines 148-150: the cluster (None when no design position matched),
      the turbine name and the thickness placeholder '0.0'. */
  function WithOwner(row: seq<Field>, cluster: Option<string>, turbine: string): (r: seq<Field>)
    ensures |r| == |row| + 3 && r[..|row|] == row
    ensures r[|row|] == (if cluster.Some? then Word(cluster.value) else NoValue)
      && r[|row| + 1] == Word(turbine) && r[|row| + 2] == Word("0.0")
  {
    row + [if cluster.Some? then Word(cluster.value) else NoValue, Word(turbine), Word("0.0")]
  }

  /** The first loop (lines 130-150) over every table line, stopping at
      the first exception. */
  function NormaliseAll(lines: seq<string>, cluster: Option<string>, turbine: string): (r: Result<seq<seq<Field>>>)
    ensures r.Ok? <==> forall i :: 0 <= i < |lines| ==> NormaliseRow(lines, i, cluster, turbine).Ok?
    ensures r.Ok? ==> |r.value| == |lines|
    ensures r.Ok? ==> forall i :: 0 <= i < |lines| ==> NormaliseRow(lines, i, cluster, turbine) == Ok(r.value[i])
  {
    var idx := LineIndices(|lines|);
    var row := (i: nat) => if i < |lines| then NormaliseRow(lines, i, cluster, turbine) else Err(IndexError);
    assert forall i :: 0 <= i < |lines| ==> row(idx[i]) == NormaliseRow(lines, i, cluster, turbine);
    MapResult(idx, row)
  }

  function LineIndices(n: nat): (idx: seq<nat>)
    ensures |idx| == n && forall i :: 0 <= i < n ==> idx[i] == i
  {
    seq(n, i requires 0 <= i < n => i)
  }

  /** Column 6 with every '.1' written '.08' (the report's 27.1 years read
      as 27.08), AttributeError when it is not text. */
  function FixLifetime(f: Field): (r: Result<Field>)
    ensures r.Ok? <==> f.Word?
    ensures r.Ok? ==> r.value == Word(ReplaceAll(f.s, ".1", ".08"))
    ensures r.Ok? && !Contains(f.s, ".1") ==> r.value == f
  {
    if f.Word? then
      assert !Contains(f.s, ".1") ==> ReplaceAll(f.s, ".1", ".08") == f.s by {
        if !Contains(f.s, ".1") {
          ReplaceAbsent(f.s, ".1", ".08");
        }
      }
      Ok(Word(ReplaceAll(f.s, ".1", ".08")))
    else Err(AttributeError)
  }

  /** The report's rounded design life of 27.1 years is read as 27.08. */
  lemma ReportLifeCorrected()
    ensures FixLifetime(Word("27.1")) == Ok(Word("27.08"))
  {
    assert ReplaceAll(".1", ".1", ".08") == ".08" by {
      assert ".1"[..2] == ".1" && ".1"[2..] == "";
    }
    assert ReplaceAll("7.1", ".1", ".08") == "7.08" by {
      assert "7.1"[..2][0] == '7' && "7.1"[1..] == ".1";
    }
    assert ReplaceAll("27.1", ".1", ".08") == "27.08" by {
      assert "27.1"[..2][0] == '2' && "27.1"[1..] == "7.1";
    }
  }

  /** `float(row[10]) * 1e6`: Nref is given in millions of cycles. The source
      stores `str(...)` of this number (line 156); the model keeps the number
      rather than its decimal text. */
  function NrefCycles(f: Field): (r: Result<Field>)
    ensures r.Ok? <==> FloatOf(f).Ok?
    ensures r.Ok? ==> r.value.Number? && r.value.v / 1000000.0 == FloatOf(f).value
    ensures r.Err? ==> r.error == FloatOf(f).error
  {
    var v :- FloatOf(f);
    Ok(Number(v * 1000000.0))
  }

  /** An Nref cell written with digit grouping, "1_0" million cycles, is
      ten million cycles. */
  lemma GroupedNref()
    ensures NrefCycles(Word("1_0")) == Ok(Number(10000000.0))
  {
    assert "1_0" == "1" + "_" + "0";
    assert AllDigits("1") && AllDigits("0");
    assert DigitsValue("1" + "0") == 10 by {
      assert ("1" + "0")[..1] == "1";
    }
    FloatOfGrouped("1", "0");
  }

  /** One pass of the second loop (lines 153-157) on row `idx`: the
      lifetime and Nref columns are converted, then the last cell becomes
      the largest thickness around the row as the table now stands. */
  function FinishRow(rows: seq<seq<Field>>, idx: nat, order: ThicknessOrder): (r: Result<seq<seq<Field>>>)
    requires idx < |rows|
    ensures r.Ok? ==> |r.value| == |rows| && |rows[idx]| > 10
    ensures r.Ok? ==> forall i :: 0 <= i < |rows| && i != idx ==> r.value[i] == rows[i]
    ensures r.Ok? ==> var row := r.value[idx];
      |row| == |rows[idx]|
      && forall k :: 0 <= k < |row| && k != 6 && k != 10 && k != |row| - 1 ==> row[k] == rows[idx][k]
  {
    var row := rows[idx];
    var life :- Cell(row, 6);
    var life' :- FixLifetime(life);
    var nref :- Cell(row, 10);
    var nref' :- NrefCycles(nref);
    var row' := row[6 := life'][10 := nref'];
    var rows' := rows[idx := row'];
    var t :- LargestThickness(rows', idx, order);
    Ok(rows'[idx := row'[|row'| - 1 := t]])
  }

  /** The second loop over the rows from `k` on. */
  function FinishFrom(rows: seq<seq<Field>>, k: nat, order: ThicknessOrder): (r: Result<seq<seq<Field>>>)
    requires k <= |rows|
    ensures r.Ok? ==> |r.value| == |rows|
    ensures r.Ok? ==> forall i :: 0 <= i < |rows| ==> |r.value[i]| == |rows[i]|
    ensures r.Ok? ==> forall i :: 0 <= i < |rows| ==> |rows[i]| > 10 ==> r.value[i][1] == rows[i][1]
    decreases |rows| - k
  {
    if k == |rows| then Ok(rows)
    else
      var next :- FinishRow(rows, k, order);
      FinishFrom(next, k + 1, order)
  }

  const ColumnCount: nat := 28

  /** Lines 160-165: the first 28 cells of every row, IndexError when a row
      is shorter. */
  function Table(rows: seq<seq<Field>>): (r: Result<seq<seq<Field>>>)
    ensures r.Ok? <==> forall i :: 0 <= i < |rows| ==> |rows[i]| >= ColumnCount
    ensures r.Err? ==> r.error == IndexError
    ensures r.Ok? ==> (|r.value| == |rows|
                       && forall i :: 0 <= i < |rows| ==> r.value[i] == rows[i][..ColumnCount])
    decreases |rows|
  {
    if |rows| == 0 then Ok([])
    else if |rows[0]| < ColumnCount then Err(IndexError)
    else
      var rest :- Table(rows[1..]);
      Ok([rows[0][..ColumnCount]] + rest)
  }

  /** The report's table lines: page 45 (tagged 'TP') then page 44 (tagged
      'MP'), each from the '[LAT]' line to the 'Table D.x' line. */
  function TableLines(page44: seq<string>, page45: seq<string>): seq<string> {
    TextLines(page45, "[LAT]", "Table D.2", false, "TP") + TextLines(page44, "[LAT]", "Table D.1", false, "MP")
  }

  /** `read_utilization_and_store_geometries` on the lines of pages 1, 44
      and 45, up to the frame it stores. */
  function ReadReport(page1: seq<string>, page44: seq<string>, page45: seq<string>, order: ThicknessOrder): (r: Result<seq<seq<Field>>>)
    ensures r.Ok? ==> TurbineAndCluster(page1).Ok?
    ensures r.Ok? ==> |r.value| == |TableLines(page44, page45)|
    ensures r.Ok? ==> forall i :: 0 <= i < |r.value| ==> |r.value[i]| == ColumnCount
  {
    var tc :- TurbineAndCluster(page1);
    var lines := TableLines(page44, page45);
    var rows :- NormaliseAll(lines, tc.1, tc.0);
    var finished :- FinishFrom(rows, 0, order);
    Table(finished)
  }

  /** Every stored row has its side written 'I' or 'O'. */
  lemma {:induction false} SidesAreInOrOut(page1: seq<string>, page44: seq<string>, page45: seq<string>, order: ThicknessOrder)
    requires ReadReport(page1, page44, page45, order).Ok?
    ensures var t := ReadReport(page1, page44, page45, order).value;
      forall i :: 0 <= i < |t| ==> t[i][1] == Word("I") || t[i][1] == Word("O")
  {
    var tc := TurbineAndCluster(page1).value;
    var lines := TableLines(page44, page45);
    var rows := NormaliseAll(lines, tc.1, tc.0).value;
    var finished := FinishFrom(rows, 0, order).value;
    forall i | 0 <= i < |rows|
      ensures finished[i][1] == Word("I") || finished[i][1] == Word("O")
    {
      assert NormaliseRow(lines, i, tc.1, tc.0) == Ok(rows[i]);
    }
  }
}

=== FILE: subseabed.dfy ===
/** Sub-seabed rescaling of a turbine's lookup table
    (`scale_subseabed_tables.py`): the structural report may show a larger
    utilisation below the lowest member elevation, where no DEM can be
    interpolated; if it exceeds the rule method's worst utilisation, every
    sector damage of the lookup table is multiplied by the ratio.
 */
module SubseabedScaling {
  import opened Outcomes
  import opened Seqs
  import opened Text
  import Lifetimes

  /** A 'Dd_tot' cell of the report sheet: '-' where the report gives no
      value, a number, or text that `pd.to_numeric` has to parse. */
  datatype DdCell = Dash | Number(v: real) | Word(w: string)

  /** One row of the report sheet: an elevation and its utilisation. */
  datatype InfoRow = InfoRow(elevation: real, ddTot: DdCell)

  /** The selected sub-seabed point. */
  datatype Point = Point(elevation: real, util: real)

  // ---------------------------------------------------------------- selection

  /** `mbr_geo['elevation'].min()`; an empty column gives pandas' NaN, which
      nothing compares below. */
  function SeabedElevation(members: seq<real>): (r: Option<real>)
    ensures r.None? <==> |members| == 0
    ensures r.Some? ==> r.value in members && forall i :: 0 <= i < |members| ==> r.value <= members[i]
  {
    if |members| == 0 then None else Some(members[ArgMin(members)])
  }

  predicate BelowSeabed(row: InfoRow, seabed: Option<real>) {
    seabed.Some? && row.elevation < seabed.value
  }

  /** `df_info[df_info['elevation'] < seabed_elevation]` followed by
      `df_info[df_info['Dd_tot'] != '-']`, in row order. */
  function Candidates(rows: seq<InfoRow>, seabed: Option<real>): (r: seq<InfoRow>)
    ensures |r| <= |rows|
    ensures forall x :: x in r <==> x in rows && BelowSeabed(x, seabed) && !x.ddTot.Dash?
    ensures seabed.None? ==> r == []
    decreases |rows|
  {
    if |rows| == 0 then []
    else
      var rest := Candidates(rows[1..], seabed);
      assert forall x :: x in rows <==> x == rows[0] || x in rows[1..];
      if BelowSeabed(rows[0], seabed) && !rows[0].ddTot.Dash? then [rows[0]] + rest else rest
  }

  /** `pd.to_numeric` of one remaining cell: numbers pass, text must parse
      as a finite float, anything else raises ValueError. */
  function CellValue(row: InfoRow): (r: Result<Point>)
    ensures r.Ok? ==> r.value.elevation == row.elevation
    ensures row.ddTot.Number? ==> r == Ok(Point(row.elevation, row.ddTot.v))
    ensures row.ddTot.Word? && ParseFloat(row.ddTot.w).Err? ==> r == Err(ValueError)
    ensures row.ddTot.Word? && ParseFloat(row.ddTot.w).Ok? && ParseFloat(row.ddTot.w).value.Finite? ==>
      r == Ok(Point(row.elevation, ParseFloat(row.ddTot.w).value.v))
    ensures row.ddTot.Dash? ==> r == Err(ValueError)
  {
    match row.ddTot
    case Number(v) => Ok(Point(row.elevation, v))
    case Word(w) =>
      var p := ParseFloat(w);
      if p.Err? then Err(ValueError)
      else if p.value.Finite? then Ok(Point(row.elevation, p.value.v))
      else Err(OutsideModel)
    case Dash => Err(ValueError)
  }

  function Utils(points: seq<Point>): (us: seq<real>)
    ensures |us| == |points| && forall i :: 0 <= i < |points| ==> us[i] == points[i].util
  {
    seq(|points|, i requires 0 <= i < |points| => points[i].util)
  }

  /** Lines 50-63: the rows strictly below the lowest member elevation with
      a value, sorted on 'Dd_tot' descending, and the first of them; no such
      row makes `iloc[[0]]` raise IndexError. */
  function WorstBelowSeabed(rows: seq<InfoRow>, members: seq<real>): (r: Result<Point>)
    ensures var cs := Candidates(rows, SeabedElevation(members));
      r == Err(IndexError) <==> |cs| == 0
    ensures r.Ok? ==> exists i :: (0 <= i < |rows| && rows[i].elevation == r.value.elevation
                                   && BelowSeabed(rows[i], SeabedElevation(members)) && CellValue(rows[i]) == Ok(r.value))
    ensures r.Ok? ==> forall i :: (0 <= i < |rows| && BelowSeabed(rows[i], SeabedElevation(members))
                                   && CellValue(rows[i]).Ok?) ==> CellValue(rows[i]).value.util <= r.value.util
  {
    var cs := Candidates(rows, SeabedElevation(members));
    var points :- MapResult(cs, CellValue);
    if |points| == 0 then Err(IndexError)
    else
      var k := ArgMax(Utils(points));
      assert cs[k] in rows;
      WorstIsLargest(rows, members, cs, points, k);
      Ok(points[k])
  }

  lemma WorstIsLargest(rows: seq<InfoRow>, members: seq<real>, cs: seq<InfoRow>, points: seq<Point>, k: nat)
    requires cs == Candidates(rows, SeabedElevation(members))
    requires |points| == |cs| && forall i :: 0 <= i < |cs| ==> CellValue(cs[i]) == Ok(points[i])
    requires k < |points| && forall j :: 0 <= j < |points| ==> points[j].util <= points[k].util
    ensures forall i :: (0 <= i < |rows| && BelowSeabed(rows[i], SeabedElevation(members))
                         && CellValue(rows[i]).Ok?) ==> CellValue(rows[i]).value.util <= points[k].util
  {
    forall i | 0 <= i < |rows| && BelowSeabed(rows[i], SeabedElevation(members)) && CellValue(rows[i]).Ok?
      ensures CellValue(rows[i]).value.util <= points[k].util
    {
      assert rows[i] in cs;
      var j :| 0 <= j < |cs| && cs[j] == rows[i];
      assert CellValue(rows[i]) == Ok(points[j]);
    }
  }

  /** A row at or above the lowest member elevation is never selected, and
      neither is a row without a value. */
  lemma SelectionStaysBelowSeabed(rows: seq<InfoRow>, members: seq<real>)
    requires WorstBelowSeabed(rows, members).Ok?
    ensures |members| > 0
    ensures forall m :: m in members ==> WorstBelowSeabed(rows, members).value.elevation < m
  {
    var p := WorstBelowSeabed(rows, members).value;
    var i :| 0 <= i < |rows| && rows[i].elevation == p.elevation
      && BelowSeabed(rows[i], SeabedElevation(members)) && CellValue(rows[i]) == Ok(p);
  }

  /** Without members every row is dropped and the selection raises. */
  lemma NoMembersRaises(rows: seq<InfoRow>)
    ensures WorstBelowSeabed(rows, []) == Err(IndexError)
  {
    assert SeabedElevation([]) == None;
  }

  // ---------------------------------------------------------------- decision

  /** What a run does to the lookup table. */
  datatype Action = KeepTable | ScaleTable(relation: real)

  /** Lines 71-80: `util_relation = worst / rule_worst` as numpy division;
      above 1 the table is rescaled when asked to, and otherwise line 77
      names `update_table_with_worst_elevation` and `path_to_overall_table`,
      neither defined anywhere: NameError. */
  function Decide(worstUtil: real, ruleUtil: real, rescale: bool): (r: Result<Action>)
    ensures r == Ok(KeepTable) <==> !(ruleUtil != 0.0 && worstUtil / ruleUtil > 1.0) && !(ruleUtil == 0.0 && worstUtil > 0.0)
    ensures r == Err(NameError) <==> !rescale && ((ruleUtil != 0.0 && worstUtil / ruleUtil > 1.0) || (ruleUtil == 0.0 && worstUtil > 0.0))
    ensures r.Ok? && r.value.ScaleTable? ==> rescale && r.value.relation > 1.0 && r.value.relation * ruleUtil == worstUtil
  {
    var relation := Divide(worstUtil, ruleUtil);
    if relation.Finite? && relation.v > 1.0 then
      if rescale then Ok(ScaleTable(relation.v)) else Err(NameError)
    else if relation.PosInf? then
      if rescale then Err(OutsideModel) else Err(NameError)
    else Ok(KeepTable)
  }

  /** `27.08 / (worst_dd_tot_util / 100)`: the life in years a report
      utilisation (in percent of the 27.08-year design life) stands for. */
  function ReportLifetime(util: real): (l: ExtReal)
    ensures util != 0.0 ==> l.Finite? && l.v * util == 2708.0
    ensures util == 0.0 ==> l.PosInf?
  {
    Divide(27.08, util / 100.0)
  }

  // ---------------------------------------------------------------- rescaling

  /** One column after line 37: multiplied by the relation when its name
      contains 'sector', otherwise untouched. */
  function ScaleColumn(c: Lifetimes.Column, r: real): (d: Lifetimes.Column)
    ensures d.name == c.name && |d.values| == |c.values|
    ensures !Contains(c.name, "sector") ==> d == c
    ensures Contains(c.name, "sector") ==> forall i :: 0 <= i < |c.values| ==> d.values[i] == c.values[i] * r
  {
    if Contains(c.name, "sector") then
      Lifetimes.Column(c.name, seq(|c.values|, i requires 0 <= i < |c.values| => c.values[i] * r))
    else c
  }

  /** `lookup_table_df.loc[:, columns.str.contains('sector')] *= util_relation`. */
  function ScaleSectorColumns(f: Lifetimes.Frame, r: real): (g: Lifetimes.Frame)
    ensures |g| == |f| && forall k :: 0 <= k < |f| ==> g[k] == ScaleColumn(f[k], r)
    decreases |f|
  {
    if |f| == 0 then [] else [ScaleColumn(f[0], r)] + ScaleSectorColumns(f[1..], r)
  }

  lemma ScaleTail(f: Lifetimes.Frame, r: real)
    requires |f| > 0
    ensures ScaleSectorColumns(f, r)[1..] == ScaleSectorColumns(f[1..], r)
    ensures ScaleSectorColumns(f, r)[0] == ScaleColumn(f[0], r)
  {
  }

  /** Scaling keeps the names, so `df.filter` picks the scaled versions of
      the columns it picked before. */
  lemma {:induction false} FilterAfterScaling(f: Lifetimes.Frame, pattern: string, r: real)
    ensures Lifetimes.FilterColumns(ScaleSectorColumns(f, r), pattern)
         == ScaleSectorColumns(Lifetimes.FilterColumns(f, pattern), r)
    decreases |f|
  {
    if |f| > 0 {
      var g := ScaleSectorColumns(f, r);
      ScaleTail(f, r);
      FilterAfterScaling(f[1..], pattern, r);
      var rest := Lifetimes.FilterColumns(f[1..], pattern);
      assert g[0].name == f[0].name;
      if Contains(f[0].name, pattern) {
        assert Lifetimes.FilterColumns(g, pattern) == [g[0]] + Lifetimes.FilterColumns(g[1..], pattern);
        assert Lifetimes.FilterColumns(f, pattern) == [f[0]] + rest;
        assert ScaleSectorColumns([f[0]] + rest, r) == [ScaleColumn(f[0], r)] + ScaleSectorColumns(rest, r);
      } else {
        assert Lifetimes.FilterColumns(g, pattern) == Lifetimes.FilterColumns(g[1..], pattern);
        assert Lifetimes.FilterColumns(f, pattern) == rest;
      }
    }
  }

  /** A column whose name has no 'sector' is selected unchanged. */
  lemma {:induction false} SelectAfterScaling(f: Lifetimes.Frame, name: string, r: real)
    requires !Contains(name, "sector")
    ensures Lifetimes.Select(ScaleSectorColumns(f, r), name) == Lifetimes.Select(f, name)
    decreases |f|
  {
    if |f| > 0 {
      ScaleTail(f, r);
      SelectAfterScaling(f[1..], name, r);
    }
  }

  lemma ProbabilityLacksSector()
    ensures !Contains(Lifetimes.LookupProbColumn, "sector")
  {
    var s := Lifetimes.LookupProbColumn;
    forall i | 0 <= i < |s| - 1
      ensures s[i] != 's' || s[i + 1] != 'e'
    {
    }
    Lifetimes.ContainsNeedsPair(s, "sector");
  }

  /** Each column of `dg` is the column of `d` at the same position with
      every value multiplied by `r`. */
  ghost predicate ColumnsScaledBy(d: Lifetimes.Frame, dg: Lifetimes.Frame, r: real) {
    |dg| == |d| && forall s :: 0 <= s < |d| ==>
      |dg[s].values| == |d[s].values| && forall c :: 0 <= c < |d[s].values| ==> dg[s].values[c] == d[s].values[c] * r
  }

  /** `after` holds the lifetimes of `before` divided by `r`: finite ones
      shrink by the factor, infinite ones stay infinite. */
  ghost predicate DividedBy(before: seq<ExtReal>, after: seq<ExtReal>, r: real) {
    |after| == |before| && forall s :: 0 <= s < |before| ==>
      (before[s].Finite? <==> after[s].Finite?)
      && (before[s].Finite? ==> after[s].v * r == before[s].v)
      && (before[s].PosInf? <==> after[s].PosInf?)
  }

  /** When every damage column of the lookup table is a sector column, the
      rescaling divides every finite sector lifetime by the relation and
      keeps the infinite ones infinite. */
  lemma {:induction false} RescaleDividesLifetimes(f: Lifetimes.Frame, nRows: nat, r: real)
    requires Lifetimes.WellFormed(f, nRows) && r > 0.0
    requires forall k :: 0 <= k < |f| && Contains(f[k].name, "damage") ==> Contains(f[k].name, "sector")
    ensures Lifetimes.WellFormed(ScaleSectorColumns(f, r), nRows)
    ensures var before := Lifetimes.LifetimeFromLookup(f, nRows);
            var after := Lifetimes.LifetimeFromLookup(ScaleSectorColumns(f, r), nRows);
      (before.Ok? <==> after.Ok?) && (before.Ok? ==> DividedBy(before.value, after.value, r))
  {
    var g := ScaleSectorColumns(f, r);
    var p := Lifetimes.LookupProbColumn;
    assert Lifetimes.WellFormed(g, nRows);
    LookupOkAfterScaling(f, nRows, r);
    var before := Lifetimes.LifetimeFromLookup(f, nRows);
    if before.Ok? {
      var probs := Lifetimes.Select(f, p).value;
      var d := Lifetimes.FilterColumns(f, "damage");
      var dg := Lifetimes.FilterColumns(g, "damage");
      DamageColumnsScaled(f, r);
      SelectedHasRows(f, nRows, p);
      FilteredHasRows(f, nRows, "damage");
      LifetimesOfScaled(probs, d, dg, r);
      assert before == Ok(Lifetimes.LifetimesOf(probs, d));
      assert Lifetimes.LifetimeFromLookup(g, nRows) == Ok(Lifetimes.LifetimesOf(probs, dg));
    } else {
      assert !Lifetimes.LifetimeFromLookup(g, nRows).Ok?;
    }
  }

  lemma {:induction false} LookupOkAfterScaling(f: Lifetimes.Frame, nRows: nat, r: real)
    requires Lifetimes.WellFormed(f, nRows) && Lifetimes.WellFormed(ScaleSectorColumns(f, r), nRows)
    ensures Lifetimes.LifetimeFromLookup(f, nRows).Ok? <==> Lifetimes.LifetimeFromLookup(ScaleSectorColumns(f, r), nRows).Ok?
    ensures Lifetimes.Select(ScaleSectorColumns(f, r), Lifetimes.LookupProbColumn) == Lifetimes.Select(f, Lifetimes.LookupProbColumn)
  {
    ProbabilityLacksSector();
    SelectAfterScaling(f, Lifetimes.LookupProbColumn, r);
  }

  lemma {:induction false} SelectedHasRows(f: Lifetimes.Frame, nRows: nat, name: string)
    requires Lifetimes.WellFormed(f, nRows) && Lifetimes.Select(f, name).Ok?
    ensures |Lifetimes.Select(f, name).value| == nRows
  {
    var k :| 0 <= k < |f| && f[k].name == name && f[k].values == Lifetimes.Select(f, name).value;
  }

  lemma {:induction false} FilteredHasRows(f: Lifetimes.Frame, nRows: nat, pattern: string)
    requires Lifetimes.WellFormed(f, nRows)
    ensures Lifetimes.WellFormed(Lifetimes.FilterColumns(f, pattern), nRows)
  {
    var d := Lifetimes.FilterColumns(f, pattern);
    forall s | 0 <= s < |d|
      ensures |d[s].values| == nRows
    {
      assert d[s] in d;
    }
  }

  /** Scaling every damage column by `r` divides each lifetime by `r`. */
  lemma {:induction false} LifetimesOfScaled(probs: seq<real>, d: Lifetimes.Frame, dg: Lifetimes.Frame, r: real)
    requires r > 0.0 && Lifetimes.WellFormed(d, |probs|) && ColumnsScaledBy(d, dg, r)
    ensures Lifetimes.WellFormed(dg, |probs|)
    ensures DividedBy(Lifetimes.LifetimesOf(probs, d), Lifetimes.LifetimesOf(probs, dg), r)
  {
    forall s | 0 <= s < |d|
      ensures var b := Divide(1.0, Lifetimes.YearlyDamage(probs, d[s].values));
              var a := Divide(1.0, Lifetimes.YearlyDamage(probs, dg[s].values));
        (b.Finite? <==> a.Finite?) && (b.Finite? ==> a.v * r == b.v) && (b.PosInf? <==> a.PosInf?)
    {
      Lifetimes.LifetimeScaling(probs, d[s].values, dg[s].values, r);
    }
  }

  /** Every column the lookup reader picks from the rescaled table is the
      rescaled version of the one it picked before. */
  lemma {:induction false} DamageColumnsScaled(f: Lifetimes.Frame, r: real)
    requires forall k :: 0 <= k < |f| && Contains(f[k].name, "damage") ==> Contains(f[k].name, "sector")
    ensures var d := Lifetimes.FilterColumns(f, "damage");
            var dg := Lifetimes.FilterColumns(ScaleSectorColumns(f, r), "damage");
      ColumnsScaledBy(d, dg, r)
  {
    var d := Lifetimes.FilterColumns(f, "damage");
    FilterAfterScaling(f, "damage", r);
    forall s | 0 <= s < |d|
      ensures Contains(d[s].name, "sector")
    {
      assert d[s] in d;
      var k :| 0 <= k < |f| && f[k] == d[s];
    }
  }

  // ---------------------------------------------------------------- one turbine

  /** `load_and_rescale_lookup_table` (lines 23-42): the worst sector
      lifetime is logged from the table as loaded (line 33), the sector
      columns are scaled (line 37) and the worst lifetime is logged again
      (line 38). Each `.min()` raises when the reader finds no probability
      column (KeyError) or no 'damage' column (ValueError, the minimum of an
      empty array). Reading and writing the files is left out. */
  function LoadAndRescale(table: Lifetimes.Frame, nRows: nat, relation: real): (r: Result<Lifetimes.Frame>)
    requires Lifetimes.WellFormed(table, nRows)
    ensures var before := Lifetimes.LifetimeFromLookup(table, nRows);
      (r.Ok? <==> before.Ok? && |before.value| > 0)
      && (before.Err? ==> r == Err(KeyError))
      && (before.Ok? && |before.value| == 0 ==> r == Err(ValueError))
    ensures r.Ok? ==> r.value == ScaleSectorColumns(table, relation)
  {
    var before :- Lifetimes.LifetimeFromLookup(table, nRows);
    var worstBefore :- Lifetimes.MinLifetime(before);
    var scaled := ScaleSectorColumns(table, relation);
    assert Lifetimes.WellFormed(scaled, nRows);
    LookupOkAfterScaling(table, nRows, relation);
    FilterAfterScaling(table, "damage", relation);
    // the second `.min()` (line 38) cannot raise: scaling keeps every column
    assert Lifetimes.MinLifetime(Lifetimes.LifetimeFromLookup(scaled, nRows).value).Ok?;
    Ok(scaled)
  }

  /** `find_utils_subseabed_and_scale_lookup_table` for one turbine, the
      lookup table given with its number of rows: the table as the run
      leaves it. */
  function FindAndScale(rows: seq<InfoRow>, members: seq<real>, ruleUtil: real, rescale: bool,
                        table: Lifetimes.Frame, nRows: nat): (r: Result<Lifetimes.Frame>)
    requires Lifetimes.WellFormed(table, nRows)
    ensures r.Ok? ==> WorstBelowSeabed(rows, members).Ok?
    ensures r.Ok? ==> var d := Decide(WorstBelowSeabed(rows, members).value.util, ruleUtil, rescale);
      d.Ok? && (d.value.KeepTable? ==> r.value == table)
      && (d.value.ScaleTable? ==>
            r.value == ScaleSectorColumns(table, d.value.relation)
            && Lifetimes.LifetimeFromLookup(table, nRows).Ok?
            && |Lifetimes.LifetimeFromLookup(table, nRows).value| > 0)
    ensures WorstBelowSeabed(rows, members).Err? ==> r == Err(WorstBelowSeabed(rows, members).error)
    ensures (WorstBelowSeabed(rows, members).Ok? && rescale && Lifetimes.LifetimeFromLookup(table, nRows).Err?
             && ruleUtil != 0.0 && WorstBelowSeabed(rows, members).value.util / ruleUtil > 1.0)
            ==> r == Err(KeyError)
  {
    var worst :- WorstBelowSeabed(rows, members);
    var action :- Decide(worst.util, ruleUtil, rescale);
    match action
    case KeepTable => Ok(table)
    case ScaleTable(q) => LoadAndRescale(table, nRows, q)
  }

  lemma RatioAboveOne(a: real, b: real)
    requires b > 0.0 && a > b
    ensures a / b > 1.0
  {
    var q := a / b;
    assert q * b == a;
    assert (q - 1.0) * b == a - b;
  }

  /** With the default `rescale = False`, a sub-seabed point worse than the
      rule's worst ends in NameError instead of any table update. */
  lemma DefaultRunRaises(rows: seq<InfoRow>, members: seq<real>, ruleUtil: real, table: Lifetimes.Frame, nRows: nat)
    requires Lifetimes.WellFormed(table, nRows) && WorstBelowSeabed(rows, members).Ok?
    requires ruleUtil > 0.0 && WorstBelowSeabed(rows, members).value.util > ruleUtil
    ensures FindAndScale(rows, members, ruleUtil, false, table, nRows) == Err(NameError)
  {
    var u := WorstBelowSeabed(rows, members).value.util;
    RatioAboveOne(u, ruleUtil);
  }

  // ---------------------------------------------------------------- script

  /** The `__main__` block of `scale_subseabed_tables.py` in statement
      order: collecting the paths and logging two warnings (lines 87-95),
      `sys.exit()` (line 96), then the single-turbine filter (lines 101-104)
      and the calls of `find_utils_subseabed_and_scale_lookup_table`
      (lines 107-118). */
  const ScaleScriptMain: seq<Step> := [
    Run("collect paths and warn"), Exit, Run("select one turbine"),
    Run("find_utils_subseabed_and_scale_lookup_table")]

  /** `sys.exit()` ends the script before any table is scaled: FindAndScale
      is never called from it. */
  lemma ScalingNeverRunsFromScript()
    ensures Executed(ScaleScriptMain) == [Run("collect paths and warn")]
    ensures Run("find_utils_subseabed_and_scale_lookup_table") !in Executed(ScaleScriptMain)
  {
    var m := ScaleScriptMain;
    assert m[0] != Exit && m[1] == Exit;
    assert m[1..][0] == Exit;
    assert Executed(m[1..]) == [];
  }
}

=== FILE: text.dfy ===
/** Python's `str` operations the pipeline relies on, over `seq<char>`:
    `split(sep)`, `split()`, `strip()`, `replace`, `join`, `int()`, `float()`,
    `str(int)`, ASCII `lower()`, substring tests and `<` on strings.
 */
module Text {
  import opened Outcomes

  /** `s.startswith(p)`. */
  predicate StartsWith(s: string, p: string) {
    |p| <= |s| && s[..|p|] == p
  }

  /** `s.endswith(p)`. */
  predicate EndsWith(s: string, p: string) {
    |p| <= |s| && s[|s| - |p|..] == p
  }

  /** `sub in s`. */
  predicate Contains(s: string, sub: string)
    decreases |s|
  {
    StartsWith(s, sub) || (|s| > 0 && Contains(s[1..], sub))
  }

  /** `sep.join(parts)`. */
  function JoinWith(parts: seq<string>, sep: string): string
    decreases |parts|
  {
    if |parts| == 0 then ""
    else if |parts| == 1 then parts[0]
    else parts[0] + sep + JoinWith(parts[1..], sep)
  }

  /** `s.split(sep)` with a non-empty separator: cut at every occurrence, left
      to right, occurrences not overlapping; always at least one part. */
  function SplitOn(s: string, sep: string): (parts: seq<string>)
    requires |sep| > 0
    ensures |parts| > 0
    decreases |s|
  {
    if |s| < |sep| then [s]
    else if s[..|sep|] == sep then [""] + SplitOn(s[|sep|..], sep)
    else
      var rest := SplitOn(s[1..], sep);
      [[s[0]] + rest[0]] + rest[1..]
  }

  lemma JoinConsFirst(c: char, parts: seq<string>, sep: string)
    requires |parts| > 0
    ensures JoinWith([[c] + parts[0]] + parts[1..], sep) == [c] + JoinWith(parts, sep)
  {
    var q := [[c] + parts[0]] + parts[1..];
    assert q[1..] == parts[1..];
  }

  /** Joining the parts of a split with the same separator gives back the
      string. */
  lemma {:induction false} JoinSplit(s: string, sep: string)
    requires |sep| > 0
    ensures JoinWith(SplitOn(s, sep), sep) == s
    decreases |s|
  {
    if |s| < |sep| {
    } else if s[..|sep|] == sep {
      var rest := SplitOn(s[|sep|..], sep);
      JoinSplit(s[|sep|..], sep);
      var parts := [""] + rest;
      assert SplitOn(s, sep) == parts;
      assert parts[1..] == rest;
      assert JoinWith(parts, sep) == "" + sep + JoinWith(rest, sep);
      assert s == sep + s[|sep|..];
    } else {
      var rest := SplitOn(s[1..], sep);
      assert SplitOn(s, sep) == [[s[0]] + rest[0]] + rest[1..];
      JoinSplit(s[1..], sep);
      JoinConsFirst(s[0], rest, sep);
      assert s == [s[0]] + s[1..];
    }
  }

  /** No character of `s` is `c`. */
  predicate Avoids(s: string, c: char) {
    forall k :: 0 <= k < |s| ==> s[k] != c
  }

  lemma {:induction false} SplitWithoutSeparator(w: string, c: char)
    requires Avoids(w, c)
    ensures SplitOn(w, [c]) == [w]
    decreases |w|
  {
    if |w| >= 1 {
      SplitWithoutSeparator(w[1..], c);
      assert w == [w[0]] + w[1..];
    }
  }

  lemma {:induction false} SplitAfterFirst(w: string, c: char, t: string)
    requires Avoids(w, c)
    ensures SplitOn(w + [c] + t, [c]) == [w] + SplitOn(t, [c])
    decreases |w|
  {
    var s := w + [c] + t;
    if |w| == 0 {
      assert s == [c] + t && s[..1] == [c] && s[1..] == t;
    } else {
      assert s[..1] == [w[0]];
      assert s[1..] == w[1..] + [c] + t;
      SplitAfterFirst(w[1..], c, t);
      assert w == [w[0]] + w[1..];
    }
  }

  /** Splitting on a character the parts do not contain undoes `join`. */
  lemma {:induction false} SplitOfJoin(parts: seq<string>, c: char)
    requires |parts| > 0
    requires forall i :: 0 <= i < |parts| ==> Avoids(parts[i], c)
    ensures SplitOn(JoinWith(parts, [c]), [c]) == parts
    decreases |parts|
  {
    if |parts| == 1 {
      SplitWithoutSeparator(parts[0], c);
    } else {
      SplitOfJoin(parts[1..], c);
      SplitAfterFirst(parts[0], c, JoinWith(parts[1..], [c]));
      assert parts == [parts[0]] + parts[1..];
    }
  }

  /** Joining parts that avoid a character, with a separator that avoids it,
      avoids it too. */
  lemma {:induction false} JoinAvoids(parts: seq<string>, sep: string, c: char)
    requires Avoids(sep, c)
    requires forall i :: 0 <= i < |parts| ==> Avoids(parts[i], c)
    ensures Avoids(JoinWith(parts, sep), c)
    decreases |parts|
  {
    if |parts| > 1 {
      JoinAvoids(parts[1..], sep, c);
    }
  }

  /** `s.replace(pat, repl)` with a non-empty `pat`: every occurrence, left to
      right, without overlaps. */
  function ReplaceAll(s: string, pat: string, repl: string): string
    requires |pat| > 0
    decreases |s|
  {
    if |s| < |pat| then s
    else if s[..|pat|] == pat then repl + ReplaceAll(s[|pat|..], pat, repl)
    else [s[0]] + ReplaceAll(s[1..], pat, repl)
  }

  /** `s.replace(pat, repl) == repl.join(s.split(pat))`. */
  lemma {:induction false} ReplaceIsJoinOfSplit(s: string, pat: string, repl: string)
    requires |pat| > 0
    ensures ReplaceAll(s, pat, repl) == JoinWith(SplitOn(s, pat), repl)
    decreases |s|
  {
    if |s| < |pat| {
    } else if s[..|pat|] == pat {
      var rest := SplitOn(s[|pat|..], pat);
      ReplaceIsJoinOfSplit(s[|pat|..], pat, repl);
      assert ([""] + rest)[1..] == rest;
    } else {
      var rest := SplitOn(s[1..], pat);
      ReplaceIsJoinOfSplit(s[1..], pat, repl);
      JoinConsFirst(s[0], rest, repl);
    }
  }

  /** A string with no occurrence of `pat` is left as it is. */
  lemma {:induction false} ReplaceAbsent(s: string, pat: string, repl: string)
    requires |pat| > 0 && !Contains(s, pat)
    ensures ReplaceAll(s, pat, repl) == s
    decreases |s|
  {
    if |s| >= |pat| {
      ReplaceAbsent(s[1..], pat, repl);
      assert s == [s[0]] + s[1..];
    }
  }

  /** Replacing a string by itself changes nothing. */
  lemma {:induction false} ReplaceSelf(s: string, pat: string)
    requires |pat| > 0
    ensures ReplaceAll(s, pat, pat) == s
    decreases |s|
  {
    if |s| >= |pat| {
      if s[..|pat|] == pat {
        ReplaceSelf(s[|pat|..], pat);
        assert s == pat + s[|pat|..];
      } else {
        ReplaceSelf(s[1..], pat);
        assert s == [s[0]] + s[1..];
      }
    }
  }

  /** The characters `str.split()` and `str.strip()` treat as white space
      (the ASCII and Latin-1 ones). */
  predicate IsSpace(c: char) {
    c == ' ' || ('\t' <= c <= '\r') || ('\U{1C}' <= c <= '\U{1F}') || c == '\U{85}' || c == '\U{A0}'
  }

  predicate NoSpace(s: string) {
    forall i :: 0 <= i < |s| ==> !IsSpace(s[i])
  }

  /** Length of the longest prefix of `s` without white space. */
  function WordLength(s: string): (n: nat)
    ensures n <= |s|
    ensures NoSpace(s[..n])
    ensures n < |s| ==> IsSpace(s[n])
    decreases |s|
  {
    if |s| == 0 || IsSpace(s[0]) then 0 else 1 + WordLength(s[1..])
  }

  /** `s.split()`: the maximal runs of characters that are not white space. */
  function Tokens(s: string): (ts: seq<string>)
    ensures forall i :: 0 <= i < |ts| ==> |ts[i]| > 0 && NoSpace(ts[i])
    decreases |s|
  {
    if |s| == 0 then []
    else if IsSpace(s[0]) then Tokens(s[1..])
    else
      var n := WordLength(s);
      [s[..n]] + Tokens(s[n..])
  }

  lemma {:induction false} WordLengthOfWord(w: string, rest: string)
    requires NoSpace(w) && (|rest| == 0 || IsSpace(rest[0]))
    ensures WordLength(w + rest) == |w|
    decreases |w|
  {
    var s := w + rest;
    if |w| > 0 {
      assert s[0] == w[0] && !IsSpace(s[0]);
      assert s[1..] == w[1..] + rest;
      assert NoSpace(w[1..]);
      WordLengthOfWord(w[1..], rest);
      assert WordLength(s) == 1 + WordLength(s[1..]);
    } else {
      assert s == rest;
    }
  }

  /** Splitting words joined by single spaces on white space gives back the
      words. */
  lemma {:induction false} TokensOfJoin(ws: seq<string>)
    requires forall i :: 0 <= i < |ws| ==> |ws[i]| > 0 && NoSpace(ws[i])
    ensures Tokens(JoinWith(ws, " ")) == ws
    decreases |ws|
  {
    if |ws| == 1 {
      WordLengthOfWord(ws[0], "");
      assert ws[0] + "" == ws[0];
      assert ws[0][|ws[0]|..] == "";
    } else if |ws| > 1 {
      var tail := JoinWith(ws[1..], " ");
      var s := ws[0] + " " + tail;
      assert s == ws[0] + (" " + tail);
      WordLengthOfWord(ws[0], " " + tail);
      assert s[..|ws[0]|] == ws[0];
      assert s[|ws[0]|..] == " " + tail;
      assert (" " + tail)[1..] == tail;
      TokensOfJoin(ws[1..]);
      assert Tokens(" " + tail) == Tokens(tail);
    }
  }

  /** `s.lstrip()`. */
  function StripLeft(s: string): (r: string)
    ensures |r| <= |s| && r == s[|s| - |r|..]
    ensures |r| > 0 ==> !IsSpace(r[0])
    ensures forall i :: 0 <= i < |s| - |r| ==> IsSpace(s[i])
    decreases |s|
  {
    if |s| > 0 && IsSpace(s[0]) then StripLeft(s[1..]) else s
  }

  /** `s.rstrip()`. */
  function StripRight(s: string): (r: string)
    ensures |r| <= |s| && r == s[..|r|]
    ensures |r| > 0 ==> !IsSpace(r[|r| - 1])
    ensures forall i :: |r| <= i < |s| ==> IsSpace(s[i])
    decreases |s|
  {
    if |s| > 0 && IsSpace(s[|s| - 1]) then StripRight(s[..|s| - 1]) else s
  }

  /** `s.strip()`: white space removed from both ends and nowhere else. */
  function Strip(s: string): (r: string)
    ensures |r| > 0 ==> !IsSpace(r[0]) && !IsSpace(r[|r| - 1])
    ensures |r| <= |s|
  {
    StripRight(StripLeft(s))
  }

  lemma StripNoSpaceEnds(s: string)
    requires |s| > 0 && !IsSpace(s[0]) && !IsSpace(s[|s| - 1])
    ensures Strip(s) == s
  {
  }

  /** Python's `str.lower()` on ASCII letters; every other character is kept. */
  function Lower(s: string): (r: string)
    ensures |r| == |s|
    ensures forall i :: 0 <= i < |s| ==> (r[i] == s[i] <==> !('A' <= s[i] <= 'Z'))
    ensures forall i :: 0 <= i < |s| ==> !('A' <= r[i] <= 'Z')
  {
    seq(|s|, i requires 0 <= i < |s| => LowerChar(s[i]))
  }

  function LowerChar(c: char): char {
    if 'A' <= c <= 'Z' then (c as int + 32) as char else c
  }

  /** `a < b` on Python strings: code points compared left to right, a proper
      prefix first. */
  predicate StrLess(a: string, b: string)
    decreases |a|
  {
    if |a| == 0 then |b| > 0
    else if |b| == 0 then false
    else if a[0] != b[0] then a[0] < b[0]
    else StrLess(a[1..], b[1..])
  }

  /** Python's `max(a, b, c)` on strings: the first of the largest. */
  function StrMax3(a: string, b: string, c: string): (m: string)
    ensures m == a || m == b || m == c
    ensures !StrLess(m, a) && !StrLess(m, b) && !StrLess(m, c)
  {
    StrOrderFacts(a, b, c);
    var ab := if StrLess(a, b) then b else a;
    if StrLess(ab, c) then c else ab
  }

  lemma {:induction false} StrLessIrreflexive(a: string)
    ensures !StrLess(a, a)
    decreases |a|
  {
    if |a| > 0 {
      StrLessIrreflexive(a[1..]);
    }
  }

  lemma {:induction false} StrLessTotal(a: string, b: string)
    ensures a == b || StrLess(a, b) || StrLess(b, a)
    ensures !(StrLess(a, b) && StrLess(b, a))
    ensures !StrLess(a, a)
    decreases |a|
  {
    StrLessIrreflexive(a);
    if |a| > 0 && |b| > 0 && a[0] == b[0] {
      StrLessTotal(a[1..], b[1..]);
      if a[1..] == b[1..] {
        assert a == [a[0]] + a[1..] && b == [b[0]] + b[1..];
      }
    }
  }

  lemma {:induction false} StrLessTransitive(a: string, b: string, c: string)
    requires StrLess(a, b) && StrLess(b, c)
    ensures StrLess(a, c)
    decreases |a|
  {
    if |a| > 0 && a[0] == b[0] && b[0] == c[0] {
      StrLessTransitive(a[1..], b[1..], c[1..]);
    }
  }

  /** Irreflexivity, asymmetry and transitivity among three strings. */
  lemma StrOrderFacts(a: string, b: string, c: string)
    ensures !StrLess(a, a) && !StrLess(b, b) && !StrLess(c, c)
    ensures a == b || StrLess(a, b) || StrLess(b, a)
    ensures !(StrLess(a, b) && StrLess(b, a))
    ensures !(StrLess(a, c) && StrLess(c, a))
    ensures !(StrLess(b, c) && StrLess(c, b))
    ensures StrLess(a, b) && StrLess(b, c) ==> StrLess(a, c)
    ensures StrLess(b, a) && StrLess(a, c) ==> StrLess(b, c)
  {
    StrLessTotal(a, b);
    StrLessTotal(a, c);
    StrLessTotal(b, c);
    StrLessTotal(c, c);
    StrLessTotal(b, b);
    if StrLess(a, b) && StrLess(b, c) {
      StrLessTransitive(a, b, c);
    }
    if StrLess(b, a) && StrLess(a, c) {
      StrLessTransitive(b, a, c);
    }
  }

  /* ---------------- decimal digits ---------------- */

  predicate IsDigit(c: char) {
    '0' <= c <= '9'
  }

  predicate AllDigits(s: string) {
    forall i :: 0 <= i < |s| ==> IsDigit(s[i])
  }

  function DigitValue(c: char): nat
    requires IsDigit(c)
  {
    c as int - '0' as int
  }

  function DigitChar(d: nat): (c: char)
    requires d < 10
    ensures IsDigit(c) && DigitValue(c) == d
  {
    ('0' as int + d) as char
  }

  /** The number a string of decimal digits denotes, most significant first. */
  function DigitsValue(s: string): nat
    requires AllDigits(s)
    decreases |s|
  {
    if |s| == 0 then 0 else 10 * DigitsValue(s[..|s| - 1]) + DigitValue(s[|s| - 1])
  }

  /** Length of the longest prefix of decimal digits. */
  function DigitPrefix(s: string): (n: nat)
    ensures n <= |s| && AllDigits(s[..n])
    ensures n < |s| ==> !IsDigit(s[n])
    decreases |s|
  {
    if |s| == 0 || !IsDigit(s[0]) then 0 else 1 + DigitPrefix(s[1..])
  }

  lemma {:induction false} DigitPrefixOfDigits(s: string)
    requires AllDigits(s)
    ensures DigitPrefix(s) == |s|
    decreases |s|
  {
    if |s| > 0 {
      DigitPrefixOfDigits(s[1..]);
    }
  }

  lemma {:induction false} ExponentMarkOfDigits(s: string)
    requires AllDigits(s)
    ensures ExponentMark(s) == |s|
    decreases |s|
  {
    if |s| > 0 {
      ExponentMarkOfDigits(s[1..]);
    }
  }

  /** `str(n)` for a natural number. */
  function NatToString(n: nat): (s: string)
    ensures |s| > 0 && AllDigits(s)
    ensures |s| > 1 ==> s[0] != '0'
    decreases n
  {
    if n < 10 then [DigitChar(n)] else NatToString(n / 10) + [DigitChar(n % 10)]
  }

  /** `str(i)` for an integer. */
  function IntToString(i: int): (s: string)
    ensures |s| > 0
  {
    if i < 0 then "-" + NatToString(-i) else NatToString(i)
  }

  lemma {:induction false} DigitsOfNatToString(n: nat)
    ensures DigitsValue(NatToString(n)) == n
    decreases n
  {
    var s := NatToString(n);
    if n >= 10 {
      DigitsOfNatToString(n / 10);
      assert s[..|s| - 1] == NatToString(n / 10);
    }
  }

  /** `str(n)` is injective. */
  lemma NatToStringInjective(a: nat, b: nat)
    requires NatToString(a) == NatToString(b)
    ensures a == b
  {
    DigitsOfNatToString(a);
    DigitsOfNatToString(b);
  }

  /** The plain integer literal `int(s)` reads on ASCII input: surrounding
      white space, an optional sign and at least one decimal digit. Digit
      grouping with underscores is added by ReadInt. */
  function ParseInt(s: string): (r: Result<int>)
    ensures r.Err? ==> r.error == ValueError
    ensures r.Ok? ==> |Strip(s)| > 0
  {
    var t := Strip(s);
    if |t| > 0 && (t[0] == '-' || t[0] == '+') then
      var d := t[1..];
      if |d| > 0 && AllDigits(d) then
        var v: int := DigitsValue(d);
        Ok(if t[0] == '-' then -v else v)
      else Err(ValueError)
    else if |t| > 0 && AllDigits(t) then Ok(DigitsValue(t))
    else Err(ValueError)
  }

  /** `int(str(i)) == i`. */
  lemma ParseIntOfIntToString(i: int)
    ensures ParseInt(IntToString(i)) == Ok(i)
  {
    var s := IntToString(i);
    var n := if i < 0 then -i else i;
    var d := NatToString(n);
    DigitsOfNatToString(n);
    StripNoSpaceEnds(s);
    if i < 0 {
      assert s[1..] == d;
    }
  }

  /** `10 ** e` as a real. */
  function Pow10(e: nat): (p: real)
    ensures p >= 1.0
  {
    if e == 0 then 1.0 else 10.0 * Pow10(e - 1)
  }

  /** A decimal significand `ddd`, `ddd.`, `ddd.ddd` or `.ddd`. */
  function SignificandValue(m: string): (r: Result<real>)
    ensures r.Err? ==> r.error == ValueError
    ensures r.Ok? ==> r.value >= 0.0
    ensures r.Ok? ==> |m| > 0
    ensures AllDigits(m) && |m| > 0 ==> r == Ok(DigitsValue(m) as real)
  {
    var i := DigitPrefix(m);
    assert AllDigits(m) ==> i == |m| by {
      if AllDigits(m) { DigitPrefixOfDigits(m); }
    }
    if i == |m| then
      if i > 0 then Ok(DigitsValue(m) as real) else Err(ValueError)
    else if m[i] != '.' then Err(ValueError)
    else
      var frac := m[i + 1..];
      if AllDigits(frac) && (i > 0 || |frac| > 0) then
        Ok(DigitsValue(m[..i]) as real + DigitsValue(frac) as real / Pow10(|frac|))
      else Err(ValueError)
  }

  /** An exponent `ddd`, `+ddd` or `-ddd`. */
  function ExponentValue(e: string): (r: Result<int>)
    ensures r.Err? ==> r.error == ValueError
  {
    if |e| > 0 && (e[0] == '-' || e[0] == '+') then
      if |e| > 1 && AllDigits(e[1..]) then
        var v: int := DigitsValue(e[1..]);
        Ok(if e[0] == '-' then -v else v)
      else Err(ValueError)
    else if |e| > 0 && AllDigits(e) then Ok(DigitsValue(e))
    else Err(ValueError)
  }

  /** Index of the first `e` or `E`, or the length when there is none. */
  function ExponentMark(s: string): (j: nat)
    ensures j <= |s|
    ensures j < |s| ==> s[j] == 'e' || s[j] == 'E'
    ensures forall k :: 0 <= k < j ==> s[k] != 'e' && s[k] != 'E'
    decreases |s|
  {
    if |s| == 0 then 0
    else if s[0] == 'e' || s[0] == 'E' then 0
    else 1 + ExponentMark(s[1..])
  }

  /** An unsigned decimal literal with an optional exponent. */
  function DecimalValue(body: string): (r: Result<real>)
    ensures r.Err? ==> r.error == ValueError
    ensures r.Ok? ==> r.value >= 0.0
    ensures AllDigits(body) && |body| > 0 ==> r == Ok(DigitsValue(body) as real)
  {
    var j := ExponentMark(body);
    assert AllDigits(body) ==> j == |body| by {
      if AllDigits(body) { ExponentMarkOfDigits(body); }
    }
    var v :- SignificandValue(body[..j]);
    if j == |body| then
      assert body[..j] == body;
      Ok(v)
    else
      var e :- ExponentValue(body[j + 1..]);
      Ok(if e >= 0 then v * Pow10(e) else v / Pow10(-e))
  }

  /** The plain float literal `float(s)` reads on ASCII input: surrounding
      white space, an optional sign, then a decimal literal, `inf`,
      `infinity` or `nan` in any case. Digit grouping with underscores is
      added by ReadFloat. */
  function ParseFloat(s: string): (r: Result<ExtReal>)
    ensures r.Err? ==> r.error == ValueError
    ensures r.Ok? ==> |Strip(s)| > 0
    ensures r.Ok? && r.value.Finite? && (Strip(s)[0] != '-') ==> r.value.v >= 0.0
  {
    var t := Strip(s);
    var neg := |t| > 0 && t[0] == '-';
    var body := if |t| > 0 && (t[0] == '-' || t[0] == '+') then t[1..] else t;
    if SameIgnoringCase(body, "inf") || SameIgnoringCase(body, "infinity") then Ok(if neg then NegInf else PosInf)
    else if SameIgnoringCase(body, "nan") then Ok(NaN)
    else
      var v :- DecimalValue(body);
      Ok(Finite(if neg then -v else v))
  }

  /** `s.lower() == w` for a lower-case ASCII word `w`. */
  predicate SameIgnoringCase(s: string, w: string) {
    |s| == |w| && forall i :: 0 <= i < |s| ==> LowerChar(s[i]) == w[i]
  }

  /** A word starting with a digit is none of `inf`, `infinity`, `nan`. */
  lemma NotSpecialWord(body: string)
    requires |body| > 0 && IsDigit(body[0])
    ensures !SameIgnoringCase(body, "inf") && !SameIgnoringCase(body, "infinity") && !SameIgnoringCase(body, "nan")
  {
    assert LowerChar(body[0]) == body[0];
    assert "inf"[0] == 'i' && "infinity"[0] == 'i' && "nan"[0] == 'n';
  }

  /** `float(str(i)) == i` for every integer. */
  lemma ParseFloatOfIntToString(i: int)
    ensures ParseFloat(IntToString(i)) == Ok(Finite(i as real))
  {
    var n := if i < 0 then -i else i;
    var d := NatToString(n);
    NatDecimal(n);
    assert NoSpace(d) && d[0] != '-' && d[0] != '+' by {
      assert forall k :: 0 <= k < |d| ==> IsDigit(d[k]);
    }
    if i < 0 {
      assert IntToString(i) == "-" + d;
      ParseFloatNegative(d);
      assert -(n as real) == i as real;
    } else {
      assert IntToString(i) == d;
      ParseFloatUnsigned(d);
    }
  }

  /** A minus sign in front of an unsigned literal negates its value. */
  lemma ParseFloatNegative(w: string)
    requires |w| > 0 && NoSpace(w) && IsDigit(w[0]) && DecimalValue(w).Ok?
    ensures ParseFloat("-" + w) == Ok(Finite(-DecimalValue(w).value))
  {
    var t := "-" + w;
    assert t[|t| - 1] == w[|w| - 1];
    StripNoSpaceEnds(t);
    assert t[1..] == w;
    NotSpecialWord(w);
  }

  /** The digits of a natural number read back as that number, and are not
      one of `float()`'s special words. */
  lemma NatDecimal(n: nat)
    ensures var d := NatToString(n); DecimalValue(d) == Ok(n as real) && |d| > 0 && IsDigit(d[0])
    ensures var d := NatToString(n);
      !SameIgnoringCase(d, "inf") && !SameIgnoringCase(d, "infinity") && !SameIgnoringCase(d, "nan")
  {
    var d := NatToString(n);
    DigitsOfNatToString(n);
    NotSpecialWord(d);
    var v := DecimalValue(d);
    assert v == Ok(n as real);
  }

  // ---------------------------------------------------------------- digit grouping

  /** Every underscore sits between two digits, the only place `int()` and
      `float()` accept one (PEP 515, Python 3.6 on). */
  predicate GroupedDigits(t: string) {
    forall k :: 0 <= k < |t| && t[k] == '_' ==> 0 < k < |t| - 1 && IsDigit(t[k - 1]) && IsDigit(t[k + 1])
  }

  /** The text with its underscores removed, every other character kept in
      order. */
  function Ungroup(t: string): (u: string)
    ensures '_' !in u
    ensures forall c :: c != '_' ==> (c in u <==> c in t)
    decreases |t|
  {
    if |t| == 0 then [] else (if t[0] == '_' then [] else [t[0]]) + Ungroup(t[1..])
  }

  /** Python's `int(s)` on ASCII input: the plain literal, where an
      underscore between two digits is skipped and any other underscore
      raises ValueError. */
  function ReadInt(s: string): (r: Result<int>)
    ensures r.Err? ==> r.error == ValueError
    ensures '_' !in s ==> r == ParseInt(s)
    ensures '_' in s && !GroupedDigits(Strip(s)) ==> r == Err(ValueError)
  {
    if '_' !in s then ParseInt(s)
    else
      var t := Strip(s);
      if GroupedDigits(t) then ParseInt(Ungroup(t)) else Err(ValueError)
  }

  /** Python's `float(s)` on ASCII input: the plain literal, where an
      underscore between two digits is skipped and any other underscore
      raises ValueError. */
  function ReadFloat(s: string): (r: Result<ExtReal>)
    ensures r.Err? ==> r.error == ValueError
    ensures '_' !in s ==> r == ParseFloat(s)
    ensures '_' in s && !GroupedDigits(Strip(s)) ==> r == Err(ValueError)
  {
    if '_' !in s then ParseFloat(s)
    else
      var t := Strip(s);
      if GroupedDigits(t) then ParseFloat(Ungroup(t)) else Err(ValueError)
  }

  lemma {:induction false} UngroupConcat(a: string, b: string)
    ensures Ungroup(a + b) == Ungroup(a) + Ungroup(b)
    decreases |a|
  {
    if |a| > 0 {
      assert (a + b)[0] == a[0] && (a + b)[1..] == a[1..] + b;
      UngroupConcat(a[1..], b);
      var head: string := if a[0] == '_' then [] else [a[0]];
      assert Ungroup(a + b) == head + Ungroup((a + b)[1..]);
      assert Ungroup(a) == head + Ungroup(a[1..]);
      assert head + (Ungroup(a[1..]) + Ungroup(b)) == (head + Ungroup(a[1..])) + Ungroup(b);
    } else {
      assert a + b == b;
    }
  }

  lemma {:induction false} UngroupDigits(a: string)
    requires AllDigits(a)
    ensures Ungroup(a) == a
    decreases |a|
  {
    if |a| > 0 {
      UngroupDigits(a[1..]);
    }
  }

  /** Grouping is invisible: two digit runs joined by an underscore read as
      the digits they spell together, under both `int()` and `float()`. */
  lemma GroupingInvisible(a: string, b: string)
    requires |a| > 0 && |b| > 0 && AllDigits(a) && AllDigits(b)
    ensures ReadInt(a + "_" + b) == Ok(DigitsValue(a + b))
    ensures ReadFloat(a + "_" + b) == Ok(Finite(DigitsValue(a + b) as real))
  {
    JoinedGroup(a, b);
    ReadDigits(a + b);
  }

  /** Two digit runs joined by an underscore form a well-grouped literal
      whose underscore-free text is the two runs side by side. */
  lemma JoinedGroup(a: string, b: string)
    requires |a| > 0 && |b| > 0 && AllDigits(a) && AllDigits(b)
    ensures var g := a + "_" + b; '_' in g && Strip(g) == g && GroupedDigits(g) && Ungroup(g) == a + b
    ensures AllDigits(a + b) && |a + b| > 0
  {
    var g := a + "_" + b;
    assert g[|a|] == '_';
    assert g[0] == a[0] && g[|g| - 1] == b[|b| - 1];
    StripNoSpaceEnds(g);
    JoinedIsGrouped(a, b);
    JoinedUngroup(a, b);
    var d := a + b;
    forall k | 0 <= k < |d| ensures IsDigit(d[k]) {
      if k >= |a| { assert d[k] == b[k - |a|]; }
    }
  }

  lemma JoinedUngroup(a: string, b: string)
    requires AllDigits(a) && AllDigits(b)
    ensures Ungroup(a + "_" + b) == a + b
  {
    var x := a + "_";
    UngroupConcat(x, b);
    UngroupConcat(a, "_");
    UngroupDigits(a);
    UngroupDigits(b);
    UngroupUnderscore();
    assert Ungroup(x) == a;
  }

  lemma UngroupUnderscore()
    ensures Ungroup("_") == []
  {
    assert "_"[0] == '_' && "_"[1..] == [];
  }

  lemma JoinedIsGrouped(a: string, b: string)
    requires |a| > 0 && |b| > 0 && AllDigits(a) && AllDigits(b)
    ensures GroupedDigits(a + "_" + b)
  {
    var g := a + "_" + b;
    forall k | 0 <= k < |g| && g[k] == '_'
      ensures 0 < k < |g| - 1 && IsDigit(g[k - 1]) && IsDigit(g[k + 1])
    {
      if k < |a| {
        assert false;
      } else if k > |a| {
        assert false;
      } else {
        assert g[k - 1] == a[|a| - 1] && g[k + 1] == b[0];
      }
    }
  }

  /** A plain run of digits reads as the number it spells. */
  lemma ReadDigits(d: string)
    requires |d| > 0 && AllDigits(d)
    ensures ParseInt(d) == Ok(DigitsValue(d))
    ensures ParseFloat(d) == Ok(Finite(DigitsValue(d) as real))
  {
    StripNoSpaceEnds(d);
    NotSpecialWord(d);
  }

  /** An underscore that does not sit between two digits is rejected:
      leading, trailing or doubled. */
  lemma MisplacedUnderscore(a: string, b: string)
    requires |a| > 0 && |b| > 0 && AllDigits(a) && AllDigits(b)
    ensures ReadInt("_" + a).Err? && ReadFloat("_" + a).Err?
    ensures ReadInt(a + "_").Err? && ReadFloat(a + "_").Err?
    ensures ReadInt(a + "__" + b).Err? && ReadFloat(a + "__" + b).Err?
  {
    LeadingUnderscore(a);
    TrailingUnderscore(a);
    DoubledUnderscore(a, b);
  }

  lemma LeadingUnderscore(a: string)
    requires |a| > 0 && AllDigits(a)
    ensures ReadInt("_" + a).Err? && ReadFloat("_" + a).Err?
  {
    var t := "_" + a;
    assert IsDigit(a[|a| - 1]);
    assert t[0] == '_' && t[|t| - 1] == a[|a| - 1];
    Ungrouped(t, 0);
  }

  lemma TrailingUnderscore(a: string)
    requires |a| > 0 && AllDigits(a)
    ensures ReadInt(a + "_").Err? && ReadFloat(a + "_").Err?
  {
    var t := a + "_";
    assert IsDigit(a[0]);
    assert t[0] == a[0] && t[|a|] == '_' && |a| == |t| - 1;
    Ungrouped(t, |a|);
  }

  lemma DoubledUnderscore(a: string, b: string)
    requires |a| > 0 && |b| > 0 && AllDigits(a) && AllDigits(b)
    ensures ReadInt(a + "__" + b).Err? && ReadFloat(a + "__" + b).Err?
  {
    var t := a + "__" + b;
    assert IsDigit(a[0]) && IsDigit(b[|b| - 1]);
    assert t[0] == a[0] && t[|t| - 1] == b[|b| - 1];
    assert t[|a|] == '_' && t[|a| + 1] == '_';
    Ungrouped(t, |a|);
  }

  /** Text whose underscore at `k` is not between two digits, and which has
      no space at either end, is rejected by both readers. */
  lemma Ungrouped(t: string, k: nat)
    requires k < |t| && t[k] == '_' && !IsSpace(t[0]) && !IsSpace(t[|t| - 1])
    requires k == 0 || k == |t| - 1 || !IsDigit(t[k - 1]) || !IsDigit(t[k + 1])
    ensures ReadInt(t) == Err(ValueError) && ReadFloat(t) == Err(ValueError)
  {
    StripNoSpaceEnds(t);
    assert !GroupedDigits(t);
  }

  /** `int(str(i)) == i` also for the grouping-aware reading. */
  lemma ReadIntOfIntToString(i: int)
    ensures ReadInt(IntToString(i)) == Ok(i)
  {
    var s := IntToString(i);
    var n := if i < 0 then -i else i;
    assert '_' !in s by {
      assert forall k :: 0 <= k < |NatToString(n)| ==> IsDigit(NatToString(n)[k]);
      if i < 0 { assert s == "-" + NatToString(n); }
    }
    ParseIntOfIntToString(i);
  }

  /** `float(w)` of an unsigned word without white space is its decimal
      value. */
  lemma ParseFloatUnsigned(w: string)
    requires |w| > 0 && NoSpace(w) && w[0] != '-' && w[0] != '+'
    requires !SameIgnoringCase(w, "inf") && !SameIgnoringCase(w, "infinity") && !SameIgnoringCase(w, "nan")
    ensures DecimalValue(w).Err? ==> ParseFloat(w).Err?
    ensures DecimalValue(w).Ok? ==> ParseFloat(w) == Ok(Finite(DecimalValue(w).value))
  {
    StripNoSpaceEnds(w);
  }

  /** A word of letters is not a float: the non-omni SCF sector strings must
      hold numbers only. */
  lemma ParseFloatRejectsOmni()
    ensures ParseFloat("omni").Err? && ParseFloat("Omni").Err?
  {
    OmniNotDecimal("omni");
    OmniNotDecimal("Omni");
  }

  lemma OmniNotDecimal(w: string)
    requires w == "omni" || w == "Omni"
    ensures ParseFloat(w).Err?
  {
    assert DecimalValue(w).Err? by {
      assert ExponentMark(w) == 4 by {
        assert w[1..] == "mni" && w[2..] == "ni" && w[3..] == "i" && w[4..] == "";
      }
      assert DigitPrefix(w) == 0;
      assert w[..4] == w;
    }
    ParseFloatUnsigned(w);
  }

  /** `float("12.5") == 12.5`. */
  lemma ParseFloatFraction()
    ensures ParseFloat("12.5") == Ok(Finite(12.5))
  {
    var w := "12.5";
    assert DecimalValue(w) == Ok(12.5) by {
      assert ExponentMark(w) == 4 by {
        assert w[1..] == "2.5" && w[2..] == ".5" && w[3..] == "5" && w[4..] == "";
      }
      assert w[..4] == w;
      assert DigitPrefix(w) == 2 by {
        assert w[1..] == "2.5" && w[2..] == ".5";
      }
      assert w[..2] == "12" && w[3..] == "5";
      assert DigitsValue("12") == 12 by {
        assert "12"[..1] == "1";
      }
      assert DigitsValue("5") == 5;
    }
    assert NoSpace(w);
    ParseFloatUnsigned(w);
  }
}

=== FILE: transformations.dfy ===
/** The map between the turbine ("global") frame, where 0 degrees is South and
    angles grow counter-clockwise, and the compass frame, where 0 degrees is
    North and angles grow clockwise. Both directions are `(180 - a) mod 360`.
 */
module Transformations {
  import opened Outcomes

  /** What `global_2_compass` can be handed. */
  datatype AngleArg =
    | AngleList(xs: seq<real>)    // a Python list
    | AngleArray(xs: seq<real>)   // a one-dimensional numpy array
    | AngleFloat(x: real)         // a float, np.float64 or np.float32
    | Other                       // anything else

  /** numpy's floored `np.mod(x, 360)`: the result has the sign of the divisor. */
  function Mod360(x: real): (r: real)
    ensures 0.0 <= r < 360.0
    ensures IsTurn(x - r)
  {
    var q := (x / 360.0).Floor;
    assert (x - (x - 360.0 * q as real)) / 360.0 == q as real;
    x - 360.0 * q as real
  }

  /** `x` is a whole number of turns. */
  predicate IsTurn(x: real) {
    (x / 360.0).Floor as real == x / 360.0
  }

  lemma FloorOf(y: real, n: int)
    requires n as real <= y < n as real + 1.0
    ensures y.Floor == n
  {
  }

  /** Reducing modulo 360 only depends on the residue class. */
  lemma Mod360OfTurn(x: real, y: real)
    requires IsTurn(x - y)
    ensures Mod360(x) == Mod360(y)
  {
    var k := ((x - y) / 360.0).Floor;
    assert x / 360.0 == y / 360.0 + k as real;
    var q := (y / 360.0).Floor;
    FloorOf(x / 360.0, q + k);
  }

  /** One angle through `(180 - a) mod 360`. */
  function Flip(a: real): (c: real)
    ensures 0.0 <= c < 360.0
    ensures IsTurn((180.0 - a) - c)
  {
    Mod360(180.0 - a)
  }

  /** `global_2_compass`: a list is mapped element by element; any other
      argument reaches `isinstance(angles, np.array)`, and since `np.array`
      is a function rather than a type that call raises TypeError, so the
      array and float branches and the final ValueError are never reached. */
  function GlobalToCompass(angles: AngleArg): (r: Result<seq<real>>)
    ensures r.Ok? <==> angles.AngleList?
    ensures !angles.AngleList? ==> r == Err(TypeError)
    ensures r.Ok? ==> |r.value| == |angles.xs|
    ensures r.Ok? ==> forall i :: 0 <= i < |r.value| ==>
      0.0 <= r.value[i] < 360.0 && IsTurn((180.0 - angles.xs[i]) - r.value[i])
  {
    match angles
    case AngleList(xs) => Ok(seq(|xs|, i requires 0 <= i < |xs| => Flip(xs[i])))
    case _ => Err(TypeError)
  }

  /** `compass_2_global` delegates to `global_2_compass`. */
  function CompassToGlobal(angles: AngleArg): (r: Result<seq<real>>)
    ensures !angles.AngleList? ==> r == Err(TypeError)
    ensures angles.AngleList? ==> (r.Ok? && |r.value| == |angles.xs|
      && forall i :: 0 <= i < |r.value| ==> r.value[i] == Flip(angles.xs[i]))
  {
    GlobalToCompass(angles)
  }

  /** Flipping twice reduces the angle modulo 360. */
  lemma FlipTwice(a: real)
    ensures Flip(Flip(a)) == Mod360(a)
  {
    var c := Flip(a);
    var k := (((180.0 - a) - c) / 360.0).Floor;
    assert ((180.0 - c) - a) / 360.0 == k as real;
    Mod360OfTurn(180.0 - c, a);
  }

  /** An angle already in [0, 360) is its own residue. */
  lemma Mod360InRange(a: real)
    requires 0.0 <= a < 360.0
    ensures Mod360(a) == a
  {
    FloorOf(a / 360.0, 0);
  }

  /** South in the turbine frame is 180 degrees on the compass, East stays at
      90 degrees, and North goes to 0. */
  lemma FlipCardinalPoints()
    ensures Flip(0.0) == 180.0 && Flip(90.0) == 90.0 && Flip(180.0) == 0.0
  {
    Mod360InRange(180.0);
    Mod360InRange(90.0);
    Mod360InRange(0.0);
  }

  /** Converting a list of compass angles in [0, 360) to the turbine frame
      and back returns the same list. */
  lemma CompassRoundTrip(xs: seq<real>)
    requires forall i :: 0 <= i < |xs| ==> 0.0 <= xs[i] < 360.0
    ensures GlobalToCompass(AngleList(GlobalToCompass(AngleList(xs)).value)) == Ok(xs)
  {
    var once := GlobalToCompass(AngleList(xs)).value;
    var twice := GlobalToCompass(AngleList(once)).value;
    forall i | 0 <= i < |xs|
      ensures twice[i] == xs[i]
    {
      FlipTwice(xs[i]);
      Mod360InRange(xs[i]);
    }
    assert twice == xs;
  }
}

=== FILE: turbine_names.dfy ===
/** Turbine and cluster names read from file paths (`DB_turbine_name_funcs.py`):
    the leftmost match of a fixed-width regular expression, or the whole path
    when nothing matches, and the ordering of result paths by turbine name.
 */
module TurbineNames {
  import opened Outcomes
  import opened Text

  /** Python's `\w` on ASCII text: a letter, a digit or '_'. */
  predicate WordChar(c: char) {
    'a' <= c <= 'z' || 'A' <= c <= 'Z' || IsDigit(c) || c == '_'
  }

  /** One position of a fixed-width pattern: `\w`, `\d` or a literal. */
  datatype Atom = AnyWord | Digit | Exactly(c: char)

  predicate AtomMatches(a: Atom, c: char) {
    match a
    case AnyWord => WordChar(c)
    case Digit => IsDigit(c)
    case Exactly(x) => c == x
  }

  /** The pattern matches the characters of `s` from position `at` on. */
  predicate MatchesAt(s: string, p: seq<Atom>, at: nat) {
    at + |p| <= |s| && forall k :: 0 <= k < |p| ==> AtomMatches(p[k], s[at + k])
  }

  /** `\w\w_\w\d\d_\w\w`, a Dogger Bank turbine name such as 'DB_A01_AB'. */
  const TurbinePattern: seq<Atom> :=
    [AnyWord, AnyWord, Exactly('_'), AnyWord, Digit, Digit, Exactly('_'), AnyWord, AnyWord]

  /** `JL\w`, a design cluster such as 'JLN'. */
  const ClusterPattern: seq<Atom> := [Exactly('J'), Exactly('L'), AnyWord]

  /** A turbine name spelled out position by position. */
  predicate IsTurbineName(w: string) {
    |w| == 9 && w[2] == '_' && w[6] == '_' && IsDigit(w[4]) && IsDigit(w[5])
    && WordChar(w[0]) && WordChar(w[1]) && WordChar(w[3]) && WordChar(w[7]) && WordChar(w[8])
  }

  /** A cluster name spelled out position by position. */
  predicate IsClusterName(w: string) {
    |w| == 3 && w[0] == 'J' && w[1] == 'L' && WordChar(w[2])
  }

  /** A turbine name starts at position `i` of the path. */
  predicate NameAt(path: string, i: nat) {
    i + 9 <= |path| && IsTurbineName(path[i..i + 9])
  }

  /** `re.search` from position `from`: the leftmost position where the
      pattern matches, None when there is none. */
  function Search(s: string, p: seq<Atom>, from: nat): (r: Option<nat>)
    ensures r.Some? ==> from <= r.value && MatchesAt(s, p, r.value)
    ensures forall i :: from <= i && (r.None? || i < r.value) ==> !MatchesAt(s, p, i)
    decreases |s| + 1 - from
  {
    if from + |p| > |s| then None
    else if MatchesAt(s, p, from) then Some(from)
    else Search(s, p, from + 1)
  }

  /** `search_result.group() if search_result is not None else path`. */
  function Leftmost(path: string, p: seq<Atom>): (r: string)
    ensures (forall i: nat :: !MatchesAt(path, p, i)) ==> r == path
    ensures (exists i: nat :: MatchesAt(path, p, i)) ==>
      (exists i: nat :: MatchesAt(path, p, i) && r == path[i..i + |p|]
                   && forall j :: 0 <= j < i ==> !MatchesAt(path, p, j))
  {
    match Search(path, p, 0)
    case None => path
    case Some(i) => path[i..i + |p|]
  }

  /** A match read back out of the text is the pattern spelled out. */
  lemma {:induction false} MatchedText(s: string, p: seq<Atom>, i: nat)
    requires MatchesAt(s, p, i)
    ensures MatchesAt(s[i..i + |p|], p, 0)
  {
    var w := s[i..i + |p|];
    forall k | 0 <= k < |p|
      ensures AtomMatches(p[k], w[k])
    {
      assert w[k] == s[i + k];
    }
  }

  /** Searching again in what was found finds the same text. */
  lemma {:induction false} LeftmostIdempotent(path: string, p: seq<Atom>)
    ensures Leftmost(Leftmost(path, p), p) == Leftmost(path, p)
  {
    match Search(path, p, 0)
    case None =>
    case Some(i) =>
      var w := path[i..i + |p|];
      MatchedText(path, p, i);
      assert Search(w, p, 0) == Some(0);
      assert w[0..|p|] == w;
  }

  /** The pattern and the spelled-out turbine name agree. */
  lemma {:induction false} TurbinePatternMeans(s: string, i: nat)
    requires i + 9 <= |s|
    ensures MatchesAt(s, TurbinePattern, i) <==> IsTurbineName(s[i..i + 9])
  {
    var w := s[i..i + 9];
    assert forall k :: 0 <= k < 9 ==> w[k] == s[i + k];
    if IsTurbineName(w) {
      forall k | 0 <= k < 9
        ensures AtomMatches(TurbinePattern[k], s[i + k])
      {
        assert s[i + k] == w[k];
      }
    }
    if MatchesAt(s, TurbinePattern, i) {
      assert AtomMatches(TurbinePattern[0], s[i]) && AtomMatches(TurbinePattern[1], s[i + 1]);
      assert AtomMatches(TurbinePattern[2], s[i + 2]) && AtomMatches(TurbinePattern[3], s[i + 3]);
      assert AtomMatches(TurbinePattern[4], s[i + 4]) && AtomMatches(TurbinePattern[5], s[i + 5]);
      assert AtomMatches(TurbinePattern[6], s[i + 6]) && AtomMatches(TurbinePattern[7], s[i + 7]);
      assert AtomMatches(TurbinePattern[8], s[i + 8]);
    }
  }

  /** The pattern and the spelled-out cluster name agree. */
  lemma {:induction false} ClusterPatternMeans(s: string, i: nat)
    requires i + 3 <= |s|
    ensures MatchesAt(s, ClusterPattern, i) <==> IsClusterName(s[i..i + 3])
  {
    var w := s[i..i + 3];
    assert w[0] == s[i] && w[1] == s[i + 1] && w[2] == s[i + 2];
    if MatchesAt(s, ClusterPattern, i) {
      assert AtomMatches(ClusterPattern[0], s[i]) && AtomMatches(ClusterPattern[1], s[i + 1]);
      assert AtomMatches(ClusterPattern[2], s[i + 2]);
    }
  }

  /** `return_turbine_name_from_path`: the first turbine name in the path,
      or the path itself. */
  function TurbineName(path: string): (name: string)
    ensures name == path || (IsTurbineName(name) && Contains(path, name))
  {
    var r := Leftmost(path, TurbinePattern);
    match Search(path, TurbinePattern, 0)
    case None => r
    case Some(i) =>
      TurbinePatternMeans(path, i);
      SliceContained(path, i, i + 9);
      r
  }

  /** `return_cluster_name_from_path`: the first 'JL' followed by a word
      character in the path, or the path itself. */
  function ClusterName(path: string): (name: string)
    ensures name == path || (IsClusterName(name) && Contains(path, name))
  {
    var r := Leftmost(path, ClusterPattern);
    match Search(path, ClusterPattern, 0)
    case None => r
    case Some(i) =>
      ClusterPatternMeans(path, i);
      SliceContained(path, i, i + 3);
      r
  }

  /** A path holding a turbine name yields the first one, and that name
      yields itself. */
  lemma {:induction false} TurbineNameIsFirstMatch(path: string, i: nat)
    requires NameAt(path, i)
    ensures IsTurbineName(TurbineName(path))
    ensures TurbineName(TurbineName(path)) == TurbineName(path)
  {
    TurbinePatternMeans(path, i);
    var j := Search(path, TurbinePattern, 0).value;
    TurbinePatternMeans(path, j);
    LeftmostIdempotent(path, TurbinePattern);
  }

  /** Extraction is idempotent on every path. */
  lemma TurbineNameIdempotent(path: string)
    ensures TurbineName(TurbineName(path)) == TurbineName(path)
  {
    LeftmostIdempotent(path, TurbinePattern);
  }

  lemma ClusterNameIdempotent(path: string)
    ensures ClusterName(ClusterName(path)) == ClusterName(path)
  {
    LeftmostIdempotent(path, ClusterPattern);
  }

  /** A path without any turbine name is its own key. */
  lemma {:induction false} NoTurbineNameKeepsPath(path: string)
    requires forall i: nat :: !NameAt(path, i)
    ensures TurbineName(path) == path
  {
    forall i: nat
      ensures !MatchesAt(path, TurbinePattern, i)
    {
      if i + 9 <= |path| {
        assert !NameAt(path, i);
        TurbinePatternMeans(path, i);
      }
    }
  }

  lemma {:induction false} SliceContained(s: string, i: nat, j: nat)
    requires i <= j <= |s|
    ensures Contains(s, s[i..j])
    decreases i
  {
    if i > 0 {
      SliceContained(s[1..], i - 1, j - 1);
      assert s[1..][i - 1..j - 1] == s[i..j];
    }
  }

  // ---------------------------------------------------------------- sorting

  /** Adjacent paths are in order of their turbine names. */
  predicate SortedByName(paths: seq<string>, before: (string, string) -> bool) {
    forall i :: 0 <= i < |paths| - 1 ==> before(TurbineName(paths[i]), TurbineName(paths[i + 1]))
  }

  /** `x` placed ahead of the first path whose name it may precede. */
  function InsertByName(x: string, sorted: seq<string>, before: (string, string) -> bool): (r: seq<string>)
    requires forall a, b :: before(a, b) || before(b, a)
    requires SortedByName(sorted, before)
    ensures multiset(r) == multiset(sorted) + multiset{x}
    ensures |r| > 0 && (r[0] == x || (|sorted| > 0 && r[0] == sorted[0]))
    ensures SortedByName(r, before)
    decreases |sorted|
  {
    if |sorted| == 0 then [x]
    else if before(TurbineName(x), TurbineName(sorted[0])) then [x] + sorted
    else
      var rest := InsertByName(x, sorted[1..], before);
      assert sorted == [sorted[0]] + sorted[1..];
      [sorted[0]] + rest
  }

  /** `sort_paths_according_to_turbine_names`: the paths ordered by turbine
      name under the given ordering of names, equal names keeping their
      order. */
  function SortPathsByName(paths: seq<string>, before: (string, string) -> bool): (r: seq<string>)
    requires forall a, b :: before(a, b) || before(b, a)
    ensures multiset(r) == multiset(paths)
    ensures SortedByName(r, before)
    decreases |paths|
  {
    if |paths| == 0 then []
    else
      assert paths == [paths[0]] + paths[1..];
      InsertByName(paths[0], SortPathsByName(paths[1..], before), before)
  }
}

=== FILE: utilization.dfy ===
/** Hotspot utilisation above the seabed (`calculate_utilization.py`): each
    report elevation is placed between the member elevations that have load
    time series, its DEM is interpolated linearly between the member above
    and the member below, the markov matrix of the closest member is scaled
    to the hotspot, and the miner sum gives the rule utilisation.
 */
module Utilization {
  import opened Outcomes
  import opened Seqs
  import opened Text
  import opened Numerics
  import opened Cycles
  import Transformations
  import Sections
  import SnCurves

  // ---------------------------------------------------------------- DFFs

  /** What `handle_DFFs` can be handed. */
  datatype Dffs =
    | NoDffs                    // None
    | Scalar(v: real)           // a float
    | List(xs: seq<real>)       // a Python list
    | Array(xs: seq<real>)      // a one-dimensional numpy array

  /** `[3.0] * n`. */
  function Constant(x: real, n: nat): (r: seq<real>)
    ensures |r| == n && forall i :: 0 <= i < n ==> r[i] == x
  {
    seq(n, i requires 0 <= i < n => x)
  }

  /** `not DFFs`: None, 0.0 and an empty list are falsy; an array of one
      element is as truthy as its element, and an array of several has no
      truth value (ValueError).  The truth value of an empty array depends on
      the numpy version and is outside the model. */
  function Falsy(d: Dffs): (r: Result<bool>)
    ensures r.Err? <==> d.Array? && |d.xs| != 1
  {
    match d
    case NoDffs => Ok(true)
    case Scalar(v) => Ok(v == 0.0)
    case List(xs) => Ok(|xs| == 0)
    case Array(xs) =>
      if |xs| == 0 then Err(OutsideModel)
      else if |xs| > 1 then Err(ValueError)
      else Ok(xs[0] == 0.0)
  }

  /** `handle_DFFs(DFFs, n_elevations)`. */
  function HandleDffs(d: Dffs, n: nat): (r: Result<Dffs>)
    ensures d.NoDffs? || d == Scalar(0.0) || d == List([]) ==> r == Ok(List(Constant(3.0, n)))
    ensures d.Scalar? && d.v != 0.0 ==> r == Ok(d)
    ensures d.List? && |d.xs| > 0 && |d.xs| != n ==> r == Ok(List(Constant(d.xs[0], n)))
    ensures d.List? && |d.xs| == n && n > 0 ==> r == Ok(d)
    ensures d.Array? && |d.xs| > 1 ==> r == Err(ValueError)
    ensures d.Array? && |d.xs| == 1 && d.xs[0] == 0.0 ==> r == Ok(List(Constant(3.0, n)))
    ensures d.Array? && |d.xs| == 1 && d.xs[0] != 0.0 ==> r == Ok(if n == 1 then d else List(Constant(d.xs[0], n)))
    ensures r.Ok? && (r.value.List? || r.value.Array?) && r.value != d ==> |r.value.xs| == n
  {
    var falsy :- Falsy(d);
    if falsy then Ok(List(Constant(3.0, n)))
    else if (d.List? || d.Array?) && |d.xs| != n then Ok(List(Constant(d.xs[0], n)))
    else Ok(d)
  }

  /** `DFFs[row.name]`: the DFF list is indexed by the row's key, which
      keeps its value from before the rows below the lowest member were
      dropped. */
  function RuleDff(d: Dffs, key: nat): (r: Result<real>)
    ensures (d.List? || d.Array?) ==> (r.Ok? <==> key < |d.xs|) && (r.Ok? ==> r.value == d.xs[key])
    ensures d.Scalar? || d.NoDffs? ==> r == Err(TypeError)
    ensures r.Err? ==> r.error == IndexError || r.error == TypeError
  {
    match d
    case List(xs) => PyIndex(xs, key)
    case Array(xs) => PyIndex(xs, key)
    case _ => Err(TypeError)
  }

  /** With no DFFs given, a row whose key is at least the number of kept
      rows finds no DFF: dropping low rows shifts positions, not labels. */
  lemma DefaultDffLabels(n: nat, key: nat)
    ensures HandleDffs(NoDffs, n).Ok?
    ensures var d := HandleDffs(NoDffs, n).value;
      (RuleDff(d, key).Ok? <==> key < n) && (key < n ==> RuleDff(d, key) == Ok(3.0))
  {
  }

  // ---------------------------------------------------------------- members

  /** One row of the combined DEM table: the member elevation (`mLat`) and
      its DEM sum per sector. */
  datatype DemRow = DemRow(mLat: real, sums: seq<real>)

  function Elevations(table: seq<DemRow>): (zs: seq<real>)
    ensures |zs| == |table| && forall i :: 0 <= i < |table| ==> zs[i] == table[i].mLat
  {
    seq(|table|, i requires 0 <= i < |table| => table[i].mLat)
  }

  /** `member_elevations.min()`. */
  function Lowest(zs: seq<real>): (r: Result<real>)
    ensures r.Ok? <==> |zs| > 0
    ensures r.Err? ==> r.error == ValueError
    ensures r.Ok? ==> (exists i :: 0 <= i < |zs| && zs[i] == r.value) && forall i :: 0 <= i < |zs| ==> r.value <= zs[i]
  {
    if |zs| == 0 then Err(ValueError) else Ok(zs[ArgMin(zs)])
  }

  /** `df[df['elevation'] >= lowest]`: the rows at or above the lowest
      member, in their order, each with its original key. */
  function KeepFrom(elevations: seq<real>, labels: seq<nat>, lowest: real): (r: seq<nat>)
    requires |labels| == |elevations|
    ensures |r| <= |labels|
    ensures forall i :: 0 <= i < |elevations| && elevations[i] >= lowest ==> labels[i] in r
    ensures forall l :: l in r ==> exists i :: 0 <= i < |elevations| && labels[i] == l && elevations[i] >= lowest
    decreases |labels|
  {
    if |labels| == 0 then []
    else
      var rest := KeepFrom(elevations[1..], labels[1..], lowest);
      assert forall i :: 1 <= i < |elevations| ==> elevations[1..][i - 1] == elevations[i] && labels[1..][i - 1] == labels[i];
      if elevations[0] >= lowest then [labels[0]] + rest else rest
  }

  /** `df[df['elevation'] >= member_elevations.min()]`: the labels of the
      report rows at or above the lowest member, ValueError without members. */
  function KeepAboveLowest(elevations: seq<real>, labels: seq<nat>, zs: seq<real>): (r: Result<seq<nat>>)
    requires |labels| == |elevations|
    ensures r.Ok? <==> |zs| > 0
    ensures r.Err? ==> r.error == ValueError
    ensures r.Ok? ==> forall i, j :: 0 <= i < |elevations| && 0 <= j < |zs| && zs[j] <= elevations[i] ==> labels[i] in r.value
    ensures r.Ok? ==> forall l :: l in r.value ==> exists i :: 0 <= i < |elevations| && labels[i] == l && AtOrAboveSome(zs, elevations[i])
  {
    var lowest :- Lowest(zs);
    Ok(KeepFrom(elevations, labels, lowest))
  }

  predicate AtOrAboveSome(zs: seq<real>, z: real) {
    exists j :: 0 <= j < |zs| && zs[j] <= z
  }

  /** When no report row lies below the lowest member nothing is dropped and
      the labels stay the positions. */
  lemma {:induction false} KeepAll(elevations: seq<real>, labels: seq<nat>, lowest: real)
    requires |labels| == |elevations|
    requires forall i :: 0 <= i < |elevations| ==> elevations[i] >= lowest
    ensures KeepFrom(elevations, labels, lowest) == labels
    decreases |labels|
  {
    if |labels| > 0 {
      KeepAll(elevations[1..], labels[1..], lowest);
    }
  }

  /** The member indices a report elevation is placed against. */
  datatype Neighbours = Neighbours(above: nat, below: nat, closest: nat)

  /** `member_elevations - elevation`. */
  function Distances(zs: seq<real>, z: real): (dist: seq<real>)
    ensures |dist| == |zs| && forall i :: 0 <= i < |zs| ==> dist[i] == zs[i] - z
  {
    seq(|zs|, i requires 0 <= i < |zs| => zs[i] - z)
  }

  /** The argmin of the distances with the negative ones masked: the
      lowest member at or above the elevation (a member at the elevation
      itself counts as above), index 0 when none is. */
  function AboveIndex(zs: seq<real>, z: real): (a: nat)
    requires |zs| > 0
    ensures a < |zs|
    ensures (exists i :: 0 <= i < |zs| && zs[i] >= z) ==>
      zs[a] >= z && forall i :: 0 <= i < |zs| && zs[i] >= z ==> zs[a] <= zs[i]
    ensures (exists i :: 0 <= i < |zs| && zs[i] >= z) ==>
      forall i :: 0 <= i < a && zs[i] >= z ==> zs[a] < zs[i]
    ensures (forall i :: 0 <= i < |zs| ==> zs[i] < z) ==> a == 0
  {
    var dist := Distances(zs, z);
    var negative := seq(|zs|, i requires 0 <= i < |zs| => dist[i] < 0.0);
    assert (exists i :: 0 <= i < |zs| && zs[i] >= z) ==> exists j :: 0 <= j < |dist| && !negative[j] by {
      if exists i :: 0 <= i < |zs| && zs[i] >= z {
        var i :| 0 <= i < |zs| && zs[i] >= z;
        assert !negative[i];
      }
    }
    MaskedArgMin(dist, negative)
  }

  /** The argmax of the distances with the non-negative ones masked: the
      highest member strictly below the elevation, index 0 when none is. */
  function BelowIndex(zs: seq<real>, z: real): (b: nat)
    requires |zs| > 0
    ensures b < |zs|
    ensures (exists i :: 0 <= i < |zs| && zs[i] < z) ==>
      zs[b] < z && forall i :: 0 <= i < |zs| && zs[i] < z ==> zs[i] <= zs[b]
    ensures (exists i :: 0 <= i < |zs| && zs[i] < z) ==>
      forall i :: 0 <= i < b && zs[i] < z ==> zs[i] < zs[b]
    ensures (forall i :: 0 <= i < |zs| ==> zs[i] >= z) ==> b == 0
  {
    var dist := Distances(zs, z);
    var nonNegative := seq(|zs|, i requires 0 <= i < |zs| => dist[i] >= 0.0);
    assert (exists i :: 0 <= i < |zs| && zs[i] < z) ==> exists j :: 0 <= j < |dist| && !nonNegative[j] by {
      if exists i :: 0 <= i < |zs| && zs[i] < z {
        var i :| 0 <= i < |zs| && zs[i] < z;
        assert !nonNegative[i];
      }
    }
    MaskedArgMax(dist, nonNegative)
  }

  /** The argmin of the absolute distances: the first closest member. */
  function ClosestIndex(zs: seq<real>, z: real): (c: nat)
    requires |zs| > 0
    ensures c < |zs|
    ensures forall i :: 0 <= i < |zs| ==> Abs(zs[c] - z) <= Abs(zs[i] - z)
    ensures forall i :: 0 <= i < c ==> Abs(zs[c] - z) < Abs(zs[i] - z)
  {
    var absDist := seq(|zs|, i requires 0 <= i < |zs| => Abs(zs[i] - z));
    assert forall i :: 0 <= i < |zs| ==> absDist[i] == Abs(zs[i] - z);
    ArgMin(absDist)
  }

  /** `find_above_below_closest_elevations` for one row; numpy raises
      ValueError on the argmin of an empty array. */
  function FindNeighbours(zs: seq<real>, z: real): (r: Result<Neighbours>)
    ensures r.Ok? <==> |zs| > 0
    ensures r.Err? ==> r.error == ValueError
    ensures r.Ok? ==> r.value == Neighbours(AboveIndex(zs, z), BelowIndex(zs, z), ClosestIndex(zs, z))
  {
    if |zs| == 0 then Err(ValueError)
    else Ok(Neighbours(AboveIndex(zs, z), BelowIndex(zs, z), ClosestIndex(zs, z)))
  }

  /** A report elevation that coincides with a member elevation is placed
      exactly on it: that member is "above" and "closest" elevation. */
  lemma OnMemberElevation(zs: seq<real>, z: real, k: nat)
    requires k < |zs| && zs[k] == z
    ensures FindNeighbours(zs, z).Ok?
    ensures zs[FindNeighbours(zs, z).value.above] == z
    ensures zs[FindNeighbours(zs, z).value.closest] == z
  {
    var n := FindNeighbours(zs, z).value;
    assert Abs(zs[n.closest] - z) <= Abs(zs[k] - z);
  }

  // ---------------------------------------------------------------- DEM

  /** `(lifetime / Nref * DEM_sum) ** (1 / 5)` for one sector. */
  function MemberDem(m: Maths, lifetime: real, nref: real, sum: real): real
    requires nref != 0.0
  {
    m.root5(lifetime / nref * sum)
  }

  /** The DEM of a member elevation per sector from its DEM sums; a zero
      `Nref` divides by zero. */
  function DemAtMember(m: Maths, lifetime: real, nref: real, sums: seq<real>): (r: Result<seq<real>>)
    ensures r.Ok? <==> nref != 0.0
    ensures r.Err? ==> r.error == NonFinite
    ensures r.Ok? ==> |r.value| == |sums| && forall s :: 0 <= s < |sums| ==> r.value[s] == MemberDem(m, lifetime, nref, sums[s])
  {
    if nref == 0.0 then Err(NonFinite)
    else Ok(seq(|sums|, s requires 0 <= s < |sums| => MemberDem(m, lifetime, nref, sums[s])))
  }

  /** `DEM_below + (DEM_above - DEM_below) * ((z - z_below) / (z_above - z_below))`
      per sector; two identical neighbour elevations divide by zero. */
  function Interpolate(below: seq<real>, above: seq<real>, z: real, zBelow: real, zAbove: real): (r: Result<seq<real>>)
    ensures r.Ok? <==> |below| == |above| && zAbove != zBelow
    ensures r.Err? ==> r.error == OutsideModel || r.error == NonFinite
    ensures r.Ok? ==> |r.value| == |below|
    ensures r.Ok? ==> forall s :: 0 <= s < |below| ==>
      (r.value[s] - below[s]) * (zAbove - zBelow) == (above[s] - below[s]) * (z - zBelow)
  {
    if |below| != |above| then Err(OutsideModel)
    else if zAbove == zBelow then Err(NonFinite)
    else
      var w := (z - zBelow) / (zAbove - zBelow);
      var dem := seq(|below|, s requires 0 <= s < |below| => below[s] + (above[s] - below[s]) * w);
      assert forall s :: 0 <= s < |below| ==>
        (dem[s] - below[s]) * (zAbove - zBelow) == (above[s] - below[s]) * (z - zBelow) by {
        forall s | 0 <= s < |below|
          ensures (dem[s] - below[s]) * (zAbove - zBelow) == (above[s] - below[s]) * (z - zBelow)
        {
          WeightTimesSpan(above[s] - below[s], z - zBelow, zAbove - zBelow);
        }
      }
      Ok(dem)
  }

  /** Interpolating at a neighbour's own elevation gives that neighbour's DEM. */
  lemma InterpolateAtNeighbours(below: seq<real>, above: seq<real>, zBelow: real, zAbove: real)
    requires |below| == |above| && zAbove != zBelow
    ensures Interpolate(below, above, zAbove, zBelow, zAbove) == Ok(above)
    ensures Interpolate(below, above, zBelow, zBelow, zAbove) == Ok(below)
  {
    var span := zAbove - zBelow;
    assert span / span == 1.0;
    assert (zBelow - zBelow) / span == 0.0;
    var a := Interpolate(below, above, zAbove, zBelow, zAbove).value;
    var b := Interpolate(below, above, zBelow, zBelow, zAbove).value;
    assert a == above;
    assert b == below;
  }

  lemma WeightTimesSpan(d: real, x: real, c: real)
    requires c != 0.0
    ensures d * (x / c) * c == d * x
  {
    assert (x / c) * c == x;
    assert d * (x / c) * c == d * ((x / c) * c);
  }


  /** Between its neighbours the interpolated DEM lies between theirs. */
  lemma InterpolateBetween(below: seq<real>, above: seq<real>, z: real, zBelow: real, zAbove: real, s: nat)
    requires |below| == |above| && zBelow < zAbove && zBelow <= z <= zAbove && s < |below|
    ensures Interpolate(below, above, z, zBelow, zAbove).Ok?
    ensures var v := Interpolate(below, above, z, zBelow, zAbove).value[s];
      Min2Real(below[s], above[s]) <= v <= Max2Real(below[s], above[s])
  {
    var w := (z - zBelow) / (zAbove - zBelow);
    UnitFraction(z - zBelow, zAbove - zBelow);
    InterpolatedValue(below, above, z, zBelow, zAbove, s);
    PointBetween(below[s], above[s], w);
  }

  /** The interpolated DEM at one member, written out. */
  lemma InterpolatedValue(below: seq<real>, above: seq<real>, z: real, zBelow: real, zAbove: real, s: nat)
    requires |below| == |above| && zBelow < zAbove && s < |below|
    ensures Interpolate(below, above, z, zBelow, zAbove).Ok?
    ensures Interpolate(below, above, z, zBelow, zAbove).value[s]
      == below[s] + (above[s] - below[s]) * ((z - zBelow) / (zAbove - zBelow))
  {
    var w := (z - zBelow) / (zAbove - zBelow);
    var dem := seq(|below|, s requires 0 <= s < |below| => below[s] + (above[s] - below[s]) * w);
    assert Interpolate(below, above, z, zBelow, zAbove) == Ok(dem);
  }

  /** A point a fraction `w` of the way from `b` to `a` lies between them. */
  lemma PointBetween(b: real, a: real, w: real)
    requires 0.0 <= w <= 1.0
    ensures Min2Real(b, a) <= b + (a - b) * w <= Max2Real(b, a)
  {
    var d := a - b;
    Fraction(d, w);
    var v := b + d * w;
    assert b + (a - b) * w == v;
    if b <= a {
      assert 0.0 <= d * w <= d;
      assert b <= v <= a;
      assert Min2Real(b, a) == b && Max2Real(b, a) == a;
    } else {
      assert d <= d * w <= 0.0;
      assert a <= v <= b;
      assert Min2Real(b, a) == a && Max2Real(b, a) == b;
    }
  }

  /** A part over a larger whole lies between 0 and 1. */
  lemma UnitFraction(a: real, b: real)
    requires 0.0 <= a <= b && b > 0.0
    ensures 0.0 <= a / b <= 1.0
  {
    var q := a / b;
    assert q * b == a;
    QuotientBounds(q, b);
  }

  /** A quotient times a positive divisor bounds the quotient. */
  lemma QuotientBounds(q: real, b: real)
    requires b > 0.0
    ensures q < 0.0 ==> q * b < 0.0
    ensures q > 1.0 ==> q * b > b
  {
    if q > 1.0 {
      NonNegativeProduct(q - 1.0, b);
      assert (q - 1.0) * b == q * b - b;
    }
  }

  /** A fraction `w` of `d` lies between 0 and `d`. */
  lemma Fraction(d: real, w: real)
    requires 0.0 <= w <= 1.0
    ensures d >= 0.0 ==> 0.0 <= d * w <= d
    ensures d < 0.0 ==> d <= d * w <= 0.0
  {
    if d >= 0.0 {
      NonNegativeProduct(d, w);
      NonNegativeProduct(d, 1.0 - w);
    } else {
      NonNegativeProduct(-d, w);
      NonNegativeProduct(-d, 1.0 - w);
    }
  }

  function Min2Real(a: real, b: real): real {
    if a <= b then a else b
  }
  function Max2Real(a: real, b: real): real {
    if a >= b then a else b
  }

  /** `DEM_elevation_above` when the closest member lies strictly above the
      elevation, `DEM_elevation_below` otherwise, even on an exact match. */
  function DemClosest(demAbove: seq<real>, demBelow: seq<real>, zClosest: real, z: real): (r: seq<real>)
    ensures zClosest > z ==> r == demAbove
    ensures zClosest <= z ==> r == demBelow
  {
    if zClosest > z then demAbove else demBelow
  }

  /** On a member elevation the "closest" DEM is the one of the member below,
      while the interpolated DEM is the member's own. */
  lemma ExactMatchUsesBelow(zs: seq<real>, z: real, k: nat, demAbove: seq<real>, demBelow: seq<real>)
    requires k < |zs| && zs[k] == z
    ensures FindNeighbours(zs, z).Ok?
    ensures DemClosest(demAbove, demBelow, zs[FindNeighbours(zs, z).value.closest], z) == demBelow
  {
    OnMemberElevation(zs, z, k);
  }

  // ---------------------------------------------------------------- sector

  /** `closest_sector_idx`: the first largest interpolated DEM for an
      omnidirectional hotspot (orientation None), else the first sector of
      least absolute angle difference to the orientation. */
  function ClosestSector(interp: seq<real>, orientation: Option<real>): (r: Result<nat>)
    ensures orientation.None? ==> (r.Ok? <==> |interp| > 0)
    ensures orientation.None? && r.Ok? ==> r.value == ArgMax(interp)
    ensures orientation.None? && r.Ok? ==> forall s :: 0 <= s < |interp| ==> interp[s] <= interp[r.value]
    ensures orientation.Some? ==> r.Ok? && r.value < 24
    ensures orientation.Some? ==> forall s :: 0 <= s < 24 ==>
      Abs(SectorAngles()[r.value] - orientation.value) <= Abs(SectorAngles()[s] - orientation.value)
    ensures orientation.Some? ==> forall s :: 0 <= s < r.value ==>
      Abs(SectorAngles()[r.value] - orientation.value) < Abs(SectorAngles()[s] - orientation.value)
    ensures r.Err? ==> r.error == ValueError
  {
    match orientation
    case None => if |interp| == 0 then Err(ValueError) else Ok(ArgMax(interp))
    case Some(o) =>
      var sectors := SectorAngles();
      var d := seq(24, s requires 0 <= s < 24 => Abs(sectors[s] - o));
      assert forall s :: 0 <= s < 24 ==> d[s] == Abs(sectors[s] - o);
      Ok(ArgMin(d))
  }

  /** An orientation that is itself a sector angle selects that sector. */
  lemma ClosestSectorOfSectorAngle(interp: seq<real>, k: nat)
    requires k < 24
    ensures ClosestSector(interp, Some(15.0 * k as real)) == Ok(k)
  {
    var o := 15.0 * k as real;
    var sectors := SectorAngles();
    var d := seq(24, s requires 0 <= s < 24 => Abs(sectors[s] - o));
    forall s | 0 <= s < 24 && s != k
      ensures d[k] < d[s]
    {
      assert d[k] == 0.0;
      assert sectors[s] - o == 15.0 * (s - k) as real;
    }
    ArgMinUnique(d, k);
  }

  /** `global_2_compass(sectors[idx])` on line 151 receives a float, which
      the transformation rejects with TypeError, so every row fails there. */
  lemma RefOrientationRaises(idx: nat)
    requires idx < 24
    ensures Transformations.GlobalToCompass(Transformations.AngleFloat(SectorAngles()[idx])) == Err(TypeError)
  {
  }

  /** `DEM_interpolated[s] / DEM_elevation_closest[s]`. */
  function ScalingFactor(interp: seq<real>, closest: seq<real>, s: nat): (r: Result<real>)
    ensures r.Ok? <==> s < |interp| && s < |closest| && closest[s] != 0.0
    ensures r.Ok? ==> r.value * closest[s] == interp[s]
    ensures r.Err? ==> r.error == IndexError || r.error == NonFinite
  {
    if s >= |interp| || s >= |closest| then Err(IndexError)
    else if closest[s] == 0.0 then Err(NonFinite)
    else Ok(interp[s] / closest[s])
  }

  // ---------------------------------------------------------------- cycles

  /** `markov_hotspot`: the reference moment ranges times the scaling
      factor, the counts unchanged. */
  function HotspotCycles(reference: seq<Cycle>, factor: real): (r: seq<Cycle>)
    ensures |r| == |reference|
    ensures forall i :: 0 <= i < |r| ==> r[i].count == reference[i].count && r[i].range == reference[i].range * factor
  {
    ScaleRanges(reference, factor)
  }

  /** Scaling the ranges by `f` multiplies the hotspot's DEM sum by `f^5`
      and leaves the number of cycles alone. */
  lemma HotspotDem(reference: seq<Cycle>, factor: real)
    ensures DemSum(HotspotCycles(reference, factor)) == Pow5(factor) * DemSum(reference)
    ensures TotalCount(HotspotCycles(reference, factor)) == TotalCount(reference)
  {
    DemSumScaleRanges(reference, factor);
    TotalCountScaleRanges(reference, factor);
  }

  lemma TotalCountScaleRanges(cs: seq<Cycle>, s: real)
    ensures TotalCount(ScaleRanges(cs, s)) == TotalCount(cs)
  {
    SameCountsTotal(ScaleRanges(cs, s), cs);
  }

  /** The report row fields the stress cycles read; `modulus` is the section
      modulus Z the stress is divided by. */
  datatype Hotspot = Hotspot(modulus: real, scf: real, gritblast: real, alpha: real,
                             lifetime: real, nref: real, valType: string)

  /** `stress_cycles_MPa_lifetime` for one row: every hotspot range as a
      stress range in MPa with the reference count times the lifetime, or,
      when `ValType` lowercased is 'equivalent', the single cycle
      `[Seq_hs * alpha, Nref]` from the hotspot DEM. */
  function StressCycles(h: Hotspot, reference: seq<Cycle>, factor: real, demHs: real): (r: Result<seq<Cycle>>)
    ensures r.Ok? <==> h.modulus != 0.0
    ensures r.Err? ==> r.error == NonFinite
    ensures r.Ok? && Lower(h.valType) != "equivalent" ==> |r.value| == |reference| && forall i :: 0 <= i < |reference| ==>
      r.value[i].range == reference[i].range * factor / h.modulus * h.scf * h.gritblast * h.alpha / 1000000.0
      && r.value[i].count == reference[i].count * h.lifetime
    ensures r.Ok? && Lower(h.valType) == "equivalent" ==>
      r.value == [Cycle(demHs / 1000000.0 / h.modulus * h.scf * h.gritblast * h.alpha, h.nref)]
  {
    if h.modulus == 0.0 then Err(NonFinite)
    else if Lower(h.valType) != "equivalent" then
      var hot := HotspotCycles(reference, factor);
      Ok(seq(|hot|, i requires 0 <= i < |hot| =>
        Cycle(hot[i].range / h.modulus * h.scf * h.gritblast * h.alpha / 1000000.0, reference[i].count * h.lifetime)))
    else
      Ok([Cycle(demHs / 1000000.0 / h.modulus * h.scf * h.gritblast * h.alpha, h.nref)])
  }

  /** The lifetime cycles of a markov-based row carry the reference count
      sum times the lifetime. */
  lemma StressCyclesCount(h: Hotspot, reference: seq<Cycle>, factor: real, demHs: real)
    requires h.modulus != 0.0 && Lower(h.valType) != "equivalent"
    ensures TotalCount(StressCycles(h, reference, factor, demHs).value) == h.lifetime * TotalCount(reference)
  {
    var r := StressCycles(h, reference, factor, demHs).value;
    SameCountsTotal(r, ScaleCounts(reference, h.lifetime));
    TotalCountScale(reference, h.lifetime);
  }

  /** `rule_miner_sum_no_DFF * rule_DFF * 100`. */
  function RuleUtilization(miner: real, dff: real): (u: real)
    ensures miner >= 0.0 && dff >= 0.0 ==> u >= 0.0
  {
    assert miner >= 0.0 && dff >= 0.0 ==> miner * dff >= 0.0 by {
      if miner >= 0.0 && dff >= 0.0 { NonNegativeProduct(miner, dff); }
    }
    miner * dff * 100.0
  }

  // ---------------------------------------------------------------- worst

  /** One kept row as `return_worst_elevation` sees it. */
  datatype RowResult = RowResult(key: nat, inPlace: real, miner: real, dff: real)

  /** The comparison `return_worst_elevation` reports. */
  datatype Worst = Worst(reportIdx: nat, reportUtil: real, ruleAtReported: real, ruleIdx: nat, ruleUtil: real)

  function RuleUtilizations(rows: seq<RowResult>): (us: seq<real>)
    ensures |us| == |rows|
    ensures forall i :: 0 <= i < |rows| ==> us[i] == RuleUtilization(rows[i].miner, rows[i].dff)
  {
    seq(|rows|, i requires 0 <= i < |rows| => RuleUtilization(rows[i].miner, rows[i].dff))
  }

  /** The position of the first row labelled `key`. */
  function FindLabel(rows: seq<RowResult>, key: nat): (r: Option<nat>)
    ensures r.Some? ==> r.value < |rows| && rows[r.value].key == key
    ensures r.Some? ==> forall i :: 0 <= i < r.value ==> rows[i].key != key
    ensures r.None? ==> forall i :: 0 <= i < |rows| ==> rows[i].key != key
    decreases |rows|
  {
    if |rows| == 0 then None
    else if rows[0].key == key then Some(0)
    else
      var rest := FindLabel(rows[1..], key);
      if rest.None? then None else Some(rest.value + 1)
  }

  /** `return_worst_elevation(df)`: the reported worst row is the first
      largest in-place utilisation by position; the rule utilisation "at the
      reported elevation" is looked up by that position used as a key; the
      rule's worst row is the first largest rule utilisation. */
  function ReturnWorstElevation(rows: seq<RowResult>): (r: Result<Worst>)
    ensures r.Ok? <==> |rows| > 0 && FindLabel(rows, ArgMax(Column(rows))).Some?
    ensures |rows| == 0 ==> r == Err(ValueError)
    ensures |rows| > 0 && FindLabel(rows, ArgMax(Column(rows))).None? ==> r == Err(KeyError)
    ensures r.Ok? ==> r.value.reportIdx < |rows| && r.value.ruleIdx < |rows|
    ensures r.Ok? ==> forall i :: 0 <= i < |rows| ==>
      rows[i].inPlace <= r.value.reportUtil && RuleUtilization(rows[i].miner, rows[i].dff) <= r.value.ruleUtil
    ensures r.Ok? ==> (rows[r.value.reportIdx].inPlace == r.value.reportUtil
      && RuleUtilization(rows[r.value.ruleIdx].miner, rows[r.value.ruleIdx].dff) == r.value.ruleUtil)
    ensures r.Ok? ==> forall i :: 0 <= i < r.value.reportIdx ==> rows[i].inPlace < r.value.reportUtil
    ensures r.Ok? ==> forall i :: 0 <= i < r.value.ruleIdx ==> RuleUtilization(rows[i].miner, rows[i].dff) < r.value.ruleUtil
  {
    if |rows| == 0 then Err(ValueError)
    else
      var reportIdx := ArgMax(Column(rows));
      var rule := RuleUtilizations(rows);
      var at := FindLabel(rows, reportIdx);
      if at.None? then Err(KeyError)
      else
        var ruleIdx := ArgMax(rule);
        Ok(Worst(reportIdx, rows[reportIdx].inPlace, rule[at.value], ruleIdx, rule[ruleIdx]))
  }

  function Column(rows: seq<RowResult>): (us: seq<real>)
    ensures |us| == |rows| && forall i :: 0 <= i < |rows| ==> us[i] == rows[i].inPlace
  {
    seq(|rows|, i requires 0 <= i < |rows| => rows[i].inPlace)
  }

  /** When no row was dropped (labels equal positions) the rule utilisation
      at the reported elevation is read from the reported row itself. */
  lemma WorstWithContiguousLabels(rows: seq<RowResult>)
    requires |rows| > 0
    requires forall i :: 0 <= i < |rows| ==> rows[i].key == i
    ensures ReturnWorstElevation(rows).Ok?
    ensures var w := ReturnWorstElevation(rows).value;
      w.ruleAtReported == RuleUtilization(rows[w.reportIdx].miner, rows[w.reportIdx].dff)
  {
    var k := ArgMax(Column(rows));
    assert rows[k].key == k;
    var at := FindLabel(rows, k);
    assert at.Some?;
    assert at.value == k;
  }

  /** After the lowest row was dropped, a worst report row in first position
      is looked up under key 0, which no longer exists. */
  lemma DroppedRowMisreads()
    ensures ReturnWorstElevation([RowResult(1, 50.0, 0.1, 3.0), RowResult(2, 40.0, 0.1, 3.0)]) == Err(KeyError)
  {
    var rows := [RowResult(1, 50.0, 0.1, 3.0), RowResult(2, 40.0, 0.1, 3.0)];
    assert Column(rows) == [50.0, 40.0];
    ArgMaxUnique(Column(rows), 0);
  }

  // ---------------------------------------------------------------- driver

  /** `calculate_utilization_single_turbine` first reads the turbine name
      from the sheet's first row (line 111), which raises IndexError on an
      empty sheet. Otherwise it calls `create_geo_matrix` with two arguments
      at line 122 and raises TypeError before any of the steps above run. */
  function UtilizationSingleTurbine(m: Maths, reportRows: seq<Sections.GeometryRow>): (r: Result<seq<RowResult>>)
    ensures |reportRows| == 0 ==> r == Err(IndexError)
    ensures |reportRows| > 0 ==> r == Err(TypeError)
  {
    if |reportRows| == 0 then Err(IndexError)
    else
      var geometries := Sections.CreateGeoMatrixCall(m, reportRows, SectorAngles(), None);
      if geometries.Err? then Err(geometries.error) else Ok([])
  }
}
